=== FILE: README.md ===
# A Dafny model of self-contained logic in the Visual Studio Code workbench (2016)

Most of the editor and workbench is DOM, Electron and promise plumbing. Around it sit
pieces of sequential logic whose behaviour can be stated exactly, and this project
models them as pure Dafny functions over sequences, maps and strings:

- **Link detection** (`LinkComputer`, link_computer.dfy): the character classifier,
  the `http://` / `https://` recognising state machine, bracket balancing, trimming
  of trailing `.`, `,` and `;`, and the links of a whole model.
- **Virtualised list** (`ListView`, list_view.dfy, with `RangeMap` and `RowCache`):
  `splice` with fresh ids and lock-step splicing of items and sizes, the
  rendered-range walk, the four scroll sweeps of `render`, and row bookkeeping.
  The range map is modelled as prefix sums and the row cache as a pool of rows.
  The LCS diff is modelled as a given edit script.
- **Keybinding contexts and dispatch** (`KeybindingContext`, `KeybindingDispatch`):
  the context tree, with parent-first filling, the configuration walk, context keys
  and the id registry. The chord state machine of `_dispatch` takes the resolver as
  a parameter.
- **Validators and option normalisers**: contributed keybindings
  (`ContributedKeybindings`), editor option coercion and
  `EditorConfiguration.apply` (`EditorOptions`), debug adapter field selection and
  schemas (`DebugAdapter`), the hygiene checks of the build (`Hygiene`), and
  `extractSetting` (`Configuration`).
- **Small algorithms**:
  - content widget placement (`ContentWidgets`);
  - word lookup at a column (`WordHelper`), with the regular expression's matches
    given as a list;
  - extension ids, manifests and the obsolete map (`ExtensionsService`);
  - the precedence merge of scanned extensions (`ExtensionHost`);
  - dispose tokens and language-configuration translation (`ExtHostApi`);
  - output channel selection (`OutputActions`);
  - build entry points (`Buildfile`).

JavaScript values are modelled in `JsValues` (jsvalues.dfy). It gives truthiness,
`typeof`, property lookup on insertion-ordered objects, and `parseInt` in base 10.
`Strings` (strings.dfy) holds decimal printing, `split`/`join`, a
character-by-character order that stands for the default sort, `indexOf` and
trimming. `Wrappers` holds
`Option`/`Result`.

Foreign calls are function parameters:

- semver ranking;
- the regular-expression matcher;
- `paths.join`;
- `SystemVariables.resolve`;
- `IOSupport.readKeybinding`;
- the keybinding resolver;
- file-existence checks;
- the scanners.

Throwing code paths become `Result` errors.

## Model

| member | source | states |
|---|---|---|
| `LinkComputer.Classify` | src/vs/editor/common/modes/linkComputer.ts:50-88 | The classifier is total. A character is CannotEndIn exactly when it is `.`, `,` or `;`, and ForceTermination exactly when it is one of the terminating characters. |
| `LinkComputer.StateAfter` | src/vs/editor/common/modes/linkComputer.ts:15-23 | A scheme prefix leads to a state between 1 and 9. State 9 is reached exactly for a complete case-insensitive `http://` or `https://`. |
| `LinkComputer.TransitionFollowsScheme` | src/vs/editor/common/modes/linkComputer.ts:197-203 | A transition out of a prefix state exists iff the character extends the prefix of `http://` or `https://` (letters in either case). It then leads to the state of the longer prefix. |
| `LinkComputer.CreateLink` | src/vs/editor/common/modes/linkComputer.ts:95-105 | A link lies on one line, and its column span is exactly as long as its url. |
| `LinkComputer.LastIncluded` | src/vs/editor/common/modes/linkComputer.ts:172-183 | The trim loop stops at or after the link start. It skips exactly a trailing run of `.`, `,` and `;`. |
| `LinkComputer.StepPreserves` | src/vs/editor/common/modes/linkComputer.ts:143-213 | One loop iteration keeps the scan invariant. Any link it reports is well formed and ends before the next link can start. |
| `LinkComputer.StepAfterScheme` | src/vs/editor/common/modes/linkComputer.ts:188-196 | After `//`, one iteration keeps the scan invariant and reports nothing. A non-terminating character enters the accept state, and a terminating one resets the machine. |
| `LinkComputer.StepExtendsBody` | src/vs/editor/common/modes/linkComputer.ts:145-166 | In the accept state, a character that does not force termination keeps the link start and reports nothing. A closing bracket counts as such only after its opener. |
| `LinkComputer.StepTerminatesBody` | src/vs/editor/common/modes/linkComputer.ts:167-186 | A terminating character (including an unbalanced closing bracket) reports the trimmed link and resets the machine. |
| `LinkComputer.ScanFromValid` | src/vs/editor/common/modes/linkComputer.ts:138-220 | Every link the scanning loop reports is a valid link of the line. The links come in order, after the scan start, and never overlap. |
| `LinkComputer.LinkAtIsValid` | src/vs/editor/common/modes/linkComputer.ts:172-186 | A link delimited by the machine keeps its whole scheme and contains no ForceTermination character. |
| `LinkComputer.LineLinks` | src/vs/editor/common/modes/linkComputer.ts:128-222 | The links of one line are valid and strictly left to right, each ending before the next one starts. |
| `LinkComputer.WholeLineIsLink` | src/vs/editor/common/modes/linkComputer.ts:218-220 | A scheme followed by a body without terminators or closing brackets is one link up to the end of the line. It is reported untrimmed even when it ends in `.`, `,` or `;`. |
| `LinkComputer.TerminatorAfterScheme` | src/vs/editor/common/modes/linkComputer.ts:188-196 | A terminating character right after `//` reports nothing. Scanning restarts after it. |
| `LinkComputer.TerminatedLinkIsTrimmed` | src/vs/editor/common/modes/linkComputer.ts:172-186 | A link ended by a terminating character loses exactly its trailing run of `.`, `,` and `;`. |
| `LinkComputer.TerminatedAt` | src/vs/editor/common/modes/linkComputer.ts:172-213 | The trimming rule, stated with positions in the line: the first link is the trimmed prefix, and the rest of the line is scanned afresh. |
| `LinkComputer.ComputeLinks` | src/vs/editor/common/modes/linkComputer.ts:225-239 | A model without line accessors gives no links. Otherwise every link is valid for its own line, and the links are ordered by line, then left to right without overlap. |
| `ListView.Empty` | src/vs/base/browser/ui/list/listView.ts:68-80 | A new list view is valid and holds no items. |
| `ListView.IdsDistinct` | src/vs/base/browser/ui/list/listView.ts:115 | Two different items never share an id. |
| `ListView.ContentHeight` | src/vs/base/browser/ui/list/listView.ts:254-256 | The content height is the sum of the heights of the items. |
| `ListView.ElementTop` | src/vs/base/browser/ui/list/listView.ts:162-164 | An item's top lies within the content, and so does the item's bottom. |
| `ListView.ElementTopStep` | src/vs/base/browser/ui/list/listView.ts:162-164 | Each item starts where the one before it ends. |
| `ListView.InsertItem` | src/vs/base/browser/ui/list/listView.ts:233-247 | A row is allocated only for an item that has none, with the item's template. Rows of other items are unchanged, and the layout is untouched. |
| `ListView.RemoveItem` | src/vs/base/browser/ui/list/listView.ts:249-252 | The item's row, if any, is released to the cache, and the item has no row afterwards. Nothing else changes. |
| `ListView.RenderedRanges` | src/vs/base/browser/ui/list/listView.ts:212-229 | The rendered ranges start at `indexAt(lastRenderTop)` and cover consecutive indices, each naming the item at its index. |
| `ListView.Walk` | src/vs/base/browser/ui/list/listView.ts:218-226 | The walk yields touching spans, each as high as its item. It stops only when the items run out or the next start is past the window bottom. |
| `ListView.WalkAtPositions` | src/vs/base/browser/ui/list/listView.ts:212-229 | When the walk starts at the top of an item, every span is that item's true position in the range map. |
| `ListView.ElementHashInjective` | src/vs/base/browser/ui/list/listView.ts:31-36 | Two rendered ranges hash alike exactly when they have the same id, start and end. |
| `ListView.SpliceStart` | src/vs/base/browser/ui/list/listView.ts:122-123 | The start follows `Array.prototype.splice`: it is clamped to the array, and an in-range start is used as is. |
| `ListView.SpliceCount` | src/vs/base/browser/ui/list/listView.ts:122-123 | The delete count is clamped to what follows the start, and an in-range count is used as is. |
| `ListView.NewItems` | src/vs/base/browser/ui/list/listView.ts:113-120 | Inserted element k gets the fresh key `nextKey + k`, together with its size and template from the delegate. |
| `ListView.Spliced` | src/vs/base/browser/ui/list/listView.ts:122-123 | Items and sizes are spliced with the same start, count and insertions, and the view stays valid. |
| `ListView.SpliceItems` | src/vs/base/browser/ui/list/listView.ts:112-144 | After `splice` the view is valid and the counter has advanced by the number of inserted items. The deleted elements are returned in order. Every insertion made while applying the diff names the item at its index. |
| `ListView.InsertEach` | src/vs/base/browser/ui/list/listView.ts:134-136 | The index passed to `insertItemInDOM` is the item's position: `after[0].index + i` names `after[i]`. |
| `ListView.RemoveEach` | src/vs/base/browser/ui/list/listView.ts:130-132 | The ranges that left are released in order, one removal per range. |
| `ListView.InsertDown` | src/vs/base/browser/ui/list/listView.ts:188-195 | An insertion sweep gives a row to exactly the items of its range that lacked one, and keeps every existing row. |
| `ListView.RemoveUp` | src/vs/base/browser/ui/list/listView.ts:197-205 | A removal sweep takes the rows away from exactly the items of its range and keeps every other row. |
| `ListView.SweepOpsPlaced` | src/vs/base/browser/ui/list/listView.ts:187-205 | Insertions happen only inside `[indexAt(renderTop), indexAfter(renderBottom))`. Removals happen only outside it. |
| `ListView.Render` | src/vs/base/browser/ui/list/listView.ts:182-210 | After `render` the view is valid, with unchanged items and sizes. The new window is remembered as `lastRenderTop` and `lastRenderHeight`. |
| `ListView.RenderLog` | src/vs/base/browser/ui/list/listView.ts:187-205 | What `render` does to the DOM is the four sweeps, in order. |
| `ListView.RenderSettles` | src/vs/base/browser/ui/list/listView.ts:182-210 | If exactly the old window's items had rows, exactly the new window's items have rows afterwards. |
| `ListView.RenderTwice` | src/vs/base/browser/ui/list/listView.ts:182-210 | Rendering the same window again inserts the item at `indexAt(renderBottom)` again, if there is one, and does nothing else. |
| `RangeMap.IndexAtMonotone` | src/vs/base/browser/ui/list/listView.ts:187-205 | `indexAt` never decreases as the position moves down. |
| `RangeMap.IndexAfterMonotone` | src/vs/base/browser/ui/list/listView.ts:187-205 | `indexAfter` never decreases as the position moves down. |
| `RangeMap.IndexAtContains` | src/vs/base/browser/ui/list/listView.ts:162-172 | Inside the list, `indexAt` finds the item whose span contains the position. Past the end it gives the item count. |
| `RangeMap.IndexAtPositionAt` | src/vs/base/browser/ui/list/listView.ts:162-164 | The top of a non-empty item leads back to that item. |
| `RangeMap.SpliceTotal` | src/vs/base/browser/ui/list/listView.ts:122 | A splice changes the total height by the inserted heights minus the deleted ones. |
| `RowCache.Alloc` | src/vs/base/browser/ui/list/listView.ts:233-236 | A row of the requested template is returned. It is reused from the pool when the pool has one and created fresh otherwise. Other pools are unchanged. |
| `RowCache.Release` | src/vs/base/browser/ui/list/listView.ts:249-252 | A released row goes back to its template's pool, and releasing no row does nothing. |
| `RowCache.ReleaseThenAlloc` | src/vs/base/browser/ui/list/listView.ts:233-252 | Allocating right after a release hands back the same row and restores every pool. |
| `KeybindingContext.NewContext` | src/vs/platform/keybinding/browser/keybindingServiceImpl.ts:33-38 | A new context holds only `_contextId = id`. |
| `KeybindingContext.SetValue` | src/vs/platform/keybinding/browser/keybindingServiceImpl.ts:40-43 | `setValue` changes only the named key. |
| `KeybindingContext.RemoveValue` | src/vs/platform/keybinding/browser/keybindingServiceImpl.ts:45-48 | `removeValue` removes only the named key. |
| `KeybindingContext.Init` | src/vs/platform/keybinding/browser/keybindingServiceImpl.ts:196-200 | The service starts with only context 0, which has no parent. |
| `KeybindingContext.GetContext` | src/vs/platform/keybinding/browser/keybindingServiceImpl.ts:366-368 | A context is found exactly when its id is live. |
| `KeybindingContext.CreateChild` | src/vs/platform/keybinding/browser/keybindingServiceImpl.ts:370-374 | The new id is one above every earlier id. Earlier contexts are unchanged. The parent is the requested context, or the service's own by default, if that context can still be found. |
| `KeybindingContext.CreateChildIncreasing` | src/vs/platform/keybinding/browser/keybindingServiceImpl.ts:370-374 | A later child always has a larger id than an earlier one. |
| `KeybindingContext.Dispose` | src/vs/platform/keybinding/browser/keybindingServiceImpl.ts:376-378 | `disposeContext` makes only that id unfindable. |
| `KeybindingContext.SetContext` | src/vs/platform/keybinding/browser/keybindingServiceImpl.ts:154-156 | The service's own context gets the key. It throws once that context has been disposed. |
| `KeybindingContext.RemoveContext` | src/vs/platform/keybinding/browser/keybindingServiceImpl.ts:158-160 | The key is removed from the service's own context. It throws once that context has been disposed. |
| `KeybindingContext.NearestIsFirst` | src/vs/platform/keybinding/browser/keybindingServiceImpl.ts:50-57 | In a parent chain, the nearest context that has a key decides its value. |
| `KeybindingContext.Fill` | src/vs/platform/keybinding/browser/keybindingServiceImpl.ts:50-57 | After filling, every key holds the value of the nearest context in the chain that has it. The bucket's own value survives only where no context in the chain has the key. |
| `KeybindingContext.FilledBucketCarriesId` | src/vs/platform/keybinding/browser/keybindingServiceImpl.ts:33-57 | A bucket filled from a context carries that context's id, unless `_contextId` was overwritten. |
| `KeybindingContext.CreateKey` | src/vs/platform/keybinding/browser/keybindingServiceImpl.ts:109-116 | An undefined default leaves the registry as it is. A defined default fails exactly when the service's own context is gone. Otherwise the key holds the default, and every other key and every other context is unchanged. |
| `KeybindingContext.SetKey` | src/vs/platform/keybinding/browser/keybindingServiceImpl.ts:118-120 | `set` throws iff the service's own context has been disposed. Otherwise that context holds the value under the key, and its other keys are unchanged. |
| `KeybindingContext.ResetKey` | src/vs/platform/keybinding/browser/keybindingServiceImpl.ts:122-128 | `reset` restores the default, or removes the key when the default is undefined. Other keys are untouched. |
| `KeybindingContext.ResetRestoresCreation` | src/vs/platform/keybinding/browser/keybindingServiceImpl.ts:109-128 | Whatever was set in between, `reset` brings the key back to the state `createKey` left it in. |
| `KeybindingContext.Walk` | src/vs/platform/keybinding/browser/keybindingServiceImpl.ts:76-89 | The walk only adds entries, and every entry it adds is a boolean. |
| `KeybindingContext.ConfigurationValues` | src/vs/platform/keybinding/browser/keybindingServiceImpl.ts:74-91 | The configuration context holds only booleans, each under one key. |
| `KeybindingContext.ConfigurationRecordsEveryBoolean` | src/vs/platform/keybinding/browser/keybindingServiceImpl.ts:74-91 | Every boolean leaf reached through objects is recorded under `config.` followed by its dotted path. |
| `KeybindingContext.WalkOrigin` | src/vs/platform/keybinding/browser/keybindingServiceImpl.ts:76-89 | Whatever the walk holds under a key beyond what it started with is a boolean leaf from the current property on, stored under that leaf's dotted path with the leaf's value. |
| `KeybindingContext.ConfigurationValuesComeFromLeaves` | src/vs/platform/keybinding/browser/keybindingServiceImpl.ts:74-91 | Every key of the configuration context is `config.` followed by the dotted path of some boolean leaf, and holds that leaf's value. |
| `KeybindingContext.ConfigurationRecordsLeafValue` | src/vs/platform/keybinding/browser/keybindingServiceImpl.ts:74-91 | When no two boolean leaves share a dotted path, each leaf's own value is what the context holds under its path. |
| `KeybindingContext.EventContext` | src/vs/platform/keybinding/browser/keybindingServiceImpl.ts:94-100 | Configuration values win over context values. Any other key comes from the nearest context in the chain. |
| `KeybindingDispatch.FindContextAttr` | src/vs/platform/keybinding/browser/keybindingServiceImpl.ts:356-364 | The context attribute is parsed as a base-10 integer, and an unparsable attribute gives none (NaN). Without an attribute, the service's own context is used. |
| `KeybindingDispatch.StripCaret` | src/vs/platform/keybinding/browser/keybindingServiceImpl.ts:335 | One leading `^` is removed, and any other command id is unchanged. |
| `KeybindingDispatch.Dispatch` | src/vs/platform/keybinding/browser/keybindingServiceImpl.ts:294-340 | Modifier keys change nothing. `enterChord` stores the chord, calls preventDefault and invokes nothing. Otherwise the chord resets to 0, and a non-empty command runs with one `^` stripped. preventDefault is then called iff the id has no leading `^`. Dispatching throws iff the event's context cannot be found. |
| `KeybindingDispatch.ChordThenCommand` | src/vs/platform/keybinding/browser/keybindingServiceImpl.ts:307-339 | A chord key followed by a key that completes it runs the command and leaves no chord pending. |
| `KeybindingDispatch.ModifierKeepsChord` | src/vs/platform/keybinding/browser/keybindingServiceImpl.ts:295-298 | A modifier key leaves a pending chord pending. |
| `EditorOptions.ToBoolean` | src/vs/editor/common/config/commonEditorConfig.ts:248-250 | The string `'false'` is false, and every other value is judged by its truthiness. |
| `EditorOptions.ToBooleanWithDefault` | src/vs/editor/common/config/commonEditorConfig.ts:252-257 | The default is used only for undefined. |
| `EditorOptions.ToInteger` | src/vs/editor/common/config/commonEditorConfig.ts:267-279 | Unparsable input gives 0. A value below the minimum becomes the minimum (when the bounds are consistent), and a value above the maximum after that becomes the maximum. The result respects both bounds when they are consistent. |
| `EditorOptions.ToIntegerIdempotent` | src/vs/editor/common/config/commonEditorConfig.ts:267-279 | Converting a converted number again changes nothing. |
| `EditorOptions.ToIntegerWithDefault` | src/vs/editor/common/config/commonEditorConfig.ts:312-317 | The default is used only for undefined, a number is kept, and unparsable input gives 0. |
| `EditorOptions.SortedByTextUnique` | src/vs/editor/common/config/commonEditorConfig.ts:281-289 | There is only one ordering of a multiset of numbers by decimal text. |
| `EditorOptions.ToSortedIntegerArray` | src/vs/editor/common/config/commonEditorConfig.ts:281-289 | A non-array gives []. Otherwise the result has one integer per element, as a permutation, ordered by decimal text as the default `Array.prototype.sort` orders them. |
| `EditorOptions.RulersSortAsText` | src/vs/editor/common/config/commonEditorConfig.ts:281-289 | The rulers `[80, 100]` come out as `[100, 80]`. |
| `EditorOptions.WrappingIndentFromString` | src/vs/editor/common/config/commonEditorConfig.ts:291-299 | `'indent'` and `'same'` map to their values. Anything else gives none. |
| `EditorOptions.WrappingIndentRoundTrip` | src/vs/editor/common/config/commonEditorConfig.ts:291-299 | Every wrapping indent is read back from its name. |
| `EditorOptions.CursorStyleFromString` | src/vs/editor/common/config/commonEditorConfig.ts:301-310 | `'block'` and `'underline'` map to their styles. Anything else gives line. |
| `EditorOptions.CursorStyleRoundTrip` | src/vs/editor/common/config/commonEditorConfig.ts:301-310 | Every cursor style is read back from its name. |
| `EditorOptions.StopRenderingLineAfter` | src/vs/editor/common/config/commonEditorConfig.ts:80-89 | A set option is converted with minimum -1. Otherwise the value is -1 when wrapping and 10000 when not. |
| `EditorOptions.LineDecorationsWidth` | src/vs/editor/common/config/commonEditorConfig.ts:97-100 | A truthy `folding` adds 16 to the non-negative width. |
| `EditorOptions.Wrapping` | src/vs/editor/common/config/commonEditorConfig.ts:117-140 | Viewport wrapping happens iff the column is 0, or positive on a model dominated by long lines, and then the column is the viewport column, or 1 when fewer than one column fits. Another positive column is kept. A negative column does not wrap and gives -1. |
| `EditorOptions.TabFocus` | src/vs/editor/common/config/commonEditorConfig.ts:150-155 | A read-only editor always has tab focus mode. Otherwise tab focus follows the `tabFocusMode` option. |
| `EditorOptions.CreateInternalOptions` | src/vs/editor/common/config/commonEditorConfig.ts:70-209 | Each internal option is its raw option through its converter: wrapping and stop-rendering from the wrapping column, the decorations width from the width and `folding`, read-only and tab focus together, sorted rulers, overview ruler lanes clamped to 0..3, wrapping indent, cursor style and folding. |
| `EditorOptions.AbsentWrappingColumnWrapsAtViewport` | src/vs/editor/common/config/commonEditorConfig.ts:80-140 | Without a `wrappingColumn`, the editor wraps at the viewport and renders whole lines. |
| `EditorOptions.FoldingFalseStringStillWidens` | src/vs/editor/common/config/commonEditorConfig.ts:97-100 | `folding: 'false'` turns folding off but still widens the decorations margin by 16. |
| `EditorOptions.DeleteReadOnly` | src/vs/editor/common/config/commonEditorConfig.ts:479 | After `delete readOnly` the object has no `readOnly`, and every other key is unchanged. |
| `EditorOptions.EditorSettings` | src/vs/editor/common/config/commonEditorConfig.ts:466-476 | A code editor gets the `editor` section. A diff editor gets the `editor` section when `diffEditor` is falsy, the `diffEditor` section alone when `editor` is falsy, and the mixin of both otherwise. The section written back is `editor` exactly when that section is an object. The settings are truthy exactly when the editor has settings to receive. |
| `EditorOptions.ApplyFrom` | src/vs/editor/common/config/commonEditorConfig.ts:456-483 | Updates go only to code and diff editors, in increasing editor order, with truthy options that hold no `readOnly`. An editor is updated exactly when it is a code or diff editor with settings to receive, and the number of updates counts those editors. Each update holds that editor's settings, without `readOnly`, taken from the configuration object as the earlier editors' write-backs left it (`SeenBy`, a fold of `WriteBack` over the editors before it). |
| `EditorOptions.Apply` | src/vs/editor/common/config/commonEditorConfig.ts:446-484 | A falsy configuration updates nothing. Otherwise an editor is updated exactly when it is a code or diff editor whose sections give it truthy settings, in order and never with `readOnly`. Each update holds the settings the editor takes from the configuration object as the earlier editors' write-backs left it. |
| `EditorOptions.DiffEditorOverlay` | src/vs/editor/common/config/commonEditorConfig.ts:466-480 | A lone diff editor gets, under every key but `readOnly`, the `diffEditor` value merged into the `editor` value: nested objects are merged, anything else from `diffEditor` wins, and keys only in `editor` stay. |
| `EditorOptions.CodeEditorBeforeAnyDiffEditor` | src/vs/editor/common/config/commonEditorConfig.ts:456-481 | A code editor with no diff editor before it receives the `editor` section with `readOnly` deleted, whatever code editors before it did. |
| `EditorOptions.CodeEditorAfterDiffEditor` | src/vs/editor/common/config/commonEditorConfig.ts:466-480 | With an object `editor` section and a truthy `diffEditor` section, a diff editor followed by a code editor gives both the same options: the mixin of the two sections without `readOnly`, since the mixin was written into `editor`. |
| `EditorOptions.LoneDiffEditor` | src/vs/editor/common/config/commonEditorConfig.ts:466-480 | A lone diff editor gets exactly one update: the `editor` section mixed with the `diffEditor` section, with `readOnly` deleted. |
| `EditorOptions.DiffEditorFlagKeepsEditor` | src/vs/editor/common/config/commonEditorConfig.ts:466-480 | A `diffEditor` setting that is truthy but not an object leaves a lone diff editor with the `editor` section alone. |
| `EditorOptions.Mixin` | src/vs/editor/common/config/commonEditorConfig.ts:473 | A destination that is not an object gives the source; a source that is not an object gives the destination; two objects give an object, with unique keys when the destination's are. |
| `EditorOptions.MixinLookup` | src/vs/editor/common/config/commonEditorConfig.ts:473 | Mixing two objects gives, under every key, the source's value merged into the destination's: absent in the source keeps the destination's, two objects merge, otherwise the source's value wins. |
| `ContributedKeybindings.IsValid` | src/vs/workbench/services/keybinding/electron-browser/keybindingService.ts:40-70 | A keybinding is accepted iff it is well formed, and an acceptance leaves `rejects` alone. A rejection appends exactly one message: falsy first, then a non-string `command`, then a non-string `key`. |
| `ContributedKeybindings.AsCommandRule` | src/vs/workbench/services/keybinding/electron-browser/keybindingService.ts:256-282 | The rule is dropped iff the key parses to 0 and no platform key is truthy. The weight is `builtinExtension(idx)` or `externalExtension(idx)`. |
| `ContributedKeybindings.PlatformKey` | src/vs/workbench/services/keybinding/electron-browser/keybindingService.ts:272-274 | A platform entry exists iff that key is truthy, and it holds the parsed key. |
| `ContributedKeybindings.HandleKeybinding` | src/vs/workbench/services/keybinding/electron-browser/keybindingService.ts:222-245 | An error is reported iff the validator rejected the keybinding. A rule is registered iff the keybinding is valid and `_asCommandRule` gives one. |
| `ContributedKeybindings.HandleAll` | src/vs/workbench/services/keybinding/electron-browser/keybindingService.ts:210-216 | `commandAdded` holds iff some rule was registered. Rules carry strictly increasing indices within the range. There is one error per invalid element. |
| `ContributedKeybindings.GatherPointsBack` | src/vs/workbench/services/keybinding/electron-browser/keybindingService.ts:210-216 | Each gathered rule's index points back to the keybinding whose handling produced that very rule. |
| `ContributedKeybindings.GatherKeepsRule` | src/vs/workbench/services/keybinding/electron-browser/keybindingService.ts:210-216 | No rule a keybinding yields is lost when the outcomes are gathered. |
| `ContributedKeybindings.ErrorsAreInvalid` | src/vs/workbench/services/keybinding/electron-browser/keybindingService.ts:210-245 | One error is reported for each keybinding the validator rejects, and none for the others. |
| `ContributedKeybindings.RulesComeFromValidKeybindings` | src/vs/workbench/services/keybinding/electron-browser/keybindingService.ts:210-245 | Every registered rule is the command rule of the valid keybinding its index points back to. |
| `ContributedKeybindings.ValidKeybindingRegistered` | src/vs/workbench/services/keybinding/electron-browser/keybindingService.ts:210-245 | The rule of every valid keybinding that yields one is registered. |
| `ContributedKeybindings.CommandAddedIffSomeRule` | src/vs/workbench/services/keybinding/electron-browser/keybindingService.ts:210-245 | A command is added exactly when some valid keybinding yields a rule. |
| `ContributedKeybindings.HandleContribution` | src/vs/workbench/services/keybinding/electron-browser/keybindingService.ts:210-220 | An array is handled element by element from index 1. A single keybinding is handled with index 1. |
| `ContributedKeybindings.SingleIsArrayOfOne` | src/vs/workbench/services/keybinding/electron-browser/keybindingService.ts:210-220 | A single keybinding is handled exactly like an array holding only it. |
| `ContributedKeybindings.ValidKeyAddsCommand` | src/vs/workbench/services/keybinding/electron-browser/keybindingService.ts:210-245 | One valid keybinding whose key parses is enough to add a command. |
| `ContributedKeybindings.HandleExtensions` | src/vs/workbench/services/keybinding/electron-browser/keybindingService.ts:131-140 | The resolver is rebuilt iff some extension added a command. Every extension is handled, even after an earlier one added a command: the registered rules are each extension's rules, one extension after the other, so a rule is registered exactly when some extension's contribution registers it. |
| `ContributedKeybindings.CustomKeybindingsCount` | src/vs/workbench/services/keybinding/electron-browser/keybindingService.ts:147-153 | The count is the length of `globalSettings.keybindings` when that is an array, and 0 otherwise. |
| `ContributedKeybindings.ElectronAcceleratorFor` | src/vs/workbench/services/keybinding/electron-browser/keybindingService.ts:193-208 | On Windows the result is always the accelerator. Elsewhere it is null iff the US label differs from the native label. |
| `ContentWidgets.AddWidget` | src/vs/editor/browser/viewParts/contentWidgets/contentWidgets.ts:137-160 | The widget is stored hidden, without a position or preference. Other widgets are unchanged, and a render is requested. |
| `ContentWidgets.SetWidgetPosition` | src/vs/editor/browser/viewParts/contentWidgets/contentWidgets.ts:162-167 | Only the widget's position and preference change, and a render is requested. An unknown id throws. |
| `ContentWidgets.RemoveWidget` | src/vs/editor/browser/viewParts/contentWidgets/contentWidgets.ts:169-181 | An unknown id changes nothing. A known id removes only that widget. |
| `ContentWidgets.AddThenRemove` | src/vs/editor/browser/viewParts/contentWidgets/contentWidgets.ts:137-181 | Adding and then removing a new id gives the registry back. |
| `ContentWidgets.LayoutBoxInViewport` | src/vs/editor/browser/viewParts/contentWidgets/contentWidgets.ts:183-225 | There is no box without a visible range. Otherwise aboveTop = top − height and belowTop = top + lineHeight. The box fits above iff top ≥ height, and below iff the room under the line is at least the height. The left edge is never left of the viewport. A box no wider than the viewport stays inside it, and one already inside keeps its left. |
| `ContentWidgets.FirstPassDecisive` | src/vs/editor/browser/viewParts/contentWidgets/contentWidgets.ts:320-352 | Pass 1 answers with the first decisive preference: EXACT, a placement outside the viewport, or one that fits. |
| `ContentWidgets.PrepareRenderWidget` | src/vs/editor/browser/viewParts/contentWidgets/contentWidgets.ts:294-353 | Without a position or a preference there is no data. Otherwise the preferences decide in order, as the two passes of the loop do. |
| `ContentWidgets.Decide` | src/vs/editor/browser/viewParts/contentWidgets/contentWidgets.ts:324-350 | ABOVE and BELOW give data iff there is a placement, at aboveTop or belowTop. EXACT gives the exact data. |
| `ContentWidgets.Render` | src/vs/editor/browser/viewParts/contentWidgets/contentWidgets.ts:355-400 | A widget is visible after `_render` iff it received render data. Exactly those widgets get a style, with their top shifted for non-overflowing widgets. |
| `ContentWidgets.RenderStable` | src/vs/editor/browser/viewParts/contentWidgets/contentWidgets.ts:355-400 | Rendering again with the same geometry changes nothing. |
| `ContentWidgets.NoVisibleRangeNotShown` | src/vs/editor/browser/viewParts/contentWidgets/contentWidgets.ts:183-189 | A widget without a visible range gets no render data. |
| `ContentWidgets.OutsideViewportNoRender` | src/vs/editor/browser/viewParts/contentWidgets/contentWidgets.ts:324-341 | With no placement, a first preference of ABOVE or BELOW yields no render data. |
| `ContentWidgets.FittingAboveWins` | src/vs/editor/browser/viewParts/contentWidgets/contentWidgets.ts:320-335 | ABOVE fits, and every preference before it is indecisive, so the widget goes above. |
| `WordHelper.EnsureValidWordDefinition` | src/vs/editor/common/model/textModelWithTokensHelpers.ts:33-54 | A missing definition gives the default. A non-global definition is made global with the same source and i/m flags. `lastIndex` is always 0. |
| `WordHelper.EnsureValidIdempotent` | src/vs/editor/common/model/textModelWithTokensHelpers.ts:33-54 | Validating a second time changes nothing. |
| `WordHelper.Locate` | src/vs/editor/common/model/textModelWithTokensHelpers.ts:106-111 | The located words are non-empty, and there are at most as many as matches. |
| `WordHelper.LocateOccurs` | src/vs/editor/common/model/textModelWithTokensHelpers.ts:109-110 | A located word occurs in the text where it was found. |
| `WordHelper.LocateOrdered` | src/vs/editor/common/model/textModelWithTokensHelpers.ts:109-110 | Each word is searched for from the end of the previous one, so a found word starts at or after that end. |
| `WordHelper.LocatedLeftToRight` | src/vs/editor/common/model/textModelWithTokensHelpers.ts:109-110 | When every word is found, the words are strictly left to right and do not overlap. |
| `WordHelper.WordOf` | src/vs/editor/common/model/textModelWithTokensHelpers.ts:112-120 | startColumn = textOffset + position + 1, and endColumn − startColumn is the word length. |
| `WordHelper.ScanIsFirstContaining` | src/vs/editor/common/model/textModelWithTokensHelpers.ts:105-126 | The loop returns the first located word whose columns contain the column. |
| `WordHelper.GetWordAtText` | src/vs/editor/common/model/textModelWithTokensHelpers.ts:93-127 | No matches gives null. Otherwise the result is the first non-empty trimmed word whose columns contain the column, both ends included. A result that does not start at the text offset occurs in the text at its columns. |
| `WordHelper.WordFound` | src/vs/editor/common/model/textModelWithTokensHelpers.ts:105-126 | A reported word is non-empty, contains the column, and occurs in the text. |
| `WordHelper.GetWordAtColumn` | src/vs/editor/common/model/textModelWithTokensHelpers.ts:60-69 | A result contains the column. When the segment lies within the line, the search covers only that segment, with columns offset by the segment start and the mode's validated word definition. |
| `WordHelper.ColumnWordInLine` | src/vs/editor/common/model/textModelWithTokensHelpers.ts:60-69 | A word found in a segment lies inside that segment of the line, at the reported columns. |
| `WordHelper.GetWordAtPosition` | src/vs/editor/common/model/textModelWithTokensHelpers.ts:71-91 | An untokenized line is searched whole. Otherwise the column's segment is searched. The previous segment is tried, and its answer returned, exactly when nothing was found, modeIndex > 0, and the column sits at the segment start; otherwise the segment's own answer is returned. A result contains the column. |
| `ExtensionsService.ExtensionId` | src/vs/workbench/parts/extensions/node/extensionsService.ts:81-83 | The id is `publisher.name-version`. |
| `ExtensionsService.IdDeterminesVersion` | src/vs/workbench/parts/extensions/node/extensionsService.ts:81-83 | Two versions of one extension share an id only when they are equal. |
| `ExtensionsService.CreateExtension` | src/vs/workbench/parts/extensions/node/extensionsService.ts:61-79 | Name, publisher and version are copied. displayName defaults to the name and description to `''`. Gallery information and path are set only when supplied. |
| `ExtensionsService.CreatedExtensionId` | src/vs/workbench/parts/extensions/node/extensionsService.ts:61-83 | An extension built from a manifest has the manifest's id. |
| `ExtensionsService.Validate` | src/vs/workbench/parts/extensions/node/extensionsService.ts:39-59 | A manifest that does not parse fails. Otherwise name, then publisher, then version mismatches fail, in that order. With no expected extension any parsed manifest is accepted, and an accepted manifest is returned unchanged. |
| `ExtensionsService.Install` | src/vs/workbench/parts/extensions/node/extensionsService.ts:116-167 | A string goes to the zip install and anything else to the gallery install. The gallery install fails without gallery information. |
| `ExtensionsService.GetAllInstalled` | src/vs/workbench/parts/extensions/node/extensionsService.ts:194-213 | The result is exactly the extensions built from the non-obsolete folders with a readable manifest, each with its folder as path. |
| `ExtensionsService.GetInstalled` | src/vs/workbench/parts/extensions/node/extensionsService.ts:181-192 | With duplicates everything is returned. Without, there is one extension per `publisher.name` group: the newest of that group. |
| `ExtensionsService.GetInstalledParsed` | src/vs/workbench/parts/extensions/node/extensionsService.ts:181-191 | With duplicates, everything comes back. Otherwise it rejects exactly when some group of two or more holds a version semver cannot parse. When it does not reject, it gives the newest of each group by semver rank. |
| `ExtensionsService.InstalledDistinctGroups` | src/vs/workbench/parts/extensions/node/extensionsService.ts:188-191 | Without duplicates, no two results share a group. |
| `ExtensionsService.InstalledNewestOfEveryGroup` | src/vs/workbench/parts/extensions/node/extensionsService.ts:188-191 | Every group is represented by a version ranked no lower than any other of the group. |
| `ExtensionsService.Persist` | src/vs/workbench/parts/extensions/node/extensionsService.ts:264-271 | The obsolete file is deleted when the map is empty and written otherwise. |
| `ExtensionsService.Read` | src/vs/workbench/parts/extensions/node/extensionsService.ts:260-262 | A missing file reads as `{}`. Any other read error fails. |
| `ExtensionsService.SetObsolete` | src/vs/workbench/parts/extensions/node/extensionsService.ts:243-246 | The id maps to true, nothing else changes, and the file is written. An unreadable file fails. |
| `ExtensionsService.UnsetObsolete` | src/vs/workbench/parts/extensions/node/extensionsService.ts:248-251 | The id is deleted and nothing else changes. The file goes away iff the map becomes empty. An unreadable file fails. |
| `ExtensionsService.UninstallPath` | src/vs/workbench/parts/extensions/node/extensionsService.ts:170 | The extension's own path is used, or `extensionsPath/<id>` when it has none. |
| `ExtensionsService.Uninstall` | src/vs/workbench/parts/extensions/node/extensionsService.ts:169-179 | A missing folder or an unreadable obsolete file fails. Otherwise the id ends up unmarked, and the obsolete file is persisted. |
| `ExtensionsService.UninstallRestoresObsolete` | src/vs/workbench/parts/extensions/node/extensionsService.ts:169-179 | An extension that was not marked leaves the obsolete file as it was, or deleted when it held nothing. |
| `ExtensionsService.DeprecatedIds` | src/vs/workbench/parts/extensions/node/extensionsService.ts:219-234 | An id is deprecated iff it is obsolete, or it belongs to a non-newest version that has a path. |
| `ExtensionsService.DeprecatedIdsParsed` | src/vs/workbench/parts/extensions/node/extensionsService.ts:219-224 | It rejects exactly when some group of two or more holds a version semver cannot parse. Otherwise it gives the deprecated ids by semver rank. |
| `ExtensionsService.OutdatedIds` | src/vs/workbench/parts/extensions/node/extensionsService.ts:220-228 | An id is listed iff the extension is not the newest of its group and has a path. |
| `ExtensionsService.RemovalEmptiesObsolete` | src/vs/workbench/parts/extensions/node/extensionsService.ts:219-240 | After removing the deprecated extensions, the obsolete map is empty. |
| `ExtensionsService.KeptOrDeprecated` | src/vs/workbench/parts/extensions/node/extensionsService.ts:181-228 | Every installed extension is either the one kept for its group or outdated. When no two entries are the same, which distinct folder names give, it is never both. |
| `ExtensionHost.Put` | src/vs/workbench/node/extensionHostMain.ts:157-175 | `result[id] = d`: an existing id keeps its place and a new id goes last. There is one entry per id. |
| `ExtensionHost.AddAllWarnings` | src/vs/workbench/node/extensionHostMain.ts:161-173 | A warning, with the folder as its source, is collected exactly for each user or development extension whose id is already present, in order. |
| `ExtensionHost.AddAllInfos` | src/vs/workbench/node/extensionHostMain.ts:167-168 | Each development extension gives one info message, and no other extension gives any. |
| `ExtensionHost.Merge` | src/vs/workbench/node/extensionHostMain.ts:152-176 | The merged result holds exactly one description per id in builtin ∪ user ∪ developed. |
| `ExtensionHost.MergePrecedence` | src/vs/workbench/node/extensionHostMain.ts:158-173 | For each id, development beats user and user beats built-in. |
| `ExtensionHost.MergeWarnings` | src/vs/workbench/node/extensionHostMain.ts:161-171 | There is one warning per user or development extension that replaces an id already present. |
| `ExtensionHost.MergeInfos` | src/vs/workbench/node/extensionHostMain.ts:167-168 | There is one info message per development extension. |
| `ExtensionHost.NoOverlapNoWarning` | src/vs/workbench/node/extensionHostMain.ts:161-164 | Extensions with fresh, distinct ids draw no warning. |
| `ExtensionHost.Settle` | src/vs/workbench/node/extensionHostMain.ts:129-152 | Every scan's reports come first and are all kept. If any scan failed, the only thing after them is one error holding the join's error array, and no extension is registered. Otherwise the merge's descriptions are registered and its notes follow the reports. The join's error appears after the reports exactly when some scan failed. |
| `ExtensionHost.JoinError` | src/vs/workbench/node/extensionHostMain.ts:152 | The join's error has one slot per scan. A slot holds a reason exactly when that scan failed, and then it holds that scan's reason. |
| `ExtensionHost.ReadExtensions` | src/vs/workbench/node/extensionHostMain.ts:129-152 | The result has one description per id. The built-in, user and development scans' reports come first in the collector. A failure of any scan adds the join's error, with every failing reason, and registers nothing. When every scan succeeds, the merge's descriptions are registered and its notes follow the reports. |
| `ExtensionHost.BuiltinOnly` | src/vs/workbench/node/extensionHostMain.ts:129-150 | With extensions disabled, or no user or development folder, only the built-in scan runs. Its reports come first. Then come its merge, or the join's error with the built-in reason alone. |
| `ExtensionHost.DesiredFiles` | src/vs/workbench/node/extensionHostMain.ts:195-211 | The desired files are the suffixes of `workspaceContains:` events, each once. |
| `ExtensionHost.EagerEvents` | src/vs/workbench/node/extensionHostMain.ts:180-229 | `*` always comes first. `workspaceContains:<file>` follows exactly for each desired file with a non-empty name that exists in the workspace. Without a workspace only `*` is activated. |
| `ExtensionHost.HandleExtensionTests` | src/vs/workbench/node/extensionHostMain.ts:231-268 | Nothing happens unless both paths are set. A proper runner runs the tests. Otherwise the host exits with code 1 and rejects: with the require error's text when loading the runner threw a truthy error, and otherwise with the message that the tests path does not point to a valid test runner, naming that path. |
| `ExtensionHost.TestExitCode` | src/vs/workbench/node/extensionHostMain.ts:257 | The exit code is 1 when failures > 0, and 0 otherwise. |
| `ExtensionHost.Terminate` | src/vs/workbench/node/extensionHostMain.ts:104-127 | The host is terminating afterwards. The first call deactivates exactly the activated extensions and schedules the exit. Later calls do nothing. |
| `ExtensionHost.TerminateIdempotent` | src/vs/workbench/node/extensionHostMain.ts:104-118 | A second `terminate` deactivates nothing and schedules no exit. |
| `ExtHostApi.GenerateDisposeToken` | src/vs/workbench/api/node/extHost.api.impl.ts:51-54 | The token is the decimal of the incremented counter. |
| `ExtHostApi.TokensIncrease` | src/vs/workbench/api/node/extHost.api.impl.ts:51-54 | Successive tokens are distinct and read as strictly increasing numbers. |
| `ExtHostApi.TokensDistinct` | src/vs/workbench/api/node/extHost.api.impl.ts:51-54 | No token is generated twice. |
| `ExtHostApi.CommentsContribution` | src/vs/workbench/api/node/extHost.api.impl.ts:403-415 | `lineComment` becomes `[lineComment]`, and `blockComment` becomes the start and end tokens. |
| `ExtHostApi.Brackets` | src/vs/workbench/api/node/extHost.api.impl.ts:434-440 | Each pair becomes `{open, close}`, in order. |
| `ExtHostApi.OnEnterContribution` | src/vs/workbench/api/node/extHost.api.impl.ts:429-453 | An on-enter support exists iff brackets, indentation rules or on-enter rules are given. |
| `ExtHostApi.Contributions` | src/vs/workbench/api/node/extHost.api.impl.ts:397-466 | At most five registrations. Comments, word definition, on-enter, electric characters and character pairs are each registered exactly when their part of the configuration is there, carrying that part, with the comments first. |
| `ExtHostApi.ContributionsInOrder` | src/vs/workbench/api/node/extHost.api.impl.ts:397-466 | The registrations come in the order comments, word definition, on-enter, electric characters, character pairs, one for each part that is there. |
| `ExtHostApi.Register` | src/vs/workbench/api/node/extHost.api.impl.ts:566-584 | The registration is stored under its token, and other tokens are unchanged. |
| `ExtHostApi.DisposeByToken` | src/vs/workbench/api/node/extHost.api.impl.ts:559-564 | A registered token is disposed once and removed. An unknown token is a no-op. |
| `ExtHostApi.DisposeTwice` | src/vs/workbench/api/node/extHost.api.impl.ts:559-564 | Disposing twice disposes once. |
| `ExtHostApi.RegisterThenDispose` | src/vs/workbench/api/node/extHost.api.impl.ts:559-584 | Registering a new token and disposing it gives the table back. |
| `ExtHostApi.RegisterAllEntries` | src/vs/workbench/api/node/extHost.api.impl.ts:470-498 | Each new token maps to its contribution. Earlier entries are kept, and nothing else is added. |
| `ExtHostApi.SetLanguageConfiguration` | src/vs/workbench/api/node/extHost.api.impl.ts:397-468 | The word definition is the pattern, or null without one. One token is spent per contribution. |
| `ExtHostApi.SetLanguageConfigurationRegisters` | src/vs/workbench/api/node/extHost.api.impl.ts:403-453 | Every token is registered for the mode with one of the configuration's contributions, the comments first. No word or on-enter support is registered without its part. |
| `ExtHostApi.SetThenDisposeRestores` | src/vs/workbench/api/node/extHost.api.impl.ts:397-468 | Disposing what `_setLanguageConfiguration` returned restores the registry. |
| `ExtHostApi.DocumentUri` | src/vs/workbench/api/node/extHost.api.impl.ts:272-280 | A file name becomes a file URI, and a URI is passed through. Anything else throws an illegal argument error. |
| `ExtHostApi.AssignProperty` | src/vs/workbench/api/node/extHost.api.impl.ts:244-271 | Assigning `rootPath` or `textDocuments` always throws. |
| `DebugAdapter.WinBlock` | src/vs/workbench/parts/debug/node/debugAdapter.ts:25-27 | A raw `windows` block is used as `win`. |
| `DebugAdapter.BlockFor` | src/vs/workbench/parts/debug/node/debugAdapter.ts:28-45 | Each platform picks its own block: `win`, `osx` or `linux`. |
| `DebugAdapter.NewAdapter` | src/vs/workbench/parts/debug/node/debugAdapter.ts:24-66 | runtime, runtimeArgs, program and args come from the platform block, falling back to the top-level field when falsy. A truthy program is resolved and joined to the folder. The runtime is joined only when it starts with `./`. |
| `DebugAdapter.WindowsAliasWins` | src/vs/workbench/parts/debug/node/debugAdapter.ts:25-33 | On Windows a `windows` block beats a `win` block. |
| `DebugAdapter.NoBlockTopLevel` | src/vs/workbench/parts/debug/node/debugAdapter.ts:47-50 | Without a block, the top-level fields are used. |
| `DebugAdapter.RuntimeJoinedOnlyWhenRelative` | src/vs/workbench/parts/debug/node/debugAdapter.ts:52-59 | An absolute runtime is kept as is, while the program is always joined. |
| `DebugAdapter.Label` | src/vs/workbench/parts/debug/node/debugAdapter.ts:68-70 | The label is the explicit label, or otherwise the type. |
| `DebugAdapter.Required` | src/vs/workbench/parts/debug/node/debugAdapter.ts:77-78 | The result is `['name','type','request']`, followed by the adapter's list when that list is non-empty. |
| `DebugAdapter.WarnRelativePaths` | src/vs/workbench/parts/debug/node/debugAdapter.ts:114-119 | Each listed path property that is present gets the relative-path pattern and the `relativePathsNotConverted` error message, and nothing else about it changes. Every other property is unchanged. |
| `DebugAdapter.StandardProperties` | src/vs/workbench/parts/debug/node/debugAdapter.ts:81-101 | The four standard entries are exactly the source's: `type` with enum `[adapter type]`, `request` with enum `[request]`, `name` as a string defaulting to `Launch`, `preLaunchTask` as a string, each with its description. Other properties are kept. |
| `DebugAdapter.SchemaFor` | src/vs/workbench/parts/debug/node/debugAdapter.ts:75-108 | The schema is an `object` with no additional properties, the required list and the standard properties (`name` and `preLaunchTask` exactly as the source writes them). An adapter's path property is its own entry plus the relative-path pattern and error message, and the rest are kept. |
| `DebugAdapter.GetSchemaAttributes` | src/vs/workbench/parts/debug/node/debugAdapter.ts:72-112 | The result is null without configuration attributes. Otherwise there is one schema per request key, in order, and the adapter's attributes are replaced by those schemas. |
| `DebugAdapter.SecondCallRepeatsDefaults` | src/vs/workbench/parts/debug/node/debugAdapter.ts:77-78 | A second call prepends the default required names again, because the attributes are rewritten in place. |
| `OutputActions.GetChannels` | src/vs/workbench/parts/output/browser/outputActions.ts:123-128 | The channels are the union of contributed and used channels, without repeats and sorted by name. |
| `OutputActions.SelectedIndex` | src/vs/workbench/parts/output/browser/outputActions.ts:111-121 | The index is `max(0, indexOf(active))`: the active channel when listed, and 0 otherwise. It is in bounds for a non-empty list. |
| `OutputActions.SelectedIsOnlyActive` | src/vs/workbench/parts/output/browser/outputActions.ts:111-128 | The selected entry is the only one naming the active channel. |
| `OutputActions.ToggleOutput` | src/vs/workbench/parts/output/browser/outputActions.ts:35-44 | The panel is hidden exactly when the output panel is active. Otherwise the active channel is shown. |
| `OutputActions.Clear` | src/vs/workbench/parts/output/browser/outputActions.ts:53-85 | Both actions clear the active channel. The workbench action resolves true and the editor action resolves false. |
| `OutputActions.IsSupported` | src/vs/workbench/parts/output/browser/outputActions.ts:75-80 | The editor action is supported only in the output mode. |
| `Configuration.AccessSetting` | src/vs/platform/configuration/common/configuration.ts:43-52 | An empty path gives the value itself. Otherwise reading fails iff the value is undefined or null, and a successful read is undefined or truthy. |
| `Configuration.ExtractSetting` | src/vs/platform/configuration/common/configuration.ts:42-56 | It throws iff the configuration is undefined or null. Otherwise the result is undefined or truthy. |
| `Configuration.NestedTruthyFound` | src/vs/platform/configuration/common/configuration.ts:43-52 | A truthy value stored along a path is read back unchanged. |
| `Configuration.NestedFalsyUndefined` | src/vs/platform/configuration/common/configuration.ts:46-48 | A falsy final value (false, 0, `''`) reads as undefined. |
| `Configuration.AccessConcat` | src/vs/platform/configuration/common/configuration.ts:45-50 | Keys are looked up left to right: walking `p + q` is walking `p`, then `q`. |
| `Configuration.ExtractNested` | src/vs/platform/configuration/common/configuration.ts:42-56 | A dotted name of dot-free keys reads back the stored value when it is truthy, and undefined otherwise. |
| `Configuration.MissingKeyUndefined` | src/vs/platform/configuration/common/configuration.ts:46-48 | A key the object has neither as its own nor through an inherited member reads as undefined, whatever follows it. The model has no prototype chain, so its objects have own properties only. |
| `Buildfile.ToArray` | src/vs/languages/buildfile-editor-languages.js:8-16 | A falsy value gives [], a name gives [name], and an array is unchanged. |
| `Buildfile.NewEntryPoint` | src/vs/languages/buildfile-editor-languages.js:18-21 | An entry point shares the result list and holds `toArray(modules)`. |
| `Buildfile.Define` | src/vs/languages/buildfile-editor-languages.js:22-29 | Exactly one bundle is appended, named after the module. It excludes the loader plugins first, then the modules and the excludes. The returned entry point shares the list and extends the modules. No other list changes. |
| `Buildfile.Combine` | src/vs/languages/buildfile-editor-languages.js:30-32 | The receiver's list is kept, and the modules are `this.modules ++ other.modules`. |
| `Buildfile.DefineChainPushes` | src/vs/languages/buildfile-editor-languages.js:22-45 | Chained defines push one bundle per module, in order. Each bundle excludes the entry point's modules and every module defined before it. |
| `Buildfile.DefineChain` | src/vs/languages/buildfile-editor-languages.js:22-45 | Chained defines keep the entry point's list, push one bundle per module after the bundles already there, and leave every other list alone. |
| `Buildfile.DefineChainBundles` | src/vs/languages/buildfile-editor-languages.js:22-45 | The `j`th pushed bundle is named after the `j`th module. It excludes every module of the entry point and every module defined before it in the chain. |
| `Buildfile.DefineChainModules` | src/vs/languages/buildfile-editor-languages.js:22-45 | After a chain, the entry point remembers exactly its own modules and the chain's modules. |
| `Buildfile.CollectModules` | src/vs/languages/buildfile-editor-languages.js:36-65 | There are exactly five bundles: json, then jsonWorker (which excludes the loader plugins, the common languages, json and the worker servers), then the three TypeScript bundles. |
| `Hygiene.LinesOfJoin` | build/gulpfile.hygiene.js:126 | Splitting on `\r\n`, `\r` or `\n` gives back the lines any one line ending joined. |
| `Hygiene.IndentMatchesPatterns` | build/gulpfile.hygiene.js:128-133 | The indentation rule accepts exactly the lines matching `^\s*$`, `^[\t]*[^\s]` or `^[\t]* \*`. |
| `Hygiene.BadLines` | build/gulpfile.hygiene.js:127-137 | The result is exactly the 1-based numbers of badly indented lines, in order. |
| `Hygiene.IndentationErrors` | build/gulpfile.hygiene.js:123-138 | There is one error per badly indented line of the file. |
| `Hygiene.OneBadLine` | build/gulpfile.hygiene.js:127-137 | One bad line among good ones gives exactly one error, at its number. |
| `Hygiene.WellIndentedText` | build/gulpfile.hygiene.js:127-137 | Well indented lines give no error. |
| `Hygiene.EolErrors` | build/gulpfile.hygiene.js:114-121 | There is one error iff the file holds a carriage return, and none otherwise. |
| `Hygiene.CopyrightErrors` | build/gulpfile.hygiene.js:143-150 | There is one error iff the file does not start with the header. |
| `Hygiene.FileErrors` | build/gulpfile.hygiene.js:152-159 | Directories, and files outside the EOL filter, add nothing. A file that passes every filter adds its EOL, indentation and copyright errors. Outside the indentation filter only the EOL errors count; outside the copyright filter the EOL and indentation errors. |
| `Hygiene.Hygiene` | build/gulpfile.hygiene.js:160-166 | The run fails iff the total error count is positive, with the message naming the count. |
| `Hygiene.FailsIffSomeFileErrs` | build/gulpfile.hygiene.js:152-166 | The run fails exactly when some file reported an error. |
| `Hygiene.CleanFile` | build/gulpfile.hygiene.js:111-159 | A file that starts with the header and consists of well indented lines joined by `\n` adds no error. |

## Left out

- Promises, events and timers are left out. The model describes what a completed
  chain computes; the 1-second exit delay of `terminate` and the `Limiter` queues are
  not modelled.
- DOM, Electron, the file system and the network are parameters or left out: downloads,
  zip extraction, `pfs`, `gulp` streams, `tslint` and the `hygiene` pre-commit hook.
  File contents, existence checks and scan results are inputs.
- Floating point is left out. `toFloat` options and `fontSize`-based metrics are not
  modelled. The viewport column that `createInternalEditorOptions` obtains by
  floating-point division is an abstract input of at least 1.
- The foreign code is taken as function parameters: semver ordering (a rank
  function), the regular-expression engine (its match list), `paths.join`,
  `SystemVariables.resolve`, `IOSupport.readKeybinding`/`readKeybindingContexts`,
  `KeybindingResolver.resolve`, `ModeTransition.findIndexInSegmentsArray`, and the
  LCS diff (an edit script). rangeMap.ts, rowCache.ts, arrays.ts, objects.ts and
  modeTransition.ts are not part of this model; `RangeMap` and `RowCache` are
  abstract stand-ins.
- `_layoutBoxInPage` is left out: it reads browser window and scroll metrics. The
  placement of an overflowing widget is an input.
- The retention limit of the row cache's pools and the disposal of rows are left
  out.
- Localised message texts are left out; rejections and errors are datatype
  constructors. The hygiene failure message is kept verbatim.
- `_getExtraKeybindings` telemetry and `getLabelFor` label rendering are left out.
  The two labels are inputs of `ElectronAcceleratorFor`.
- `ListView.Render`: `render` is specified for a given window. The scroll-event wiring
  that calls it is left out.
- `LinkComputer.ComputeLinks`: character codes are Dafny `char`s. The classifier's
  fixed-size table is a predicate over all characters, not an array.
- `LinkComputer.ComputeLinks`: columns count Unicode scalar values, not UTF-16 code
  units. A character beyond U+FFFF earlier on the line moves the editor's columns one
  further right than the model's.
- `Strings.LexLess`: compares code points where JavaScript's default sort compares
  UTF-16 code units. The two orders differ only between a character beyond U+FFFF
  and one in U+E000–U+FFFF. `Strings.SortStrings` and the channel order of
  `OutputActions` inherit this.
- `EditorOptions.Mixin`: objects.ts is not part of this model. `Mixin` follows that
  library's `mixin` with its default `overwrite`. Only the model's objects count as
  objects; arrays are values that overwrite.
- `ExtensionHost.ReadExtensions`: the three scans run concurrently and report to one
  collector. The model puts the built-in scan's reports first, then the user scan's, then
  the development scan's. In the running host, asynchronous file reads may interleave
  them differently. The join's error array leaves the slot of a scan that did not fail
  undefined; the model writes `None` there.
- `ExtensionsService.GetInstalled`: a version's rank is a total function here. The
  rejection for versions semver cannot parse is modelled separately, by
  `GetInstalledParsed` and `DeprecatedIdsParsed`. Among versions of equal rank, the model
  keeps the earlier folder entry, as a stable sort would. `Array.prototype.sort` did not
  promise stability for more than ten elements, so the running code may keep another one.
- `JsValues.ToStr`: prints every number as plain decimal digits. JavaScript switches to
  exponent form (`1e+21`) from 10^21 on; no bound on `Num` excludes such numbers.
- `JsValues.Get`: reads own properties only. There is no prototype chain, so keys that
  name members of `Object.prototype` or `String.prototype` (`constructor`, `toString`,
  `charAt`, …) read as undefined in the model, where JavaScript gives a function.
  `extractSetting({}, 'constructor')` is such a case. A string's `length` counts Unicode
  scalar values, not UTF-16 code units.
- `JsValues.Lookup`: objects keep insertion order for every key. JavaScript
  enumerates array-index keys such as `"0"` or `"42"` first, in numeric order. The
  `for … in` walk of the configuration context, `Object.keys` and the merge order of
  extension ids are modelled for non-index keys only.

## Notes on the source's behaviour

- `toArray` treats the empty module name as falsy and gives `[]`.
- `getSchemaAttributes` rewrites the adapter's attribute objects in place, so a
  second call prepends the default `required` names again
  (`DebugAdapter.SecondCallRepeatsDefaults`).
- Rendering the same window twice re-inserts the item at
  `indexAt(renderTop + renderHeight)` (`ListView.RenderTwice`). `insertItemInDOM`
  allocates no second row for it, but the DOM node is placed again.
- The link computer does not backtrack: in `hhttp://x` the second `h` resets the
  machine and no link is found.
- `_asCommandRule` drops a rule only when the main key parses to 0 *and* `mac`,
  `linux` and `win` are all falsy. A non-empty platform key that does not parse
  still keeps the rule. The model follows this code, which is weaker than
  "none of the keys parses".
- `lineDecorationsWidth` tests the truthiness of the raw `folding` option. The
  string `'false'` therefore turns folding off but still adds 16 pixels
  (`EditorOptions.FoldingFalseStringStillWidens`).
- `getRenderedItemRanges` starts its walk at `lastRenderTop`, so its spans are true
  item positions only when that is the top of an item (`ListView.WalkAtPositions`).
- A disposed context still feeds its children, which hold it by reference. Only
  `getContext` stops finding it.

=== FILE: buildfile.dfy ===
/**
 * The bundle list of the editor languages build (buildfile-editor-languages.js).
 * An entry point remembers the modules already bundled before it; defining a
 * module appends one bundle that excludes the loader plugins, those modules
 * and the extra excludes, and gives an entry point that also remembers the new
 * module. Entry points write into a result list they share; here the lists
 * are a store keyed by a list number, and an entry point holds the number of
 * its list.
 */
module Buildfile {
  import opened Wrappers

  /** A `modules` or `excludes` argument: `undefined`, one module name, or an array of them. */
  datatype Param = Absent | One(name: string) | Many(names: seq<string>)

  /** `toArray`: nothing for a falsy argument (`undefined` or the empty name), a one-element list for a name, the array itself otherwise. */
  function ToArray(p: Param): (r: seq<string>)
    ensures p.Absent? ==> r == []
    ensures p.One? ==> (if p.name == "" then r == [] else r == [p.name])
    ensures p.Many? ==> r == p.names
  {
    match p
    case Absent => []
    case One(n) => if n == "" then [] else [n]
    case Many(ns) => ns
  }

  /** One bundle of the result list: the module and what it leaves out. */
  datatype Bundle = Bundle(name: string, exclude: seq<string>)

  /** The loader plugins every bundle defined through an entry point leaves out. */
  const LoaderPlugins: seq<string> := ["vs/css", "vs/nls", "vs/text"]

  datatype EntryPoint = EntryPoint(list: nat, modules: seq<string>)

  /** The result lists, keyed by list number. */
  type Store = map<nat, seq<Bundle>>

  /** `new EntryPoint(result, modules)`. */
  function NewEntryPoint(list: nat, modules: Param): (e: EntryPoint)
    ensures e.list == list && e.modules == ToArray(modules)
  {
    EntryPoint(list, ToArray(modules))
  }

  /**
   * `define(moduleId, excludes)`: push one bundle onto the entry point's list
   * and return an entry point on the same list that also remembers the module
   * and its excludes. No other list changes.
   */
  function Define(store: Store, e: EntryPoint, moduleId: string, excludes: Param): (r: (Store, EntryPoint))
    requires e.list in store
    ensures r.0.Keys == store.Keys
    ensures |r.0[e.list]| == |store[e.list]| + 1
    ensures r.0[e.list][..|store[e.list]|] == store[e.list]
    ensures Last(r.0[e.list]).name == moduleId
    ensures |Last(r.0[e.list]).exclude| >= |LoaderPlugins| && Last(r.0[e.list]).exclude[..|LoaderPlugins|] == LoaderPlugins
    ensures forall m :: m in Last(r.0[e.list]).exclude <==> m in LoaderPlugins || m in e.modules || m in ToArray(excludes)
    ensures forall l :: l in store && l != e.list ==> r.0[l] == store[l]
    ensures r.1.list == e.list
    ensures |r.1.modules| >= |e.modules| && r.1.modules[..|e.modules|] == e.modules
    ensures forall m :: m in r.1.modules <==> m in e.modules || m == moduleId || m in ToArray(excludes)
  {
    var ex := ToArray(excludes);
    var bundle := Bundle(moduleId, LoaderPlugins + e.modules + ex);
    (store[e.list := store[e.list] + [bundle]], EntryPoint(e.list, e.modules + [moduleId] + ex))
  }

  function Last(s: seq<Bundle>): Bundle
    requires |s| > 0
  {
    s[|s| - 1]
  }

  /** `combine(other)`: the receiver's list, with the other entry point's modules after the receiver's. */
  function Combine(e: EntryPoint, other: EntryPoint): (r: EntryPoint)
    ensures r.list == e.list
    ensures |r.modules| == |e.modules| + |other.modules|
    ensures r.modules[..|e.modules|] == e.modules && r.modules[|e.modules|..] == other.modules
  {
    EntryPoint(e.list, e.modules + other.modules)
  }

  /** Define the modules of `ids` one after another, each on the entry point the previous one returned. */
  function DefineChain(store: Store, e: EntryPoint, ids: seq<string>): (r: (Store, EntryPoint))
    requires e.list in store
    ensures r.0.Keys == store.Keys
    ensures r.1.list == e.list
    ensures |r.0[e.list]| == |store[e.list]| + |ids|
    ensures r.0[e.list][..|store[e.list]|] == store[e.list]
    ensures forall l :: l in store && l != e.list ==> r.0[l] == store[l]
    decreases |ids|
  {
    if |ids| == 0 then (store, e)
    else
      var (s1, e1) := Define(store, e, ids[0], Absent);
      var r := DefineChain(s1, e1, ids[1..]);
      assert r.0[e.list][..|store[e.list]|] == r.0[e.list][..|s1[e.list]|][..|store[e.list]|];
      r
  }

  /** The bundles a chain of defines pushes, with the modules the last entry point remembers. */
  lemma DefineChainPushes(store: Store, e: EntryPoint, ids: seq<string>)
    requires e.list in store
    ensures var r := DefineChain(store, e, ids);
      var n := |store[e.list]|;
      |r.0[e.list]| == n + |ids| && r.0[e.list][..n] == store[e.list]
      && (forall j :: 0 <= j < |ids| ==> r.0[e.list][n..][j].name == ids[j])
      && (forall j, m :: 0 <= j < |ids| && m in e.modules ==> m in r.0[e.list][n..][j].exclude)
      && (forall i, j :: 0 <= i < j < |ids| ==> ids[i] in r.0[e.list][n..][j].exclude)
      && (forall m :: m in r.1.modules <==> m in e.modules || m in ids)
  {
    DefineChainBundles(store, e, ids);
    DefineChainModules(store, e, ids);
    assert Pushed(store, e, ids) == DefineChain(store, e, ids).0[e.list][|store[e.list]|..];
  }

  /** The bundles a chain of defines pushes onto the entry point's list. */
  function Pushed(store: Store, e: EntryPoint, ids: seq<string>): (bs: seq<Bundle>)
    requires e.list in store
    ensures |bs| == |ids|
  {
    DefineChain(store, e, ids).0[e.list][|store[e.list]|..]
  }

  /** A chain pushes its first module's bundle, then what the rest of the chain pushes. */
  lemma PushedStep(store: Store, e: EntryPoint, ids: seq<string>)
    requires e.list in store && |ids| > 0
    ensures var (s1, e1) := Define(store, e, ids[0], Absent);
      e1.list in s1 && Pushed(store, e, ids) == [Last(s1[e.list])] + Pushed(s1, e1, ids[1..])
  {
    var (s1, e1) := Define(store, e, ids[0], Absent);
    var n := |store[e.list]|;
    var all := DefineChain(s1, e1, ids[1..]).0[e.list];
    assert all == DefineChain(store, e, ids).0[e.list];
    assert all[..n + 1] == s1[e.list];
    assert all[n..] == [all[n]] + all[n + 1..];
  }

  /** Each bundle of a chain is named after its module and excludes the entry point's modules and the modules before it. */
  lemma {:induction false} DefineChainBundles(store: Store, e: EntryPoint, ids: seq<string>)
    requires e.list in store
    ensures forall j :: 0 <= j < |ids| ==> Pushed(store, e, ids)[j].name == ids[j]
    ensures forall j, m :: 0 <= j < |ids| && m in e.modules ==> m in Pushed(store, e, ids)[j].exclude
    ensures forall i, j :: 0 <= i < j < |ids| ==> ids[i] in Pushed(store, e, ids)[j].exclude
    decreases |ids|
  {
    if |ids| > 0 {
      var (s1, e1) := Define(store, e, ids[0], Absent);
      PushedStep(store, e, ids);
      DefineChainBundles(s1, e1, ids[1..]);
      var bs := Pushed(store, e, ids);
      var later := Pushed(s1, e1, ids[1..]);
      assert forall j :: 0 < j < |ids| ==> bs[j] == later[j - 1];
      forall j, m | 0 <= j < |ids| && m in e.modules
        ensures m in bs[j].exclude
      {
        if j > 0 {
          assert m in e1.modules;
        }
      }
      forall i, j | 0 <= i < j < |ids|
        ensures ids[i] in bs[j].exclude
      {
        assert ids[1..][j - 1] == ids[j];
        if i == 0 {
          assert ids[0] in e1.modules;
        } else {
          assert ids[1..][i - 1] == ids[i];
        }
      }
      forall j | 0 <= j < |ids|
        ensures bs[j].name == ids[j]
      {
        if j > 0 {
          assert ids[1..][j - 1] == ids[j];
        }
      }
    }
  }

  /** After a chain, the entry point remembers its own modules and every module of the chain, and nothing else. */
  lemma {:induction false} DefineChainModules(store: Store, e: EntryPoint, ids: seq<string>)
    requires e.list in store
    ensures forall m :: m in DefineChain(store, e, ids).1.modules <==> m in e.modules || m in ids
    decreases |ids|
  {
    if |ids| > 0 {
      var (s1, e1) := Define(store, e, ids[0], Absent);
      assert DefineChain(s1, e1, ids[1..]) == DefineChain(store, e, ids);
      DefineChainModules(s1, e1, ids[1..]);
      forall m
        ensures m in ids <==> m == ids[0] || m in ids[1..]
      {
        assert ids == [ids[0]] + ids[1..];
      }
    }
  }

  const LanguagesCommon := "vs/editor/common/languages.common"
  const WorkerServer := "vs/base/common/worker/workerServer"
  const EditorWorkerServer := "vs/editor/common/worker/editorWorkerServer"
  const Json := "vs/languages/json/common/json"
  const JsonWorker := "vs/languages/json/common/jsonWorker"
  const TypeScriptServices := "vs/languages/typescript/common/lib/typescriptServices"
  const TypeScriptWorker := "vs/languages/typescript/common/worker"
  const TypeScriptMode := "vs/languages/typescript/common/mode"

  /** The three TypeScript bundles, pushed directly onto the result list. */
  const TypeScriptBundles: seq<Bundle> := [
    Bundle(TypeScriptServices, LoaderPlugins),
    Bundle(TypeScriptWorker, ["vs/base/common/worker/simpleWorker", TypeScriptServices] + LoaderPlugins),
    Bundle(TypeScriptMode, ["vs/editor/editor.main", TypeScriptServices] + LoaderPlugins)
  ]

  /**
   * `collectModules`: the JSON mode bundle, the JSON worker bundle (which
   * leaves out the common languages module, the worker servers and the JSON
   * mode), and the three TypeScript bundles, in that order.
   */
  function CollectModules(): (r: seq<Bundle>)
    ensures |r| == 5
    ensures r[0] == Bundle(Json, LoaderPlugins + [LanguagesCommon])
    ensures r[1].name == JsonWorker
    ensures forall m :: m in r[1].exclude <==> m in LoaderPlugins || m in [LanguagesCommon, Json, WorkerServer, EditorWorkerServer]
    ensures r[2..] == TypeScriptBundles
  {
    var store: Store := map[0 := []];
    var common := NewEntryPoint(0, One(LanguagesCommon));
    var worker := NewEntryPoint(0, Many([LanguagesCommon, WorkerServer, EditorWorkerServer]));
    var (s1, json) := Define(store, common, Json, Absent);
    var (s2, _) := Define(s1, Combine(json, worker), JsonWorker, Absent);
    s2[0] + TypeScriptBundles
  }
}

=== FILE: configuration.dfy ===
/**
 * `extractSetting` (configuration.ts): reads a dotted setting path such as
 * `editor.fontSize` out of a configuration object, stopping with `undefined`
 * at the first step whose value is falsy.
 */
module Configuration {
  import opened Wrappers
  import opened Strings
  import opened JsValues

  /**
   * `accessSetting`: follow `path` from `current`, one property read per key.
   * A read from `undefined` or `null` throws; a falsy step ends the walk with
   * `undefined`.
   */
  function AccessSetting(current: Value, path: seq<string>): (r: Result<Value, TypeError>)
    ensures |path| == 0 ==> r == Ok(current)
    ensures |path| > 0 ==> (r.Err? <==> current.Undefined? || current.Null?)
    ensures |path| > 0 && r.Ok? ==> r.value.Undefined? || Truthy(r.value)
    decreases |path|
  {
    if |path| == 0 then Ok(current)
    else
      var next :- Get(current, path[0]);
      if !Truthy(next) then Ok(Undefined) else AccessSetting(next, path[1..])
  }

  /** `extractSetting(config, settingPath)`: the path is the setting name split at every dot. */
  function ExtractSetting(config: Value, settingPath: string): (r: Result<Value, TypeError>)
    ensures r.Err? <==> config.Undefined? || config.Null?
    ensures r.Ok? ==> r.value.Undefined? || Truthy(r.value)
  {
    AccessSetting(config, Split(settingPath, '.'))
  }

  /** The reference configuration: `v` stored under the keys of `path`, one object per key. */
  function Nest(path: seq<string>, v: Value): Value {
    if |path| == 0 then v else Obj([Prop(path[0], Nest(path[1..], v))])
  }

  /** A truthy value stored along a path is read back along that path. */
  lemma {:induction false} NestedTruthyFound(path: seq<string>, v: Value)
    requires Truthy(v)
    ensures AccessSetting(Nest(path, v), path) == Ok(v)
    decreases |path|
  {
    if |path| > 0 {
      NestedTruthyFound(path[1..], v);
      NestTruthy(path[1..], v);
    }
  }

  /** A falsy value stored along a non-empty path reads back as `undefined`. */
  lemma {:induction false} NestedFalsyUndefined(path: seq<string>, v: Value)
    requires |path| > 0 && !Truthy(v)
    ensures AccessSetting(Nest(path, v), path) == Ok(Undefined)
    decreases |path|
  {
    if |path| > 1 {
      NestedFalsyUndefined(path[1..], v);
    }
  }

  lemma NestTruthy(path: seq<string>, v: Value)
    requires Truthy(v)
    ensures Truthy(Nest(path, v))
  {
  }

  /**
   * Walking `p + q` is walking `p` and then, from a truthy value found there,
   * walking `q`.
   */
  lemma {:induction false} AccessConcat(current: Value, p: seq<string>, q: seq<string>, v: Value)
    requires AccessSetting(current, p) == Ok(v) && Truthy(v)
    ensures AccessSetting(current, p + q) == AccessSetting(v, q)
    decreases |p|
  {
    if |p| > 0 {
      var next := Get(current, p[0]).value;
      assert Truthy(next) && AccessSetting(current, p) == AccessSetting(next, p[1..]);
      assert (p + q)[0] == p[0];
      assert (p + q)[1..] == p[1..] + q;
      AccessConcat(next, p[1..], q, v);
    } else {
      assert p + q == q;
    }
  }

  /**
   * A setting name made of dot-free keys reads back a value stored under
   * those keys: the value itself when it is truthy, `undefined` otherwise.
   */
  lemma ExtractNested(path: seq<string>, v: Value)
    requires |path| >= 1
    requires forall i :: 0 <= i < |path| ==> '.' !in path[i]
    ensures ExtractSetting(Nest(path, v), Join(path, '.')) == if Truthy(v) then Ok(v) else Ok(Undefined)
  {
    JoinSplit(path, '.');
    if Truthy(v) {
      NestedTruthyFound(path, v);
    } else {
      NestedFalsyUndefined(path, v);
    }
  }

  /** A key the object has neither as its own nor through an inherited member reads as `undefined`, whatever follows it. */
  lemma MissingKeyUndefined(props: seq<Prop>, path: seq<string>)
    requires |path| > 0 && Lookup(props, path[0]).None?
    ensures AccessSetting(Obj(props), path) == Ok(Undefined)
  {
  }
}

=== FILE: content_widgets.dfy ===
/**
 * Content widgets of the editor view (contentWidgets.ts): the registry of
 * widgets, the arithmetic that places a widget's box above or below its line
 * inside the viewport, the two-pass choice among a widget's position
 * preferences, and the visibility flags `_render` keeps. The rendering
 * context is a collaborator: what it answers for a widget (its visible range,
 * the size of its DOM node, and the page-relative box of an overflowing
 * widget) is passed in as `Geometry`.
 */
module ContentWidgets {
  import opened Wrappers

  /** `ContentWidgetPositionPreference`. */
  datatype Pref = Exact | Above | Below

  /** What `visibleRangeForPosition` answers: pixel offsets of the position inside the viewport. */
  datatype VisibleRange = VisibleRange(top: int, left: int)

  datatype Position = Position(lineNumber: nat, column: nat)

  /** `IBoxLayoutResult`. */
  datatype Box = Box(aboveTop: int, fitsAbove: bool, belowTop: int, fitsBelow: bool, left: int)

  /** `IMyWidgetRenderData`. */
  datatype RenderData = RenderData(top: int, left: int)

  /** The parts of the rendering context and configuration the placement reads. */
  datatype Viewport = Viewport(
    viewportLeft: int, viewportWidth: nat, viewportHeight: nat,
    viewportTop: int, bigNumbersDelta: int, lineHeight: nat)

  /**
   * What the rendering context says about one widget: the visible range of
   * its position, the client size of its DOM node, and the result of the
   * page layout used for widgets that may overflow the editor.
   */
  datatype Geometry = Geometry(visible: Option<VisibleRange>, width: nat, height: nat, pageBox: Option<Box>)

  /** `IWidgetData`; `position` and `preference` are null until the widget is first positioned. */
  datatype WidgetData = WidgetData(
    allowEditorOverflow: bool,
    position: Option<Position>,
    preference: Option<seq<Pref>>,
    isVisible: bool)

  datatype Widgets = Widgets(widgets: map<string, WidgetData>, shouldRender: bool)

  /** A freshly constructed view part holds no widgets. */
  const Initial := Widgets(map[], false)

  datatype TypeError = UnknownWidget(id: string)

  /** `addWidget`: a hidden, unpositioned widget under its id (replacing any widget with that id). */
  function AddWidget(s: Widgets, id: string, allowEditorOverflow: bool): (r: Widgets)
    ensures r.widgets.Keys == s.widgets.Keys + {id}
    ensures r.widgets[id] == WidgetData(allowEditorOverflow, None, None, false)
    ensures forall other :: other in s.widgets && other != id ==> r.widgets[other] == s.widgets[other]
    ensures r.shouldRender
  {
    Widgets(s.widgets[id := WidgetData(allowEditorOverflow, None, None, false)], true)
  }

  /**
   * `setWidgetPosition`: the source reads the widget's data without checking
   * it exists, so an unknown id throws.
   */
  function SetWidgetPosition(s: Widgets, id: string, position: Option<Position>, preference: Option<seq<Pref>>): (r: Result<Widgets, TypeError>)
    ensures r.Err? <==> id !in s.widgets
    ensures r.Ok? ==> r.value.widgets.Keys == s.widgets.Keys && r.value.shouldRender
    ensures r.Ok? ==> r.value.widgets[id].position == position && r.value.widgets[id].preference == preference
    ensures r.Ok? ==> r.value.widgets[id].allowEditorOverflow == s.widgets[id].allowEditorOverflow
    ensures r.Ok? ==> r.value.widgets[id].isVisible == s.widgets[id].isVisible
    ensures r.Ok? ==> forall other :: other in s.widgets && other != id ==> r.value.widgets[other] == s.widgets[other]
  {
    if id !in s.widgets then Err(UnknownWidget(id))
    else Ok(Widgets(s.widgets[id := s.widgets[id].(position := position, preference := preference)], true))
  }

  /** `removeWidget`: an unknown id changes nothing at all. */
  function RemoveWidget(s: Widgets, id: string): (r: Widgets)
    ensures id !in s.widgets ==> r == s
    ensures id in s.widgets ==> r.widgets.Keys == s.widgets.Keys - {id} && r.shouldRender
    ensures forall other :: other in r.widgets ==> other in s.widgets && r.widgets[other] == s.widgets[other]
  {
    if id in s.widgets then Widgets(s.widgets - {id}, true) else s
  }

  /** Adding a widget under a new id and removing it again leaves the registry as it was. */
  lemma AddThenRemove(s: Widgets, id: string, allowEditorOverflow: bool)
    requires id !in s.widgets
    ensures RemoveWidget(AddWidget(s, id, allowEditorOverflow), id).widgets == s.widgets
  {
    assert RemoveWidget(AddWidget(s, id, allowEditorOverflow), id).widgets.Keys == s.widgets.Keys;
  }

  /**
   * `_layoutBoxInViewport`: the line splits the viewport into the room above
   * it and the room below it. The box goes directly above or directly below
   * the line, and its left edge is pulled back so the box stays inside the
   * viewport, the left viewport edge taking priority.
   */
  function LayoutBoxInViewport(visible: Option<VisibleRange>, width: nat, height: nat, vp: Viewport): (r: Option<Box>)
    ensures r.None? <==> visible.None?
    ensures r.Some? ==> r.value.aboveTop == visible.value.top - height
    ensures r.Some? ==> r.value.belowTop == visible.value.top + vp.lineHeight
    ensures r.Some? ==> (r.value.fitsAbove <==> visible.value.top >= height)
    ensures r.Some? ==> (r.value.fitsBelow <==> vp.viewportHeight - (visible.value.top + vp.lineHeight) >= height)
    ensures r.Some? ==> r.value.left >= vp.viewportLeft
    ensures r.Some? && width <= vp.viewportWidth ==> r.value.left + width <= vp.viewportLeft + vp.viewportWidth
    ensures r.Some? && vp.viewportLeft <= visible.value.left && visible.value.left + width <= vp.viewportLeft + vp.viewportWidth ==>
      r.value.left == visible.value.left
  {
    match visible
    case None => None
    case Some(range) =>
      var underLineTop := range.top + vp.lineHeight;
      var left := if range.left + width > vp.viewportLeft + vp.viewportWidth then vp.viewportLeft + vp.viewportWidth - width else range.left;
      var left' := if left < vp.viewportLeft then vp.viewportLeft else left;
      Some(Box(range.top - height, range.top >= height, underLineTop, vp.viewportHeight - underLineTop >= height, left'))
  }

  /** The render data an ABOVE or BELOW preference asks for. */
  function Chosen(p: Pref, b: Box): (d: RenderData)
    requires !p.Exact?
    ensures d.left == b.left
    ensures d.top == if p.Above? then b.aboveTop else b.belowTop
  {
    if p.Above? then RenderData(b.aboveTop, b.left) else RenderData(b.belowTop, b.left)
  }

  /**
   * One pass of the preference loop in `_prepareRenderWidget`. `None` means
   * the loop ran out of preferences; `Some(d)` means it returned `d`, which
   * may itself be null. An EXACT preference always returns; an ABOVE or
   * BELOW one returns null outside the viewport, and otherwise returns when
   * it fits or in the second pass.
   */
  function Scan(prefs: seq<Pref>, second: bool, placement: Option<Box>, exact: Option<RenderData>): (r: Option<Option<RenderData>>)
    ensures second && |prefs| > 0 ==> r == Some(Decide(prefs[0], placement, exact))
    ensures |prefs| == 0 ==> r.None?
  {
    if |prefs| == 0 then None
    else match prefs[0]
      case Exact => Some(exact)
      case Above =>
        if placement.None? then Some(None)
        else if second || placement.value.fitsAbove then Some(Some(Chosen(Above, placement.value)))
        else Scan(prefs[1..], second, placement, exact)
      case Below =>
        if placement.None? then Some(None)
        else if second || placement.value.fitsBelow then Some(Some(Chosen(Below, placement.value)))
        else Scan(prefs[1..], second, placement, exact)
  }

  /** A preference that settles the first pass: EXACT, any preference outside the viewport, or a fitting one. */
  predicate Decisive(p: Pref, placement: Option<Box>) {
    p.Exact? || placement.None? || (p.Above? && placement.value.fitsAbove) || (p.Below? && placement.value.fitsBelow)
  }

  /** What a preference yields once it is the one taken. */
  function Decide(p: Pref, placement: Option<Box>, exact: Option<RenderData>): (d: Option<RenderData>)
    ensures p.Exact? ==> d == exact
    ensures !p.Exact? ==> (d.Some? <==> placement.Some?)
    ensures !p.Exact? && placement.Some? ==> d == Some(Chosen(p, placement.value))
  {
    if p.Exact? then exact else if placement.None? then None else Some(Chosen(p, placement.value))
  }

  /** The position of the first decisive preference, or the number of preferences when none is. */
  function FirstDecisive(prefs: seq<Pref>, placement: Option<Box>): (k: nat)
    ensures k <= |prefs|
    ensures forall j :: 0 <= j < k ==> !Decisive(prefs[j], placement)
    ensures k < |prefs| ==> Decisive(prefs[k], placement)
  {
    if |prefs| == 0 then 0
    else if Decisive(prefs[0], placement) then 0
    else 1 + FirstDecisive(prefs[1..], placement)
  }

  /**
   * The choice the two passes make, stated directly: the first decisive
   * preference; failing that, the first preference regardless of fit;
   * nothing when there are no preferences.
   */
  function Preferred(prefs: seq<Pref>, placement: Option<Box>, exact: Option<RenderData>): Option<RenderData> {
    var k := FirstDecisive(prefs, placement);
    if k < |prefs| then Decide(prefs[k], placement, exact)
    else if |prefs| == 0 then None
    else Decide(prefs[0], placement, exact)
  }

  /** The first pass returns exactly at the first decisive preference. */
  lemma {:induction false} FirstPassDecisive(prefs: seq<Pref>, placement: Option<Box>, exact: Option<RenderData>)
    ensures var k := FirstDecisive(prefs, placement);
      Scan(prefs, false, placement, exact) == if k < |prefs| then Some(Decide(prefs[k], placement, exact)) else None
  {
    if |prefs| > 0 && !Decisive(prefs[0], placement) {
      FirstPassDecisive(prefs[1..], placement, exact);
    }
  }

  /**
   * `_prepareRenderWidget`: no render data without a position or a
   * preference list; otherwise the first pass looks for a perfect fit and the
   * second pass takes the first preference. `placement` is the box the
   * widget's layout computed (it is fetched once, lazily, in the source, and
   * is the same on every use) and `exact` what EXACT yields.
   */
  function PrepareRenderWidget(w: WidgetData, placement: Option<Box>, exact: Option<RenderData>): (r: Option<RenderData>)
    ensures w.position.None? || w.preference.None? ==> r.None?
    ensures w.position.Some? && w.preference.Some? ==> r == Preferred(w.preference.value, placement, exact)
  {
    if w.position.None? || w.preference.None? then None
    else
      var prefs := w.preference.value;
      FirstPassDecisive(prefs, placement, exact);
      match Scan(prefs, false, placement, exact)
      case Some(d) => d
      case None =>
        match Scan(prefs, true, placement, exact)
        case Some(d) => d
        case None => None
  }

  /** The placement of one widget: the viewport layout, or the page layout for a widget allowed to overflow. */
  function Placement(w: WidgetData, geo: Geometry, vp: Viewport): (b: Option<Box>)
    ensures !w.allowEditorOverflow ==> b == LayoutBoxInViewport(geo.visible, geo.width, geo.height, vp)
    ensures geo.visible.None? ==> b.None?
  {
    if w.allowEditorOverflow then (if geo.visible.None? then None else geo.pageBox)
    else LayoutBoxInViewport(geo.visible, geo.width, geo.height, vp)
  }

  /** `_prepareRenderWidgetAtExactPosition`: the visible range itself. */
  function ExactData(geo: Geometry): (d: Option<RenderData>)
    ensures d.Some? <==> geo.visible.Some?
    ensures d.Some? ==> d.value.top == geo.visible.value.top && d.value.left == geo.visible.value.left
  {
    if geo.visible.None? then None else Some(RenderData(geo.visible.value.top, geo.visible.value.left))
  }

  function WidgetRenderData(w: WidgetData, geo: Geometry, vp: Viewport): Option<RenderData> {
    PrepareRenderWidget(w, Placement(w, geo, vp), ExactData(geo))
  }

  /** The style top of a rendered widget: overflowing widgets are positioned in page coordinates. */
  function StyleTop(w: WidgetData, d: RenderData, vp: Viewport): (top: int)
    ensures w.allowEditorOverflow ==> top == d.top
    ensures !w.allowEditorOverflow ==> top - d.top == vp.viewportTop - vp.bigNumbersDelta
  {
    if w.allowEditorOverflow then d.top else d.top + vp.viewportTop - vp.bigNumbersDelta
  }

  /** One widget after `_render`: shown exactly when it received render data. */
  function Shown(w: WidgetData, geo: Geometry, vp: Viewport): (w': WidgetData)
    ensures w'.isVisible <==> WidgetRenderData(w, geo, vp).Some?
    ensures w' == w.(isVisible := w'.isVisible)
  {
    w.(isVisible := WidgetRenderData(w, geo, vp).Some?)
  }

  /** The (top, left) style `_render` gives a widget, if it is shown. */
  function Style(w: WidgetData, geo: Geometry, vp: Viewport): (st: Option<(int, int)>)
    ensures st.Some? <==> WidgetRenderData(w, geo, vp).Some?
    ensures st.Some? ==> var d := WidgetRenderData(w, geo, vp).value; st.value == (StyleTop(w, d, vp), d.left)
  {
    var d := WidgetRenderData(w, geo, vp);
    if d.None? then None else Some((StyleTop(w, d.value, vp), d.value.left))
  }

  /** The outcome of one `_render`: the widgets with updated visibility and the (top, left) style of each shown one. */
  datatype Rendered = Rendered(widgets: Widgets, styles: map<string, (int, int)>)

  /**
   * `_render`: render data is computed for every widget; a widget that got
   * some is shown at it, and every other widget is hidden.
   */
  function Render(s: Widgets, geometry: string -> Geometry, vp: Viewport): (r: Rendered)
    ensures r.widgets.widgets.Keys == s.widgets.Keys
    ensures r.widgets.shouldRender == s.shouldRender
    ensures forall id :: id in r.styles <==> id in s.widgets && WidgetRenderData(s.widgets[id], geometry(id), vp).Some?
    ensures forall id :: id in s.widgets ==>
      (r.widgets.widgets[id].isVisible <==> WidgetRenderData(s.widgets[id], geometry(id), vp).Some?)
    ensures forall id :: id in s.widgets ==>
      r.widgets.widgets[id] == s.widgets[id].(isVisible := r.widgets.widgets[id].isVisible)
    ensures forall id :: id in r.styles && id in s.widgets && WidgetRenderData(s.widgets[id], geometry(id), vp).Some? ==>
      var d := WidgetRenderData(s.widgets[id], geometry(id), vp).value;
      r.styles[id] == (StyleTop(s.widgets[id], d, vp), d.left)
  {
    var widgets := map id | id in s.widgets :: Shown(s.widgets[id], geometry(id), vp);
    var styles := map id | id in s.widgets && Style(s.widgets[id], geometry(id), vp).Some? :: Style(s.widgets[id], geometry(id), vp).value;
    Rendered(Widgets(widgets, s.shouldRender), styles)
  }

  /** Showing or hiding a widget changes neither its render data nor its style. */
  lemma ShownStable(w: WidgetData, geo: Geometry, vp: Viewport)
    ensures Shown(Shown(w, geo, vp), geo, vp) == Shown(w, geo, vp)
    ensures Style(Shown(w, geo, vp), geo, vp) == Style(w, geo, vp)
  {
    var w' := Shown(w, geo, vp);
    assert Placement(w', geo, vp) == Placement(w, geo, vp);
    assert WidgetRenderData(w', geo, vp) == WidgetRenderData(w, geo, vp);
  }

  /** Rendering again with the same geometry shows and hides the same widgets at the same places. */
  lemma RenderStable(s: Widgets, geometry: string -> Geometry, vp: Viewport)
    ensures var r := Render(s, geometry, vp); Render(r.widgets, geometry, vp) == r
  {
    var r := Render(s, geometry, vp);
    var r2 := Render(r.widgets, geometry, vp);
    RenderStableWidgets(s, geometry, vp);
    RenderStableStyles(s, geometry, vp);
    assert r2.widgets == r.widgets;
  }

  lemma RenderStableWidgets(s: Widgets, geometry: string -> Geometry, vp: Viewport)
    ensures var r := Render(s, geometry, vp); Render(r.widgets, geometry, vp).widgets.widgets == r.widgets.widgets
  {
    var r := Render(s, geometry, vp);
    var r2 := Render(r.widgets, geometry, vp);
    forall id | id in s.widgets
      ensures r2.widgets.widgets[id] == r.widgets.widgets[id]
    {
      ShownStable(s.widgets[id], geometry(id), vp);
    }
  }

  lemma RenderStableStyles(s: Widgets, geometry: string -> Geometry, vp: Viewport)
    ensures var r := Render(s, geometry, vp); Render(r.widgets, geometry, vp).styles == r.styles
  {
    var r := Render(s, geometry, vp);
    var r2 := Render(r.widgets, geometry, vp);
    forall id | id in s.widgets
      ensures Style(r.widgets.widgets[id], geometry(id), vp) == Style(s.widgets[id], geometry(id), vp)
    {
      ShownStable(s.widgets[id], geometry(id), vp);
    }
    assert r2.styles.Keys == r.styles.Keys;
    forall id | id in r.styles
      ensures r2.styles[id] == r.styles[id]
    {
    }
  }

  /** A widget whose position has no visible range gets no render data when it is not allowed to overflow. */
  lemma NoVisibleRangeNotShown(w: WidgetData, geo: Geometry, vp: Viewport)
    requires geo.visible.None?
    ensures WidgetRenderData(w, geo, vp).None?
  {
  }

  /**
   * Outside the viewport (no placement), a widget whose first preference is
   * ABOVE or BELOW gets no render data.
   */
  lemma {:induction false} OutsideViewportNoRender(w: WidgetData, exact: Option<RenderData>)
    requires w.position.Some? && w.preference.Some? && |w.preference.value| > 0
    requires !w.preference.value[0].Exact?
    ensures PrepareRenderWidget(w, None, exact).None?
  {
    assert Decisive(w.preference.value[0], None);
  }

  /** A later preference that fits does not beat an earlier one that fits. */
  lemma FittingAboveWins(w: WidgetData, b: Box, exact: Option<RenderData>, i: nat)
    requires w.position.Some? && w.preference.Some? && i < |w.preference.value|
    requires w.preference.value[i] == Above && b.fitsAbove
    requires forall j :: 0 <= j < i ==> !Decisive(w.preference.value[j], Some(b))
    ensures PrepareRenderWidget(w, Some(b), exact) == Some(RenderData(b.aboveTop, b.left))
  {
    assert FirstDecisive(w.preference.value, Some(b)) == i;
  }
}

=== FILE: contributed_keybindings.dfy ===
/**
 * Keybindings contributed by extensions (keybindingService.ts): the
 * validator of one contributed keybinding, its translation into a command
 * rule, the handling of one extension's contribution (a single keybinding or
 * an array of them) and of all extensions together, and two small queries of
 * the workbench keybinding service.
 *
 * `IOSupport.readKeybinding` and `readKeybindingContexts` are not part of this
 * model: the first is a function parameter, the `when` clause is kept as the
 * raw value. The weights `builtinExtension(idx)` and `externalExtension(idx)`
 * of the keybindings registry are kept symbolic.
 */
module ContributedKeybindings {
  import opened Wrappers
  import opened JsValues

  /** Why a contributed keybinding was rejected: the message the validator pushes. */
  datatype Reject =
    | ExpectedNonEmpty
    | RequireString(property: string)
    | OptionalString(property: string)

  /** The property of a value (undefined where it has none, as for every primitive). */
  function Field(v: Value, key: string): Value {
    match Get(v, key)
    case Ok(x) => x
    case Err(_) => Undefined
  }

  /** An optional property is acceptable when it is absent (falsy) or a string. */
  predicate OptionalOk(v: Value, key: string) {
    !Truthy(Field(v, key)) || Field(v, key).Str?
  }

  /** The first rejection the validator finds, checking in its order. */
  function FirstReject(kb: Value): Option<Reject> {
    if !Truthy(kb) then Some(ExpectedNonEmpty)
    else if !Field(kb, "command").Str? then Some(RequireString("command"))
    else if !Field(kb, "key").Str? then Some(RequireString("key"))
    else if !OptionalOk(kb, "when") then Some(OptionalString("when"))
    else if !OptionalOk(kb, "mac") then Some(OptionalString("mac"))
    else if !OptionalOk(kb, "linux") then Some(OptionalString("linux"))
    else if !OptionalOk(kb, "win") then Some(OptionalString("win"))
    else None
  }

  /** What a contribution must look like: an object with string `command` and `key`, the rest absent or strings. */
  predicate WellFormed(kb: Value) {
    Truthy(kb) && TypeOf(Field(kb, "command")) == "string" && TypeOf(Field(kb, "key")) == "string"
    && OptionalOk(kb, "when") && OptionalOk(kb, "mac") && OptionalOk(kb, "linux") && OptionalOk(kb, "win")
  }

  /**
   * `isValidContributedKeyBinding(keyBinding, rejects)`: on rejection exactly
   * one message is appended and the answer is false; on acceptance `rejects`
   * is left alone.
   */
  function IsValid(kb: Value, rejects: seq<Reject>): (r: (bool, seq<Reject>))
    ensures r.0 <==> WellFormed(kb)
    ensures r.0 ==> r.1 == rejects
    ensures !r.0 ==> |r.1| == |rejects| + 1 && r.1[..|rejects|] == rejects
    ensures !Truthy(kb) ==> r.1 == rejects + [ExpectedNonEmpty]
    ensures Truthy(kb) && !Field(kb, "command").Str? ==> r.1 == rejects + [RequireString("command")]
    ensures Truthy(kb) && Field(kb, "command").Str? && !Field(kb, "key").Str? ==> r.1 == rejects + [RequireString("key")]
  {
    match FirstReject(kb)
    case None => (true, rejects)
    case Some(reason) => (false, rejects + [reason])
  }

  datatype Weight = BuiltinExtension(idx: nat) | ExternalExtension(idx: nat)

  /** A registered command rule; a platform entry is present when that platform's key was given. */
  datatype CommandRule = CommandRule(
    id: string, when: Value, weight: Weight,
    primary: nat, mac: Option<nat>, linux: Option<nat>, win: Option<nat>)

  /**
   * `_asCommandRule(isBuiltin, idx, binding)`: a platform entry exists when
   * that platform's key is a non-empty string (even one that does not parse),
   * so the rule is dropped only when the main key does not parse and no
   * platform key is given.
   */
  function AsCommandRule(isBuiltin: bool, idx: nat, kb: Value, readKeybinding: string -> nat): (r: Option<CommandRule>)
    requires WellFormed(kb)
    ensures r.None? <==> (readKeybinding(Field(kb, "key").s) == 0
      && !Truthy(Field(kb, "mac")) && !Truthy(Field(kb, "linux")) && !Truthy(Field(kb, "win")))
    ensures r.Some? ==> r.value.id == Field(kb, "command").s && r.value.primary == readKeybinding(Field(kb, "key").s)
    ensures r.Some? ==> r.value.weight == if isBuiltin then BuiltinExtension(idx) else ExternalExtension(idx)
    ensures r.Some? ==> (r.value.mac.Some? <==> Truthy(Field(kb, "mac")))
  {
    assert OptionalOk(kb, "mac") && OptionalOk(kb, "linux") && OptionalOk(kb, "win");
    var weight := if isBuiltin then BuiltinExtension(idx) else ExternalExtension(idx);
    var primary := readKeybinding(Field(kb, "key").s);
    var mac := PlatformKey(Field(kb, "mac"), readKeybinding);
    var linux := PlatformKey(Field(kb, "linux"), readKeybinding);
    var win := PlatformKey(Field(kb, "win"), readKeybinding);
    if primary == 0 && mac.None? && linux.None? && win.None? then None
    else Some(CommandRule(Field(kb, "command").s, Field(kb, "when"), weight, primary, mac, linux, win))
  }

  /** `mac && { primary: readKeybinding(mac) }`. */
  function PlatformKey(v: Value, readKeybinding: string -> nat): (r: Option<nat>)
    requires !Truthy(v) || v.Str?
    ensures r.Some? <==> Truthy(v)
    ensures r.Some? ==> r.value == readKeybinding(v.s)
  {
    if Truthy(v) then Some(readKeybinding(v.s)) else None
  }

  /** What handling one keybinding produced: the rule registered, and the error reported to the collector. */
  datatype Handled = Handled(rule: Option<CommandRule>, error: Option<seq<Reject>>)

  /**
   * `_handleKeybinding(isBuiltin, idx, keybinding, collector)`: a valid
   * keybinding registers its rule when it has one; an error is reported
   * exactly when the validator rejected it.
   */
  function HandleKeybinding(isBuiltin: bool, idx: nat, kb: Value, readKeybinding: string -> nat): (h: Handled)
    ensures h.error.Some? <==> !WellFormed(kb)
    ensures h.error.Some? ==> h.error.value == [FirstReject(kb).value]
    ensures h.rule.Some? <==> WellFormed(kb) && AsCommandRule(isBuiltin, idx, kb, readKeybinding).Some?
    ensures h.rule.Some? ==> h.rule == AsCommandRule(isBuiltin, idx, kb, readKeybinding)
    ensures h.rule.Some? ==> h.rule.value.weight.idx == idx
  {
    var (ok, rejects) := IsValid(kb, []);
    var rule := if ok then AsCommandRule(isBuiltin, idx, kb, readKeybinding) else None;
    Handled(rule, if |rejects| > 0 then Some(rejects) else None)
  }

  /** The outcome of a contribution: the rules registered and the errors reported, in order. */
  datatype Outcome = Outcome(commandAdded: bool, rules: seq<CommandRule>, errors: seq<seq<Reject>>)

  /** The keybindings of one contribution handled one by one, the `j`th with index `first + j`. */
  function HandleEach(isBuiltin: bool, kbs: seq<Value>, first: nat, readKeybinding: string -> nat): (hs: seq<Handled>)
    ensures |hs| == |kbs|
    ensures forall j :: 0 <= j < |kbs| ==> hs[j] == HandleKeybinding(isBuiltin, first + j, kbs[j], readKeybinding)
  {
    seq(|kbs|, j requires 0 <= j < |kbs| => HandleKeybinding(isBuiltin, first + j, kbs[j], readKeybinding))
  }

  /** The outcome of a run of handled keybindings: their rules and their errors, in order. */
  function Gather(hs: seq<Handled>): (o: Outcome)
    ensures o.commandAdded <==> |o.rules| > 0
    ensures |o.rules| <= |hs| && |o.errors| <= |hs|
    ensures |o.errors| == ErrorCount(hs)
    decreases |hs|
  {
    if |hs| == 0 then Outcome(false, [], []) else Prepend(hs[0], Gather(hs[1..]))
  }

  /** The number of handled keybindings that reported an error. */
  function ErrorCount(hs: seq<Handled>): nat {
    if |hs| == 0 then 0 else (if hs[0].error.Some? then 1 else 0) + ErrorCount(hs[1..])
  }

  /** The rule of the `j`th handled keybinding, when there is one, carries index `first + j`. */
  predicate Indexed(hs: seq<Handled>, first: nat) {
    forall j :: 0 <= j < |hs| && hs[j].rule.Some? ==> hs[j].rule.value.weight.idx == first + j
  }

  /** An indexed run without its first outcome is indexed from the next position. */
  lemma IndexedTail(hs: seq<Handled>, first: nat)
    requires |hs| > 0 && Indexed(hs, first)
    ensures Indexed(hs[1..], first + 1)
  {
    assert forall j :: 0 <= j < |hs| - 1 ==> hs[1..][j] == hs[j + 1];
  }

  /** Each gathered rule points back, by its index, to the handled keybinding it came from. */
  lemma {:induction false} GatherPointsBack(hs: seq<Handled>, first: nat)
    requires Indexed(hs, first)
    ensures forall k :: 0 <= k < |Gather(hs).rules| ==>
      first <= Gather(hs).rules[k].weight.idx < first + |hs|
      && hs[Gather(hs).rules[k].weight.idx - first].rule == Some(Gather(hs).rules[k])
    decreases |hs|
  {
    if |hs| > 0 {
      var tail := hs[1..];
      IndexedTail(hs, first);
      GatherPointsBack(tail, first + 1);
      var o := Gather(hs);
      var rest := Gather(tail);
      var d := if hs[0].rule.Some? then 1 else 0;
      assert o.rules == (if hs[0].rule.Some? then [hs[0].rule.value] else []) + rest.rules;
      forall k | 0 <= k < |o.rules|
        ensures first <= o.rules[k].weight.idx < first + |hs| && hs[o.rules[k].weight.idx - first].rule == Some(o.rules[k])
      {
        if k < d {
          assert o.rules[k] == hs[0].rule.value && hs[0].rule.value.weight.idx == first + 0;
        } else {
          var u := rest.rules[k - d];
          assert o.rules[k] == u;
          assert tail[u.weight.idx - (first + 1)] == hs[u.weight.idx - first];
        }
      }
    }
  }

  /** The gathered rules keep the order of their keybindings. */
  lemma {:induction false} GatherInOrder(hs: seq<Handled>, first: nat)
    requires Indexed(hs, first)
    ensures forall k, l :: 0 <= k < l < |Gather(hs).rules| ==> Gather(hs).rules[k].weight.idx < Gather(hs).rules[l].weight.idx
    decreases |hs|
  {
    if |hs| > 0 {
      var tail := hs[1..];
      IndexedTail(hs, first);
      GatherPointsBack(tail, first + 1);
      GatherInOrder(tail, first + 1);
      var o := Gather(hs);
      var rest := Gather(tail);
      var d := if hs[0].rule.Some? then 1 else 0;
      assert o.rules == (if hs[0].rule.Some? then [hs[0].rule.value] else []) + rest.rules;
      forall k, l | 0 <= k < l < |o.rules| ensures o.rules[k].weight.idx < o.rules[l].weight.idx {
        assert o.rules[l] == rest.rules[l - d];
        if k < d {
          assert o.rules[k].weight.idx == first + 0;
        } else {
          assert o.rules[k] == rest.rules[k - d];
        }
      }
    }
  }

  /** The rule of every handled keybinding that has one is among the gathered rules. */
  lemma {:induction false} GatherKeepsRule(hs: seq<Handled>, j: nat)
    requires j < |hs| && hs[j].rule.Some?
    ensures hs[j].rule.value in Gather(hs).rules
    decreases j
  {
    var rest := Gather(hs[1..]);
    assert Gather(hs).rules == (if hs[0].rule.Some? then [hs[0].rule.value] else []) + rest.rules;
    if j > 0 {
      assert hs[1..][j - 1] == hs[j];
      GatherKeepsRule(hs[1..], j - 1);
    }
  }

  /** Dropping the first keybinding drops the first handled outcome. */
  lemma HandleEachTail(isBuiltin: bool, kbs: seq<Value>, first: nat, readKeybinding: string -> nat)
    requires |kbs| > 0
    ensures HandleEach(isBuiltin, kbs, first, readKeybinding)[1..] == HandleEach(isBuiltin, kbs[1..], first + 1, readKeybinding)
  {
    var hs := HandleEach(isBuiltin, kbs, first, readKeybinding);
    var ts := HandleEach(isBuiltin, kbs[1..], first + 1, readKeybinding);
    forall j | 0 <= j < |ts| ensures hs[1..][j] == ts[j] {
      assert kbs[1..][j] == kbs[j + 1] && (first + 1) + j == first + (j + 1);
    }
  }

  /** One error is reported per keybinding the validator rejects. */
  lemma {:induction false} ErrorsAreInvalid(isBuiltin: bool, kbs: seq<Value>, first: nat, readKeybinding: string -> nat)
    ensures ErrorCount(HandleEach(isBuiltin, kbs, first, readKeybinding)) == CountInvalid(kbs)
    decreases |kbs|
  {
    if |kbs| > 0 {
      HandleEachTail(isBuiltin, kbs, first, readKeybinding);
      ErrorsAreInvalid(isBuiltin, kbs[1..], first + 1, readKeybinding);
    }
  }

  /** The keybindings of one contribution handled in order, indices counting from `first`. */
  function HandleAll(isBuiltin: bool, kbs: seq<Value>, first: nat, readKeybinding: string -> nat): (o: Outcome)
    ensures o.commandAdded <==> |o.rules| > 0
    ensures |o.rules| <= |kbs| && |o.errors| <= |kbs|
    ensures forall k :: 0 <= k < |o.rules| ==> first <= o.rules[k].weight.idx < first + |kbs|
    ensures forall k, l :: 0 <= k < l < |o.rules| ==> o.rules[k].weight.idx < o.rules[l].weight.idx
    ensures |o.errors| == CountInvalid(kbs)
  {
    var hs := HandleEach(isBuiltin, kbs, first, readKeybinding);
    GatherPointsBack(hs, first);
    GatherInOrder(hs, first);
    ErrorsAreInvalid(isBuiltin, kbs, first, readKeybinding);
    Gather(hs)
  }

  /** `u` is the rule of the valid keybinding its weight points back to. */
  predicate RuleOf(isBuiltin: bool, kbs: seq<Value>, first: nat, readKeybinding: string -> nat, u: CommandRule) {
    first <= u.weight.idx < first + |kbs| && WellFormed(kbs[u.weight.idx - first])
    && AsCommandRule(isBuiltin, u.weight.idx, kbs[u.weight.idx - first], readKeybinding) == Some(u)
  }

  /** Every registered rule is the rule of the valid keybinding its weight points back to. */
  lemma RulesComeFromValidKeybindings(isBuiltin: bool, kbs: seq<Value>, first: nat, readKeybinding: string -> nat)
    ensures forall u :: u in HandleAll(isBuiltin, kbs, first, readKeybinding).rules ==> RuleOf(isBuiltin, kbs, first, readKeybinding, u)
  {
    var hs := HandleEach(isBuiltin, kbs, first, readKeybinding);
    GatherPointsBack(hs, first);
    var o := Gather(hs);
    assert o == HandleAll(isBuiltin, kbs, first, readKeybinding);
    forall k | 0 <= k < |o.rules| ensures RuleOf(isBuiltin, kbs, first, readKeybinding, o.rules[k]) {
      HandledRuleIsRuleOf(isBuiltin, kbs, first, readKeybinding, o.rules[k].weight.idx - first);
    }
  }

  /** The rule handling the `j`th keybinding yields, when there is one, is the rule of that keybinding. */
  lemma HandledRuleIsRuleOf(isBuiltin: bool, kbs: seq<Value>, first: nat, readKeybinding: string -> nat, j: nat)
    requires j < |kbs| && HandleEach(isBuiltin, kbs, first, readKeybinding)[j].rule.Some?
    ensures RuleOf(isBuiltin, kbs, first, readKeybinding, HandleEach(isBuiltin, kbs, first, readKeybinding)[j].rule.value)
  {
    var h := HandleEach(isBuiltin, kbs, first, readKeybinding)[j];
    assert h == HandleKeybinding(isBuiltin, first + j, kbs[j], readKeybinding);
    assert h.rule.value.weight.idx - first == j;
  }

  /** The rule of every valid keybinding that has one is registered. */
  lemma ValidKeybindingRegistered(isBuiltin: bool, kbs: seq<Value>, first: nat, readKeybinding: string -> nat, j: nat)
    requires j < |kbs| && WellFormed(kbs[j]) && AsCommandRule(isBuiltin, first + j, kbs[j], readKeybinding).Some?
    ensures AsCommandRule(isBuiltin, first + j, kbs[j], readKeybinding).value in HandleAll(isBuiltin, kbs, first, readKeybinding).rules
  {
    var hs := HandleEach(isBuiltin, kbs, first, readKeybinding);
    assert hs[j].rule == AsCommandRule(isBuiltin, first + j, kbs[j], readKeybinding);
    GatherKeepsRule(hs, j);
    assert Gather(hs) == HandleAll(isBuiltin, kbs, first, readKeybinding);
  }

  /** The position of a valid keybinding whose rule was registered, when a command was added. */
  lemma CommandAddedHasRule(isBuiltin: bool, kbs: seq<Value>, first: nat, readKeybinding: string -> nat) returns (j: nat)
    requires HandleAll(isBuiltin, kbs, first, readKeybinding).commandAdded
    ensures j < |kbs| && WellFormed(kbs[j]) && AsCommandRule(isBuiltin, first + j, kbs[j], readKeybinding).Some?
  {
    var hs := HandleEach(isBuiltin, kbs, first, readKeybinding);
    GatherPointsBack(hs, first);
    var o := Gather(hs);
    assert o == HandleAll(isBuiltin, kbs, first, readKeybinding);
    j := o.rules[0].weight.idx - first;
    assert hs[j] == HandleKeybinding(isBuiltin, first + j, kbs[j], readKeybinding) && hs[j].rule.Some?;
  }

  /** A command is added exactly when some valid keybinding yields a rule. */
  lemma CommandAddedIffSomeRule(isBuiltin: bool, kbs: seq<Value>, first: nat, readKeybinding: string -> nat)
    ensures HandleAll(isBuiltin, kbs, first, readKeybinding).commandAdded <==>
      exists j :: 0 <= j < |kbs| && WellFormed(kbs[j]) && AsCommandRule(isBuiltin, first + j, kbs[j], readKeybinding).Some?
  {
    if HandleAll(isBuiltin, kbs, first, readKeybinding).commandAdded {
      var j := CommandAddedHasRule(isBuiltin, kbs, first, readKeybinding);
    }
    if j :| 0 <= j < |kbs| && WellFormed(kbs[j]) && AsCommandRule(isBuiltin, first + j, kbs[j], readKeybinding).Some? {
      ValidKeybindingRegistered(isBuiltin, kbs, first, readKeybinding, j);
    }
  }

  /** The outcome of one keybinding followed by the outcome of the rest. */
  function Prepend(h: Handled, rest: Outcome): (o: Outcome)
    ensures o.commandAdded <==> h.rule.Some? || rest.commandAdded
    ensures o.rules == (if h.rule.Some? then [h.rule.value] else []) + rest.rules
    ensures o.errors == (if h.error.Some? then [h.error.value] else []) + rest.errors
  {
    Outcome(h.rule.Some? || rest.commandAdded,
      (if h.rule.Some? then [h.rule.value] else []) + rest.rules,
      (if h.error.Some? then [h.error.value] else []) + rest.errors)
  }

  /** The number of contributions the validator rejects. */
  function CountInvalid(kbs: seq<Value>): nat {
    if |kbs| == 0 then 0 else (if WellFormed(kbs[0]) then 0 else 1) + CountInvalid(kbs[1..])
  }

  /**
   * `_handleKeybindingsExtensionPointUser`: an array is handled element by
   * element with 1-based indices, anything else as a single keybinding with
   * index 1.
   */
  function HandleContribution(isBuiltin: bool, value: Value, readKeybinding: string -> nat): (o: Outcome)
    ensures value.Arr? ==> o == HandleAll(isBuiltin, value.elems, 1, readKeybinding)
    ensures !value.Arr? ==> o == HandleAll(isBuiltin, [value], 1, readKeybinding)
  {
    if value.Arr? then HandleAll(isBuiltin, value.elems, 1, readKeybinding)
    else HandleAll(isBuiltin, [value], 1, readKeybinding)
  }

  /** A single keybinding is handled like an array holding just it. */
  lemma SingleIsArrayOfOne(isBuiltin: bool, kb: Value, readKeybinding: string -> nat)
    requires !kb.Arr?
    ensures HandleContribution(isBuiltin, kb, readKeybinding) == HandleContribution(isBuiltin, Arr([kb]), readKeybinding)
  {
  }

  /** A contribution with at least one valid keybinding whose main key parses adds a command. */
  lemma ValidKeyAddsCommand(isBuiltin: bool, kbs: seq<Value>, first: nat, readKeybinding: string -> nat, i: nat)
    requires i < |kbs| && WellFormed(kbs[i]) && readKeybinding(Field(kbs[i], "key").s) != 0
    ensures HandleAll(isBuiltin, kbs, first, readKeybinding).commandAdded
  {
    assert AsCommandRule(isBuiltin, first + i, kbs[i], readKeybinding).Some?;
    ValidKeybindingRegistered(isBuiltin, kbs, first, readKeybinding, i);
  }

  /** One extension of the extension point: whether it is builtin, and what it contributed. */
  datatype Extension = Extension(isBuiltin: bool, value: Value)

  /** The rules one extension's contribution registers. */
  function RulesOf(ext: Extension, readKeybinding: string -> nat): seq<CommandRule> {
    HandleContribution(ext.isBuiltin, ext.value, readKeybinding).rules
  }

  /** Each extension's rules, in extension order. */
  function RuleLists(exts: seq<Extension>, readKeybinding: string -> nat): (ls: seq<seq<CommandRule>>)
    ensures |ls| == |exts| && forall i :: 0 <= i < |exts| ==> ls[i] == RulesOf(exts[i], readKeybinding)
  {
    seq(|exts|, i requires 0 <= i < |exts| => RulesOf(exts[i], readKeybinding))
  }

  /** The lists one after the other. */
  function Flatten(ls: seq<seq<CommandRule>>): seq<CommandRule> {
    if |ls| == 0 then [] else ls[0] + Flatten(ls[1..])
  }

  /**
   * The extension point handler: every extension is handled (none is skipped
   * once a command was added), their rules registered one extension after the
   * other, and the resolver is rebuilt iff some command was added.
   */
  function HandleExtensions(exts: seq<Extension>, readKeybinding: string -> nat): (r: (bool, seq<CommandRule>))
    ensures r.0 <==> |r.1| > 0
    ensures r.0 <==> exists i :: 0 <= i < |exts| && HandleContribution(exts[i].isBuiltin, exts[i].value, readKeybinding).commandAdded
    ensures r.1 == Flatten(RuleLists(exts, readKeybinding))
    ensures forall u :: u in r.1 <==> exists i :: 0 <= i < |exts| && u in RulesOf(exts[i], readKeybinding)
  {
    if |exts| == 0 then (false, [])
    else
      var o := HandleContribution(exts[0].isBuiltin, exts[0].value, readKeybinding);
      var (added, rules) := HandleExtensions(exts[1..], readKeybinding);
      assert forall i :: 1 <= i < |exts| ==> exts[i] == exts[1..][i - 1];
      RulesPrepend(exts, readKeybinding, rules);
      (o.commandAdded || added, o.rules + rules)
  }

  /** The first extension's rules in front of the rest's are the rules of all, in order. */
  lemma RulesPrepend(exts: seq<Extension>, readKeybinding: string -> nat, rest: seq<CommandRule>)
    requires 0 < |exts| && rest == Flatten(RuleLists(exts[1..], readKeybinding))
    requires forall u :: u in rest <==> exists i :: 0 <= i < |exts[1..]| && u in RulesOf(exts[1..][i], readKeybinding)
    ensures RulesOf(exts[0], readKeybinding) + rest == Flatten(RuleLists(exts, readKeybinding))
    ensures forall u :: u in RulesOf(exts[0], readKeybinding) + rest <==> exists i :: 0 <= i < |exts| && u in RulesOf(exts[i], readKeybinding)
  {
    assert RuleLists(exts, readKeybinding)[1..] == RuleLists(exts[1..], readKeybinding);
    forall u | u in RulesOf(exts[0], readKeybinding) + rest
      ensures exists i :: 0 <= i < |exts| && u in RulesOf(exts[i], readKeybinding)
    {
      if u !in RulesOf(exts[0], readKeybinding) {
        var i :| 0 <= i < |exts[1..]| && u in RulesOf(exts[1..][i], readKeybinding);
        assert exts[1..][i] == exts[i + 1];
      }
    }
    forall u, i | 0 <= i < |exts| && u in RulesOf(exts[i], readKeybinding)
      ensures u in RulesOf(exts[0], readKeybinding) + rest
    {
      if i > 0 {
        assert exts[1..][i - 1] == exts[i];
      }
    }
  }

  /** `customKeybindingsCount()`: the length of `globalSettings.keybindings` when that is an array, else 0. */
  function CustomKeybindingsCount(opts: Value): (n: nat)
    requires opts.Obj?
    ensures Field(Field(opts, "globalSettings"), "keybindings").Arr? ==> n == |Field(Field(opts, "globalSettings"), "keybindings").elems|
    ensures !Field(Field(opts, "globalSettings"), "keybindings").Arr? ==> n == 0
  {
    var settings := Field(opts, "globalSettings");
    if Truthy(settings) then
      var keybindings := Field(settings, "keybindings");
      if Truthy(keybindings) && keybindings.Arr? then |keybindings.elems| else 0
    else 0
  }

  /**
   * `getElectronAcceleratorFor(keybinding)`: on Windows always the
   * accelerator; elsewhere none when the US label and the native label differ.
   */
  function ElectronAcceleratorFor(isWindows: bool, usLabel: string, nativeLabel: string, accelerator: string): (r: Option<string>)
    ensures isWindows ==> r == Some(accelerator)
    ensures !isWindows ==> (r.None? <==> usLabel != nativeLabel)
    ensures r.Some? ==> r.value == accelerator
  {
    if isWindows then Some(accelerator)
    else if usLabel != nativeLabel then None
    else Some(accelerator)
  }
}

=== FILE: debug_adapter.dfy ===
/**
 * A debug adapter contributed by an extension (debugAdapter.ts): which of
 * the contribution's fields the adapter takes on the current platform, how
 * `program` and `runtime` are made absolute, its label, and the JSON schema
 * it contributes for each request type of its launch configurations.
 * `SystemVariables.resolve` and `paths.join` are parameters; localized
 * strings are represented by their message keys.
 */
module DebugAdapter {
  import opened Wrappers
  import opened Strings

  datatype Platform = Windows | Macintosh | Linux | OtherPlatform

  /** The per-platform block of a contribution (`win`, `osx`, `linux`). */
  datatype PlatformBlock = PlatformBlock(
    runtime: Option<string>, runtimeArgs: Option<seq<string>>,
    program: Option<string>, args: Option<seq<string>>)

  /** A property of a configuration schema, with the members the adapter writes. */
  datatype Property = Property(
    typ: Option<string>, enumValues: Option<seq<string>>, description: Option<string>,
    defaultValue: Option<string>, pattern: Option<string>, errorMessage: Option<string>)

  /** The schema of one request type (`launch`, `attach`, ...). */
  datatype Schema = Schema(
    required: Option<seq<string>>, additionalProperties: Option<bool>,
    typ: Option<string>, properties: Option<map<string, Property>>)

  /** `IRawAdapter`: the `debuggers` contribution as written in `package.json`. */
  datatype RawAdapter = RawAdapter(
    typ: string, givenLabel: Option<string>,
    runtime: Option<string>, runtimeArgs: Option<seq<string>>,
    program: Option<string>, args: Option<seq<string>>,
    windows: Option<PlatformBlock>, win: Option<PlatformBlock>,
    osx: Option<PlatformBlock>, linux: Option<PlatformBlock>,
    configurationAttributes: Option<seq<(string, Schema)>>,
    enableBreakpointsFor: Option<seq<string>>)

  datatype Adapter = Adapter(
    runtime: Option<string>, runtimeArgs: Option<seq<string>>,
    program: Option<string>, args: Option<seq<string>>,
    typ: string, rawLabel: Option<string>,
    configurationAttributes: Option<seq<(string, Schema)>>,
    enableBreakpointsFor: Option<seq<string>>)

  /** A JavaScript string is truthy when present and non-empty. */
  predicate Truthy(s: Option<string>) {
    s.Some? && s.value != ""
  }

  /** `a || b` on strings. */
  function OrString(a: Option<string>, b: Option<string>): (r: Option<string>)
    ensures Truthy(a) ==> r == a
    ensures !Truthy(a) ==> r == b
  {
    if Truthy(a) then a else b
  }

  /** `a || b` on arrays: an array is truthy even when empty. */
  function OrArray(a: Option<seq<string>>, b: Option<seq<string>>): (r: Option<seq<string>>)
    ensures a.Some? ==> r == a
    ensures a.None? ==> r == b
  {
    if a.Some? then a else b
  }

  /** The block `win` names once `windows` has been copied over it. */
  function WinBlock(raw: RawAdapter): (b: Option<PlatformBlock>)
    ensures raw.windows.Some? ==> b == raw.windows
    ensures raw.windows.None? ==> b == raw.win
  {
    if raw.windows.Some? then raw.windows else raw.win
  }

  /** The platform block that applies on `platform`, if the contribution has one. */
  function BlockFor(raw: RawAdapter, platform: Platform): (b: Option<PlatformBlock>)
    ensures platform == OtherPlatform ==> b.None?
    ensures platform == Windows ==> b == WinBlock(raw)
    ensures platform == Macintosh ==> b == raw.osx
    ensures platform == Linux ==> b == raw.linux
  {
    match platform
    case Windows => WinBlock(raw)
    case Macintosh => raw.osx
    case Linux => raw.linux
    case OtherPlatform => None
  }

  /** `systemVariables.resolve(value)` when system variables are given, the value itself otherwise. */
  function Resolve(systemVariables: Option<string -> string>, value: string): string {
    if systemVariables.Some? then systemVariables.value(value) else value
  }

  /**
   * The `Adapter` constructor: each of the four launch fields comes from the
   * platform block when there is one, falling back to the top-level field
   * when that gives a falsy value; a truthy `program` is resolved and joined
   * to the extension folder; a `runtime` is resolved and joined only when it
   * starts with `./`.
   */
  function NewAdapter(raw: RawAdapter, platform: Platform, systemVariables: Option<string -> string>,
                      extensionFolderPath: string, join: (string, string) -> string): (a: Adapter)
    ensures var block := BlockFor(raw, platform);
      a.runtimeArgs == OrArray(if block.Some? then block.value.runtimeArgs else None, raw.runtimeArgs)
    ensures var block := BlockFor(raw, platform);
      a.args == OrArray(if block.Some? then block.value.args else None, raw.args)
    ensures var block := BlockFor(raw, platform);
      var p := OrString(if block.Some? then block.value.program else None, raw.program);
      a.program == if Truthy(p) then Some(join(extensionFolderPath, Resolve(systemVariables, p.value))) else p
    ensures var block := BlockFor(raw, platform);
      var r := OrString(if block.Some? then block.value.runtime else None, raw.runtime);
      a.runtime == if Truthy(r) && StartsWith(r.value, "./") then Some(join(extensionFolderPath, Resolve(systemVariables, r.value))) else r
    ensures a.typ == raw.typ && a.rawLabel == raw.givenLabel
    ensures a.configurationAttributes == raw.configurationAttributes && a.enableBreakpointsFor == raw.enableBreakpointsFor
  {
    var block := BlockFor(raw, platform);
    var runtime := OrString(if block.Some? then block.value.runtime else None, raw.runtime);
    var runtimeArgs := OrArray(if block.Some? then block.value.runtimeArgs else None, raw.runtimeArgs);
    var program := OrString(if block.Some? then block.value.program else None, raw.program);
    var args := OrArray(if block.Some? then block.value.args else None, raw.args);
    Adapter(
      if Truthy(runtime) && StartsWith(runtime.value, "./") then Some(join(extensionFolderPath, Resolve(systemVariables, runtime.value))) else runtime,
      runtimeArgs,
      if Truthy(program) then Some(join(extensionFolderPath, Resolve(systemVariables, program.value))) else program,
      args,
      raw.typ, raw.givenLabel, raw.configurationAttributes, raw.enableBreakpointsFor)
  }

  /** On Windows a `windows` block is used even when a `win` block is also given. */
  lemma WindowsAliasWins(raw: RawAdapter, systemVariables: Option<string -> string>, folder: string, join: (string, string) -> string)
    requires raw.windows.Some? && raw.windows.value.runtimeArgs.Some?
    ensures NewAdapter(raw, Windows, systemVariables, folder, join).runtimeArgs == raw.windows.value.runtimeArgs
  {
  }

  /** Without a block for the platform the adapter takes the top-level fields. */
  lemma NoBlockTopLevel(raw: RawAdapter, platform: Platform, systemVariables: Option<string -> string>, folder: string, join: (string, string) -> string)
    requires BlockFor(raw, platform).None?
    ensures var a := NewAdapter(raw, platform, systemVariables, folder, join);
      a.runtimeArgs == raw.runtimeArgs && a.args == raw.args
      && (Truthy(raw.program) ==> a.program == Some(join(folder, Resolve(systemVariables, raw.program.value))))
      && (!Truthy(raw.runtime) || !StartsWith(raw.runtime.value, "./") ==> a.runtime == raw.runtime)
  {
  }

  /** An absolute `runtime` (or a bare command name) is taken as it is, while `program` is always joined. */
  lemma RuntimeJoinedOnlyWhenRelative(raw: RawAdapter, platform: Platform, folder: string, join: (string, string) -> string)
    requires BlockFor(raw, platform).None? && Truthy(raw.runtime) && Truthy(raw.program)
    requires |raw.runtime.value| > 0 && raw.runtime.value[0] == '/'
    ensures var a := NewAdapter(raw, platform, None, folder, join);
      a.runtime == raw.runtime && a.program == Some(join(folder, raw.program.value))
  {
  }

  /** The `label` getter: the contribution's label when truthy, else the type. */
  function Label(a: Adapter): (l: string)
    ensures Truthy(a.rawLabel) ==> l == a.rawLabel.value
    ensures !Truthy(a.rawLabel) ==> l == a.typ
  {
    if Truthy(a.rawLabel) then a.rawLabel.value else a.typ
  }

  // ---------------------------------------------------------------------------
  // Schema attributes

  const DefaultRequired: seq<string> := ["name", "type", "request"]

  /** The pattern `warnRelativePaths` puts on path properties: a `${...}` variable or an absolute path. */
  const RelativePathPattern: string := "^\\${.*}.*|^((\\/|[a-zA-Z]:\\\\)[^\\(\\)<>\\'\\\"\\[\\]]+)"

  /** The path properties that get that pattern. */
  const PathProperties: seq<string> := ["outDir", "program", "cwd", "runtimeExecutable"]

  /** `required`: the defaults, followed by the adapter's own list when it has a non-empty one. */
  function Required(own: Option<seq<string>>): (r: seq<string>)
    ensures |r| >= 3 && r[..3] == DefaultRequired
    ensures own.Some? && |own.value| > 0 ==> r == DefaultRequired + own.value
    ensures own.None? || |own.value| == 0 ==> r == DefaultRequired
  {
    if own.Some? && |own.value| > 0 then DefaultRequired + own.value else DefaultRequired
  }

  /** A path property with the pattern and the error message shown when it does not match. */
  function Warned(p: Property): Property {
    p.(pattern := Some(RelativePathPattern), errorMessage := Some("relativePathsNotConverted"))
  }

  /** `warnRelativePaths`: a property that is present gets the pattern and the error message. */
  function WarnRelativePath(props: map<string, Property>, key: string): (r: map<string, Property>)
    ensures r.Keys == props.Keys
    ensures key in props ==> r[key] == props[key].(pattern := Some(RelativePathPattern), errorMessage := Some("relativePathsNotConverted"))
    ensures forall k :: k in props && k != key ==> r[k] == props[k]
  {
    if key in props then props[key := Warned(props[key])]
    else props
  }

  function WarnRelativePaths(props: map<string, Property>, keys: seq<string>): (r: map<string, Property>)
    ensures r.Keys == props.Keys
    ensures forall k :: k in props && k !in keys ==> r[k] == props[k]
    ensures forall k :: k in props && k in keys ==> r[k].pattern == Some(RelativePathPattern)
    ensures forall k :: k in props && k in keys ==> r[k] == Warned(props[k])
  {
    if |keys| == 0 then props
    else WarnRelativePaths(WarnRelativePath(props, keys[0]), keys[1..])
  }

  /** The four properties every schema gets, overwriting what the adapter had under those names. */
  function StandardProperties(props: map<string, Property>, adapterType: string, request: string): (r: map<string, Property>)
    ensures r.Keys == props.Keys + {"type", "name", "request", "preLaunchTask"}
    ensures r["type"].enumValues == Some([adapterType])
    ensures r["request"].enumValues == Some([request])
    ensures r["name"] == Property(Some("string"), None, Some("debugName"), Some("Launch"), None, None)
    ensures r["preLaunchTask"].typ == Some("string")
    ensures r["type"] == Property(None, Some([adapterType]), Some("debugType"), None, None, None)
    ensures r["request"] == Property(None, Some([request]), Some("debugRequest"), None, None, None)
    ensures r["preLaunchTask"] == Property(Some("string"), None, Some("debugPrelaunchTask"), None, None, None)
    ensures forall k :: k in props && k !in {"type", "name", "request", "preLaunchTask"} ==> r[k] == props[k]
  {
    props["type" := Property(None, Some([adapterType]), Some("debugType"), None, None, None)]
         ["name" := Property(Some("string"), None, Some("debugName"), Some("Launch"), None, None)]
         ["request" := Property(None, Some([request]), Some("debugRequest"), None, None, None)]
         ["preLaunchTask" := Property(Some("string"), None, Some("debugPrelaunchTask"), None, None, None)]
  }

  /** The schema for one request type, as the `map` callback of `getSchemaAttributes` rewrites it. */
  function SchemaFor(adapterType: string, request: string, attributes: Schema): (s: Schema)
    ensures s.required == Some(Required(attributes.required))
    ensures s.additionalProperties == Some(false) && s.typ == Some("object")
    ensures s.properties.Some?
    ensures s.properties.value.Keys == attributes.properties.GetOr(map[]).Keys + {"type", "name", "request", "preLaunchTask"}
    ensures s.properties.value["type"].enumValues == Some([adapterType])
    ensures s.properties.value["request"].enumValues == Some([request])
    ensures forall k :: k in attributes.properties.GetOr(map[]) && k !in {"type", "name", "request", "preLaunchTask"} && k !in PathProperties ==>
      s.properties.value[k] == attributes.properties.value[k]
    ensures forall k :: k in attributes.properties.GetOr(map[]) && k in PathProperties ==> s.properties.value[k].pattern == Some(RelativePathPattern)
    ensures forall k :: k in attributes.properties.GetOr(map[]) && k in PathProperties ==> s.properties.value[k] == Warned(attributes.properties.value[k])
    ensures s.properties.value["name"] == Property(Some("string"), None, Some("debugName"), Some("Launch"), None, None)
    ensures s.properties.value["preLaunchTask"] == Property(Some("string"), None, Some("debugPrelaunchTask"), None, None, None)
  {
    var props := StandardProperties(attributes.properties.GetOr(map[]), adapterType, request);
    Schema(Some(Required(attributes.required)), Some(false), Some("object"), Some(WarnRelativePaths(props, PathProperties)))
  }

  function SchemasFor(adapterType: string, attributes: seq<(string, Schema)>): (r: seq<(string, Schema)>)
    ensures |r| == |attributes|
    ensures forall i :: 0 <= i < |r| ==> r[i].0 == attributes[i].0 && r[i].1 == SchemaFor(adapterType, attributes[i].0, attributes[i].1)
  {
    seq(|attributes|, i requires 0 <= i < |attributes| => (attributes[i].0, SchemaFor(adapterType, attributes[i].0, attributes[i].1)))
  }

  /**
   * `getSchemaAttributes`: `null` without configuration attributes, else one
   * schema per request type, in key order. The schemas are the adapter's own
   * attribute objects, rewritten in place, so the adapter afterwards holds
   * the rewritten ones.
   */
  function GetSchemaAttributes(a: Adapter): (r: (Option<seq<Schema>>, Adapter))
    ensures r.0.None? <==> a.configurationAttributes.None?
    ensures r.0.Some? ==> |r.0.value| == |a.configurationAttributes.value|
    ensures r.0.Some? ==> forall i :: 0 <= i < |r.0.value| ==>
      r.0.value[i] == SchemaFor(a.typ, a.configurationAttributes.value[i].0, a.configurationAttributes.value[i].1)
    ensures r.1 == a.(configurationAttributes := if a.configurationAttributes.Some? then Some(SchemasFor(a.typ, a.configurationAttributes.value)) else None)
  {
    match a.configurationAttributes
    case None => (None, a)
    case Some(attrs) =>
      var rewritten := SchemasFor(a.typ, attrs);
      (Some(seq(|rewritten|, i requires 0 <= i < |rewritten| => rewritten[i].1)), a.(configurationAttributes := Some(rewritten)))
  }

  /**
   * Because the attributes are rewritten in place, asking a second time
   * prepends the default required names again.
   */
  lemma SecondCallRepeatsDefaults(a: Adapter)
    requires a.configurationAttributes.Some? && |a.configurationAttributes.value| > 0
    ensures var (_, a1) := GetSchemaAttributes(a);
      var (second, _) := GetSchemaAttributes(a1);
      second.Some? && second.value[0].required.value[..6] == DefaultRequired + DefaultRequired
  {
    var (first, a1) := GetSchemaAttributes(a);
    var s1 := first.value[0];
    assert a1.configurationAttributes.value[0].1 == s1;
    var (second, _) := GetSchemaAttributes(a1);
    assert second.value[0].required == Some(Required(s1.required));
    RequiredTwice(a.configurationAttributes.value[0].1.required);
  }

  /** Applying the defaults to a list that already starts with them repeats them. */
  lemma RequiredTwice(own: Option<seq<string>>)
    ensures Required(Some(Required(own)))[..6] == DefaultRequired + DefaultRequired
  {
    var once := Required(own);
    assert Required(Some(once)) == DefaultRequired + once;
    assert once[..3] == DefaultRequired;
  }
}

=== FILE: editor_options.dfy ===
/**
 * Editor option coercion from commonEditorConfig.ts: the converters that
 * turn raw option values (anything a settings file or an API caller can pass)
 * into booleans, integers and enumerations, the rules of
 * `createInternalEditorOptions` that derive wrapping, line rendering, folding
 * margin and tab focus from them, and `EditorConfiguration.apply`, which
 * pushes the `editor` / `diffEditor` settings into open editors.
 */
module EditorOptions {
  import opened Wrappers
  import opened Strings
  import opened JsValues

  // ---------------------------------------------------------------------------
  // Converters

  /** `toBoolean(value)`: the string `'false'` is false, anything else by truthiness. */
  function ToBoolean(v: Value): (b: bool)
    ensures v == Str("false") ==> !b
    ensures v != Str("false") ==> (b <==> Truthy(v))
  {
    if v == Str("false") then false else Truthy(v)
  }

  /** `toBooleanWithDefault(value, default)`: the default only for undefined. */
  function ToBooleanWithDefault(v: Value, default: bool): (b: bool)
    ensures v.Undefined? ==> b == default
    ensures !v.Undefined? ==> b == ToBoolean(v)
  {
    if v.Undefined? then default else ToBoolean(v)
  }

  /**
   * `toInteger(source, minimum, maximum)`: `parseInt(source, 10)`, 0 when that
   * is NaN, then raised to the minimum and lowered to the maximum when given.
   */
  function ToInteger(source: Value, minimum: Option<int>, maximum: Option<int>): (r: int)
    ensures maximum.Some? ==> r <= maximum.value
    ensures minimum.Some? && (maximum.None? || minimum.value <= maximum.value) ==> minimum.value <= r
    ensures var parsed := ParseInt(source).GetOr(0);
      (minimum.None? || minimum.value <= parsed) && (maximum.None? || parsed <= maximum.value) ==> r == parsed
    ensures ParseInt(source).None? && (minimum.None? || minimum.value <= 0) && (maximum.None? || 0 <= maximum.value) ==> r == 0
    ensures var parsed := ParseInt(source).GetOr(0);
      minimum.Some? && parsed < minimum.value && (maximum.None? || minimum.value <= maximum.value) ==> r == minimum.value
    ensures var parsed := ParseInt(source).GetOr(0);
      var raised := if minimum.Some? && parsed < minimum.value then minimum.value else parsed;
      maximum.Some? && raised > maximum.value ==> r == maximum.value
  {
    var parsed := ParseInt(source).GetOr(0);
    var raised := if minimum.Some? then Max(minimum.value, parsed) else parsed;
    if maximum.Some? then Min(maximum.value, raised) else raised
  }

  function Max(a: int, b: int): int { if a < b then b else a }
  function Min(a: int, b: int): int { if a < b then a else b }

  /** Converting an already converted number again changes nothing. */
  lemma ToIntegerIdempotent(source: Value, minimum: Option<int>, maximum: Option<int>)
    requires minimum.Some? && maximum.Some? ==> minimum.value <= maximum.value
    ensures ToInteger(Num(ToInteger(source, minimum, maximum)), minimum, maximum) == ToInteger(source, minimum, maximum)
  {
  }

  /** `toIntegerWithDefault(source, default)`: the default only for undefined, otherwise `toInteger`. */
  function ToIntegerWithDefault(source: Value, default: int): (r: int)
    ensures source.Undefined? ==> r == default
    ensures source.Num? ==> r == source.n
    ensures !source.Undefined? && ParseInt(source).None? ==> r == 0
  {
    if source.Undefined? then default else ToInteger(source, None, None)
  }

  // ---------------------------------------------------------------------------
  // toSortedIntegerArray

  /** Numbers in the order of the default `Array.prototype.sort`: by their decimal text. */
  predicate TextLe(a: int, b: int) {
    !LexLess(IntToString(b), IntToString(a))
  }

  /** The comparison of the default sort, as a value the sorting functions take. */
  const ByText: (int, int) -> bool := (a: int, b: int) => TextLe(a, b)

  /** A comparison under which any two numbers are ordered one way or the other, transitively. */
  ghost predicate TotalPreorder(le: (int, int) -> bool) {
    (forall a, b :: le(a, b) || le(b, a))
    && (forall a, b, c :: le(a, b) && le(b, c) ==> le(a, c))
  }

  lemma Total(le: (int, int) -> bool, a: int, b: int)
    requires TotalPreorder(le)
    ensures le(a, b) || le(b, a)
  {
  }

  lemma Transitive(le: (int, int) -> bool, a: int, b: int, c: int)
    requires TotalPreorder(le) && le(a, b) && le(b, c)
    ensures le(a, c)
  {
  }

  predicate SortedBy(le: (int, int) -> bool, s: seq<int>) {
    forall i, j :: 0 <= i < j < |s| ==> le(s[i], s[j])
  }

  predicate SortedByText(s: seq<int>) {
    SortedBy(ByText, s)
  }

  lemma TextLeTransitive(a: int, b: int, c: int)
    requires TextLe(a, b) && TextLe(b, c)
    ensures TextLe(a, c)
  {
    var sa, sb, sc := IntToString(a), IntToString(b), IntToString(c);
    LexLessTotal(sa, sb);
    LexLessTotal(sb, sc);
    if sa != sb && sb != sc {
      LexLessTransitive(sa, sb, sc);
      LexLessAsymmetric(sa, sc);
    } else if sa != sb {
      LexLessAsymmetric(sa, sb);
    } else if sb != sc {
      LexLessAsymmetric(sb, sc);
    } else {
      LexLessIrreflexive(sa);
    }
  }

  lemma TextLeTotal(a: int, b: int)
    ensures TextLe(a, b) || TextLe(b, a)
  {
    LexLessTotal(IntToString(a), IntToString(b));
    if LexLess(IntToString(a), IntToString(b)) {
      LexLessAsymmetric(IntToString(a), IntToString(b));
    } else if IntToString(a) == IntToString(b) {
      LexLessIrreflexive(IntToString(a));
    }
  }

  /** Two numbers that each sort no later than the other are the same number. */
  lemma TextLeAntisymmetric(a: int, b: int)
    requires TextLe(a, b) && TextLe(b, a)
    ensures a == b
  {
    LexLessTotal(IntToString(a), IntToString(b));
    IntToStringInjective(a, b);
  }

  /** Comparing by text is a total preorder. */
  lemma ByTextTotalPreorder()
    ensures TotalPreorder(ByText)
  {
    forall a, b ensures ByText(a, b) || ByText(b, a) {
      TextLeTotal(a, b);
    }
    forall a, b, c | ByText(a, b) && ByText(b, c) ensures ByText(a, c) {
      TextLeTransitive(a, b, c);
    }
  }

  /** One step of insertion sort: `x` goes in front of the first element it does not sort after. */
  function InsertBy(le: (int, int) -> bool, x: int, s: seq<int>): (r: seq<int>)
    requires TotalPreorder(le) && SortedBy(le, s)
    ensures SortedBy(le, r)
    ensures multiset(r) == multiset(s) + multiset{x}
    ensures |r| == |s| + 1
  {
    if |s| == 0 then [x]
    else if le(x, s[0]) then
      SortedWithSmallerHead(le, x, s);
      [x] + s
    else
      var rest := InsertBy(le, x, s[1..]);
      Total(le, x, s[0]);
      SortedAfterInsert(le, s, x, rest);
      [s[0]] + rest
  }

  lemma SortedWithSmallerHead(le: (int, int) -> bool, x: int, s: seq<int>)
    requires TotalPreorder(le) && SortedBy(le, s) && |s| > 0 && le(x, s[0])
    ensures SortedBy(le, [x] + s)
  {
    var r := [x] + s;
    forall i, j | 0 <= i < j < |r|
      ensures le(r[i], r[j])
    {
      assert r[j] == s[j - 1];
      if i == 0 {
        if j > 1 {
          Transitive(le, x, s[0], s[j - 1]);
        }
      } else {
        assert r[i] == s[i - 1];
        assert le(s[i - 1], s[j - 1]);
      }
    }
  }

  /** The head of a sorted list stays first when an element that sorts after it is inserted into the rest. */
  lemma SortedAfterInsert(le: (int, int) -> bool, s: seq<int>, x: int, rest: seq<int>)
    requires TotalPreorder(le) && SortedBy(le, s) && |s| > 0 && le(s[0], x)
    requires SortedBy(le, rest) && multiset(rest) == multiset(s[1..]) + multiset{x}
    ensures SortedBy(le, [s[0]] + rest)
    ensures multiset([s[0]] + rest) == multiset(s) + multiset{x}
  {
    forall j | 0 <= j < |rest|
      ensures le(s[0], rest[j])
    {
      assert rest[j] in multiset(rest);
      if rest[j] != x {
        assert rest[j] in multiset(s[1..]);
        var k :| 0 <= k < |s[1..]| && s[1..][k] == rest[j];
        assert s[k + 1] == rest[j];
      }
    }
    var r := [s[0]] + rest;
    forall i, j | 0 <= i < j < |r|
      ensures le(r[i], r[j])
    {
      if i > 0 {
        assert le(rest[i - 1], rest[j - 1]);
      }
    }
    assert s == [s[0]] + s[1..];
  }

  /** Insertion sort under a total preorder. */
  function SortBy(le: (int, int) -> bool, s: seq<int>): (r: seq<int>)
    requires TotalPreorder(le)
    ensures SortedBy(le, r)
    ensures multiset(r) == multiset(s)
    ensures |r| == |s|
  {
    if |s| == 0 then []
    else
      assert s == [s[0]] + s[1..];
      InsertBy(le, s[0], SortBy(le, s[1..]))
  }

  /** The default sort: by decimal text. */
  function SortByText(s: seq<int>): (r: seq<int>)
    ensures SortedByText(r)
    ensures multiset(r) == multiset(s)
    ensures |r| == |s|
  {
    ByTextTotalPreorder();
    SortBy(ByText, s)
  }

  /** Two sorted orderings of the same numbers are the same sequence. */
  lemma {:induction false} SortedByTextUnique(a: seq<int>, b: seq<int>)
    requires SortedByText(a) && SortedByText(b) && multiset(a) == multiset(b)
    ensures a == b
    decreases |a|
  {
    if |a| > 0 {
      SortedHeadsEqual(a, b);
      TailMultiset(a);
      TailMultiset(b);
      SortedByTextUnique(a[1..], b[1..]);
    } else {
      assert |multiset(b)| == 0;
    }
  }

  lemma TailMultiset(a: seq<int>)
    requires |a| > 0
    ensures multiset(a[1..]) == multiset(a) - multiset{a[0]}
    ensures a == [a[0]] + a[1..]
  {
    assert a == [a[0]] + a[1..];
  }

  lemma SortedHeadsEqual(a: seq<int>, b: seq<int>)
    requires SortedByText(a) && SortedByText(b) && multiset(a) == multiset(b) && |a| > 0
    ensures |b| > 0 && a[0] == b[0]
  {
    assert a[0] in multiset(b);
    assert b[0] in multiset(a);
    var i :| 0 <= i < |b| && b[i] == a[0];
    var j :| 0 <= j < |a| && a[j] == b[0];
    LexLessIrreflexive(IntToString(a[0]));
    LexLessIrreflexive(IntToString(b[0]));
    assert TextLe(b[0], a[0]) by {
      if i > 0 {
        assert ByText(b[0], b[i]);
      }
    }
    assert TextLe(a[0], b[0]) by {
      if j > 0 {
        assert ByText(a[0], a[j]);
      }
    }
    TextLeAntisymmetric(a[0], b[0]);
  }

  /**
   * `toSortedIntegerArray(source)`: no numbers for anything but an array;
   * otherwise `toInteger` of every element, sorted as the default sort does.
   */
  function ToSortedIntegerArray(source: Value): (r: seq<int>)
    ensures !source.Arr? ==> r == []
    ensures source.Arr? ==> |r| == |source.elems| && SortedByText(r)
    ensures source.Arr? ==> multiset(r) == multiset(seq(|source.elems|, i requires 0 <= i < |source.elems| => ToInteger(source.elems[i], None, None)))
  {
    if !source.Arr? then []
    else SortByText(seq(|source.elems|, i requires 0 <= i < |source.elems| => ToInteger(source.elems[i], None, None)))
  }

  /** The rulers `[80, 100]` come out as `[100, 80]`, since "100" sorts before "80". */
  lemma RulersSortAsText()
    ensures ToSortedIntegerArray(Arr([Num(80), Num(100)])) == [100, 80]
  {
    assert seq(2, i requires 0 <= i < 2 => ToInteger([Num(80), Num(100)][i], None, None)) == [80, 100];
    assert [80, 100][1..] == [100];
    assert SortByText([100]) == [100];
    HundredBeforeEighty();
    ByTextTotalPreorder();
    assert InsertBy(ByText, 80, [100]) == [100, 80] by {
      assert [100][1..] == [];
    }
  }

  lemma HundredBeforeEighty()
    ensures !TextLe(80, 100)
  {
    assert NatToString(1) == "1";
    assert NatToString(10) == "10";
    assert NatToString(100) == "100";
    assert NatToString(8) == "8";
    assert NatToString(80) == "80";
  }

  // ---------------------------------------------------------------------------
  // Enumerations from strings

  datatype WrappingIndent = WrapNone | WrapSame | WrapIndent

  /** `wrappingIndentFromString`: `'indent'`, `'same'`, anything else is none. */
  function WrappingIndentFromString(v: Value): (w: WrappingIndent)
    ensures w == WrapIndent <==> v == Str("indent")
    ensures w == WrapSame <==> v == Str("same")
  {
    if v == Str("indent") then WrapIndent else if v == Str("same") then WrapSame else WrapNone
  }

  function WrappingIndentName(w: WrappingIndent): string {
    match w
    case WrapNone => "none"
    case WrapSame => "same"
    case WrapIndent => "indent"
  }

  /** Every wrapping indent is read back from its setting name. */
  lemma WrappingIndentRoundTrip(w: WrappingIndent)
    ensures WrappingIndentFromString(Str(WrappingIndentName(w))) == w
  {
  }

  datatype CursorStyle = CursorLine | CursorBlock | CursorUnderline

  /** `cursorStyleFromString`: `'block'` and `'underline'`; anything else is a line. */
  function CursorStyleFromString(v: Value): (c: CursorStyle)
    ensures c == CursorBlock <==> v == Str("block")
    ensures c == CursorUnderline <==> v == Str("underline")
  {
    if v == Str("line") then CursorLine
    else if v == Str("block") then CursorBlock
    else if v == Str("underline") then CursorUnderline
    else CursorLine
  }

  function CursorStyleName(c: CursorStyle): string {
    match c
    case CursorLine => "line"
    case CursorBlock => "block"
    case CursorUnderline => "underline"
  }

  lemma CursorStyleRoundTrip(c: CursorStyle)
    ensures CursorStyleFromString(Str(CursorStyleName(c))) == c
  {
  }

  // ---------------------------------------------------------------------------
  // createInternalEditorOptions

  /** The raw option `name` of an options object (undefined when absent). */
  function Opt(opts: seq<Prop>, name: string): Value {
    Lookup(opts, name).GetOr(Undefined)
  }

  /**
   * `stopRenderingLineAfter`: the option converted with a minimum of -1 when
   * it is set; otherwise -1 (no limit) when wrapping, 10000 when not.
   */
  function StopRenderingLineAfter(option: Value, wrappingColumn: int): (r: int)
    ensures !option.Undefined? ==> r == ToInteger(option, Some(-1), None)
    ensures option.Undefined? && wrappingColumn >= 0 ==> r == -1
    ensures option.Undefined? && wrappingColumn < 0 ==> r == 10000
    ensures r >= -1
  {
    if !option.Undefined? then ToInteger(option, Some(-1), None)
    else if wrappingColumn >= 0 then -1
    else 10000
  }

  /** The line decorations width, widened by 16 pixels for the folding margin whenever `folding` is truthy. */
  function LineDecorationsWidth(width: Value, folding: Value): (r: int)
    ensures r >= 0
    ensures Truthy(folding) ==> r == ToInteger(width, Some(0), None) + 16
    ensures !Truthy(folding) ==> r == ToInteger(width, Some(0), None)
  {
    ToInteger(width, Some(0), None) + if Truthy(folding) then 16 else 0
  }

  datatype WrappingInfo = WrappingInfo(isViewportWrapping: bool, wrappingColumn: int)

  /**
   * The wrapping rules. A positive column on a model dominated by long lines
   * becomes 0; 0 means wrapping at the viewport width (`viewportColumns`, the
   * number of typical half-width characters that fit, at least 1); a
   * positive column wraps there; a negative one does not wrap.
   */
  function Wrapping(wrappingColumn: int, dominatedByLongLines: bool, viewportColumns: int): (w: WrappingInfo)
    ensures w.isViewportWrapping <==> wrappingColumn == 0 || (dominatedByLongLines && wrappingColumn > 0)
    ensures w.isViewportWrapping ==> w.wrappingColumn >= 1 && w.wrappingColumn >= viewportColumns
    ensures w.isViewportWrapping ==> w.wrappingColumn == (if viewportColumns >= 1 then viewportColumns else 1)
    ensures !w.isViewportWrapping && wrappingColumn > 0 ==> w.wrappingColumn == wrappingColumn
    ensures wrappingColumn < 0 ==> w == WrappingInfo(false, -1)
  {
    var column := if dominatedByLongLines && wrappingColumn > 0 then 0 else wrappingColumn;
    if column == 0 then WrappingInfo(true, Max(1, viewportColumns))
    else if column > 0 then WrappingInfo(false, column)
    else WrappingInfo(false, -1)
  }

  /** `readOnly` and `tabFocusMode`: a read-only editor always moves focus with Tab. */
  function TabFocus(readOnly: Value, tabFocusMode: Value): (r: (bool, bool))
    ensures r.0 == ToBoolean(readOnly)
    ensures r.1 <==> ToBoolean(readOnly) || ToBoolean(tabFocusMode)
  {
    var ro := ToBoolean(readOnly);
    (ro, if ro then true else ToBoolean(tabFocusMode))
  }

  /** The internal options this model derives from the raw options. */
  datatype InternalOptions = InternalOptions(
    wrapping: WrappingInfo,
    wrappingIndent: WrappingIndent,
    stopRenderingLineAfter: int,
    lineDecorationsWidth: int,
    readOnly: bool,
    tabFocusMode: bool,
    rulers: seq<int>,
    overviewRulerLanes: int,
    cursorStyle: CursorStyle,
    folding: bool)

  function CreateInternalOptions(opts: seq<Prop>, dominatedByLongLines: bool, viewportColumns: int): (o: InternalOptions)
    ensures var column := ToInteger(Opt(opts, "wrappingColumn"), Some(-1), None);
      o.wrapping == Wrapping(column, dominatedByLongLines, viewportColumns)
      && o.stopRenderingLineAfter == StopRenderingLineAfter(Opt(opts, "stopRenderingLineAfter"), column)
    ensures o.wrappingIndent == WrappingIndentFromString(Opt(opts, "wrappingIndent"))
    ensures o.lineDecorationsWidth == LineDecorationsWidth(Opt(opts, "lineDecorationsWidth"), Opt(opts, "folding"))
    ensures (o.readOnly, o.tabFocusMode) == TabFocus(Opt(opts, "readOnly"), Opt(opts, "tabFocusMode"))
    ensures o.rulers == ToSortedIntegerArray(Opt(opts, "rulers"))
    ensures o.overviewRulerLanes == ToInteger(Opt(opts, "overviewRulerLanes"), Some(0), Some(3))
    ensures o.cursorStyle == CursorStyleFromString(Opt(opts, "cursorStyle"))
    ensures o.folding == ToBoolean(Opt(opts, "folding"))
    ensures o.readOnly ==> o.tabFocusMode
    ensures 0 <= o.overviewRulerLanes <= 3
    ensures o.lineDecorationsWidth >= 0
  {
    var column := ToInteger(Opt(opts, "wrappingColumn"), Some(-1), None);
    var (ro, tab) := TabFocus(Opt(opts, "readOnly"), Opt(opts, "tabFocusMode"));
    InternalOptions(
      Wrapping(column, dominatedByLongLines, viewportColumns),
      WrappingIndentFromString(Opt(opts, "wrappingIndent")),
      StopRenderingLineAfter(Opt(opts, "stopRenderingLineAfter"), column),
      LineDecorationsWidth(Opt(opts, "lineDecorationsWidth"), Opt(opts, "folding")),
      ro, tab,
      ToSortedIntegerArray(Opt(opts, "rulers")),
      ToInteger(Opt(opts, "overviewRulerLanes"), Some(0), Some(3)),
      CursorStyleFromString(Opt(opts, "cursorStyle")),
      ToBoolean(Opt(opts, "folding")))
  }

  /**
   * An absent wrapping column parses as NaN, which `toInteger` turns into 0:
   * the editor then wraps at the viewport width and renders whole lines. The
   * default configuration always supplies a column, so this only shows when
   * the raw options lack one.
   */
  lemma AbsentWrappingColumnWrapsAtViewport(opts: seq<Prop>, dominatedByLongLines: bool, viewportColumns: int)
    requires Lookup(opts, "wrappingColumn").None? && Lookup(opts, "stopRenderingLineAfter").None?
    ensures var o := CreateInternalOptions(opts, dominatedByLongLines, viewportColumns);
      o.wrapping.isViewportWrapping && o.stopRenderingLineAfter == -1
  {
  }

  /** A string `'false'` turns folding off but still widens the margin, since the margin tests plain truthiness. */
  lemma FoldingFalseStringStillWidens(opts: seq<Prop>, dominatedByLongLines: bool, viewportColumns: int)
    requires Lookup(opts, "folding") == Some(Str("false")) && Lookup(opts, "lineDecorationsWidth").None?
    ensures var o := CreateInternalOptions(opts, dominatedByLongLines, viewportColumns);
      !o.folding && o.lineDecorationsWidth == 16
  {
  }

  // ---------------------------------------------------------------------------
  // EditorConfiguration.apply

  datatype EditorType = CodeEditor | DiffEditor | OtherEditor

  /**
   * `objects.mixin(destination, source)` with its default `overwrite`
   * (objects.ts is not part of this model; this is that library function's
   * definition). A destination that is not an object gives the source back; a
   * source that is not an object leaves the destination as it is; otherwise
   * every property of the source is written onto the destination, and where
   * both hold an object under the same key the two are merged the same way.
   */
  function Mixin(destination: Value, source: Value): (r: Value)
    ensures !destination.Obj? ==> r == source
    ensures destination.Obj? && !source.Obj? ==> r == destination
    ensures destination.Obj? && source.Obj? ==> r.Obj?
    ensures destination.Obj? && source.Obj? && UniqueKeys(destination.props) ==> UniqueKeys(r.props)
    decreases source, 1
  {
    if !destination.Obj? then source
    else if !source.Obj? then destination
    else Obj(MixinProps(destination.props, source.props))
  }

  /** The property loop of `mixin`, over the source's properties in order. */
  function MixinProps(destination: seq<Prop>, source: seq<Prop>): (r: seq<Prop>)
    ensures UniqueKeys(destination) ==> UniqueKeys(r)
    decreases source, 0
  {
    if |source| == 0 then destination
    else
      var p := source[0];
      assert p in source;
      MixinProps(Put(destination, p.key, MixedValue(Lookup(destination, p.key), p.value)), source[1..])
  }

  /** The value a source property leaves behind: merged when both sides hold an object. */
  function MixedValue(d: Option<Value>, v: Value): Value
    decreases v, 2
  {
    if d.Some? && d.value.Obj? && v.Obj? then Mixin(d.value, v) else v
  }

  /**
   * What one key reads after a mixin: the source's value where it has one,
   * merged into the destination's when both are objects; the destination's
   * value otherwise.
   */
  function MixedLookup(d: Option<Value>, s: Option<Value>): Option<Value> {
    if s.None? then d else Some(MixedValue(d, s.value))
  }

  /** Key by key, the property loop leaves the source's values merged over the destination's. */
  lemma {:induction false} MixinPropsLookup(destination: seq<Prop>, source: seq<Prop>)
    requires UniqueKeys(source)
    ensures forall k :: Lookup(MixinProps(destination, source), k) == MixedLookup(Lookup(destination, k), Lookup(source, k))
    decreases |source|
  {
    if |source| > 0 {
      var p := source[0];
      var next := Put(destination, p.key, MixedValue(Lookup(destination, p.key), p.value));
      MixinPropsLookup(next, source[1..]);
      assert forall k :: Lookup(source, k) == if k == p.key then Some(p.value) else Lookup(source[1..], k);
    }
  }

  /** Key by key, a mixin of two objects reads as the source merged over the destination. */
  lemma MixinLookup(destination: Value, source: Value)
    requires destination.Obj? && source.Obj? && UniqueKeys(source.props)
    ensures Mixin(destination, source).Obj?
    ensures forall k :: Lookup(Mixin(destination, source).props, k) == MixedLookup(Lookup(destination.props, k), Lookup(source.props, k))
  {
    MixinPropsLookup(destination.props, source.props);
  }

  /** `delete value.readOnly`; only objects have properties to delete. */
  function DeleteReadOnly(v: Value): (r: Value)
    ensures v.Obj? && UniqueKeys(v.props) ==> r.Obj? && Lookup(r.props, "readOnly").None?
    ensures v.Obj? && UniqueKeys(v.props) ==> forall k :: k != "readOnly" ==> Lookup(r.props, k) == Lookup(v.props, k)
    ensures !(v.Obj? && UniqueKeys(v.props)) ==> r == v
    ensures Truthy(v) ==> Truthy(r)
  {
    if v.Obj? && UniqueKeys(v.props) then Obj(Remove(v.props, "readOnly")) else v
  }

  /** Deleting `readOnly` a second time changes nothing. */
  lemma DeleteReadOnlyIdempotent(v: Value)
    ensures DeleteReadOnly(DeleteReadOnly(v)) == DeleteReadOnly(v)
  {
    if v.Obj? && UniqueKeys(v.props) {
      RemoveAbsent(Remove(v.props, "readOnly"), "readOnly");
    }
  }

  /** Writes a section back into the configuration object. */
  function SetSection(config: Value, section: string, v: Value): (r: Value)
    ensures config.Obj? ==> r.Obj? && Lookup(r.props, section) == Some(v)
    ensures config.Obj? ==> forall k :: k != section ==> Lookup(r.props, k) == Lookup(config.props, k)
    ensures !config.Obj? ==> r == config
  {
    if config.Obj? then Obj(Put(config.props, section, v)) else config
  }

  function Section(config: Value, name: string): Value {
    match Get(config, name)
    case Ok(v) => v
    case Err(_) => Undefined
  }

  /** One `updateOptions` call: the editor's position and the options it received. */
  datatype Update = Update(editor: nat, options: Value)

  /**
   * An update `apply` can make from editor `i` on: to a code or diff editor
   * at or after `i`, with truthy options that hold no `readOnly`.
   */
  predicate Received(editors: seq<Option<EditorType>>, i: nat, u: Update) {
    i <= u.editor < |editors| && editors[u.editor].Some? && !editors[u.editor].value.OtherEditor?
    && Truthy(u.options)
    && (u.options.Obj? && UniqueKeys(u.options.props) ==> Lookup(u.options.props, "readOnly").None?)
  }

  /**
   * Whether `apply` has settings for an editor of type `t`: the `editor`
   * section is truthy, or for a diff editor either section is.
   */
  predicate Updatable(config: Value, t: EditorType) {
    Truthy(Section(config, "editor")) || (t.DiffEditor? && Truthy(Section(config, "diffEditor")))
  }

  /** Editor `j` gets `updateOptions`: it is a code or diff editor with settings to receive. */
  predicate Updated(config: Value, editors: seq<Option<EditorType>>, j: nat)
    requires j < |editors|
  {
    editors[j].Some? && !editors[j].value.OtherEditor? && Updatable(config, editors[j].value)
  }

  /** The number of editors from `i` on that get `updateOptions`. */
  function CountUpdated(config: Value, editors: seq<Option<EditorType>>, i: nat): nat
    decreases |editors| - i
  {
    if i >= |editors| then 0
    else (if Updated(config, editors, i) then 1 else 0) + CountUpdated(config, editors, i + 1)
  }

  /** Only the truthiness of the two sections decides which editors are updated. */
  lemma {:induction false} CountUpdatedSame(c1: Value, c2: Value, editors: seq<Option<EditorType>>, i: nat)
    requires forall t :: Updatable(c1, t) == Updatable(c2, t)
    ensures CountUpdated(c1, editors, i) == CountUpdated(c2, editors, i)
    decreases |editors| - i
  {
    if i < |editors| {
      CountUpdatedSame(c1, c2, editors, i + 1);
    }
  }

  /**
   * Writing truthy settings back into a section that was truthy changes no
   * section's truthiness, so no later editor's fate.
   */
  lemma SetSectionKeepsUpdatable(config: Value, target: string, v: Value)
    requires target == "editor" || target == "diffEditor"
    requires Truthy(Section(config, target)) && Truthy(v)
    ensures forall t :: Updatable(SetSection(config, target, v), t) == Updatable(config, t)
  {
    var c := SetSection(config, target, v);
    if config.Obj? {
      assert Section(c, target) == v;
      assert Section(c, "editor") == Section(config, "editor") || target == "editor";
      assert Section(c, "diffEditor") == Section(config, "diffEditor") || target == "diffEditor";
    }
  }

  /** Some update in `r` goes to editor `j`. */
  predicate Mentions(r: seq<Update>, j: nat) {
    exists k :: 0 <= k < |r| && r[k].editor == j
  }

  lemma MentionsCons(u: Update, rest: seq<Update>, j: nat)
    ensures Mentions([u] + rest, j) <==> u.editor == j || Mentions(rest, j)
  {
    var r := [u] + rest;
    assert r[0] == u;
    if k :| 0 <= k < |rest| && rest[k].editor == j {
      assert r[k + 1] == rest[k];
    }
    if k :| 0 <= k < |r| && r[k].editor == j {
      if k > 0 { assert rest[k - 1] == r[k]; }
    }
  }

  /** The updates for editors after `i`, with one for editor `i` itself put in front. */
  lemma UpdatesPrepend(config: Value, editors: seq<Option<EditorType>>, i: nat, u: Update, rest: seq<Update>)
    requires i < |editors| && u.editor == i && Received(editors, i, u) && Updated(config, editors, i)
    requires forall k :: 0 <= k < |rest| ==> Received(editors, i + 1, rest[k])
    requires forall k, l :: 0 <= k < l < |rest| ==> rest[k].editor < rest[l].editor
    requires forall j :: i + 1 <= j < |editors| ==> (Mentions(rest, j) <==> Updated(config, editors, j))
    requires |rest| == CountUpdated(config, editors, i + 1)
    ensures var r := [u] + rest;
      (forall k :: 0 <= k < |r| ==> Received(editors, i, r[k]))
      && (forall k, l :: 0 <= k < l < |r| ==> r[k].editor < r[l].editor)
      && (forall j :: i <= j < |editors| ==> (Mentions(r, j) <==> Updated(config, editors, j)))
      && |r| == CountUpdated(config, editors, i)
  {
    var r := [u] + rest;
    forall j | i <= j < |editors| ensures Mentions(r, j) == (j == i || Mentions(rest, j)) {
      MentionsCons(u, rest, j);
    }
    assert forall k :: 0 < k < |r| ==> r[k] == rest[k - 1];
  }

  /**
   * The loop of `apply` from editor `i` on. Each code or diff editor gets the
   * `editor` section (for a diff editor mixed with the `diffEditor` section),
   * after `readOnly` was deleted from it; those changes are made to the
   * configuration object itself, so later editors see them. Missing editors,
   * editors without `updateOptions` (here `None`) and other editor types are
   * skipped.
   */
  function ApplyFrom(config: Value, editors: seq<Option<EditorType>>, i: nat): (r: seq<Update>)
    ensures forall k :: 0 <= k < |r| ==> Received(editors, i, r[k])
    ensures forall k, l :: 0 <= k < l < |r| ==> r[k].editor < r[l].editor
    ensures forall j :: i <= j < |editors| ==> (Mentions(r, j) <==> Updated(config, editors, j))
    ensures |r| == CountUpdated(config, editors, i)
    ensures forall k :: 0 <= k < |r| ==> FromSeen(config, editors, i, r[k])
    decreases |editors| - i
  {
    if i >= |editors| then []
    else if editors[i].None? || editors[i].value.OtherEditor? then
      var rest := ApplyFrom(config, editors, i + 1);
      FromSeenSkip(config, editors, i, rest);
      rest
    else
      var (target, value) := EditorSettings(config, editors[i].value);
      if !Truthy(value) then
        var rest := ApplyFrom(config, editors, i + 1);
        FromSeenSkip(config, editors, i, rest);
        rest
      else
        var cleaned := DeleteReadOnly(value);
        var next := SetSection(config, target, cleaned);
        SetSectionKeepsUpdatable(config, target, cleaned);
        CountUpdatedSame(next, config, editors, i + 1);
        var rest := ApplyFrom(next, editors, i + 1);
        assert forall j :: i < j < |editors| ==> Updated(next, editors, j) == Updated(config, editors, j);
        UpdatesPrepend(config, editors, i, Update(i, cleaned), rest);
        FromSeenPrepend(config, editors, i, rest);
        [Update(i, cleaned)] + rest
  }

  /**
   * What `apply` writes back for editor `j`: its settings without `readOnly`,
   * into the section they came from; nothing for an editor it skips.
   */
  function WriteBack(config: Value, editors: seq<Option<EditorType>>, j: nat): Value
    requires j < |editors|
  {
    if editors[j].None? || editors[j].value.OtherEditor? then config
    else
      var (target, value) := EditorSettings(config, editors[j].value);
      if Truthy(value) then SetSection(config, target, DeleteReadOnly(value)) else config
  }

  /** The configuration object editor `j` sees when the loop started at editor `i` with `config`. */
  function SeenBy(config: Value, editors: seq<Option<EditorType>>, i: nat, j: nat): Value
    requires i <= j <= |editors|
    decreases j - i
  {
    if i == j then config else SeenBy(WriteBack(config, editors, i), editors, i + 1, j)
  }

  /**
   * Update `u` holds the settings its editor takes from the configuration
   * object it sees, the loop having started at editor `i`, without `readOnly`.
   */
  predicate FromSeen(config: Value, editors: seq<Option<EditorType>>, i: nat, u: Update) {
    i <= u.editor < |editors| && editors[u.editor].Some?
    && u.options == DeleteReadOnly(EditorSettings(SeenBy(config, editors, i, u.editor), editors[u.editor].value).1)
  }

  /** An editor the loop skips writes nothing back, so the later ones see the same object. */
  lemma FromSeenSkip(config: Value, editors: seq<Option<EditorType>>, i: nat, rest: seq<Update>)
    requires i < |editors| && WriteBack(config, editors, i) == config
    requires forall k :: 0 <= k < |rest| ==> FromSeen(config, editors, i + 1, rest[k])
    ensures forall k :: 0 <= k < |rest| ==> FromSeen(config, editors, i, rest[k])
  {
  }

  /** Editor `i`'s update, in front of the updates of the editors that see its write-back. */
  lemma FromSeenPrepend(config: Value, editors: seq<Option<EditorType>>, i: nat, rest: seq<Update>)
    requires i < |editors| && editors[i].Some? && !editors[i].value.OtherEditor?
    requires Truthy(EditorSettings(config, editors[i].value).1)
    requires forall k :: 0 <= k < |rest| ==> FromSeen(WriteBack(config, editors, i), editors, i + 1, rest[k])
    ensures var r := [Update(i, DeleteReadOnly(EditorSettings(config, editors[i].value).1))] + rest;
      forall k :: 0 <= k < |r| ==> FromSeen(config, editors, i, r[k])
  {
    var r := [Update(i, DeleteReadOnly(EditorSettings(config, editors[i].value).1))] + rest;
    assert FromSeen(config, editors, i, r[0]);
    assert forall k :: 0 < k < |r| ==> r[k] == rest[k - 1];
  }

  /** A code editor, or one the loop skips, leaves the `editor` section as it was up to `readOnly`. */
  lemma WriteBackEditorSection(config: Value, editors: seq<Option<EditorType>>, i: nat)
    requires i < |editors| && editors[i] != Some(DiffEditor)
    ensures DeleteReadOnly(Section(WriteBack(config, editors, i), "editor")) == DeleteReadOnly(Section(config, "editor"))
  {
    var e := Section(config, "editor");
    if WriteBack(config, editors, i) != config {
      assert config.Obj? && Section(WriteBack(config, editors, i), "editor") == DeleteReadOnly(e);
      DeleteReadOnlyIdempotent(e);
    }
  }

  /** Until a diff editor comes, the `editor` section is only ever stripped of `readOnly`. */
  lemma {:induction false} SeenEditorSection(config: Value, editors: seq<Option<EditorType>>, i: nat, j: nat)
    requires i <= j <= |editors|
    requires forall l :: i <= l < j ==> editors[l] != Some(DiffEditor)
    ensures DeleteReadOnly(Section(SeenBy(config, editors, i, j), "editor")) == DeleteReadOnly(Section(config, "editor"))
    decreases j - i
  {
    if i < j {
      SeenEditorSection(WriteBack(config, editors, i), editors, i + 1, j);
      WriteBackEditorSection(config, editors, i);
    }
  }

  /**
   * The settings one editor receives before `readOnly` is deleted, and the
   * section of the configuration object that holds them, which the deletion
   * changes. The mixin hands back the `editor` object when that is an object,
   * and the `diffEditor` value otherwise.
   */
  function EditorSettings(config: Value, t: EditorType): (r: (string, Value))
    ensures r.0 == "editor" || r.0 == "diffEditor"
    ensures !t.DiffEditor? ==> r == ("editor", Section(config, "editor"))
    ensures t.DiffEditor? && !Truthy(Section(config, "diffEditor")) ==> r == ("editor", Section(config, "editor"))
    ensures t.DiffEditor? && Truthy(Section(config, "diffEditor")) && !Truthy(Section(config, "editor"))
      ==> r == ("diffEditor", Section(config, "diffEditor"))
    ensures t.DiffEditor? && Truthy(Section(config, "diffEditor")) && Truthy(Section(config, "editor")) ==>
      r.1 == Mixin(Section(config, "editor"), Section(config, "diffEditor"))
      && (r.0 == "editor" <==> Section(config, "editor").Obj?)
    ensures Truthy(r.1) <==> Updatable(config, t)
    ensures Truthy(r.1) ==> Truthy(Section(config, r.0))
  {
    var editorConfig := Section(config, "editor");
    if t.DiffEditor? then
      var diffConfig := Section(config, "diffEditor");
      if Truthy(diffConfig) then
        if !Truthy(editorConfig) then ("diffEditor", diffConfig)
        else (if editorConfig.Obj? then "editor" else "diffEditor", Mixin(editorConfig, diffConfig))
      else ("editor", editorConfig)
    else ("editor", editorConfig)
  }

  /**
   * `EditorConfiguration.apply(config, editorOrArray)`: nothing for a falsy
   * configuration; a single editor is treated as a list of one.
   */
  function Apply(config: Value, editors: seq<Option<EditorType>>): (r: seq<Update>)
    ensures !Truthy(config) ==> r == []
    ensures forall k :: 0 <= k < |r| ==> Received(editors, 0, r[k])
    ensures forall k, l :: 0 <= k < l < |r| ==> r[k].editor < r[l].editor
    ensures Truthy(config) ==> forall j :: 0 <= j < |editors| ==> (Mentions(r, j) <==> Updated(config, editors, j))
    ensures Truthy(config) ==> |r| == CountUpdated(config, editors, 0)
    ensures forall k :: 0 <= k < |r| ==> FromSeen(config, editors, 0, r[k])
  {
    if !Truthy(config) then [] else ApplyFrom(config, editors, 0)
  }

  /**
   * A lone diff editor gets the `diffEditor` section mixed into the `editor`
   * section, key by key, and never `readOnly`.
   */
  lemma DiffEditorOverlay(config: Value)
    requires config.Obj? && UniqueKeys(config.props)
    requires Section(config, "editor").Obj? && Section(config, "diffEditor").Obj?
    requires UniqueKeys(Section(config, "editor").props) && UniqueKeys(Section(config, "diffEditor").props)
    ensures var r := Apply(config, [Some(DiffEditor)]);
      |r| == 1 && r[0].options.Obj?
      && forall k :: k != "readOnly" ==>
        Lookup(r[0].options.props, k)
        == MixedLookup(Lookup(Section(config, "editor").props, k), Lookup(Section(config, "diffEditor").props, k))
  {
    var e := Section(config, "editor");
    var d := Section(config, "diffEditor");
    LoneDiffEditor(config);
    MixinLookup(e, d);
    var m := Mixin(e, d);
    assert m.Obj? && UniqueKeys(m.props);
  }

  /**
   * A `diffEditor` setting that is not an object (`diffEditor: true`, say)
   * leaves a lone diff editor with the `editor` section alone.
   */
  lemma DiffEditorFlagKeepsEditor(config: Value)
    requires config.Obj? && Section(config, "editor").Obj?
    requires Truthy(Section(config, "diffEditor")) && !Section(config, "diffEditor").Obj?
    ensures Apply(config, [Some(DiffEditor)]) == [Update(0, DeleteReadOnly(Section(config, "editor")))]
  {
    var editors := [Some(DiffEditor)];
    var cleaned := DeleteReadOnly(Section(config, "editor"));
    assert EditorSettings(config, DiffEditor) == ("editor", Section(config, "editor"));
    assert ApplyFrom(SetSection(config, "editor", cleaned), editors, 1) == [];
    assert ApplyFrom(config, editors, 0) == [Update(0, cleaned)] + ApplyFrom(SetSection(config, "editor", cleaned), editors, 1);
  }

  /** A lone diff editor is updated once, with the overlay of the two sections without `readOnly`. */
  lemma LoneDiffEditor(config: Value)
    requires config.Obj?
    requires Section(config, "editor").Obj? && Section(config, "diffEditor").Obj?
    ensures Apply(config, [Some(DiffEditor)])
      == [Update(0, DeleteReadOnly(Mixin(Section(config, "editor"), Section(config, "diffEditor"))))]
  {
    var m := Mixin(Section(config, "editor"), Section(config, "diffEditor"));
    assert EditorSettings(config, DiffEditor) == ("editor", m);
    assert Truthy(m);
    var cleaned := DeleteReadOnly(m);
    var editors := [Some(DiffEditor)];
    assert ApplyFrom(SetSection(config, "editor", cleaned), editors, 1) == [];
    assert ApplyFrom(config, editors, 0) == [Update(0, cleaned)] + ApplyFrom(SetSection(config, "editor", cleaned), editors, 1);
  }

  /**
   * A code editor with no diff editor before it receives the `editor`
   * section without `readOnly`, whatever the code editors before it wrote back.
   */
  lemma CodeEditorBeforeAnyDiffEditor(config: Value, editors: seq<Option<EditorType>>, j: nat)
    requires Truthy(config) && j < |editors| && editors[j] == Some(CodeEditor) && Updated(config, editors, j)
    requires forall l :: 0 <= l < j ==> editors[l] != Some(DiffEditor)
    ensures exists k :: 0 <= k < |Apply(config, editors)| && Apply(config, editors)[k] == Update(j, DeleteReadOnly(Section(config, "editor")))
  {
    var r := Apply(config, editors);
    assert Mentions(r, j);
    var k :| 0 <= k < |r| && r[k].editor == j;
    SeenEditorSection(config, editors, 0, j);
    assert r[k] == Update(j, DeleteReadOnly(Section(config, "editor")));
  }

  /**
   * A code editor after a diff editor receives what the diff editor wrote
   * back: the `diffEditor` section mixed into the `editor` object.
   */
  lemma CodeEditorAfterDiffEditor(config: Value)
    requires config.Obj? && Section(config, "editor").Obj? && Truthy(Section(config, "diffEditor"))
    ensures var m := DeleteReadOnly(Mixin(Section(config, "editor"), Section(config, "diffEditor")));
      Apply(config, [Some(DiffEditor), Some(CodeEditor)]) == [Update(0, m), Update(1, m)]
  {
    var editors := [Some(DiffEditor), Some(CodeEditor)];
    var mixed := Mixin(Section(config, "editor"), Section(config, "diffEditor"));
    FirstDiffEditor(config, editors, mixed);
    LastCodeEditor(SetSection(config, "editor", DeleteReadOnly(mixed)), editors, mixed);
  }

  /** The first editor, a diff editor, receives the mixin and writes it into the `editor` object. */
  lemma FirstDiffEditor(config: Value, editors: seq<Option<EditorType>>, mixed: Value)
    requires |editors| == 2 && editors[0] == Some(DiffEditor)
    requires config.Obj? && Section(config, "editor").Obj? && Truthy(Section(config, "diffEditor"))
    requires mixed == Mixin(Section(config, "editor"), Section(config, "diffEditor"))
    ensures ApplyFrom(config, editors, 0)
      == [Update(0, DeleteReadOnly(mixed))] + ApplyFrom(SetSection(config, "editor", DeleteReadOnly(mixed)), editors, 1)
    ensures Truthy(mixed) && SetSection(config, "editor", DeleteReadOnly(mixed)).Obj?
    ensures Section(SetSection(config, "editor", DeleteReadOnly(mixed)), "editor") == DeleteReadOnly(mixed)
  {
    assert EditorSettings(config, DiffEditor) == ("editor", mixed);
  }

  /** The last editor, a code editor, receives the `editor` section when it has no `readOnly` to delete. */
  lemma LastCodeEditor(config: Value, editors: seq<Option<EditorType>>, mixed: Value)
    requires |editors| == 2 && editors[1] == Some(CodeEditor)
    requires config.Obj? && Section(config, "editor") == DeleteReadOnly(mixed) && Truthy(mixed)
    ensures ApplyFrom(config, editors, 1) == [Update(1, DeleteReadOnly(mixed))]
  {
    var m := DeleteReadOnly(mixed);
    DeleteReadOnlyIdempotent(mixed);
    var c2 := SetSection(config, "editor", m);
    assert ApplyFrom(c2, editors, 2) == [];
  }
}

=== FILE: ext_host_api.dfy ===
/**
 * The part of the extension API implementation (extHost.api.impl.ts) that
 * has logic of its own: dispose tokens, the main-side table from token to
 * registration, the translation of a `LanguageConfiguration` into support
 * registrations, the argument dispatch of `openTextDocument` and the
 * read-only workspace properties. The mode service, the thread proxy and
 * `URI.file` are not modelled: a registration is recorded as the
 * contribution it hands over, and `URI.file` is a parameter.
 */
module ExtHostApi {
  import opened Wrappers
  import opened Strings

  // ---------------------------------------------------------------------------
  // Dispose tokens

  /** The static `_LAST_REGISTER_TOKEN`. */
  datatype TokenCounter = TokenCounter(last: nat)

  const InitialCounter := TokenCounter(0)

  /** `generateDisposeToken`: bump the counter and print it in decimal. */
  function GenerateDisposeToken(c: TokenCounter): (r: (TokenCounter, string))
    ensures r.0.last == c.last + 1
    ensures AllDigits(r.1) && DigitsValue(r.1) == r.0.last
  {
    var next := c.last + 1;
    NatToStringRoundTrip(next);
    (TokenCounter(next), NatToString(next))
  }

  /** The token printed for the `n`-th generation. */
  function TokenAt(n: nat): string {
    NatToString(n)
  }

  /** Successive tokens are distinct and read as strictly increasing numbers. */
  lemma TokensIncrease(c: TokenCounter)
    ensures var (c1, t1) := GenerateDisposeToken(c);
      var (_, t2) := GenerateDisposeToken(c1);
      t1 != t2 && DigitsValue(t1) < DigitsValue(t2)
  {
    NatToStringInjective(c.last + 1, c.last + 2);
  }

  /** No token is ever generated twice from one counter. */
  lemma TokensDistinct(c: TokenCounter, d: TokenCounter)
    requires c.last != d.last
    ensures GenerateDisposeToken(c).1 != GenerateDisposeToken(d).1
  {
    NatToStringInjective(c.last + 1, d.last + 1);
  }

  // ---------------------------------------------------------------------------
  // What a language configuration turns into

  datatype Bracket = Bracket(open: string, close: string)

  datatype IndentationRules = IndentationRules(
    decreaseIndentPattern: string, increaseIndentPattern: string,
    indentNextLinePattern: Option<string>, unIndentedLinePattern: Option<string>)

  datatype OnEnterRule = OnEnterRule(beforeText: string, afterText: Option<string>, action: string)

  datatype CommentRule = CommentRule(lineComment: Option<string>, blockComment: Option<(string, string)>)

  /**
   * `vscode.LanguageConfiguration`. Regular expressions are kept as their
   * source text; the two private contributions are passed on unread. An
   * absent field is `None`; arrays and objects are truthy even when empty.
   */
  datatype LanguageConfiguration = LanguageConfiguration(
    comments: Option<CommentRule>,
    wordPattern: Option<string>,
    brackets: Option<seq<(string, string)>>,
    indentationRules: Option<IndentationRules>,
    onEnterRules: Option<seq<OnEnterRule>>,
    electricCharacterSupport: Option<string>,
    characterPairSupport: Option<string>)

  /** What is handed to the mode service, one per `Modes_*_register` call. */
  datatype Contribution =
    | Comments(lineCommentTokens: Option<seq<string>>, blockCommentStartToken: Option<string>, blockCommentEndToken: Option<string>)
    | TokenTypeClassification(wordDefinition: string)
    | OnEnter(onEnterBrackets: Option<seq<Bracket>>, onEnterIndentationRules: Option<IndentationRules>, regExpRules: Option<seq<OnEnterRule>>)
    | ElectricCharacter(electric: string)
    | CharacterPair(pairs: string)

  predicate Truthy(s: Option<string>) {
    s.Some? && s.value != ""
  }

  /** The comment contribution: `[lineComment]` when it is a non-empty string, the block pair split into start and end. */
  function CommentsContribution(rule: CommentRule): (c: Contribution)
    ensures c.Comments?
    ensures c.lineCommentTokens.Some? <==> Truthy(rule.lineComment)
    ensures c.lineCommentTokens.Some? ==> c.lineCommentTokens.value == [rule.lineComment.value]
    ensures c.blockCommentStartToken.Some? <==> rule.blockComment.Some?
    ensures c.blockCommentEndToken.Some? <==> rule.blockComment.Some?
    ensures rule.blockComment.Some? ==> (c.blockCommentStartToken.value == rule.blockComment.value.0
      && c.blockCommentEndToken.value == rule.blockComment.value.1)
  {
    Comments(
      if Truthy(rule.lineComment) then Some([rule.lineComment.value]) else None,
      if rule.blockComment.Some? then Some(rule.blockComment.value.0) else None,
      if rule.blockComment.Some? then Some(rule.blockComment.value.1) else None)
  }

  /** Each `[open, close]` pair becomes `{open, close}`, in order. */
  function Brackets(pairs: seq<(string, string)>): (bs: seq<Bracket>)
    ensures |bs| == |pairs|
    ensures forall i :: 0 <= i < |pairs| ==> bs[i].open == pairs[i].0 && bs[i].close == pairs[i].1
  {
    seq(|pairs|, i requires 0 <= i < |pairs| => Bracket(pairs[i].0, pairs[i].1))
  }

  /** The on-enter options exist when brackets, indentation rules or on-enter rules are given. */
  function OnEnterContribution(config: LanguageConfiguration): (c: Option<Contribution>)
    ensures c.Some? <==> config.brackets.Some? || config.indentationRules.Some? || config.onEnterRules.Some?
    ensures c.Some? ==> c.value.OnEnter?
    ensures c.Some? ==> (c.value.onEnterBrackets.Some? <==> config.brackets.Some?)
    ensures c.Some? && config.brackets.Some? ==> c.value.onEnterBrackets == Some(Brackets(config.brackets.value))
    ensures c.Some? ==> c.value.onEnterIndentationRules == config.indentationRules && c.value.regExpRules == config.onEnterRules
  {
    var empty := config.brackets.None? && config.indentationRules.None? && config.onEnterRules.None?;
    if empty then None
    else Some(OnEnter(
      if config.brackets.Some? then Some(Brackets(config.brackets.value)) else None,
      config.indentationRules,
      config.onEnterRules))
  }

  function OptionToSeq<T>(o: Option<T>): (s: seq<T>)
    ensures |s| == if o.Some? then 1 else 0
    ensures o.Some? ==> s == [o.value]
  {
    if o.Some? then [o.value] else []
  }

  /** Where a kind of registration comes in the order `_setLanguageConfiguration` makes them. */
  function Stage(c: Contribution): nat {
    match c
    case Comments(_, _, _) => 0
    case TokenTypeClassification(_) => 1
    case OnEnter(_, _, _) => 2
    case ElectricCharacter(_) => 3
    case CharacterPair(_) => 4
  }

  /**
   * The registrations `_setLanguageConfiguration` makes, in order: comments,
   * word definition, on-enter, electric characters, character pairs, each
   * only when its part of the configuration is there.
   */
  function Contributions(config: LanguageConfiguration): (cs: seq<Contribution>)
    ensures |cs| <= 5
    ensures config.comments.Some? ==> |cs| > 0 && cs[0] == CommentsContribution(config.comments.value)
    ensures config.wordPattern.Some? ==> TokenTypeClassification(config.wordPattern.value) in cs
    ensures OnEnterContribution(config).Some? ==> OnEnterContribution(config).value in cs
    ensures forall c :: c in cs && c.Comments? ==> config.comments.Some? && c == CommentsContribution(config.comments.value)
    ensures forall c :: c in cs && c.TokenTypeClassification? ==> config.wordPattern == Some(c.wordDefinition)
    ensures forall c :: c in cs && c.OnEnter? ==> OnEnterContribution(config) == Some(c)
    ensures config.electricCharacterSupport.Some? <==> ElectricCharacter(config.electricCharacterSupport.GetOr("")) in cs
    ensures forall c :: c in cs && c.ElectricCharacter? ==> config.electricCharacterSupport == Some(c.electric)
    ensures config.characterPairSupport.Some? <==> CharacterPair(config.characterPairSupport.GetOr("")) in cs
    ensures forall c :: c in cs && c.CharacterPair? ==> config.characterPairSupport == Some(c.pairs)
  {
    var comments := if config.comments.Some? then [CommentsContribution(config.comments.value)] else [];
    var words := if config.wordPattern.Some? then [TokenTypeClassification(config.wordPattern.value)] else [];
    var onEnter := OptionToSeq(OnEnterContribution(config));
    var electric := if config.electricCharacterSupport.Some? then [ElectricCharacter(config.electricCharacterSupport.value)] else [];
    var pairs := if config.characterPairSupport.Some? then [CharacterPair(config.characterPairSupport.value)] else [];
    var cs := comments + words + onEnter + electric + pairs;
    assert forall c :: c in cs <==> c in comments || c in words || c in onEnter || c in electric || c in pairs;
    cs
  }

  /** Every kind comes after the ones before it. */
  predicate InStages(cs: seq<Contribution>) {
    forall i, j :: 0 <= i < j < |cs| ==> Stage(cs[i]) < Stage(cs[j])
  }

  /** Appending at most one registration of a later kind keeps the order. */
  lemma AppendStage(cs: seq<Contribution>, piece: seq<Contribution>, n: nat)
    requires InStages(cs) && (forall i :: 0 <= i < |cs| ==> Stage(cs[i]) < n)
    requires |piece| <= 1 && (forall i :: 0 <= i < |piece| ==> Stage(piece[i]) == n)
    ensures InStages(cs + piece) && (forall i :: 0 <= i < |cs + piece| ==> Stage((cs + piece)[i]) < n + 1)
  {
  }

  /** The five parts `Contributions` concatenates, each holding at most one registration of its kind. */
  lemma ContributionParts(config: LanguageConfiguration)
    returns (comments: seq<Contribution>, words: seq<Contribution>, onEnter: seq<Contribution>, electric: seq<Contribution>, pairs: seq<Contribution>)
    ensures Contributions(config) == comments + words + onEnter + electric + pairs
    ensures |comments| == |OptionToSeq(config.comments)| && forall i :: 0 <= i < |comments| ==> Stage(comments[i]) == 0
    ensures |words| == |OptionToSeq(config.wordPattern)| && forall i :: 0 <= i < |words| ==> Stage(words[i]) == 1
    ensures |onEnter| == |OptionToSeq(OnEnterContribution(config))| && forall i :: 0 <= i < |onEnter| ==> Stage(onEnter[i]) == 2
    ensures |electric| == |OptionToSeq(config.electricCharacterSupport)| && forall i :: 0 <= i < |electric| ==> Stage(electric[i]) == 3
    ensures |pairs| == |OptionToSeq(config.characterPairSupport)| && forall i :: 0 <= i < |pairs| ==> Stage(pairs[i]) == 4
  {
    comments := if config.comments.Some? then [CommentsContribution(config.comments.value)] else [];
    words := if config.wordPattern.Some? then [TokenTypeClassification(config.wordPattern.value)] else [];
    onEnter := OptionToSeq(OnEnterContribution(config));
    electric := if config.electricCharacterSupport.Some? then [ElectricCharacter(config.electricCharacterSupport.value)] else [];
    pairs := if config.characterPairSupport.Some? then [CharacterPair(config.characterPairSupport.value)] else [];
  }

  /**
   * The registrations come in the fixed order comments, word definition,
   * on-enter, electric characters, character pairs, one for each part that
   * is there and none for the others.
   */
  lemma ContributionsInOrder(config: LanguageConfiguration)
    ensures InStages(Contributions(config))
    ensures |Contributions(config)| == |OptionToSeq(config.comments)| + |OptionToSeq(config.wordPattern)|
      + |OptionToSeq(OnEnterContribution(config))| + |OptionToSeq(config.electricCharacterSupport)| + |OptionToSeq(config.characterPairSupport)|
  {
    var comments, words, onEnter, electric, pairs := ContributionParts(config);
    AppendStage(comments, words, 1);
    var upToWords := comments + words;
    AppendStage(upToWords, onEnter, 2);
    var upToOnEnter := upToWords + onEnter;
    AppendStage(upToOnEnter, electric, 3);
    var upToElectric := upToOnEnter + electric;
    AppendStage(upToElectric, pairs, 4);
  }

  // ---------------------------------------------------------------------------
  // The main-side registry

  /** An entry of `_token2Dispose`: the disposable the mode service gave back for a contribution. */
  datatype Registration = Registration(modeId: string, contribution: Contribution)

  type Registry = map<string, Registration>

  /** Every `Modes_*_register`: store the registration under the token, replacing what was there. */
  function Register(reg: Registry, token: string, r: Registration): (reg': Registry)
    ensures token in reg' && reg'[token] == r
    ensures reg'.Keys == reg.Keys + {token}
    ensures forall t :: t in reg && t != token ==> reg'[t] == reg[t]
  {
    reg[token := r]
  }

  /**
   * `disposeByToken`: a registered token has its disposable disposed (it is
   * returned) and is removed; an unknown token changes nothing.
   */
  function DisposeByToken(reg: Registry, token: string): (r: (Registry, Option<Registration>))
    ensures token in reg ==> r.1 == Some(reg[token]) && r.0.Keys == reg.Keys - {token}
    ensures token !in reg ==> r == (reg, None)
    ensures token !in r.0
    ensures forall t :: t in r.0 ==> t in reg && r.0[t] == reg[t]
  {
    if token in reg then (reg - {token}, Some(reg[token])) else (reg, None)
  }

  /** Disposing the same token twice disposes it once. */
  lemma DisposeTwice(reg: Registry, token: string)
    ensures var once := DisposeByToken(reg, token).0;
      DisposeByToken(once, token) == (once, None)
  {
  }

  /** Registering under a token and disposing it gives the table back, when the token was new. */
  lemma RegisterThenDispose(reg: Registry, token: string, r: Registration)
    requires token !in reg
    ensures DisposeByToken(Register(reg, token, r), token) == (reg, Some(r))
  {
    assert Register(reg, token, r) - {token} == reg;
  }

  /** No token above the counter is in the table: the counter has not printed it yet. */
  ghost predicate Fresh(c: TokenCounter, reg: Registry) {
    forall n: nat :: n > c.last ==> TokenAt(n) !in reg
  }

  /** The extension host and main sides of `_setLanguageConfiguration`. */
  datatype Configured = Configured(counter: TokenCounter, registry: Registry, tokens: seq<string>)

  /** One `Modes_*_register` per contribution, each under a newly generated token. */
  function RegisterAll(c: TokenCounter, reg: Registry, modeId: string, cs: seq<Contribution>): (o: Configured)
    ensures o.counter.last == c.last + |cs|
    ensures |o.tokens| == |cs|
    ensures forall i :: 0 <= i < |cs| ==> o.tokens[i] == TokenAt(c.last + 1 + i)
    decreases |cs|
  {
    if |cs| == 0 then Configured(c, reg, [])
    else
      var token := TokenAt(c.last + 1);
      var rest := RegisterAll(TokenCounter(c.last + 1), Register(reg, token, Registration(modeId, cs[0])), modeId, cs[1..]);
      Configured(rest.counter, rest.registry, [token] + rest.tokens)
  }

  /**
   * After registering, each new token maps to its contribution, every earlier
   * entry is still there unchanged, and nothing else was added.
   */
  lemma RegisterAllEntries(c: TokenCounter, reg: Registry, modeId: string, cs: seq<Contribution>)
    requires Fresh(c, reg)
    ensures var o := RegisterAll(c, reg, modeId, cs);
      && (forall i :: 0 <= i < |cs| ==> o.tokens[i] in o.registry && o.registry[o.tokens[i]] == Registration(modeId, cs[i]))
      && (forall t :: t in o.registry ==> t in reg || t in o.tokens)
      && (forall t :: t in reg ==> t in o.registry && o.registry[t] == reg[t])
  {
    RegisterAllMaps(c, reg, modeId, cs);
    RegisterAllAddsOnlyTokens(c, reg, modeId, cs);
    RegisterAllKeeps(c, reg, modeId, cs);
  }

  /** Registering never drops or changes an entry that is already there. */
  lemma {:induction false} RegisterAllKeeps(c: TokenCounter, reg: Registry, modeId: string, cs: seq<Contribution>)
    requires Fresh(c, reg)
    ensures var o := RegisterAll(c, reg, modeId, cs);
      forall t :: t in reg ==> t in o.registry && o.registry[t] == reg[t]
    decreases |cs|
  {
    if |cs| > 0 {
      var token := TokenAt(c.last + 1);
      assert token !in reg;
      var reg1 := Register(reg, token, Registration(modeId, cs[0]));
      FreshAfterRegister(c, reg, Registration(modeId, cs[0]));
      RegisterAllKeeps(TokenCounter(c.last + 1), reg1, modeId, cs[1..]);
    }
  }

  /** The only keys registering adds are the new tokens. */
  lemma {:induction false} RegisterAllAddsOnlyTokens(c: TokenCounter, reg: Registry, modeId: string, cs: seq<Contribution>)
    ensures var o := RegisterAll(c, reg, modeId, cs);
      forall t :: t in o.registry ==> t in reg || t in o.tokens
    decreases |cs|
  {
    if |cs| > 0 {
      var token := TokenAt(c.last + 1);
      var reg1 := Register(reg, token, Registration(modeId, cs[0]));
      RegisterAllAddsOnlyTokens(TokenCounter(c.last + 1), reg1, modeId, cs[1..]);
      var rest := RegisterAll(TokenCounter(c.last + 1), reg1, modeId, cs[1..]);
      var o := Configured(rest.counter, rest.registry, [token] + rest.tokens);
      assert RegisterAll(c, reg, modeId, cs) == o;
      forall t | t in o.registry
        ensures t in reg || t in o.tokens
      {
        if t !in rest.tokens {
          assert t in reg1.Keys;
        }
      }
    }
  }

  /** Each new token is registered with its own contribution. */
  lemma {:induction false} RegisterAllMaps(c: TokenCounter, reg: Registry, modeId: string, cs: seq<Contribution>)
    requires Fresh(c, reg)
    ensures var o := RegisterAll(c, reg, modeId, cs);
      forall i :: 0 <= i < |cs| ==> o.tokens[i] in o.registry && o.registry[o.tokens[i]] == Registration(modeId, cs[i])
    decreases |cs|
  {
    if |cs| > 0 {
      var token := TokenAt(c.last + 1);
      var reg1 := Register(reg, token, Registration(modeId, cs[0]));
      FreshAfterRegister(c, reg, Registration(modeId, cs[0]));
      RegisterAllMaps(TokenCounter(c.last + 1), reg1, modeId, cs[1..]);
      RegisterAllKeeps(TokenCounter(c.last + 1), reg1, modeId, cs[1..]);
      var rest := RegisterAll(TokenCounter(c.last + 1), reg1, modeId, cs[1..]);
      var o := Configured(rest.counter, rest.registry, [token] + rest.tokens);
      assert RegisterAll(c, reg, modeId, cs) == o;
      forall i | 1 <= i < |cs|
        ensures o.tokens[i] in o.registry && o.registry[o.tokens[i]] == Registration(modeId, cs[i])
      {
        assert o.tokens[i] == rest.tokens[i - 1];
        assert cs[i] == cs[1..][i - 1];
      }
    }
  }

  lemma FreshAfterRegister(c: TokenCounter, reg: Registry, r: Registration)
    requires Fresh(c, reg)
    ensures Fresh(TokenCounter(c.last + 1), Register(reg, TokenAt(c.last + 1), r))
  {
    forall n: nat | n > c.last + 1 ensures TokenAt(n) !in Register(reg, TokenAt(c.last + 1), r) {
      NatToStringInjective(n, c.last + 1);
    }
  }

  /**
   * `_setLanguageConfiguration`: the word definition set for the mode (`null`
   * without a word pattern) and one registration per contribution.
   */
  function SetLanguageConfiguration(c: TokenCounter, reg: Registry, modeId: string, config: LanguageConfiguration): (r: (Configured, Option<string>))
    ensures r.1 == config.wordPattern
    ensures r.0.counter.last == c.last + |r.0.tokens|
    ensures |r.0.tokens| == |Contributions(config)|
  {
    (RegisterAll(c, reg, modeId, Contributions(config)), config.wordPattern)
  }

  /**
   * Each registration made for a configuration is the mode's translation of
   * it; the comment, word and on-enter supports are registered exactly when
   * their parts of the configuration are there.
   */
  lemma SetLanguageConfigurationRegisters(c: TokenCounter, reg: Registry, modeId: string, config: LanguageConfiguration)
    requires Fresh(c, reg)
    ensures var o := SetLanguageConfiguration(c, reg, modeId, config).0;
      && (forall i :: 0 <= i < |o.tokens| ==>
            (o.tokens[i] in o.registry && o.registry[o.tokens[i]].modeId == modeId && o.registry[o.tokens[i]].contribution in Contributions(config)))
      && (config.comments.Some? ==> o.registry[o.tokens[0]].contribution == CommentsContribution(config.comments.value))
      && (config.wordPattern.None? ==> forall i :: 0 <= i < |o.tokens| ==> !o.registry[o.tokens[i]].contribution.TokenTypeClassification?)
      && (OnEnterContribution(config).None? ==> forall i :: 0 <= i < |o.tokens| ==> !o.registry[o.tokens[i]].contribution.OnEnter?)
  {
    RegisterAllEntries(c, reg, modeId, Contributions(config));
  }

  /** The disposable returned by `Disposable.from`: dispose every token, in order. */
  function DisposeAll(reg: Registry, tokens: seq<string>): (r: Registry)
    ensures forall t :: t in r <==> t in reg && t !in tokens
    ensures forall t :: t in r ==> r[t] == reg[t]
  {
    if |tokens| == 0 then reg
    else DisposeAll(DisposeByToken(reg, tokens[0]).0, tokens[1..])
  }

  /** Disposing what `_setLanguageConfiguration` returned leaves the registry as it was before. */
  lemma SetThenDisposeRestores(c: TokenCounter, reg: Registry, modeId: string, config: LanguageConfiguration)
    requires Fresh(c, reg)
    ensures DisposeAll(SetLanguageConfiguration(c, reg, modeId, config).0.registry, SetLanguageConfiguration(c, reg, modeId, config).0.tokens) == reg
  {
    RegisterThenDisposeAll(c, reg, modeId, Contributions(config));
  }

  /** Disposing every token a batch of registrations returned leaves the registry as it was before. */
  lemma RegisterThenDisposeAll(c: TokenCounter, reg: Registry, modeId: string, cs: seq<Contribution>)
    requires Fresh(c, reg)
    ensures var o := RegisterAll(c, reg, modeId, cs);
      DisposeAll(o.registry, o.tokens) == reg
  {
    var o := RegisterAll(c, reg, modeId, cs);
    RegisterAllAddsOnlyTokens(c, reg, modeId, cs);
    RegisterAllKeeps(c, reg, modeId, cs);
    var after := DisposeAll(o.registry, o.tokens);
    forall i | 0 <= i < |o.tokens| ensures o.tokens[i] !in reg {
      assert o.tokens[i] == TokenAt(c.last + 1 + i);
    }
    assert after.Keys == reg.Keys;
  }

  // ---------------------------------------------------------------------------
  // The workspace namespace

  datatype Uri = Uri(scheme: string, path: string)

  /** What an extension passes to `openTextDocument`. */
  datatype DocumentArg = FileName(name: string) | UriArg(uri: Uri) | Other

  datatype ApiError = IllegalArgument | Readonly

  /**
   * The argument dispatch of `openTextDocument`: a string becomes a file
   * URI, a URI is used as it is, anything else throws.
   */
  function DocumentUri(arg: DocumentArg, fileUri: string -> Uri): (r: Result<Uri, ApiError>)
    ensures arg.FileName? ==> r == Ok(fileUri(arg.name))
    ensures arg.UriArg? ==> r == Ok(arg.uri)
    ensures r.Err? <==> arg.Other?
    ensures r.Err? ==> r.error == IllegalArgument
  {
    match arg
    case FileName(name) => Ok(fileUri(name))
    case UriArg(uri) => Ok(uri)
    case Other => Err(IllegalArgument)
  }

  /** The frozen `workspace` object's two accessor properties. */
  datatype WorkspaceProperty = RootPath | TextDocuments

  datatype Workspace = Workspace(rootPath: Option<string>, textDocuments: seq<Uri>)

  /** Assigning `rootPath` or `textDocuments` throws the read-only error and leaves the workspace alone. */
  function AssignProperty<V>(w: Workspace, p: WorkspaceProperty, value: V): (r: Result<Workspace, ApiError>)
    ensures r.Err? && r.error == Readonly
  {
    Err(Readonly)
  }
}

=== FILE: extension_host.dfy ===
/**
 * The start-up and shut-down logic of the extension host process
 * (extensionHostMain.ts): merging the built-in, user and development
 * extension descriptions, the messages that merge leaves in the collector,
 * the `workspaceContains:` eager activation, the extension-test hand-off and
 * `terminate`. Directory scanning, file-existence checks, `require` and the
 * exit timers are parameters or results.
 */
module ExtensionHost {
  import opened Wrappers
  import opened Strings

  /** The part of an `IExtensionDescription` the host reads. */
  datatype Description = Description(id: string, extensionFolderPath: string, activationEvents: Option<seq<string>>)

  datatype Severity = Info | Warning | Error

  datatype Detail =
    | Overwriting(previousFolder: string, newFolder: string)
    | UnderDevelopment(folder: string)
    | ScanFailed(reasons: seq<Option<string>>)

  /** One entry of the `MessagesCollector`: severity, source and what it says. */
  datatype Message = Message(severity: Severity, source: string, detail: Detail)

  // ---------------------------------------------------------------------------
  // The id-keyed result object, kept in insertion order (a JavaScript object's key order for non-index keys)

  function Ids(ds: seq<Description>): set<string> {
    set i | 0 <= i < |ds| :: ds[i].id
  }

  predicate DistinctIds(ds: seq<Description>) {
    forall i, j :: 0 <= i < j < |ds| ==> ds[i].id != ds[j].id
  }

  /** `result[id]`. */
  function Lookup(ds: seq<Description>, id: string): (r: Option<Description>)
    ensures r.Some? <==> id in Ids(ds)
    ensures r.Some? ==> r.value in ds && r.value.id == id
  {
    if |ds| == 0 then None
    else if ds[0].id == id then Some(ds[0])
    else
      var r := Lookup(ds[1..], id);
      assert Ids(ds) == {ds[0].id} + Ids(ds[1..]) by {
        assert forall i :: 0 < i < |ds| ==> ds[i] == ds[1..][i - 1];
      }
      r
  }

  lemma IdsCons(ds: seq<Description>)
    requires |ds| > 0
    ensures Ids(ds) == {ds[0].id} + Ids(ds[1..])
  {
    assert forall i :: 0 < i < |ds| ==> ds[i] == ds[1..][i - 1];
  }

  lemma IdsSnoc(ds: seq<Description>)
    requires |ds| > 0
    ensures Ids(ds) == Ids(ds[..|ds| - 1]) + {ds[|ds| - 1].id}
  {
    assert forall i :: 0 <= i < |ds| - 1 ==> ds[i] == ds[..|ds| - 1][i];
  }

  /** `result[d.id] = d`: an existing key keeps its place, a new one goes last. */
  function Put(ds: seq<Description>, d: Description): (r: seq<Description>)
    requires DistinctIds(ds)
    ensures DistinctIds(r)
    ensures Ids(r) == Ids(ds) + {d.id}
    ensures Lookup(r, d.id) == Some(d)
    ensures forall id :: id != d.id ==> Lookup(r, id) == Lookup(ds, id)
  {
    if |ds| == 0 then IdsCons([d]); [d]
    else if ds[0].id == d.id then PutHead(ds, d); [d] + ds[1..]
    else
      var rest := Put(ds[1..], d);
      PutTail(ds, d, rest);
      [ds[0]] + rest
  }

  lemma PutHead(ds: seq<Description>, d: Description)
    requires DistinctIds(ds) && |ds| > 0 && ds[0].id == d.id
    ensures var r := [d] + ds[1..];
      DistinctIds(r) && Ids(r) == Ids(ds) + {d.id} && Lookup(r, d.id) == Some(d)
      && forall id :: id != d.id ==> Lookup(r, id) == Lookup(ds, id)
  {
    var r := [d] + ds[1..];
    assert r[1..] == ds[1..];
    IdsCons(ds);
    IdsCons(r);
  }

  lemma PutTail(ds: seq<Description>, d: Description, rest: seq<Description>)
    requires DistinctIds(ds) && |ds| > 0 && ds[0].id != d.id
    requires DistinctIds(rest) && Ids(rest) == Ids(ds[1..]) + {d.id}
    requires Lookup(rest, d.id) == Some(d)
    requires forall id :: id != d.id ==> Lookup(rest, id) == Lookup(ds[1..], id)
    ensures var r := [ds[0]] + rest;
      DistinctIds(r) && Ids(r) == Ids(ds) + {d.id} && Lookup(r, d.id) == Some(d)
      && forall id :: id != d.id ==> Lookup(r, id) == Lookup(ds, id)
  {
    var r := [ds[0]] + rest;
    assert r[1..] == rest;
    IdsCons(ds);
    IdsCons(r);
    assert ds[0].id !in Ids(ds[1..]) by {
      forall i | 0 <= i < |ds[1..]| ensures ds[1..][i].id != ds[0].id {
        assert ds[1..][i] == ds[i + 1];
      }
    }
    forall i, j | 0 <= i < j < |r| ensures r[i].id != r[j].id {
      if i == 0 {
        assert r[j] == rest[j - 1];
      } else {
        assert r[i] == rest[i - 1] && r[j] == rest[j - 1];
      }
    }
  }

  /** The last description in `xs` with the given id: the one an id-keyed assignment loop leaves behind. */
  function Last(xs: seq<Description>, id: string): (r: Option<Description>)
    ensures r.Some? <==> id in Ids(xs)
    ensures r.Some? ==> r.value.id == id
  {
    if |xs| == 0 then None
    else
      var init := xs[..|xs| - 1];
      assert Ids(xs) == Ids(init) + {xs[|xs| - 1].id} by {
        assert forall i :: 0 <= i < |init| ==> xs[i] == init[i];
      }
      if xs[|xs| - 1].id == id then Some(xs[|xs| - 1]) else Last(init, id)
  }

  /** Which of the three scans a description came from. */
  datatype Origin = Builtin | User | Developed

  /** The result object and the messages collected while filling it. */
  datatype Stage = Stage(result: seq<Description>, messages: seq<Message>)

  /** Messages that report no failure: the merge only informs and warns. */
  predicate NoFailure(ms: seq<Message>) {
    forall k :: 0 <= k < |ms| ==> ms[k].severity != Error && !ms[k].detail.ScanFailed?
  }

  lemma NoFailureAppend(a: seq<Message>, b: seq<Message>)
    requires NoFailure(a) && NoFailure(b)
    ensures NoFailure(a + b)
  {
    assert forall k :: |a| <= k < |a + b| ==> (a + b)[k] == b[k - |a|];
  }

  /** What is collected for one description about to be stored. */
  function Notes(result: seq<Description>, d: Description, origin: Origin): (ms: seq<Message>)
    ensures |ms| <= 2
    ensures NoFailure(ms)
  {
    var info := if origin == Developed then [Message(Info, "", UnderDevelopment(d.extensionFolderPath))] else [];
    var prev := Lookup(result, d.id);
    var warn := if origin != Builtin && prev.Some? then
      [Message(Warning, d.extensionFolderPath, Overwriting(prev.value.extensionFolderPath, d.extensionFolderPath))]
    else [];
    info + warn
  }

  /** One of the three `forEach` loops of `scanExtensions`. */
  function AddAll(result: seq<Description>, xs: seq<Description>, origin: Origin): (o: Stage)
    requires DistinctIds(result)
    ensures DistinctIds(o.result)
    ensures Ids(o.result) == Ids(result) + Ids(xs)
    ensures forall id :: Lookup(o.result, id) == if id in Ids(xs) then Last(xs, id) else Lookup(result, id)
    ensures NoFailure(o.messages)
    decreases |xs|
  {
    if |xs| == 0 then Stage(result, [])
    else
      var init := xs[..|xs| - 1];
      var d := xs[|xs| - 1];
      assert Ids(xs) == Ids(init) + {d.id} by {
        assert forall i :: 0 <= i < |init| ==> xs[i] == init[i];
      }
      var before := AddAll(result, init, origin);
      NoFailureAppend(before.messages, Notes(before.result, d, origin));
      Stage(Put(before.result, d), before.messages + Notes(before.result, d, origin))
  }

  // ---------------------------------------------------------------------------
  // The messages, stated without the result object

  /** The descriptions of `xs` whose id is already taken (by `taken` or an earlier entry of `xs`) when they are stored. */
  function Replacing(taken: set<string>, xs: seq<Description>): (r: seq<Description>)
    ensures forall d :: d in r ==> d in xs
  {
    if |xs| == 0 then []
    else
      var init := xs[..|xs| - 1];
      var d := xs[|xs| - 1];
      Replacing(taken, init) + if d.id in taken + Ids(init) then [d] else []
  }

  function WarningSources(ms: seq<Message>): (r: seq<string>)
    ensures |r| <= |ms|
  {
    if |ms| == 0 then []
    else WarningSources(ms[..|ms| - 1]) + if ms[|ms| - 1].severity == Warning then [ms[|ms| - 1].source] else []
  }

  function InfoCount(ms: seq<Message>): (n: nat)
    ensures n <= |ms|
  {
    if |ms| == 0 then 0 else InfoCount(ms[..|ms| - 1]) + if ms[|ms| - 1].severity == Info then 1 else 0
  }

  function Folders(ds: seq<Description>): (r: seq<string>)
    ensures |r| == |ds|
    ensures forall i :: 0 <= i < |ds| ==> r[i] == ds[i].extensionFolderPath
  {
    seq(|ds|, i requires 0 <= i < |ds| => ds[i].extensionFolderPath)
  }

  lemma WarningSourcesAppend(a: seq<Message>, b: seq<Message>)
    ensures WarningSources(a + b) == WarningSources(a) + WarningSources(b)
    decreases |b|
  {
    if |b| == 0 {
      assert a + b == a;
    } else {
      assert (a + b)[..|a + b| - 1] == a + b[..|b| - 1];
      WarningSourcesAppend(a, b[..|b| - 1]);
    }
  }

  lemma InfoCountAppend(a: seq<Message>, b: seq<Message>)
    ensures InfoCount(a + b) == InfoCount(a) + InfoCount(b)
    decreases |b|
  {
    if |b| == 0 {
      assert a + b == a;
    } else {
      assert (a + b)[..|a + b| - 1] == a + b[..|b| - 1];
      InfoCountAppend(a, b[..|b| - 1]);
    }
  }

  lemma NotesCounted(result: seq<Description>, d: Description, origin: Origin)
    requires DistinctIds(result)
    ensures WarningSources(Notes(result, d, origin)) == if origin != Builtin && d.id in Ids(result) then [d.extensionFolderPath] else []
    ensures InfoCount(Notes(result, d, origin)) == if origin == Developed then 1 else 0
  {
    var ms := Notes(result, d, origin);
    if origin == Developed && d.id in Ids(result) {
      assert ms[..1] == ms[..|ms| - 1];
      assert ms[..1][..0] == [];
    }
  }

  /**
   * A warning is collected exactly for each user or development extension
   * whose id is already in the result object, with that extension's folder as
   * its source.
   */
  lemma {:induction false} AddAllWarnings(result: seq<Description>, xs: seq<Description>, origin: Origin)
    requires DistinctIds(result)
    ensures WarningSources(AddAll(result, xs, origin).messages) == if origin == Builtin then [] else Folders(Replacing(Ids(result), xs))
    decreases |xs|
  {
    if |xs| > 0 {
      var init := xs[..|xs| - 1];
      var d := xs[|xs| - 1];
      var before := AddAll(result, init, origin);
      var notes := Notes(before.result, d, origin);
      AddAllWarnings(result, init, origin);
      IdsSnoc(xs);
      assert AddAll(result, xs, origin).messages == before.messages + notes;
      var taken := d.id in Ids(result) + Ids(init);
      assert d.id in Ids(before.result) <==> taken;
      NotesWarnings(before.result, d, origin, taken);
      var rep := Replacing(Ids(result), init);
      var tail := if taken then [d] else [];
      assert Replacing(Ids(result), xs) == rep + tail;
      SnocWarnings(before.messages, notes, rep, tail, origin == Builtin);
    }
  }

  lemma NotesWarnings(result: seq<Description>, d: Description, origin: Origin, taken: bool)
    requires DistinctIds(result) && (d.id in Ids(result) <==> taken)
    ensures WarningSources(Notes(result, d, origin)) == if origin == Builtin then [] else Folders(if taken then [d] else [])
  {
    NotesCounted(result, d, origin);
  }

  lemma SnocWarnings(msgs: seq<Message>, notes: seq<Message>, rep: seq<Description>, tail: seq<Description>, builtin: bool)
    requires WarningSources(msgs) == if builtin then [] else Folders(rep)
    requires WarningSources(notes) == if builtin then [] else Folders(tail)
    ensures WarningSources(msgs + notes) == if builtin then [] else Folders(rep + tail)
  {
    WarningSourcesAppend(msgs, notes);
    FoldersAppend(rep, tail);
  }

  lemma FoldersAppend(a: seq<Description>, b: seq<Description>)
    ensures Folders(a + b) == Folders(a) + Folders(b)
  {
    assert forall i :: 0 <= i < |a + b| ==> Folders(a + b)[i] == (Folders(a) + Folders(b))[i];
  }

  /** Each development extension gives exactly one info message, and no other extension gives any. */
  lemma {:induction false} AddAllInfos(result: seq<Description>, xs: seq<Description>, origin: Origin)
    requires DistinctIds(result)
    ensures InfoCount(AddAll(result, xs, origin).messages) == if origin == Developed then |xs| else 0
    decreases |xs|
  {
    if |xs| > 0 {
      var init := xs[..|xs| - 1];
      var d := xs[|xs| - 1];
      var before := AddAll(result, init, origin);
      var notes := Notes(before.result, d, origin);
      AddAllInfos(result, init, origin);
      assert AddAll(result, xs, origin).messages == before.messages + notes;
      NotesCounted(before.result, d, origin);
      InfoCountAppend(before.messages, notes);
    }
  }

  // ---------------------------------------------------------------------------
  // scanExtensions and readExtensions

  /**
   * The merge at the end of `scanExtensions`: built-in descriptions first,
   * then user ones, then development ones, each stored under its id.
   */
  function Merge(builtin: seq<Description>, user: seq<Description>, developed: seq<Description>): (o: Stage)
    ensures DistinctIds(o.result)
    ensures Ids(o.result) == Ids(builtin) + Ids(user) + Ids(developed)
    ensures NoFailure(o.messages)
  {
    var s1 := AddAll([], builtin, Builtin);
    var s2 := AddAll(s1.result, user, User);
    var s3 := AddAll(s2.result, developed, Developed);
    NoFailureAppend(s1.messages, s2.messages);
    NoFailureAppend(s1.messages + s2.messages, s3.messages);
    Stage(s3.result, s1.messages + s2.messages + s3.messages)
  }

  /** For every id the merge keeps the last development description, else the last user one, else the last built-in one. */
  lemma MergePrecedence(builtin: seq<Description>, user: seq<Description>, developed: seq<Description>, id: string)
    ensures Lookup(Merge(builtin, user, developed).result, id) ==
      if id in Ids(developed) then Last(developed, id)
      else if id in Ids(user) then Last(user, id)
      else Last(builtin, id)
  {
  }

  /**
   * The merge warns once per user extension whose id a built-in or earlier
   * user extension already has, and once per development extension whose id
   * is already present, in that order.
   */
  lemma MergeWarnings(builtin: seq<Description>, user: seq<Description>, developed: seq<Description>)
    ensures WarningSources(Merge(builtin, user, developed).messages) ==
      Folders(Replacing(Ids(builtin), user)) + Folders(Replacing(Ids(builtin) + Ids(user), developed))
  {
    var s1 := AddAll([], builtin, Builtin);
    var s2 := AddAll(s1.result, user, User);
    var s3 := AddAll(s2.result, developed, Developed);
    AddAllWarnings([], builtin, Builtin);
    StageWarnings(s1.result, Ids(builtin), user, User);
    StageWarnings(s2.result, Ids(builtin) + Ids(user), developed, Developed);
    WarningSourcesOfStages(s1.messages, s2.messages, s3.messages);
  }

  lemma StageWarnings(result: seq<Description>, taken: set<string>, xs: seq<Description>, origin: Origin)
    requires DistinctIds(result) && Ids(result) == taken && origin != Builtin
    ensures WarningSources(AddAll(result, xs, origin).messages) == Folders(Replacing(taken, xs))
  {
    AddAllWarnings(result, xs, origin);
  }

  lemma WarningSourcesOfStages(a: seq<Message>, b: seq<Message>, c: seq<Message>)
    requires WarningSources(a) == []
    ensures WarningSources(a + b + c) == WarningSources(b) + WarningSources(c)
  {
    WarningSourcesAppend(a, b);
    WarningSourcesAppend(a + b, c);
  }

  /** The merge gives one info message per development extension. */
  lemma MergeInfos(builtin: seq<Description>, user: seq<Description>, developed: seq<Description>)
    ensures InfoCount(Merge(builtin, user, developed).messages) == |developed|
  {
    var s1 := AddAll([], builtin, Builtin);
    var s2 := AddAll(s1.result, user, User);
    var s3 := AddAll(s2.result, developed, Developed);
    assert Merge(builtin, user, developed).messages == s1.messages + s2.messages + s3.messages;
    AddAllInfos([], builtin, Builtin);
    AddAllInfos(s1.result, user, User);
    AddAllInfos(s2.result, developed, Developed);
    InfoCountAppend(s1.messages, s2.messages);
    InfoCountAppend(s1.messages + s2.messages, s3.messages);
  }

  /** Descriptions with distinct ids, none of them built in, draw no warning. */
  lemma {:induction false} NoOverlapNoWarning(taken: set<string>, xs: seq<Description>)
    requires DistinctIds(xs)
    requires forall i :: 0 <= i < |xs| ==> xs[i].id !in taken
    ensures Replacing(taken, xs) == []
    decreases |xs|
  {
    if |xs| > 0 {
      var init := xs[..|xs| - 1];
      assert forall i :: 0 <= i < |init| ==> init[i] == xs[i];
      NoOverlapNoWarning(taken, init);
    }
  }

  /** The environment fields `readExtensions` reads. */
  datatype Env = Env(
    disableExtensions: bool,
    userExtensionsHome: Option<string>,
    extensionDevelopmentPath: Option<string>,
    extensionTestsPath: Option<string>)

  predicate Present(s: Option<string>) {
    s.Some? && s.value != ""
  }

  /**
   * One scan: the messages the scanner reported to the shared collector while
   * it ran, and the descriptions it found or the reason it failed.
   */
  datatype Scanned = Scanned(reports: seq<Message>, outcome: Result<seq<Description>, string>)

  /** `TPromise.as([])`: a scan that is not run reports nothing and finds nothing. */
  const NotScanned := Scanned([], Ok([]))

  /**
   * The extension scanner: what it reports and finds under a folder; the
   * first flag tells whether the folder holds built-in extensions, the
   * second whether a development path may name one extension or a folder
   * of several.
   */
  type Scanner = (string, bool, bool) -> Scanned

  /** The scan of the user extensions folder: not run when extensions are disabled or no folder is set. */
  function UserScan(env: Env, scan: Scanner): (r: Scanned)
    ensures env.disableExtensions || !Present(env.userExtensionsHome) ==> r == NotScanned
    ensures !env.disableExtensions && Present(env.userExtensionsHome) ==> r == scan(env.userExtensionsHome.value, false, false)
  {
    var userPath := if env.disableExtensions then None else env.userExtensionsHome;
    if Present(userPath) then scan(userPath.value, false, false) else NotScanned
  }

  /** The scan of the development path, which may name one extension or a folder of several. */
  function DevelopmentScan(env: Env, scan: Scanner): (r: Scanned)
    ensures env.disableExtensions || !Present(env.extensionDevelopmentPath) ==> r == NotScanned
    ensures !env.disableExtensions && Present(env.extensionDevelopmentPath) ==> r == scan(env.extensionDevelopmentPath.value, false, true)
  {
    var devPath := if env.disableExtensions then None else env.extensionDevelopmentPath;
    if Present(devPath) then scan(devPath.value, false, true) else NotScanned
  }

  /** The three scans `TPromise.join` waits for: built-in, user, development. */
  function Scans(env: Env, builtinPath: string, scan: Scanner): (ss: seq<Scanned>)
    ensures |ss| == 3
    ensures ss[0] == scan(builtinPath, true, false) && ss[1] == UserScan(env, scan) && ss[2] == DevelopmentScan(env, scan)
  {
    [scan(builtinPath, true, false), UserScan(env, scan), DevelopmentScan(env, scan)]
  }

  /** Everything the scans reported, scan by scan. */
  function Reports(ss: seq<Scanned>): seq<Message> {
    if |ss| == 0 then [] else ss[0].reports + Reports(ss[1..])
  }

  predicate SomeFailed(ss: seq<Scanned>) {
    exists k :: 0 <= k < |ss| && ss[k].outcome.Err?
  }

  /**
   * The error `TPromise.join` rejects with: one slot per scan, holding the
   * reason of each scan that failed and nothing for the others.
   */
  function JoinError(ss: seq<Scanned>): (reasons: seq<Option<string>>)
    ensures |reasons| == |ss|
    ensures forall k :: 0 <= k < |ss| ==> (reasons[k].Some? <==> ss[k].outcome.Err?)
    ensures forall k :: 0 <= k < |ss| && ss[k].outcome.Err? ==> reasons[k] == Some(ss[k].outcome.error)
  {
    seq(|ss|, k requires 0 <= k < |ss| => if ss[k].outcome.Err? then Some(ss[k].outcome.error) else None)
  }

  /**
   * What the collector and the registry get once the join settles: every
   * scan's reports, then either the join's error and no extensions, or the
   * merge of the three scans with the merge's notes.
   */
  function Settle(ss: seq<Scanned>): (o: Stage)
    requires |ss| == 3
    ensures DistinctIds(o.result)
    ensures |Reports(ss)| <= |o.messages| && o.messages[..|Reports(ss)|] == Reports(ss)
    ensures SomeFailed(ss) ==> o.result == [] && o.messages[|Reports(ss)|..] == [Message(Error, "", ScanFailed(JoinError(ss)))]
    ensures !SomeFailed(ss) ==>
      o.result == Merge(ss[0].outcome.value, ss[1].outcome.value, ss[2].outcome.value).result
      && o.messages[|Reports(ss)|..] == Merge(ss[0].outcome.value, ss[1].outcome.value, ss[2].outcome.value).messages
    ensures SomeFailed(ss) <==> exists k :: |Reports(ss)| <= k < |o.messages| && o.messages[k].detail.ScanFailed?
  {
    var rs := Reports(ss);
    if SomeFailed(ss) then
      var failure := Message(Error, "", ScanFailed(JoinError(ss)));
      var o := Stage([], rs + [failure]);
      assert o.messages[|rs|..] == [failure] && o.messages[|rs|] == failure;
      o
    else
      assert ss[0].outcome.Ok? && ss[1].outcome.Ok? && ss[2].outcome.Ok?;
      var m := Merge(ss[0].outcome.value, ss[1].outcome.value, ss[2].outcome.value);
      var o := Stage(m.result, rs + m.messages);
      assert o.messages[|rs|..] == m.messages;
      o
  }

  /**
   * `readExtensions` up to registration: the three scans run (user and
   * development only when extensions are enabled and the path is set), each
   * reporting to the shared collector; when all succeed their descriptions
   * are merged, and when any fails the join's error is collected and no
   * extension is registered.
   */
  function ReadExtensions(env: Env, builtinPath: string, scan: Scanner): (o: Stage)
    ensures DistinctIds(o.result)
    ensures var rs := Reports(Scans(env, builtinPath, scan));
      |rs| <= |o.messages| && o.messages[..|rs|] == rs
    ensures var ss := Scans(env, builtinPath, scan);
      SomeFailed(ss) ==> o.result == [] && o.messages[|Reports(ss)|..] == [Message(Error, "", ScanFailed(JoinError(ss)))]
    ensures var ss := Scans(env, builtinPath, scan);
      !SomeFailed(ss) ==>
        o.result == Merge(ss[0].outcome.value, ss[1].outcome.value, ss[2].outcome.value).result
        && o.messages[|Reports(ss)|..] == Merge(ss[0].outcome.value, ss[1].outcome.value, ss[2].outcome.value).messages
    ensures var ss := Scans(env, builtinPath, scan);
      SomeFailed(ss) <==> exists k :: |Reports(ss)| <= k < |o.messages| && o.messages[k].detail.ScanFailed?
  {
    Settle(Scans(env, builtinPath, scan))
  }

  /** With extensions disabled, or neither a user nor a development folder, only the built-in scan counts. */
  lemma BuiltinOnly(env: Env, builtinPath: string, scan: Scanner)
    requires env.disableExtensions || (!Present(env.userExtensionsHome) && !Present(env.extensionDevelopmentPath))
    ensures var b := scan(builtinPath, true, false);
      b.outcome.Ok? ==> ReadExtensions(env, builtinPath, scan) == Stage(Merge(b.outcome.value, [], []).result, b.reports + Merge(b.outcome.value, [], []).messages)
    ensures var b := scan(builtinPath, true, false);
      b.outcome.Err? ==> ReadExtensions(env, builtinPath, scan) == Stage([], b.reports + [Message(Error, "", ScanFailed([Some(b.outcome.error), None, None]))])
  {
    var ss := Scans(env, builtinPath, scan);
    ReportsOfThree(ss);
    assert Reports(ss) == ss[0].reports;
    var o := ReadExtensions(env, builtinPath, scan);
    assert o.messages == o.messages[..|Reports(ss)|] + o.messages[|Reports(ss)|..];
    if ss[0].outcome.Err? {
      assert SomeFailed(ss);
      assert JoinError(ss) == [Some(ss[0].outcome.error), None, None];
    } else {
      assert !SomeFailed(ss);
    }
  }

  /** Three scans report what each of them reported, in order. */
  lemma ReportsOfThree(ss: seq<Scanned>)
    requires |ss| == 3
    ensures Reports(ss) == ss[0].reports + ss[1].reports + ss[2].reports
  {
    var t := ss[1..];
    assert Reports(ss) == ss[0].reports + Reports(t);
    assert Reports(t) == ss[1].reports + Reports(t[1..]);
    assert Reports(t[1..]) == ss[2].reports + Reports(t[1..][1..]);
    assert t[1..][1..] == [];
  }

  // ---------------------------------------------------------------------------
  // Eager activation

  const WorkspaceContains: string := "workspaceContains:"

  /**
   * The keys of `desiredFilesMap`: for every activation event that starts
   * with `workspaceContains:`, the rest of the event, each file once, in
   * order of first appearance.
   */
  function DesiredFiles(descs: seq<Description>): (files: seq<string>)
    ensures forall a, b :: 0 <= a < b < |files| ==> files[a] != files[b]
    ensures forall f :: f in files <==> exists i, k :: (0 <= i < |descs| && descs[i].activationEvents.Some?
      && 0 <= k < |descs[i].activationEvents.value| && IsWorkspaceContains(descs[i].activationEvents.value[k])
      && f == descs[i].activationEvents.value[k][|WorkspaceContains|..])
  {
    if |descs| == 0 then []
    else
      var init := descs[..|descs| - 1];
      assert forall i :: 0 <= i < |init| ==> init[i] == descs[i];
      var events := descs[|descs| - 1].activationEvents;
      AddFiles(DesiredFiles(init), if events.Some? then events.value else [])
  }

  predicate IsWorkspaceContains(event: string) {
    StartsWith(event, WorkspaceContains)
  }

  /** The inner `for` loop of the scan: one description's events added to the map. */
  function AddFiles(files: seq<string>, events: seq<string>): (r: seq<string>)
    requires forall a, b :: 0 <= a < b < |files| ==> files[a] != files[b]
    ensures forall a, b :: 0 <= a < b < |r| ==> r[a] != r[b]
    ensures forall f :: f in r <==> f in files || exists k :: 0 <= k < |events| && IsWorkspaceContains(events[k]) && f == events[k][|WorkspaceContains|..]
  {
    if |events| == 0 then files
    else
      var init := events[..|events| - 1];
      assert forall k :: 0 <= k < |init| ==> init[k] == events[k];
      var before := AddFiles(files, init);
      var e := events[|events| - 1];
      if IsWorkspaceContains(e) && e[|WorkspaceContains|..] !in before then before + [e[|WorkspaceContains|..]] else before
  }

  /**
   * The events `handleEagerExtensions` activates: `*` always, then
   * `workspaceContains:<file>` for each desired file that exists in the
   * workspace folder. A file name that is the empty string is never
   * activated, because the existence check answers with the name and an
   * empty name is falsy.
   */
  function EagerEvents(workspaceFolder: Option<string>, descs: seq<Description>, fileExists: string -> bool, join: (string, string) -> string): (events: seq<string>)
    ensures |events| >= 1 && events[0] == "*"
    ensures workspaceFolder.None? ==> events == ["*"]
    ensures forall k :: 1 <= k < |events| ==> IsWorkspaceContains(events[k])
    ensures forall f :: WorkspaceContains + f in events[1..] <==>
      workspaceFolder.Some? && f in DesiredFiles(descs) && f != "" && fileExists(join(workspaceFolder.value, f))
  {
    match workspaceFolder
    case None => ["*"]
    case Some(folder) => ["*"] + ExistingEvents(folder, DesiredFiles(descs), fileExists, join)
  }

  function ExistingEvents(folder: string, files: seq<string>, fileExists: string -> bool, join: (string, string) -> string): (events: seq<string>)
    ensures forall k :: 0 <= k < |events| ==> IsWorkspaceContains(events[k])
    ensures forall f :: WorkspaceContains + f in events <==> f in files && f != "" && fileExists(join(folder, f))
  {
    if |files| == 0 then []
    else
      var rest := ExistingEvents(folder, files[1..], fileExists, join);
      var f := files[0];
      assert forall g :: WorkspaceContains + g == WorkspaceContains + f ==> g == f by {
        forall g | WorkspaceContains + g == WorkspaceContains + f ensures g == f {
          assert g == (WorkspaceContains + g)[|WorkspaceContains|..];
          assert f == (WorkspaceContains + f)[|WorkspaceContains|..];
        }
      }
      assert StartsWith(WorkspaceContains + f, WorkspaceContains) by {
        assert (WorkspaceContains + f)[..|WorkspaceContains|] == WorkspaceContains;
      }
      if f != "" && fileExists(join(folder, f)) then [WorkspaceContains + f] + rest else rest
  }

  // ---------------------------------------------------------------------------
  // Extension tests and termination

  /**
   * What loading the test runner module gave: a runner with a `run`
   * function, something else, or an exception, held as its text (the empty
   * text standing for a falsy thrown value).
   */
  datatype TestRunner = Runner | NotARunner | RequireFailed(error: string)

  /**
   * Why the hand-off is rejected: the require error's text, or the message
   * that the tests path does not point to a valid test runner.
   */
  datatype TestError = RequireError(text: string) | NotATestRunner(path: string)

  /** How the extension-test hand-off ends: not at all, by running the tests, or by exiting with code 1 and rejecting. */
  datatype TestOutcome = NoTests | RunTests | ExitWithError(exitCode: int, error: TestError)

  /**
   * `handleExtensionTests`: nothing unless both the tests path and the
   * development path are set; a proper runner runs the tests; otherwise the
   * host exits with code 1 and rejects with the require error when a truthy
   * one was caught, and with the invalid-runner message naming the tests path
   * otherwise.
   */
  function HandleExtensionTests(env: Env, runner: TestRunner): (o: TestOutcome)
    ensures o == NoTests <==> !Present(env.extensionTestsPath) || !Present(env.extensionDevelopmentPath)
    ensures o == RunTests <==> Present(env.extensionTestsPath) && Present(env.extensionDevelopmentPath) && runner == Runner
    ensures o.ExitWithError? ==> o.exitCode == 1 && Present(env.extensionTestsPath)
    ensures o.ExitWithError? ==> (o.error.RequireError? <==> runner.RequireFailed? && runner.error != "")
    ensures o.ExitWithError? && o.error.RequireError? ==> o.error.text == runner.error
    ensures o.ExitWithError? && o.error.NotATestRunner? ==> o.error.path == env.extensionTestsPath.value
  {
    if !Present(env.extensionTestsPath) || !Present(env.extensionDevelopmentPath) then NoTests
    else match runner
      case Runner => RunTests
      case NotARunner => ExitWithError(1, NotATestRunner(env.extensionTestsPath.value))
      case RequireFailed(err) =>
        ExitWithError(1, if err != "" then RequireError(err) else NotATestRunner(env.extensionTestsPath.value))
  }

  /** The exit code once the test runner reports back: 1 when it reports failures, else 0. */
  function TestExitCode(failures: Option<int>): (code: int)
    ensures code == 1 <==> failures.Some? && failures.value > 0
    ensures code == 0 || code == 1
  {
    if failures.Some? && failures.value > 0 then 1 else 0
  }

  /** The host's one piece of state. */
  datatype Host = Host(isTerminating: bool)

  /** What a `terminate` call does: the ids it deactivates and whether it schedules the exit. */
  datatype Termination = Termination(host: Host, deactivated: seq<string>, exitScheduled: bool)

  /**
   * `terminate`: the first call deactivates every registered extension that
   * is activated, in registration order, and schedules the exit; later calls
   * do nothing.
   */
  function Terminate(h: Host, allIds: seq<string>, isActivated: string -> bool): (t: Termination)
    ensures t.host.isTerminating
    ensures h.isTerminating ==> t.deactivated == [] && !t.exitScheduled
    ensures !h.isTerminating ==> t.exitScheduled
    ensures forall id :: id in t.deactivated <==> !h.isTerminating && id in allIds && isActivated(id)
  {
    if h.isTerminating then Termination(h, [], false)
    else Termination(Host(true), Activated(allIds, isActivated), true)
  }

  /** The registered ids that are activated, in order. */
  function Activated(ids: seq<string>, isActivated: string -> bool): (r: seq<string>)
    ensures |r| <= |ids|
    ensures forall id :: id in r <==> id in ids && isActivated(id)
  {
    if |ids| == 0 then []
    else (if isActivated(ids[0]) then [ids[0]] else []) + Activated(ids[1..], isActivated)
  }

  /** A second `terminate` deactivates nothing and schedules no second exit, whatever is activated by then. */
  lemma TerminateIdempotent(h: Host, allIds: seq<string>, isActivated: string -> bool, later: string -> bool)
    ensures var t := Terminate(Terminate(h, allIds, isActivated).host, allIds, later);
      t.deactivated == [] && !t.exitScheduled && t.host == Terminate(h, allIds, isActivated).host
  {
  }
}

=== FILE: extensions_service.dfy ===
/**
 * The extension service of the workbench (extensionsService.ts): extension
 * ids, building an extension record from a manifest, validating a downloaded
 * manifest, the install dispatch, picking the newest installed version of
 * each extension, and the obsolete-extensions file. File system, zip and
 * download work is not modelled: what those steps read is passed in, and what
 * they would write is returned. `semver.rcompare` is a `rank` parameter on
 * version strings, and `path.join` a `join` parameter.
 */
module ExtensionsService {
  import opened Wrappers
  import opened Strings

  /** The gallery metadata of an extension, carried along unread. */
  datatype GalleryInformation = GalleryInformation(id: string, downloadUrl: string)

  /** `IExtensionManifest`, with the optional fields `createExtension` reads; `__metadata` is the gallery information. */
  datatype Manifest = Manifest(
    name: string, publisher: string, version: string,
    displayName: Option<string>, description: Option<string>,
    metadata: Option<GalleryInformation>)

  /** `IExtension`. */
  datatype Extension = Extension(
    name: string, displayName: string, publisher: string, version: string, description: string,
    galleryInformation: Option<GalleryInformation>, path: Option<string>)

  datatype InstallError =
    | InvalidManifest
    | NameMismatch
    | PublisherMismatch
    | VersionMismatch
    | MissingGalleryInformation

  /** A JavaScript string option is truthy when present and non-empty. */
  predicate Present(s: Option<string>) {
    s.Some? && s.value != ""
  }

  /** `getExtensionId`: `publisher.name-version`. */
  function ExtensionId(publisher: string, name: string, version: string): (id: string)
    ensures id == GroupKey(publisher, name) + "-" + version
  {
    publisher + "." + name + "-" + version
  }

  /** The key extensions are grouped by: `publisher.name`. */
  function GroupKey(publisher: string, name: string): string {
    publisher + "." + name
  }

  function IdOf(e: Extension): string {
    ExtensionId(e.publisher, e.name, e.version)
  }

  function KeyOf(e: Extension): string {
    GroupKey(e.publisher, e.name)
  }

  /** Two versions of the same extension have the same id only when they are the same version. */
  lemma IdDeterminesVersion(publisher: string, name: string, v1: string, v2: string)
    requires ExtensionId(publisher, name, v1) == ExtensionId(publisher, name, v2)
    ensures v1 == v2
  {
    var prefix := GroupKey(publisher, name) + "-";
    assert ExtensionId(publisher, name, v1) == prefix + v1;
    assert ExtensionId(publisher, name, v2) == prefix + v2;
    assert v1 == (prefix + v1)[|prefix|..];
    assert v2 == (prefix + v2)[|prefix|..];
  }

  /**
   * `createExtension`: name, publisher and version are copied; the display
   * name falls back to the name and the description to the empty string; the
   * gallery information and the path are set only when supplied.
   */
  function CreateExtension(m: Manifest, gallery: Option<GalleryInformation>, path: Option<string>): (e: Extension)
    ensures e.name == m.name && e.publisher == m.publisher && e.version == m.version
    ensures e.displayName == if Present(m.displayName) then m.displayName.value else m.name
    ensures e.description == if Present(m.description) then m.description.value else ""
    ensures e.galleryInformation == gallery
    ensures e.path.Some? <==> Present(path)
    ensures e.path.Some? ==> e.path == path
  {
    Extension(
      m.name,
      if Present(m.displayName) then m.displayName.value else m.name,
      m.publisher, m.version,
      if Present(m.description) then m.description.value else "",
      gallery,
      if Present(path) then path else None)
  }

  /** An extension built from a manifest has the manifest's id. */
  lemma CreatedExtensionId(m: Manifest, gallery: Option<GalleryInformation>, path: Option<string>)
    ensures IdOf(CreateExtension(m, gallery, path)) == ExtensionId(m.publisher, m.name, m.version)
  {
  }

  /**
   * `validate`: the manifest in the zip must parse; when an expected
   * extension is given, its name, then its publisher, then its version must
   * match the manifest's.
   */
  function Validate(parsed: Option<Manifest>, expected: Option<Extension>): (r: Result<Manifest, InstallError>)
    ensures parsed.None? ==> r == Err(InvalidManifest)
    ensures parsed.Some? && expected.None? ==> r == Ok(parsed.value)
    ensures r.Ok? <==> parsed.Some? && (expected.Some? ==> Matches(expected.value, parsed.value))
    ensures r.Ok? ==> r.value == parsed.value
    ensures r == Err(NameMismatch) <==> parsed.Some? && expected.Some? && expected.value.name != parsed.value.name
    ensures r == Err(PublisherMismatch) <==> (parsed.Some? && expected.Some? && expected.value.name == parsed.value.name
      && expected.value.publisher != parsed.value.publisher)
  {
    match parsed
    case None => Err(InvalidManifest)
    case Some(m) =>
      if expected.Some? then
        var e := expected.value;
        if e.name != m.name then Err(NameMismatch)
        else if e.publisher != m.publisher then Err(PublisherMismatch)
        else if e.version != m.version then Err(VersionMismatch)
        else Ok(m)
      else Ok(m)
  }

  predicate Matches(e: Extension, m: Manifest) {
    e.name == m.name && e.publisher == m.publisher && e.version == m.version
  }

  /** The argument of `install`: a zip file on disk, or an extension from the gallery. */
  datatype InstallArg = ZipPath(zipPath: string) | FromGallery(extension: Extension)

  /**
   * `install`: a string goes to the zip install, anything else to the gallery
   * install. `parsed` is the manifest found in the zip (downloaded first for
   * a gallery install). The zip install extracts into
   * `extensionsPath/<id>` and builds the extension from the manifest; the
   * gallery install needs gallery information and hands back the extension
   * it was given.
   */
  function Install(arg: InstallArg, parsed: Option<Manifest>, extensionsPath: string, join: (string, string) -> string): (r: Result<Extension, InstallError>)
    ensures arg.FromGallery? && arg.extension.galleryInformation.None? ==> r == Err(MissingGalleryInformation)
    ensures arg.FromGallery? && r.Ok? ==> r.value == arg.extension && parsed.Some? && Matches(arg.extension, parsed.value)
    ensures arg.ZipPath? ==> (r.Ok? <==> parsed.Some?)
    ensures arg.ZipPath? && r.Ok? ==> var m := parsed.value;
      r.value == CreateExtension(m, m.metadata, Some(join(extensionsPath, ExtensionId(m.publisher, m.name, m.version))))
  {
    match arg
    case ZipPath(_) =>
      var m :- Validate(parsed, None);
      Ok(CreateExtension(m, m.metadata, Some(join(extensionsPath, ExtensionId(m.publisher, m.name, m.version)))))
    case FromGallery(e) =>
      if e.galleryInformation.None? then Err(MissingGalleryInformation)
      else
        var _ :- Validate(parsed, Some(e));
        Ok(e)
  }

  /** What reading one installed extension's `package.json` gives: its manifest, or nothing when it cannot be read or parsed. */
  type ManifestReader = string -> Option<Manifest>

  /**
   * `getAllInstalled`: every directory of the extensions folder that is not
   * marked obsolete and holds a readable manifest, in directory order.
   */
  function GetAllInstalled(dirs: seq<string>, obsolete: map<string, bool>, read: ManifestReader, extensionsPath: string, join: (string, string) -> string): (r: seq<Extension>)
    ensures |r| <= |dirs|
    ensures forall e :: e in r ==> exists d :: (d in dirs && !IsObsolete(obsolete, d) && read(join(extensionsPath, d)).Some?
      && e == CreateExtension(read(join(extensionsPath, d)).value, read(join(extensionsPath, d)).value.metadata, Some(join(extensionsPath, d))))
    ensures forall d :: d in dirs && !IsObsolete(obsolete, d) && read(join(extensionsPath, d)).Some? ==>
      var m := read(join(extensionsPath, d)).value; CreateExtension(m, m.metadata, Some(join(extensionsPath, d))) in r
  {
    if |dirs| == 0 then []
    else
      var rest := GetAllInstalled(dirs[1..], obsolete, read, extensionsPath, join);
      var d := dirs[0];
      var path := join(extensionsPath, d);
      if !IsObsolete(obsolete, d) && read(path).Some? then
        [CreateExtension(read(path).value, read(path).value.metadata, Some(path))] + rest
      else rest
  }

  /** `obsolete[e]` is truthy. */
  predicate IsObsolete(obsolete: map<string, bool>, id: string) {
    id in obsolete && obsolete[id]
  }

  // ---------------------------------------------------------------------------
  // Newest version of each extension

  /**
   * Among the extensions from index `i` on with key `key`, the first one of
   * highest rank: what sorting the group by `semver.rcompare` and taking the
   * head gives, ties going to the earlier one.
   */
  function NewestFrom(all: seq<Extension>, key: string, rank: string -> int, i: nat): (r: Option<nat>)
    requires i <= |all|
    ensures r.Some? <==> exists j :: i <= j < |all| && KeyOf(all[j]) == key
    ensures r.Some? ==> i <= r.value < |all| && KeyOf(all[r.value]) == key
    ensures r.Some? ==> forall j :: i <= j < |all| && KeyOf(all[j]) == key ==> rank(all[j].version) <= rank(all[r.value].version)
    ensures r.Some? ==> forall j :: i <= j < r.value && KeyOf(all[j]) == key ==> rank(all[j].version) < rank(all[r.value].version)
    decreases |all| - i
  {
    if i == |all| then None
    else
      var rest := NewestFrom(all, key, rank, i + 1);
      if KeyOf(all[i]) != key then rest
      else if rest.None? || rank(all[i].version) >= rank(all[rest.value].version) then Some(i)
      else rest
  }

  /** The index of the newest installed version of the extension `key`. */
  function NewestIndex(all: seq<Extension>, key: string, rank: string -> int): (k: nat)
    requires exists j :: 0 <= j < |all| && KeyOf(all[j]) == key
    ensures k < |all| && KeyOf(all[k]) == key
    ensures forall j :: 0 <= j < |all| && KeyOf(all[j]) == key ==> rank(all[j].version) <= rank(all[k].version)
  {
    NewestFrom(all, key, rank, 0).value
  }

  /** The keys of the extensions, each once, in order of first appearance (the order `groupBy` creates its groups in). */
  function Keys(all: seq<Extension>): (keys: seq<string>)
    ensures forall a, b :: 0 <= a < b < |keys| ==> keys[a] != keys[b]
    ensures forall i :: 0 <= i < |all| ==> KeyOf(all[i]) in keys
    ensures forall j :: 0 <= j < |keys| ==> exists i :: 0 <= i < |all| && KeyOf(all[i]) == keys[j]
  {
    if |all| == 0 then []
    else
      var init := all[..|all| - 1];
      var keys := Keys(init);
      assert forall i :: 0 <= i < |init| ==> all[i] == init[i];
      var last := KeyOf(all[|all| - 1]);
      if last in keys then keys else keys + [last]
  }

  /** The newest installed version of each of `keys`, in the order of `keys`. */
  function NewestOfEach(all: seq<Extension>, keys: seq<string>, rank: string -> int): (r: seq<Extension>)
    requires forall j :: 0 <= j < |keys| ==> exists i :: 0 <= i < |all| && KeyOf(all[i]) == keys[j]
    ensures |r| == |keys|
    ensures forall j :: 0 <= j < |keys| ==> r[j] == all[NewestIndex(all, keys[j], rank)]
  {
    seq(|keys|, j requires 0 <= j < |keys| => all[NewestIndex(all, keys[j], rank)])
  }

  /**
   * `getInstalled`: all installed extensions when duplicate versions are
   * wanted; otherwise one per `publisher.name`, the newest.
   */
  function GetInstalled(all: seq<Extension>, includeDuplicateVersions: bool, rank: string -> int): (r: seq<Extension>)
    ensures includeDuplicateVersions ==> r == all
    ensures !includeDuplicateVersions ==> |r| == |Keys(all)|
    ensures !includeDuplicateVersions ==> forall j :: 0 <= j < |r| ==> r[j] == all[NewestIndex(all, Keys(all)[j], rank)]
  {
    if includeDuplicateVersions then all else NewestOfEach(all, Keys(all), rank)
  }

  /** Without duplicates, `getInstalled` keeps one extension per group. */
  lemma InstalledDistinctGroups(all: seq<Extension>, rank: string -> int)
    ensures var r := GetInstalled(all, false, rank);
      forall a, b :: 0 <= a < b < |r| ==> KeyOf(r[a]) != KeyOf(r[b])
  {
    var r := GetInstalled(all, false, rank);
    var keys := Keys(all);
    forall a, b | 0 <= a < b < |r| ensures KeyOf(r[a]) != KeyOf(r[b]) {
      assert KeyOf(r[a]) == keys[a];
      assert KeyOf(r[b]) == keys[b];
    }
  }

  /** Every group is represented, by a version no older than any other of the group, and nothing new is made up. */
  lemma InstalledNewestOfEveryGroup(all: seq<Extension>, rank: string -> int, i: nat)
    requires i < |all|
    ensures var r := GetInstalled(all, false, rank);
      exists j :: 0 <= j < |r| && KeyOf(r[j]) == KeyOf(all[i]) && rank(all[i].version) <= rank(r[j].version) && r[j] in all
  {
    var r := GetInstalled(all, false, rank);
    var keys := Keys(all);
    var j :| 0 <= j < |keys| && keys[j] == KeyOf(all[i]);
    assert r[j] == all[NewestIndex(all, keys[j], rank)];
  }

  // ---------------------------------------------------------------------------
  // The obsolete-extensions file

  /** The contents of `.obsolete`: a missing file reads as `{}`; any other read error fails the update. */
  datatype ObsoleteFile = Missing | Contents(obsolete: map<string, bool>) | Unreadable

  /** What an update does to the file: it is deleted when the map is empty and written otherwise. */
  datatype FileAction = DeleteFile | WriteFile(contents: map<string, bool>)

  /** `doUpdateObsoleteExtensions` with the update already applied: where the new map goes. */
  function Persist(obsolete: map<string, bool>): (a: FileAction)
    ensures a == DeleteFile <==> |obsolete| == 0
    ensures a.WriteFile? ==> a.contents == obsolete
  {
    if |obsolete| == 0 then DeleteFile else WriteFile(obsolete)
  }

  function Read(f: ObsoleteFile): (r: Option<map<string, bool>>)
    ensures f.Missing? ==> r == Some(map[])
    ensures f.Contents? ==> r == Some(f.obsolete)
    ensures f.Unreadable? ==> r.None?
  {
    match f
    case Missing => Some(map[])
    case Contents(m) => Some(m)
    case Unreadable => None
  }

  /** `setObsolete`: the extension's id maps to true, and the file is written. */
  function SetObsolete(f: ObsoleteFile, e: Extension): (r: Option<(map<string, bool>, FileAction)>)
    ensures r.None? <==> f.Unreadable?
    ensures r.Some? ==> r.value.0 == Read(f).value[IdOf(e) := true]
    ensures r.Some? ==> r.value.1 == WriteFile(r.value.0)
  {
    match Read(f)
    case None => None
    case Some(m) => var m' := m[IdOf(e) := true]; Some((m', Persist(m')))
  }

  /** `unsetObsolete`: the extension's id is deleted; the file goes away when nothing is left. */
  function UnsetObsolete(f: ObsoleteFile, e: Extension): (r: Option<(map<string, bool>, FileAction)>)
    ensures r.None? <==> f.Unreadable?
    ensures r.Some? ==> r.value.0 == Read(f).value - {IdOf(e)}
    ensures r.Some? ==> (r.value.1 == DeleteFile <==> Read(f).value.Keys <= {IdOf(e)})
  {
    match Read(f)
    case None => None
    case Some(m) =>
      var m' := m - {IdOf(e)};
      assert |m'| == 0 <==> m.Keys <= {IdOf(e)} by {
        if m.Keys <= {IdOf(e)} { assert m'.Keys == {}; }
        if |m'| == 0 { assert m'.Keys == {}; }
      }
      Some((m', Persist(m')))
  }

  /** Where `uninstall` looks for the extension: its own path when it has one, else `extensionsPath/<id>`. */
  function UninstallPath(e: Extension, extensionsPath: string, join: (string, string) -> string): (p: string)
    ensures Present(e.path) ==> p == e.path.value
    ensures !Present(e.path) ==> p == join(extensionsPath, IdOf(e))
  {
    if Present(e.path) then e.path.value else join(extensionsPath, IdOf(e))
  }

  datatype UninstallError = NotFound | ObsoleteFileUnreadable

  /**
   * `uninstall`, given whether the extension's folder exists and the
   * obsolete file as found: the extension is marked obsolete, its folder
   * removed, and the mark taken away again. The result is the final obsolete
   * map and what became of the file.
   */
  function Uninstall(e: Extension, exists_: bool, f: ObsoleteFile): (r: Result<(map<string, bool>, FileAction), UninstallError>)
    ensures !exists_ ==> r == Err(NotFound)
    ensures exists_ && f.Unreadable? ==> r == Err(ObsoleteFileUnreadable)
    ensures r.Ok? ==> r.value.0 == Read(f).value - {IdOf(e)} && r.value.1 == Persist(r.value.0)
  {
    if !exists_ then Err(NotFound)
    else match SetObsolete(f, e)
      case None => Err(ObsoleteFileUnreadable)
      case Some((marked, _)) =>
        var unmarked := UnsetObsolete(Contents(marked), e).value;
        assert unmarked.0 == Read(f).value - {IdOf(e)};
        Ok(unmarked)
  }

  /**
   * Uninstalling marks the extension obsolete before its folder is removed
   * and unmarks it afterwards: when it was not marked before, the obsolete
   * file ends up as it was (or deleted when it held nothing).
   */
  lemma UninstallRestoresObsolete(m: map<string, bool>, e: Extension)
    requires IdOf(e) !in m
    ensures Uninstall(e, true, Contents(m)) == Ok((m, Persist(m)))
  {
    assert m - {IdOf(e)} == m;
  }
  /**
   * `removeDeprecatedExtensions`: the ids to remove are those of every
   * installed extension that is not the newest of its group and has a path,
   * followed by every id in the obsolete file; each removal deletes the id
   * from the obsolete map.
   */
  function DeprecatedIds(all: seq<Extension>, obsolete: map<string, bool>, obsoleteKeys: seq<string>, rank: string -> int): (ids: seq<string>)
    requires forall id :: id in obsoleteKeys <==> id in obsolete
    ensures forall id :: id in ids <==>
      (exists i :: 0 <= i < |all| && Outdated(all, i, rank) && Present(all[i].path) && id == IdOf(all[i])) || id in obsolete
  {
    OutdatedIds(all, rank, 0) + obsoleteKeys
  }

  // ---------------------------------------------------------------------------
  // Versions semver cannot parse

  /** What `semver.rcompare` throws when a version it is given does not parse. */
  datatype SortError = InvalidVersion

  /** The rank `semver` gives a version that parses; the others never reach a comparison that succeeds. */
  function Ranked(parse: string -> Option<int>): string -> int {
    v => parse(v).GetOr(0)
  }

  /**
   * Some group of two or more extensions holds a version `parse` rejects.
   * Sorting a group compares each of its members at least once, and
   * `semver.rcompare` parses both sides, so sorting that group throws.
   */
  predicate SortThrows(all: seq<Extension>, parse: string -> Option<int>) {
    exists i, j :: 0 <= i < |all| && 0 <= j < |all| && i != j && KeyOf(all[i]) == KeyOf(all[j]) && parse(all[i].version).None?
  }

  /** `getInstalled` with versions parsed by semver: it rejects when sorting some group throws. */
  function GetInstalledParsed(all: seq<Extension>, includeDuplicateVersions: bool, parse: string -> Option<int>): (r: Result<seq<Extension>, SortError>)
    ensures includeDuplicateVersions ==> r == Ok(all)
    ensures !includeDuplicateVersions ==> (r.Err? <==> SortThrows(all, parse))
    ensures r.Ok? ==> r.value == GetInstalled(all, includeDuplicateVersions, Ranked(parse))
  {
    if !includeDuplicateVersions && SortThrows(all, parse) then Err(InvalidVersion)
    else Ok(GetInstalled(all, includeDuplicateVersions, Ranked(parse)))
  }

  /** `removeDeprecatedExtensions` with versions parsed by semver: the ids to remove, or the rejection of the sort. */
  function DeprecatedIdsParsed(all: seq<Extension>, obsolete: map<string, bool>, obsoleteKeys: seq<string>, parse: string -> Option<int>): (r: Result<seq<string>, SortError>)
    requires forall id :: id in obsoleteKeys <==> id in obsolete
    ensures r.Err? <==> SortThrows(all, parse)
    ensures r.Ok? ==> r.value == DeprecatedIds(all, obsolete, obsoleteKeys, Ranked(parse))
  {
    if SortThrows(all, parse) then Err(InvalidVersion) else Ok(DeprecatedIds(all, obsolete, obsoleteKeys, Ranked(parse)))
  }

  /**
   * When the sort does not throw, every version the newest-of-group choice
   * compares parses: the choice of `GetInstalled` ranks only versions semver
   * accepts, in groups of two or more.
   */
  lemma ParsedGroupsRankParsedVersions(all: seq<Extension>, parse: string -> Option<int>, i: nat, j: nat)
    requires !SortThrows(all, parse)
    requires i < |all| && j < |all| && i != j && KeyOf(all[i]) == KeyOf(all[j])
    ensures parse(all[i].version).Some? && parse(all[j].version).Some?
    ensures Ranked(parse)(all[i].version) == parse(all[i].version).value
  {
    assert !(0 <= j < |all| && 0 <= i < |all| && j != i && KeyOf(all[j]) == KeyOf(all[i]) && parse(all[j].version).None?);
  }

  /** Extension `i` is not the newest of its group. */
  predicate Outdated(all: seq<Extension>, i: nat, rank: string -> int)
    requires i < |all|
  {
    NewestFrom(all, KeyOf(all[i]), rank, 0) != Some(i)
  }

  function OutdatedIds(all: seq<Extension>, rank: string -> int, i: nat): (ids: seq<string>)
    requires i <= |all|
    ensures forall id :: id in ids <==> exists k :: i <= k < |all| && Outdated(all, k, rank) && Present(all[k].path) && id == IdOf(all[k])
    decreases |all| - i
  {
    if i == |all| then []
    else
      var rest := OutdatedIds(all, rank, i + 1);
      if Outdated(all, i, rank) && Present(all[i].path) then [IdOf(all[i])] + rest else rest
  }

  /** The obsolete map after every deprecated id has been removed from it. */
  function AfterRemoval(obsolete: map<string, bool>, ids: seq<string>): (m: map<string, bool>)
    ensures m.Keys == obsolete.Keys - (set id | id in ids)
    ensures forall id :: id in m ==> m[id] == obsolete[id]
  {
    if |ids| == 0 then obsolete else AfterRemoval(obsolete - {ids[0]}, ids[1..])
  }

  /** After removing the deprecated extensions the obsolete file is gone. */
  lemma RemovalEmptiesObsolete(all: seq<Extension>, obsolete: map<string, bool>, obsoleteKeys: seq<string>, rank: string -> int)
    requires forall id :: id in obsoleteKeys <==> id in obsolete
    ensures Persist(AfterRemoval(obsolete, DeprecatedIds(all, obsolete, obsoleteKeys, rank))) == DeleteFile
  {
    var m := AfterRemoval(obsolete, DeprecatedIds(all, obsolete, obsoleteKeys, rank));
    assert m.Keys == {};
  }

  /**
   * Every installed extension is either the one `getInstalled` keeps for its
   * group or a deprecated one, and, since the folder entries are distinct,
   * never both.
   */
  lemma KeptOrDeprecated(all: seq<Extension>, rank: string -> int, i: nat)
    requires i < |all|
    ensures var kept := GetInstalled(all, false, rank);
      Outdated(all, i, rank) || exists j :: 0 <= j < |kept| && kept[j] == all[i]
    ensures (forall a, b :: 0 <= a < b < |all| ==> all[a] != all[b]) && Outdated(all, i, rank) ==>
      forall j :: 0 <= j < |GetInstalled(all, false, rank)| ==> GetInstalled(all, false, rank)[j] != all[i]
  {
    var kept := GetInstalled(all, false, rank);
    var keys := Keys(all);
    if !Outdated(all, i, rank) {
      var j :| 0 <= j < |keys| && keys[j] == KeyOf(all[i]);
      assert kept[j] == all[NewestIndex(all, keys[j], rank)];
      assert NewestIndex(all, keys[j], rank) == i;
    } else if forall a, b :: 0 <= a < b < |all| ==> all[a] != all[b] {
      forall j | 0 <= j < |kept|
        ensures kept[j] != all[i]
      {
        var n := NewestIndex(all, keys[j], rank);
        assert kept[j] == all[n];
        assert n != i;
        if n < i {
          assert all[n] != all[i];
        } else {
          assert all[i] != all[n];
        }
      }
    }
  }
}

=== FILE: hygiene.dfy ===
/**
 * The source hygiene run (gulpfile.hygiene.js): every file that passes the
 * file filters is checked for carriage returns, for lines indented with
 * anything but tabs, and for the copyright header; the run fails when any
 * check reported an error. The glob filters themselves are not modelled:
 * each file says which of the three filters lets it through.
 */
module Hygiene {
  import opened Strings

  // ---------------------------------------------------------------------------
  // Lines

  predicate IsBreak(c: char) {
    c == '\r' || c == '\n'
  }

  predicate NoBreaks(s: string) {
    forall i :: 0 <= i < |s| ==> !IsBreak(s[i])
  }

  /** `contents.split(/\r\n|\r|\n/)`: a carriage return followed by a line feed is one break. */
  function Lines(s: string): (lines: seq<string>)
    ensures |lines| >= 1
    ensures forall i :: 0 <= i < |lines| ==> NoBreaks(lines[i])
  {
    if |s| == 0 then [""]
    else if s[0] == '\n' then [""] + Lines(s[1..])
    else if s[0] == '\r' then
      if |s| > 1 && s[1] == '\n' then [""] + Lines(s[2..]) else [""] + Lines(s[1..])
    else
      var rest := Lines(s[1..]);
      [[s[0]] + rest[0]] + rest[1..]
  }

  /** `lines.join(eol)`. */
  function JoinLines(lines: seq<string>, eol: string): string {
    if |lines| == 0 then ""
    else if |lines| == 1 then lines[0]
    else lines[0] + eol + JoinLines(lines[1..], eol)
  }

  /** The three line endings the split recognises. */
  predicate IsEol(eol: string) {
    eol == "\n" || eol == "\r" || eol == "\r\n"
  }

  /** A break-free text in front of `t` joins the first line of `t`. */
  lemma {:induction false} LinesOfPrefix(a: string, t: string)
    requires NoBreaks(a)
    ensures Lines(a + t) == [a + Lines(t)[0]] + Lines(t)[1..]
    decreases |a|
  {
    if |a| > 0 {
      assert (a + t)[0] == a[0];
      assert (a + t)[1..] == a[1..] + t;
      LinesOfPrefix(a[1..], t);
      assert [a[0]] + (a[1..] + Lines(t)[0]) == a + Lines(t)[0];
    } else {
      assert a + t == t;
      assert a + Lines(t)[0] == Lines(t)[0];
      assert Lines(t) == [Lines(t)[0]] + Lines(t)[1..];
    }
  }

  /** A line ending ends the first line, unless a lone carriage return is followed by a line feed. */
  lemma LinesOfEol(eol: string, t: string)
    requires IsEol(eol)
    requires eol == "\r" ==> |t| == 0 || t[0] != '\n'
    ensures Lines(eol + t) == [""] + Lines(t)
  {
    assert (eol + t)[0] == eol[0];
    if eol == "\r\n" {
      assert (eol + t)[2..] == t;
    } else {
      assert (eol + t)[1..] == t;
    }
  }

  /** Joining break-free lines with any one line ending and splitting again gives the lines back. */
  lemma {:induction false} LinesOfJoin(lines: seq<string>, eol: string)
    requires |lines| >= 1 && IsEol(eol)
    requires forall i :: 0 <= i < |lines| ==> NoBreaks(lines[i])
    ensures Lines(JoinLines(lines, eol)) == lines
    decreases |lines|
  {
    if |lines| == 1 {
      LinesOfPrefix(lines[0], "");
      assert lines[0] + "" == lines[0];
    } else {
      var rest := JoinLines(lines[1..], eol);
      LinesOfJoin(lines[1..], eol);
      JoinLinesStart(lines[1..], eol);
      assert JoinLines(lines, eol) == lines[0] + eol + rest;
      LinesOfLineThenEol(lines[0], eol, rest);
      assert lines == [lines[0]] + lines[1..];
    }
  }

  /** A break-free line, a line ending and then `t` split into that line and the lines of `t`. */
  lemma LinesOfLineThenEol(line: string, eol: string, t: string)
    requires NoBreaks(line) && IsEol(eol)
    requires eol == "\r" ==> |t| == 0 || t[0] != '\n'
    ensures Lines(line + eol + t) == [line] + Lines(t)
  {
    LinesOfEol(eol, t);
    assert line + eol + t == line + (eol + t);
    LinesOfPrefix(line, eol + t);
    assert line + "" == line;
  }

  /** A join of break-free lines starts with a line's first character or with the line ending. */
  lemma JoinLinesStart(lines: seq<string>, eol: string)
    requires |lines| >= 1 && IsEol(eol)
    requires forall i :: 0 <= i < |lines| ==> NoBreaks(lines[i])
    ensures eol == "\r" ==> |JoinLines(lines, eol)| == 0 || JoinLines(lines, eol)[0] != '\n'
  {
    var j := JoinLines(lines, eol);
    assert NoBreaks(lines[0]);
    if |lines| == 1 {
      assert j == lines[0];
      if |j| > 0 {
        assert !IsBreak(lines[0][0]);
      }
    } else {
      assert j == lines[0] + eol + JoinLines(lines[1..], eol);
      if |lines[0]| > 0 {
        assert j[0] == lines[0][0];
        assert !IsBreak(lines[0][0]);
      } else {
        assert j[0] == eol[0];
      }
    }
  }

  // ---------------------------------------------------------------------------
  // Indentation

  /** The number of tabs `s` starts with. */
  function LeadingTabs(s: string): (n: nat)
    ensures n <= |s|
    ensures forall i :: 0 <= i < n ==> s[i] == '\t'
    ensures n < |s| ==> s[n] != '\t'
  {
    if |s| > 0 && s[0] == '\t' then 1 + LeadingTabs(s[1..]) else 0
  }

  predicate AllSpace(s: string) {
    forall i :: 0 <= i < |s| ==> IsJsSpace(s[i])
  }

  /**
   * The indentation rule for one line: blank, or tabs then a character that
   * is not white space, or tabs then ` *` (a block comment's inner line).
   */
  predicate GoodIndent(line: string) {
    var t := LeadingTabs(line);
    AllSpace(line)
    || (t < |line| && !IsJsSpace(line[t]))
    || (t + 1 < |line| && line[t] == ' ' && line[t + 1] == '*')
  }

  predicate TabsBefore(line: string, k: int) {
    0 <= k <= |line| && forall i :: 0 <= i < k ==> line[i] == '\t'
  }

  /**
   * The rule as the three patterns `^\s*$`, `^[\t]*[^\s]` and `^[\t]* \*`
   * read it, with the tab run free to stop anywhere: the greedy rule above
   * accepts exactly the same lines.
   */
  lemma IndentMatchesPatterns(line: string)
    ensures GoodIndent(line) <==>
      (AllSpace(line)
       || (exists k :: TabsBefore(line, k) && k < |line| && !IsJsSpace(line[k]))
       || (exists k :: TabsBefore(line, k) && k + 1 < |line| && line[k] == ' ' && line[k + 1] == '*'))
  {
    var t := LeadingTabs(line);
    assert TabsBefore(line, t);
    forall k | TabsBefore(line, k) && k < |line| && line[k] != '\t'
      ensures k == t
    {
    }
  }

  /** The 1-based numbers of the lines, from line `first` on, that break the indentation rule. */
  function BadLines(lines: seq<string>, first: nat): (r: seq<nat>)
    ensures forall n :: n in r <==> first <= n < first + |lines| && !GoodIndent(lines[n - first])
    ensures forall i, j :: 0 <= i < j < |r| ==> r[i] < r[j]
    ensures |r| <= |lines|
    decreases |lines|
  {
    if |lines| == 0 then []
    else
      var rest := BadLines(lines[1..], first + 1);
      assert forall i :: 0 <= i < |rest| ==> rest[i] > first by {
        forall i | 0 <= i < |rest|
          ensures rest[i] > first
        {
          assert rest[i] in rest;
        }
      }
      if GoodIndent(lines[0]) then rest else [first] + rest
  }

  /** Each line that breaks the indentation rule is one error, reported with its 1-based line number. */
  function IndentationErrors(contents: string): (r: seq<nat>)
    ensures forall n :: n in r <==> 1 <= n <= |Lines(contents)| && !GoodIndent(Lines(contents)[n - 1])
  {
    BadLines(Lines(contents), 1)
  }

  /** Well indented lines only: no line number. */
  lemma {:induction false} NoBadLines(lines: seq<string>, first: nat)
    requires forall i :: 0 <= i < |lines| ==> GoodIndent(lines[i])
    ensures BadLines(lines, first) == []
    decreases |lines|
  {
    if |lines| > 0 {
      NoBadLines(lines[1..], first + 1);
    }
  }

  /** A single badly indented line: its number only. */
  lemma {:induction false} OnlyBadLine(lines: seq<string>, first: nat, k: nat)
    requires k < |lines|
    requires forall i :: 0 <= i < |lines| ==> (GoodIndent(lines[i]) <==> i != k)
    ensures BadLines(lines, first) == [first + k]
    decreases |lines|
  {
    if k == 0 {
      NoBadLines(lines[1..], first + 1);
    } else {
      OnlyBadLine(lines[1..], first + 1, k - 1);
    }
  }

  /** Lines that all keep the indentation rule give no indentation error, whatever line ending joins them. */
  lemma WellIndentedText(lines: seq<string>, eol: string)
    requires |lines| >= 1 && IsEol(eol)
    requires forall i :: 0 <= i < |lines| ==> NoBreaks(lines[i]) && GoodIndent(lines[i])
    ensures IndentationErrors(JoinLines(lines, eol)) == []
  {
    LinesOfJoin(lines, eol);
    NoBadLines(lines, 1);
  }

  /** One badly indented line among well indented ones gives exactly one error, at its line number. */
  lemma OneBadLine(lines: seq<string>, eol: string, k: nat)
    requires |lines| >= 1 && IsEol(eol) && k < |lines|
    requires forall i :: 0 <= i < |lines| ==> NoBreaks(lines[i])
    requires forall i :: 0 <= i < |lines| ==> (GoodIndent(lines[i]) <==> i != k)
    ensures IndentationErrors(JoinLines(lines, eol)) == [k + 1]
  {
    LinesOfJoin(lines, eol);
    OnlyBadLine(lines, 1, k);
  }

  // ---------------------------------------------------------------------------
  // Line endings and the copyright header

  /** `/\r\n?/g.test(contents)`: any carriage return is one error for the file. */
  function EolErrors(contents: string): (n: nat)
    ensures n <= 1
    ensures n == 1 <==> exists i :: 0 <= i < |contents| && contents[i] == '\r'
  {
    if '\r' in contents then 1 else 0
  }

  const HeaderLines: seq<string> := [
    "/*---------------------------------------------------------------------------------------------",
    " *  Copyright (c) Microsoft Corporation. All rights reserved.",
    " *  Licensed under the MIT License. See License.txt in the project root for license information.",
    " *--------------------------------------------------------------------------------------------*/"
  ]

  const CopyrightHeader: string := JoinLines(HeaderLines, "\n")

  /** `contents.indexOf(copyrightHeader) !== 0` is one error. */
  function CopyrightErrors(contents: string): (n: nat)
    ensures n <= 1
    ensures n == 0 <==> StartsWith(contents, CopyrightHeader)
  {
    var k := IndexOf(contents, CopyrightHeader, 0);
    assert StartsWith(contents, CopyrightHeader) ==> OccursAt(contents, CopyrightHeader, 0);
    if k != 0 then 1 else 0
  }

  // ---------------------------------------------------------------------------
  // The run

  /**
   * A file of the run: its contents, whether it is a directory, and whether
   * the line-ending, indentation and copyright filters let it through.
   */
  datatype SourceFile = SourceFile(
    contents: string,
    isDirectory: bool,
    eolFilter: bool,
    indentationFilter: bool,
    copyrightFilter: bool)

  /**
   * The errors one file adds. The filters are piped one after another, so a
   * file only reaches the indentation check when it passed the line-ending
   * filter, and the copyright check when it passed both earlier filters.
   */
  function FileErrors(f: SourceFile): (n: nat)
    ensures f.isDirectory || !f.eolFilter ==> n == 0
    ensures !f.isDirectory && f.eolFilter && f.indentationFilter && f.copyrightFilter ==>
      n == EolErrors(f.contents) + |IndentationErrors(f.contents)| + CopyrightErrors(f.contents)
    ensures !f.isDirectory && f.eolFilter && !f.indentationFilter ==> n == EolErrors(f.contents)
    ensures !f.isDirectory && f.eolFilter && f.indentationFilter && !f.copyrightFilter ==>
      n == EolErrors(f.contents) + |IndentationErrors(f.contents)|
  {
    if f.isDirectory || !f.eolFilter then 0
    else
      var indentation := if f.indentationFilter then |IndentationErrors(f.contents)| else 0;
      var copyright := if f.indentationFilter && f.copyrightFilter then CopyrightErrors(f.contents) else 0;
      EolErrors(f.contents) + indentation + copyright
  }

  function TotalErrors(files: seq<SourceFile>): nat {
    if |files| == 0 then 0 else FileErrors(files[0]) + TotalErrors(files[1..])
  }

  /** The counts of two batches of files add up. */
  lemma {:induction false} TotalErrorsAppend(a: seq<SourceFile>, b: seq<SourceFile>)
    ensures TotalErrors(a + b) == TotalErrors(a) + TotalErrors(b)
    decreases |a|
  {
    if |a| == 0 {
      assert a + b == b;
    } else {
      assert (a + b)[1..] == a[1..] + b;
      TotalErrorsAppend(a[1..], b);
    }
  }

  datatype Outcome = Ended | Failed(message: string)

  /** The end of the stream: an error naming the count when there were errors, the end event otherwise. */
  function Hygiene(files: seq<SourceFile>): (o: Outcome)
    ensures o.Failed? <==> TotalErrors(files) > 0
    ensures o.Failed? ==> o.message == "Hygiene failed with " + NatToString(TotalErrors(files)) + " errors. Check 'build/gulpfile.hygiene.js'."
  {
    var n := TotalErrors(files);
    if n > 0 then Failed("Hygiene failed with " + NatToString(n) + " errors. Check 'build/gulpfile.hygiene.js'.") else Ended
  }

  /** The run fails exactly when some file reported an error. */
  lemma {:induction false} FailsIffSomeFileErrs(files: seq<SourceFile>)
    ensures Hygiene(files).Failed? <==> exists i :: 0 <= i < |files| && FileErrors(files[i]) > 0
    decreases |files|
  {
    if |files| > 0 {
      FailsIffSomeFileErrs(files[1..]);
      assert forall i :: 0 < i < |files| ==> files[i] == files[1..][i - 1];
      if Hygiene(files[1..]).Failed? {
        var i :| 0 <= i < |files[1..]| && FileErrors(files[1..][i]) > 0;
        assert files[i + 1] == files[1..][i];
      }
    }
  }

  /**
   * A file that starts with the header and is made of lines that keep the
   * indentation rule, joined by line feeds, adds no error, whichever filters
   * it passes.
   */
  lemma CleanFile(lines: seq<string>, f: SourceFile)
    requires |lines| >= 1
    requires forall i :: 0 <= i < |lines| ==> NoBreaks(lines[i]) && GoodIndent(lines[i])
    requires f.contents == JoinLines(lines, "\n") && StartsWith(f.contents, CopyrightHeader)
    ensures FileErrors(f) == 0
  {
    WellIndentedText(lines, "\n");
    forall i | 0 <= i < |f.contents|
      ensures f.contents[i] != '\r'
    {
      NoCarriageReturn(lines, "\n", i);
    }
  }

  /** Lines without breaks joined by line feeds hold no carriage return. */
  lemma {:induction false} NoCarriageReturn(lines: seq<string>, eol: string, i: nat)
    requires eol == "\n"
    requires forall k :: 0 <= k < |lines| ==> NoBreaks(lines[k])
    requires i < |JoinLines(lines, eol)|
    ensures JoinLines(lines, eol)[i] != '\r'
    decreases |lines|
  {
    if |lines| > 1 {
      var rest := JoinLines(lines[1..], eol);
      assert JoinLines(lines, eol) == lines[0] + eol + rest;
      if i >= |lines[0]| + 1 {
        NoCarriageReturn(lines[1..], eol, i - |lines[0]| - 1);
      }
    }
  }
}

=== FILE: jsvalues.dfy ===
/**
 * JSON-like JavaScript values, as they arrive in settings, manifests and
 * contribution points, and the handful of runtime operations on them that the
 * modelled code relies on: truthiness, `typeof`, `String(v)`, property reads
 * and `parseInt(v, 10)`.
 *
 * Numbers are unbounded integers; NaN and fractions are not values of this
 * model. `String(n)` prints plain decimal digits, which is what JavaScript
 * prints for magnitudes below 10^21 only.
 * Objects are property lists in insertion order. That is the order `Object.keys`
 * and `for … in` enumerate them as long as no key is an array index (a
 * canonical decimal below 2^32 - 1); JavaScript lists such keys first, in
 * ascending numeric order, and this model does not.
 */
module JsValues {
  import opened Wrappers
  import opened Strings

  datatype Prop = Prop(key: string, value: Value)

  datatype Value =
    | Undefined
    | Null
    | Bool(b: bool)
    | Num(n: int)
    | Str(s: string)
    | Arr(elems: seq<Value>)
    | Obj(props: seq<Prop>)

  /** `Boolean(v)`. */
  predicate Truthy(v: Value) {
    match v
    case Undefined => false
    case Null => false
    case Bool(b) => b
    case Num(n) => n != 0
    case Str(s) => |s| > 0
    case Arr(_) => true
    case Obj(_) => true
  }

  /** `typeof v`. */
  function TypeOf(v: Value): (t: string)
    ensures t == "object" <==> v.Null? || v.Arr? || v.Obj?
    ensures t == "undefined" <==> v.Undefined?
    ensures t == "string" <==> v.Str?
    ensures t == "boolean" <==> v.Bool?
    ensures t == "number" <==> v.Num?
  {
    match v
    case Undefined => "undefined"
    case Null => "object"
    case Bool(_) => "boolean"
    case Num(_) => "number"
    case Str(_) => "string"
    case Arr(_) => "object"
    case Obj(_) => "object"
  }

  /** `String(v)`; an array prints its elements joined by commas, holes and nulls as empty. */
  function ToStr(v: Value): string
    decreases v
  {
    match v
    case Undefined => "undefined"
    case Null => "null"
    case Bool(b) => if b then "true" else "false"
    case Num(n) => IntToString(n)
    case Str(s) => s
    case Arr(es) => JoinWithCommas(seq(|es|, i requires 0 <= i < |es| => if es[i].Undefined? || es[i].Null? then "" else ToStr(es[i])))
    case Obj(_) => "[object Object]"
  }

  function JoinWithCommas(parts: seq<string>): string {
    if |parts| == 0 then "" else Join(parts, ',')
  }

  // ---------------------------------------------------------------------------
  // Objects as ordered property lists

  /** No key occurs twice, as in any JavaScript object. */
  predicate UniqueKeys(props: seq<Prop>) {
    |props| == 0 || (Lookup(props[1..], props[0].key).None? && UniqueKeys(props[1..]))
  }

  function Keys(props: seq<Prop>): (ks: seq<string>)
    ensures |ks| == |props|
    ensures forall i :: 0 <= i < |props| ==> ks[i] == props[i].key
  {
    if |props| == 0 then [] else [props[0].key] + Keys(props[1..])
  }

  /** The value stored under `key`, if the object has that own property. */
  function Lookup(props: seq<Prop>, key: string): (r: Option<Value>)
    ensures r.None? <==> forall i :: 0 <= i < |props| ==> props[i].key != key
  {
    if |props| == 0 then None
    else if props[0].key == key then Some(props[0].value)
    else Lookup(props[1..], key)
  }

  function IndexOfKey(props: seq<Prop>, key: string): (i: nat)
    requires exists i :: 0 <= i < |props| && props[i].key == key
    ensures i < |props| && props[i].key == key
    ensures Lookup(props, key) == Some(props[i].value)
  {
    if props[0].key == key then 0 else 1 + IndexOfKey(props[1..], key)
  }

  /** `o[key] = value`: an existing property keeps its place, a new one goes last. */
  function Put(props: seq<Prop>, key: string, value: Value): (r: seq<Prop>)
    ensures Lookup(r, key) == Some(value)
    ensures forall k :: k != key ==> Lookup(r, k) == Lookup(props, k)
    ensures UniqueKeys(props) ==> UniqueKeys(r)
  {
    if |props| == 0 then [Prop(key, value)]
    else if props[0].key == key then [Prop(key, value)] + props[1..]
    else [props[0]] + Put(props[1..], key, value)
  }

  /** Assigning keeps the key order: an existing key stays where it was, a new key goes last. */
  lemma {:induction false} PutKeepsOrder(props: seq<Prop>, key: string, value: Value)
    ensures Lookup(props, key).Some? ==> Keys(Put(props, key, value)) == Keys(props)
    ensures Lookup(props, key).None? ==> Keys(Put(props, key, value)) == Keys(props) + [key]
    decreases |props|
  {
    if |props| > 0 && props[0].key != key {
      PutKeepsOrder(props[1..], key, value);
      assert Keys(props) == [props[0].key] + Keys(props[1..]);
    }
  }

  /** `delete o[key]`: the other properties keep their order. */
  function Remove(props: seq<Prop>, key: string): (r: seq<Prop>)
    requires UniqueKeys(props)
    ensures Lookup(r, key).None?
    ensures forall k :: k != key ==> Lookup(r, k) == Lookup(props, k)
    ensures UniqueKeys(r)
  {
    if |props| == 0 then []
    else if props[0].key == key then props[1..]
    else [props[0]] + Remove(props[1..], key)
  }

  /** Removing a key the object does not have leaves it as it is. */
  lemma {:induction false} RemoveAbsent(props: seq<Prop>, key: string)
    requires UniqueKeys(props) && Lookup(props, key).None?
    ensures Remove(props, key) == props
  {
    if |props| > 0 {
      assert props[0].key != key;
      RemoveAbsent(props[1..], key);
    }
  }

  /**
   * `for (key in values) bucket[key] = values[key]`: the copied values win
   * over the bucket's, which survive where `values` has no property.
   */
  function CopyInto(values: seq<Prop>, bucket: seq<Prop>): (r: seq<Prop>)
    ensures UniqueKeys(values) ==> forall k :: Lookup(r, k) == if Lookup(values, k).Some? then Lookup(values, k) else Lookup(bucket, k)
    ensures UniqueKeys(bucket) ==> UniqueKeys(r)
  {
    if |values| == 0 then bucket
    else
      var p := values[0];
      var r := CopyInto(values[1..], Put(bucket, p.key, p.value));
      assert forall k :: Lookup(values, k) == if k == p.key then Some(p.value) else Lookup(values[1..], k);
      r
  }

  /** A canonical array index: decimal digits without a leading zero. */
  function ArrayIndex(key: string): (r: Option<nat>)
    ensures r.Some? ==> key == NatToString(r.value)
  {
    if |key| > 0 && AllDigits(key) && (|key| == 1 || key[0] != '0') then
      var n := DigitsValue(key);
      CanonicalDigits(key);
      Some(n)
    else None
  }

  /** Canonical digit strings are exactly the decimal printings of numbers. */
  lemma {:induction false} CanonicalDigits(key: string)
    requires |key| > 0 && AllDigits(key) && (|key| == 1 || key[0] != '0')
    ensures NatToString(DigitsValue(key)) == key
    decreases |key|
  {
    var n := DigitsValue(key);
    var front := key[..|key| - 1];
    if |key| == 1 {
    } else {
      assert front[0] == key[0];
      CanonicalDigits(front);
      var m := DigitsValue(front);
      assert m > 0;
      assert n == 10 * m + DigitValue(key[|key| - 1]);
      assert n / 10 == m && n % 10 == DigitValue(key[|key| - 1]);
      assert DigitChar(n % 10) == key[|key| - 1];
      assert key == front + [key[|key| - 1]];
    }
  }

  lemma ArrayIndexOfPrinted(n: nat)
    ensures ArrayIndex(NatToString(n)) == Some(n)
  {
    var s := NatToString(n);
    NatToStringRoundTrip(n);
    if |s| > 1 {
      LeadingDigitNonZero(n);
    }
  }

  lemma {:induction false} LeadingDigitNonZero(n: nat)
    requires |NatToString(n)| > 1
    ensures NatToString(n)[0] != '0'
  {
    var q := n / 10;
    assert NatToString(n)[0] == NatToString(q)[0];
    if |NatToString(q)| > 1 {
      LeadingDigitNonZero(q);
    } else {
      assert 0 < q < 10;
    }
  }

  datatype TypeError = CannotReadProperty(key: string)

  /**
   * `v[key]` for an own property, which throws when `v` is undefined or null.
   * There is no prototype chain: a key that only an inherited member answers
   * (`constructor`, `toString`, `charAt`, …) reads as undefined here.
   */
  function Get(v: Value, key: string): (r: Result<Value, TypeError>)
    ensures r.Err? <==> v.Undefined? || v.Null?
    ensures v.Obj? ==> r == Ok(Lookup(v.props, key).GetOr(Undefined))
    ensures v.Arr? && key == "length" ==> r == Ok(Num(|v.elems|))
    ensures forall i :: v.Arr? && 0 <= i < |v.elems| && key == NatToString(i) ==> r == Ok(v.elems[i])
    ensures v.Bool? || v.Num? ==> r == Ok(Undefined)
  {
    match v
    case Undefined => Err(CannotReadProperty(key))
    case Null => Err(CannotReadProperty(key))
    case Bool(_) => Ok(Undefined)
    case Num(_) => Ok(Undefined)
    case Str(s) =>
      if key == "length" then Ok(Num(|s|))
      else
        var idx := ArrayIndex(key);
        if idx.Some? && idx.value < |s| then Ok(Str([s[idx.value]])) else Ok(Undefined)
    case Arr(es) =>
      var idx := ArrayIndex(key);
      forall i | 0 <= i < |es| && key == NatToString(i)
        ensures idx == Some(i) && key != "length"
      {
        ArrayIndexOfPrinted(i);
      }
      if key == "length" then Ok(Num(|es|))
      else if idx.Some? && idx.value < |es| then Ok(es[idx.value]) else Ok(Undefined)
    case Obj(ps) => Ok(Lookup(ps, key).GetOr(Undefined))
  }

  // ---------------------------------------------------------------------------
  // parseInt(source, 10)

  /** The longest run of decimal digits at the front of `s`. */
  function LeadingDigits(s: string): (d: string)
    ensures |d| <= |s| && d == s[..|d|] && AllDigits(d)
    ensures |d| < |s| ==> !IsDigit(s[|d|])
  {
    if |s| > 0 && IsDigit(s[0]) then [s[0]] + LeadingDigits(s[1..]) else ""
  }

  /**
   * `parseInt(s, 10)` on a string: white space is skipped, one sign is read,
   * then as many decimal digits as follow; without any digit the result is NaN
   * (here `None`).
   */
  function ParseIntString(s: string): (r: Option<int>)
    ensures r.Some? ==> exists k :: 0 <= k < |s| && IsDigit(s[k])
  {
    var t := TrimStart(s);
    var negative := |t| > 0 && t[0] == '-';
    var body := if |t| > 0 && (t[0] == '-' || t[0] == '+') then t[1..] else t;
    var d := LeadingDigits(body);
    if |d| == 0 then None
    else
      assert s[|s| - |body|] == d[0];
      var n: int := DigitsValue(d);
      Some(if negative then -n else n)
  }

  /** Parsing the printed form of an integer gives back that integer. */
  lemma ParseIntPrinted(n: int)
    ensures ParseIntString(IntToString(n)) == Some(n)
  {
    var s := IntToString(n);
    var m: nat := if n < 0 then -n else n;
    var digits := NatToString(m);
    assert !IsJsSpace(s[0]);
    assert TrimStart(s) == s;
    assert (if s[0] == '-' || s[0] == '+' then s[1..] else s) == digits;
    AllDigitsAreLeading(digits);
    NatToStringRoundTrip(m);
  }

  lemma {:induction false} AllDigitsAreLeading(s: string)
    requires AllDigits(s)
    ensures LeadingDigits(s) == s
  {
    if |s| > 0 {
      AllDigitsAreLeading(s[1..]);
    }
  }

  /** `parseInt(v, 10)`: the value is first converted with `String(v)`. */
  function ParseInt(v: Value): (r: Option<int>)
    ensures v.Num? ==> r == Some(v.n)
    ensures v.Undefined? || v.Null? || v.Bool? || v.Obj? ==> r.None?
  {
    if v.Num? then
      ParseIntPrinted(v.n);
      ParseIntString(ToStr(v))
    else if v.Undefined? || v.Null? || v.Bool? || v.Obj? then
      assert forall k :: 0 <= k < |ToStr(v)| ==> !IsDigit(ToStr(v)[k]);
      ParseIntString(ToStr(v))
    else ParseIntString(ToStr(v))
  }
}

=== FILE: keybinding_context.dfy ===
/**
 * The keybinding context tree of keybindingServiceImpl.ts: contexts that
 * hold key/value pairs and inherit the values of the context they were created
 * under, the registry that hands out context ids, the context keys with their
 * default/reset behaviour, and the configuration context that exposes every
 * boolean setting as `config.<dotted path>`.
 *
 * A context's parent is an object reference in the source, so a child keeps
 * seeing its parent's values after the parent was disposed. The registry
 * therefore keeps every context ever created (`objects`) apart from the ids
 * that `getContext` still finds (`live`).
 */
module KeybindingContext {
  import opened Wrappers
  import opened Strings
  import opened JsValues

  /** A context: its id, the context it was created under (if that one still existed), its own values. */
  datatype Context = Context(id: nat, parent: Option<nat>, values: seq<Prop>)

  /** The key under which every context records its own id. */
  const ContextIdKey := "_contextId"

  /** `new KeybindingContext(id, parent)`: the only value is the context's id. */
  function NewContext(id: nat, parent: Option<nat>): (c: Context)
    ensures c.id == id && c.parent == parent && UniqueKeys(c.values)
    ensures Lookup(c.values, ContextIdKey) == Some(Num(id))
    ensures forall k :: k != ContextIdKey ==> Lookup(c.values, k).None?
  {
    Context(id, parent, [Prop(ContextIdKey, Num(id))])
  }

  /** `setValue(key, value)`: only `key` changes. */
  function SetValue(c: Context, key: string, value: Value): (r: Context)
    requires UniqueKeys(c.values)
    ensures r.id == c.id && r.parent == c.parent && UniqueKeys(r.values)
    ensures Lookup(r.values, key) == Some(value)
    ensures forall k :: k != key ==> Lookup(r.values, k) == Lookup(c.values, k)
  {
    c.(values := Put(c.values, key, value))
  }

  /** `removeValue(key)`: only `key` goes. */
  function RemoveValue(c: Context, key: string): (r: Context)
    requires UniqueKeys(c.values)
    ensures r.id == c.id && r.parent == c.parent && UniqueKeys(r.values)
    ensures Lookup(r.values, key).None?
    ensures forall k :: k != key ==> Lookup(r.values, k) == Lookup(c.values, k)
  {
    c.(values := Remove(c.values, key))
  }

  // ---------------------------------------------------------------------------
  // The registry of contexts

  /**
   * `_contexts`, `_lastContextId` and every context ever created. Context 0 is
   * the service's own context, created by the constructor without a parent.
   */
  datatype Registry = Registry(objects: map<nat, Context>, live: set<nat>, lastId: nat)

  const RootId: nat := 0

  predicate Valid(g: Registry) {
    RootId in g.objects
    && g.live <= g.objects.Keys
    && forall i :: i in g.objects ==> ContextOk(g, i)
  }

  /** A context is filed under its id, has unique keys, and its parent is older. */
  predicate ContextOk(g: Registry, i: nat)
    requires i in g.objects
  {
    var c := g.objects[i];
    i <= g.lastId && c.id == i && UniqueKeys(c.values)
    && (c.parent.Some? ==> c.parent.value < i && c.parent.value in g.objects)
  }

  /** The service's constructor: only context 0 exists. */
  function Init(): (g: Registry)
    ensures Valid(g)
    ensures g.live == {RootId} && g.objects[RootId].parent.None?
  {
    Registry(map[RootId := NewContext(RootId, None)], {RootId}, 0)
  }

  /** `getContext(id)`: undefined once the context was disposed or when it never existed. */
  function GetContext(g: Registry, id: int): (r: Option<Context>)
    requires Valid(g)
    ensures r.Some? <==> id >= 0 && id in g.live
    ensures r.Some? ==> r.value.id == id
  {
    if id >= 0 && id in g.live then Some(g.objects[id]) else None
  }

  /**
   * `createChildContext(parentContextId)`: the next id, parented to the
   * requested context (the service's own when none is given) if that one can
   * still be found.
   */
  function CreateChild(g: Registry, own: nat, parentId: Option<int>): (r: (Registry, nat))
    requires Valid(g)
    ensures var (g', id) := r;
      Valid(g') && id == g'.lastId
      && (forall j :: j in g.objects ==> j < id)
      && g'.live == g.live + {id}
      && g'.objects.Keys == g.objects.Keys + {id}
      && (forall j :: j in g.objects ==> g'.objects[j] == g.objects[j])
      && g'.objects[id].parent == (var p := parentId.GetOr(own); if p >= 0 && p in g.live then Some(p as nat) else None)
      && Lookup(g'.objects[id].values, ContextIdKey) == Some(Num(id))
  {
    var requested := parentId.GetOr(own);
    var parent := match GetContext(g, requested) case Some(c) => Some(c.id) case None => None;
    var id := g.lastId + 1;
    var g' := Registry(g.objects[id := NewContext(id, parent)], g.live + {id}, id);
    assert forall j :: j in g'.objects ==> ContextOk(g', j) by {
      forall j | j in g'.objects
        ensures ContextOk(g', j)
      {
        if j != id {
          assert ContextOk(g, j);
        }
      }
    }
    (g', id)
  }

  /** Context ids only grow: a later context always has a larger id than an earlier one. */
  lemma CreateChildIncreasing(g: Registry, own: nat, p: Option<int>, q: Option<int>)
    requires Valid(g)
    ensures var (g1, a) := CreateChild(g, own, p);
      var (g2, b) := CreateChild(g1, own, q);
      a < b && a in g2.objects && g2.objects[a] == g1.objects[a]
  {
  }

  /** `disposeContext(id)`: the id is no longer found; everything else stays. */
  function Dispose(g: Registry, id: int): (r: Registry)
    requires Valid(g)
    ensures Valid(r)
    ensures GetContext(r, id).None?
    ensures forall j :: j != id ==> GetContext(r, j) == GetContext(g, j)
    ensures r.objects == g.objects && r.lastId == g.lastId
  {
    if id >= 0 then g.(live := g.live - {id as nat}) else g
  }

  /** Replaces one live context by an update of it that keeps its id and parent. */
  function Update(g: Registry, c: Context): (r: Registry)
    requires Valid(g) && c.id in g.objects && UniqueKeys(c.values) && c.parent == g.objects[c.id].parent
    ensures Valid(r) && r.live == g.live && r.lastId == g.lastId
    ensures r.objects.Keys == g.objects.Keys
    ensures forall j :: j in g.objects && j != c.id ==> r.objects[j] == g.objects[j]
    ensures r.objects[c.id] == c
  {
    var r := g.(objects := g.objects[c.id := c]);
    assert forall j :: j in r.objects ==> ContextOk(r, j) by {
      forall j | j in r.objects
        ensures ContextOk(r, j)
      {
        assert ContextOk(g, j);
      }
    }
    r
  }

  datatype TypeError = ContextNotFound(id: int)

  /** `setContext(key, value)` of a service whose own context is `own`; throws once that context is disposed. */
  function SetContext(g: Registry, own: nat, key: string, value: Value): (r: Result<Registry, TypeError>)
    requires Valid(g)
    ensures r.Err? <==> own !in g.live
    ensures r.Ok? ==> Valid(r.value) && r.value.live == g.live && r.value.objects.Keys == g.objects.Keys
    ensures r.Ok? ==> Lookup(r.value.objects[own].values, key) == Some(value)
    ensures r.Ok? ==> (forall k :: k != key ==> Lookup(r.value.objects[own].values, k) == Lookup(g.objects[own].values, k))
    ensures r.Ok? ==> (forall j :: j in g.objects && j != own ==> r.value.objects[j] == g.objects[j])
  {
    match GetContext(g, own)
    case None => Err(ContextNotFound(own))
    case Some(c) => Ok(Update(g, SetValue(c, key, value)))
  }

  /** `removeContext(key)` of a service whose own context is `own`. */
  function RemoveContext(g: Registry, own: nat, key: string): (r: Result<Registry, TypeError>)
    requires Valid(g)
    ensures r.Err? <==> own !in g.live
    ensures r.Ok? ==> Valid(r.value) && r.value.live == g.live && r.value.objects.Keys == g.objects.Keys
    ensures r.Ok? ==> Lookup(r.value.objects[own].values, key).None?
    ensures r.Ok? ==> (forall k :: k != key ==> Lookup(r.value.objects[own].values, k) == Lookup(g.objects[own].values, k))
    ensures r.Ok? ==> (forall j :: j in g.objects && j != own ==> r.value.objects[j] == g.objects[j])
  {
    match GetContext(g, own)
    case None => Err(ContextNotFound(own))
    case Some(c) => Ok(Update(g, RemoveValue(c, key)))
  }

  // ---------------------------------------------------------------------------
  // Filling a bucket from a context and its ancestors

  /** The context, its parent, its parent's parent, … up to a context without a parent. */
  function Ancestors(g: Registry, id: nat): (chain: seq<nat>)
    requires Valid(g) && id in g.objects
    ensures |chain| > 0 && chain[0] == id
    ensures forall i :: 0 <= i < |chain| ==> chain[i] in g.objects
    ensures forall i :: 0 <= i < |chain| - 1 ==> g.objects[chain[i]].parent == Some(chain[i + 1])
    ensures g.objects[chain[|chain| - 1]].parent.None?
    decreases id
  {
    assert ContextOk(g, id);
    match g.objects[id].parent
    case None => [id]
    case Some(p) => [id] + Ancestors(g, p)
  }

  /** The value of `key` in the first context of the chain that has one. */
  function Nearest(g: Registry, chain: seq<nat>, key: string): (r: Option<Value>)
    requires forall i :: 0 <= i < |chain| ==> chain[i] in g.objects
    ensures r.None? <==> forall i :: 0 <= i < |chain| ==> Lookup(g.objects[chain[i]].values, key).None?
  {
    if |chain| == 0 then None
    else if Lookup(g.objects[chain[0]].values, key).Some? then Lookup(g.objects[chain[0]].values, key)
    else Nearest(g, chain[1..], key)
  }

  /** A context of the chain that has the key decides it when no context before it has the key. */
  lemma {:induction false} NearestIsFirst(g: Registry, chain: seq<nat>, key: string, i: nat)
    requires forall j :: 0 <= j < |chain| ==> chain[j] in g.objects
    requires i < |chain| && Lookup(g.objects[chain[i]].values, key).Some?
    requires forall j :: 0 <= j < i ==> Lookup(g.objects[chain[j]].values, key).None?
    ensures Nearest(g, chain, key) == Lookup(g.objects[chain[i]].values, key)
  {
    if i > 0 {
      assert Lookup(g.objects[chain[0]].values, key).None?;
      forall j | 0 <= j < i - 1
        ensures Lookup(g.objects[chain[1..][j]].values, key).None?
      {
        assert chain[1..][j] == chain[j + 1];
      }
      NearestIsFirst(g, chain[1..], key, i - 1);
    }
  }

  /**
   * `fillInContext(bucket)`: the parent chain writes first, then the context
   * itself, so for every key the nearest context that has it wins, and the
   * bucket's own value survives only where no context in the chain has one.
   */
  function Fill(g: Registry, id: nat, bucket: seq<Prop>): (r: seq<Prop>)
    requires Valid(g) && id in g.objects
    ensures forall k :: Lookup(r, k) == (var n := Nearest(g, Ancestors(g, id), k); if n.Some? then n else Lookup(bucket, k))
    ensures UniqueKeys(bucket) ==> UniqueKeys(r)
    decreases id
  {
    assert ContextOk(g, id);
    var c := g.objects[id];
    var chain := Ancestors(g, id);
    match c.parent
    case None =>
      CopyInto(c.values, bucket)
    case Some(p) =>
      var b := Fill(g, p, bucket);
      assert chain[1..] == Ancestors(g, p);
      CopyInto(c.values, b)
  }

  /**
   * A bucket filled from a context carries that context's id, as long as the
   * context's own `_contextId` was not overwritten.
   */
  lemma FilledBucketCarriesId(g: Registry, id: nat, bucket: seq<Prop>)
    requires Valid(g) && id in g.objects
    requires Lookup(g.objects[id].values, ContextIdKey) == Some(Num(id))
    ensures Lookup(Fill(g, id, bucket), ContextIdKey) == Some(Num(id))
  {
  }

  // ---------------------------------------------------------------------------
  // Context keys

  /**
   * A context key: its name and default. `createKey(key, default)` sets the
   * default right away unless it is undefined.
   */
  datatype ContextKey = ContextKey(key: string, defaultValue: Value)

  function CreateKey(g: Registry, own: nat, key: string, defaultValue: Value): (r: (ContextKey, Result<Registry, TypeError>))
    requires Valid(g)
    ensures r.0 == ContextKey(key, defaultValue)
    ensures defaultValue.Undefined? ==> r.1 == Ok(g)
    ensures !defaultValue.Undefined? ==> (r.1.Err? <==> own !in g.live)
    ensures !defaultValue.Undefined? && r.1.Ok? ==>
      Valid(r.1.value) && r.1.value.objects.Keys == g.objects.Keys && own in g.objects
      && Lookup(r.1.value.objects[own].values, key) == Some(defaultValue)
      && (forall k :: k != key ==> Lookup(r.1.value.objects[own].values, k) == Lookup(g.objects[own].values, k))
      && (forall c :: c in g.objects && c != own ==> r.1.value.objects[c] == g.objects[c])
  {
    (ContextKey(key, defaultValue), if defaultValue.Undefined? then Ok(g) else SetContext(g, own, key, defaultValue))
  }

  /** `set(value)`. */
  function SetKey(g: Registry, own: nat, ck: ContextKey, value: Value): (r: Result<Registry, TypeError>)
    requires Valid(g)
    ensures r.Err? <==> own !in g.live
    ensures r.Ok? ==> Valid(r.value) && r.value.objects.Keys == g.objects.Keys && own in g.objects
    ensures r.Ok? ==> Lookup(r.value.objects[own].values, ck.key) == Some(value)
    ensures r.Ok? ==> forall k :: k != ck.key ==> Lookup(r.value.objects[own].values, k) == Lookup(g.objects[own].values, k)
  {
    SetContext(g, own, ck.key, value)
  }

  /** `reset()`: back to the default, or no value at all when the default is undefined. */
  function ResetKey(g: Registry, own: nat, ck: ContextKey): (r: Result<Registry, TypeError>)
    requires Valid(g)
    ensures r.Err? <==> own !in g.live
    ensures r.Ok? ==> Valid(r.value) && r.value.objects.Keys == g.objects.Keys && own in g.objects
    ensures r.Ok? && ck.defaultValue.Undefined? ==> Lookup(r.value.objects[own].values, ck.key).None?
    ensures r.Ok? && !ck.defaultValue.Undefined? ==> Lookup(r.value.objects[own].values, ck.key) == Some(ck.defaultValue)
    ensures r.Ok? ==> forall k :: k != ck.key ==> Lookup(r.value.objects[own].values, k) == Lookup(g.objects[own].values, k)
  {
    if ck.defaultValue.Undefined? then RemoveContext(g, own, ck.key) else SetContext(g, own, ck.key, ck.defaultValue)
  }

  /**
   * Whatever was set in between, `reset` brings the key back to what
   * `createKey` left it at: the default, or absent when the default is undefined
   * and the key had no value before.
   */
  lemma ResetRestoresCreation(g: Registry, own: nat, key: string, defaultValue: Value, value: Value)
    requires Valid(g) && own in g.live
    requires Lookup(g.objects[own].values, key).None?
    ensures var (ck, g1) := CreateKey(g, own, key, defaultValue);
      g1.Ok? && SetKey(g1.value, own, ck, value).Ok?
      && var g2 := SetKey(g1.value, own, ck, value).value;
      ResetKey(g2, own, ck).Ok?
      && Lookup(ResetKey(g2, own, ck).value.objects[own].values, key) == Lookup(g1.value.objects[own].values, key)
  {
  }

  // ---------------------------------------------------------------------------
  // The configuration context

  /** The number of own enumerable properties `for … in` visits: none for anything but objects and arrays. */
  function Count(v: Value): nat {
    match v
    case Obj(props) => |props|
    case Arr(elems) => |elems|
    case _ => 0
  }

  /** The `i`th key `for … in` visits: the property name, or the index for an array. */
  function KeyAt(v: Value, i: nat): string
    requires i < Count(v)
  {
    if v.Obj? then v.props[i].key else NatToString(i)
  }

  function ChildAt(v: Value, i: nat): (c: Value)
    requires i < Count(v)
    ensures c < v
  {
    if v.Obj? then
      assert v.props[i] in v.props;
      v.props[i].value
    else v.elems[i]
  }

  /**
   * `walk(obj, keys)` from the `i`th property on: booleans are recorded under
   * the dotted path, objects (including arrays and null) are walked into,
   * everything else is skipped.
   */
  function Walk(v: Value, i: nat, path: seq<string>, acc: seq<Prop>): (r: seq<Prop>)
    ensures forall k :: Lookup(acc, k).Some? ==> Lookup(r, k).Some?
    ensures forall k :: Lookup(r, k).Some? ==> Lookup(acc, k) == Lookup(r, k) || Lookup(r, k).value.Bool?
    decreases v, Count(v) - i
  {
    if i >= Count(v) then acc
    else
      var key := KeyAt(v, i);
      var child := ChildAt(v, i);
      var acc' :=
        if child.Bool? then Put(acc, Join(path + [key], '.'), child)
        else if TypeOf(child) == "object" then Walk(child, 0, path + [key], acc)
        else acc;
      Walk(v, i + 1, path, acc')
  }

  /**
   * The value reached from `v` by following the property positions `at`,
   * together with the keys along the way.
   */
  function Follow(v: Value, at: seq<nat>): (r: Option<(seq<string>, Value)>)
    ensures r.Some? ==> |r.value.0| == |at|
    decreases |at|
  {
    if |at| == 0 then Some(([], v))
    else if at[0] < Count(v) then
      match Follow(ChildAt(v, at[0]), at[1..])
      case None => None
      case Some((keys, leaf)) => Some(([KeyAt(v, at[0])] + keys, leaf))
    else None
  }

  lemma FollowStep(v: Value, at: seq<nat>)
    requires |at| > 0 && Follow(v, at).Some?
    ensures at[0] < Count(v)
    ensures var rest := Follow(ChildAt(v, at[0]), at[1..]);
      rest.Some? && Follow(v, at).value == ([KeyAt(v, at[0])] + rest.value.0, rest.value.1)
  {
  }

  /** A path that leads somewhere starts at one of `v`'s properties. */
  lemma FollowInRange(v: Value, at: seq<nat>)
    requires |at| > 0 && Follow(v, at).Some?
    ensures at[0] < Count(v)
  {
  }

  /** Only objects and arrays have properties to visit, and `typeof` says "object" for both. */
  lemma CountedIsObject(v: Value)
    requires Count(v) > 0
    ensures !v.Bool? && TypeOf(v) == "object"
  {
  }

  /** Every boolean leaf of the walked value is recorded under its dotted path. */
  lemma {:induction false} WalkRecordsLeaf(v: Value, i: nat, path: seq<string>, acc: seq<Prop>, at: seq<nat>)
    requires |at| > 0 && i <= at[0]
    requires Follow(v, at).Some? && Follow(v, at).value.1.Bool?
    ensures Lookup(Walk(v, i, path, acc), Join(path + Follow(v, at).value.0, '.')).Some?
    decreases v, Count(v) - i, 1
  {
    var k := Join(path + Follow(v, at).value.0, '.');
    FollowInRange(v, at);
    forall a: seq<Prop>
      ensures Lookup(Walk(v, at[0], path, a), k).Some?
    {
      VisitRecordsLeaf(v, path, a, at);
    }
    WalkReaches(v, i, at[0], path, acc, k);
  }

  /** A key the walk records from the `j`th property on, whatever it started from, it records from any earlier one too. */
  lemma {:induction false} WalkReaches(v: Value, i: nat, j: nat, path: seq<string>, acc: seq<Prop>, k: string)
    requires i <= j < Count(v)
    requires forall a :: Lookup(Walk(v, j, path, a), k).Some?
    ensures Lookup(Walk(v, i, path, acc), k).Some?
    decreases j - i
  {
    if i < j {
      var acc' := WalkNext(v, i, path, acc);
      WalkReaches(v, i + 1, j, path, acc', k);
    }
  }

  /** One step of the walk: what visiting the `i`th property adds to `acc`. */
  lemma WalkStep(v: Value, i: nat, path: seq<string>, acc: seq<Prop>) returns (acc': seq<Prop>)
    requires i < Count(v)
    ensures var key := KeyAt(v, i);
      var child := ChildAt(v, i);
      acc' == (if child.Bool? then Put(acc, Join(path + [key], '.'), child)
               else if TypeOf(child) == "object" then Walk(child, 0, path + [key], acc)
               else acc)
    ensures Walk(v, i, path, acc) == Walk(v, i + 1, path, acc')
  {
    var key := KeyAt(v, i);
    var child := ChildAt(v, i);
    acc' :=
      if child.Bool? then Put(acc, Join(path + [key], '.'), child)
      else if TypeOf(child) == "object" then Walk(child, 0, path + [key], acc)
      else acc;
  }

  /** The walk from the `i`th property on is the walk from the next one on, from some accumulator. */
  lemma WalkNext(v: Value, i: nat, path: seq<string>, acc: seq<Prop>) returns (acc': seq<Prop>)
    requires i < Count(v)
    ensures Walk(v, i, path, acc) == Walk(v, i + 1, path, acc')
  {
    acc' := WalkStep(v, i, path, acc);
  }

  /** Visiting a boolean property records it under its dotted path. */
  lemma VisitBool(v: Value, i: nat, path: seq<string>, acc: seq<Prop>)
    requires i < Count(v) && ChildAt(v, i).Bool?
    ensures Lookup(Walk(v, i, path, acc), Join(path + [KeyAt(v, i)], '.')).Some?
  {
    var acc' := WalkStep(v, i, path, acc);
  }

  /** Whatever walking into an object property records survives the rest of the walk. */
  lemma VisitObject(v: Value, i: nat, path: seq<string>, acc: seq<Prop>, k: string)
    requires i < Count(v) && !ChildAt(v, i).Bool? && TypeOf(ChildAt(v, i)) == "object"
    requires Lookup(Walk(ChildAt(v, i), 0, path + [KeyAt(v, i)], acc), k).Some?
    ensures Lookup(Walk(v, i, path, acc), k).Some?
  {
    var acc' := WalkStep(v, i, path, acc);
  }

  /** Visiting the property a boolean leaf lies under records the leaf. */
  lemma {:induction false} VisitRecordsLeaf(v: Value, path: seq<string>, acc: seq<Prop>, at: seq<nat>)
    requires |at| > 0 && Follow(v, at).Some? && Follow(v, at).value.1.Bool?
    ensures Lookup(Walk(v, at[0], path, acc), Join(path + Follow(v, at).value.0, '.')).Some?
    decreases v, Count(v) - at[0], 0
  {
    FollowStep(v, at);
    var keys := Follow(v, at).value.0;
    var key := KeyAt(v, at[0]);
    var child := ChildAt(v, at[0]);
    var rest := Follow(child, at[1..]).value;
    assert keys == [key] + rest.0;
    if |at| == 1 {
      assert path + keys == path + [key];
      VisitBool(v, at[0], path, acc);
    } else {
      assert path + keys == (path + [key]) + rest.0;
      FollowStep(child, at[1..]);
      CountedIsObject(child);
      WalkRecordsLeaf(child, 0, path + [key], acc, at[1..]);
      VisitObject(v, at[0], path, acc, Join(path + keys, '.'));
    }
  }

  /** `_updateConfigurationContext(config)`: the recorded values, walked from `config`. */
  function ConfigurationValues(config: Value): (r: seq<Prop>)
    ensures UniqueKeys(r)
    ensures forall k :: Lookup(r, k).Some? ==> Lookup(r, k).value.Bool?
  {
    WalkUnique(config, 0, ["config"], []);
    Walk(config, 0, ["config"], [])
  }

  lemma {:induction false} WalkUnique(v: Value, i: nat, path: seq<string>, acc: seq<Prop>)
    requires UniqueKeys(acc)
    ensures UniqueKeys(Walk(v, i, path, acc))
    decreases v, Count(v) - i
  {
    if i < Count(v) {
      var key := KeyAt(v, i);
      var child := ChildAt(v, i);
      if child.Bool? {
        WalkUnique(v, i + 1, path, Put(acc, Join(path + [key], '.'), child));
      } else if TypeOf(child) == "object" {
        WalkUnique(child, 0, path + [key], acc);
        WalkUnique(v, i + 1, path, Walk(child, 0, path + [key], acc));
      } else {
        WalkUnique(v, i + 1, path, acc);
      }
    }
  }

  /**
   * Every boolean setting reached through objects and arrays is found in the
   * configuration context as `config.` followed by its dotted path.
   */
  lemma ConfigurationRecordsEveryBoolean(config: Value, at: seq<nat>)
    requires |at| > 0 && Follow(config, at).Some? && Follow(config, at).value.1.Bool?
    ensures Lookup(ConfigurationValues(config), Join(["config"] + Follow(config, at).value.0, '.')).Some?
  {
    WalkRecordsLeaf(config, 0, ["config"], [], at);
  }

  /** Following `at` from `v` ends at a boolean setting. */
  predicate BoolLeaf(v: Value, at: seq<nat>) {
    |at| > 0 && Follow(v, at).Some? && Follow(v, at).value.1.Bool?
  }

  /** A leaf one property down from `v` is reached through that property. */
  lemma FollowPrepend(v: Value, i: nat, at: seq<nat>)
    requires i < Count(v) && Follow(ChildAt(v, i), at).Some?
    ensures Follow(v, [i] + at).Some?
    ensures Follow(v, [i] + at).value == ([KeyAt(v, i)] + Follow(ChildAt(v, i), at).value.0, Follow(ChildAt(v, i), at).value.1)
  {
    assert ([i] + at)[1..] == at;
  }

  /** Some boolean leaf at or after the `i`th property of `v` has dotted path `k` below `path` and value `b`. */
  ghost predicate LeafUnder(v: Value, i: nat, path: seq<string>, k: string, b: Value) {
    exists at :: BoolLeaf(v, at) && i <= at[0] && k == Join(path + Follow(v, at).value.0, '.') && b == Follow(v, at).value.1
  }

  /** A leaf of the `i`th child is a leaf of `v` at position `i`. */
  lemma LeafUnderChild(v: Value, i: nat, path: seq<string>, k: string, b: Value)
    requires i < Count(v) && LeafUnder(ChildAt(v, i), 0, path + [KeyAt(v, i)], k, b)
    ensures LeafUnder(v, i, path, k, b)
  {
    var child := ChildAt(v, i);
    var at' :| BoolLeaf(child, at') && k == Join(path + [KeyAt(v, i)] + Follow(child, at').value.0, '.')
      && b == Follow(child, at').value.1;
    var below := Follow(child, at').value;
    var at := [i] + at';
    FollowPrepend(v, i, at');
    assert Follow(v, at).value == ([KeyAt(v, i)] + below.0, below.1);
    assert path + ([KeyAt(v, i)] + below.0) == path + [KeyAt(v, i)] + below.0;
    assert BoolLeaf(v, at) && at[0] == i;
    assert k == Join(path + Follow(v, at).value.0, '.') && b == Follow(v, at).value.1;
  }

  /** A boolean `i`th child is a leaf of `v` under the `i`th key. */
  lemma LeafUnderBool(v: Value, i: nat, path: seq<string>)
    requires i < Count(v) && ChildAt(v, i).Bool?
    ensures LeafUnder(v, i, path, Join(path + [KeyAt(v, i)], '.'), ChildAt(v, i))
  {
    FollowPrepend(v, i, []);
    assert [i] + [] == [i];
    assert BoolLeaf(v, [i]) && Follow(v, [i]).value.0 == [KeyAt(v, i)];
  }

  /** A leaf from a later property on is a leaf from this one on. */
  lemma LeafUnderLater(v: Value, i: nat, path: seq<string>, k: string, b: Value)
    requires LeafUnder(v, i + 1, path, k, b)
    ensures LeafUnder(v, i, path, k, b)
  {
    var at :| BoolLeaf(v, at) && i + 1 <= at[0] && k == Join(path + Follow(v, at).value.0, '.') && b == Follow(v, at).value.1;
  }

  /**
   * Whatever the walk holds under a key beyond what `acc` already held there
   * is a boolean leaf from the `i`th property on, recorded under that leaf's
   * dotted path.
   */
  lemma {:induction false} WalkOrigin(v: Value, i: nat, path: seq<string>, acc: seq<Prop>, k: string)
    requires Lookup(Walk(v, i, path, acc), k).Some?
    ensures Lookup(Walk(v, i, path, acc), k) == Lookup(acc, k)
      || LeafUnder(v, i, path, k, Lookup(Walk(v, i, path, acc), k).value)
    decreases v, Count(v) - i
  {
    if i < Count(v) {
      var key := KeyAt(v, i);
      var child := ChildAt(v, i);
      var r := Walk(v, i, path, acc);
      var acc' := WalkStep(v, i, path, acc);
      WalkOrigin(v, i + 1, path, acc', k);
      if LeafUnder(v, i + 1, path, k, Lookup(r, k).value) {
        LeafUnderLater(v, i, path, k, Lookup(r, k).value);
      } else if Lookup(r, k) != Lookup(acc, k) {
        if child.Bool? {
          LeafUnderBool(v, i, path);
        } else if TypeOf(child) == "object" {
          WalkOrigin(child, 0, path + [key], acc, k);
          LeafUnderChild(v, i, path, k, Lookup(r, k).value);
        }
      }
    }
  }

  /**
   * Every key of the configuration context comes from a boolean setting: it
   * is `config.` followed by that setting's dotted path, and holds its value.
   */
  lemma ConfigurationValuesComeFromLeaves(config: Value, k: string)
    requires Lookup(ConfigurationValues(config), k).Some?
    ensures exists at ::
      BoolLeaf(config, at) && k == Join(["config"] + Follow(config, at).value.0, '.')
      && Lookup(ConfigurationValues(config), k) == Some(Follow(config, at).value.1)
  {
    WalkOrigin(config, 0, ["config"], [], k);
    var at :| BoolLeaf(config, at) && 0 <= at[0] && k == Join(["config"] + Follow(config, at).value.0, '.')
      && Lookup(ConfigurationValues(config), k).value == Follow(config, at).value.1;
  }

  /**
   * When no two boolean settings share a dotted path, each one's own value
   * is what the configuration context holds under its path.
   */
  lemma ConfigurationRecordsLeafValue(config: Value, at: seq<nat>)
    requires BoolLeaf(config, at)
    requires forall a, b ::
      (BoolLeaf(config, a) && BoolLeaf(config, b)
       && Join(["config"] + Follow(config, a).value.0, '.') == Join(["config"] + Follow(config, b).value.0, '.'))
      ==> a == b
    ensures Lookup(ConfigurationValues(config), Join(["config"] + Follow(config, at).value.0, '.')) == Some(Follow(config, at).value.1)
  {
    var k := Join(["config"] + Follow(config, at).value.0, '.');
    ConfigurationRecordsEveryBoolean(config, at);
    ConfigurationValuesComeFromLeaves(config, k);
  }

  /** The context a key event is evaluated in: the context's chain, then the configuration values on top. */
  function EventContext(g: Registry, id: nat, config: Value): (r: seq<Prop>)
    requires Valid(g) && id in g.objects
    ensures UniqueKeys(r)
    ensures forall k :: Lookup(ConfigurationValues(config), k).Some? ==> Lookup(r, k) == Lookup(ConfigurationValues(config), k)
    ensures forall k :: Lookup(ConfigurationValues(config), k).None? ==> Lookup(r, k) == Nearest(g, Ancestors(g, id), k)
  {
    CopyInto(ConfigurationValues(config), Fill(g, id, []))
  }
}

=== FILE: keybinding_dispatch.dfy ===
/**
 * The key-down handler `_dispatch` of keybindingServiceImpl.ts: the chord
 * state machine in front of the keybinding resolver. The resolver, the status
 * bar and the command handlers are not part of this model; the resolver is a
 * function parameter, and the status messages, `preventDefault` and the
 * command invocation are reported as effects.
 */
module KeybindingDispatch {
  import opened Wrappers
  import opened Strings
  import opened JsValues
  import KeybindingContext

  datatype KeyCode = Ctrl | Shift | Alt | Meta | OtherKey(code: nat)

  /**
   * A key-down event: its key code, its encoded keybinding, and the
   * `data-keybinding-context` attribute of the nearest element that has one.
   */
  datatype KeyEvent = KeyEvent(keyCode: KeyCode, keybinding: nat, contextAttr: Option<string>)

  /** What the resolver answers; `0` and `""` stand for an absent `enterChord` and `commandId`. */
  datatype ResolveResult = ResolveResult(enterChord: nat, commandId: string)

  /** `_currentChord`, and whether a "waiting for the second key" message is showing. */
  datatype Chord = Chord(current: nat, waitingMessage: bool)

  /** What one key press does besides changing the chord state. */
  datatype Effects = Effects(
    preventDefault: bool,
    invoked: Option<string>,
    waitingShown: Option<nat>,
    notACommand: Option<(nat, nat)>)

  const NoEffects := Effects(false, None, None, None)

  predicate IsModifier(k: KeyCode) {
    k.Ctrl? || k.Shift? || k.Alt? || k.Meta?
  }

  /** `_findContextAttr`: the parsed attribute, or the service's own context; NaN when the attribute does not parse. */
  function FindContextAttr(attr: Option<string>, own: nat): (r: Option<int>)
    ensures attr.None? ==> r == Some(own)
    ensures attr.Some? ==> r == ParseIntString(attr.value)
  {
    match attr
    case None => Some(own)
    case Some(s) => ParseIntString(s)
  }

  /** `commandId.replace(/^\^/, '')`: one leading caret goes. */
  function StripCaret(id: string): (r: string)
    ensures StartsWith(id, "^") ==> id == "^" + r
    ensures !StartsWith(id, "^") ==> r == id
  {
    if StartsWith(id, "^") then id[1..] else id
  }

  /**
   * `_dispatch(e)`. Modifier keys are ignored. Otherwise the context of the
   * event's element is filled (which throws when that context is gone), the
   * resolver is asked with the pending chord, and either a new chord is
   * entered or the pending chord is dropped and the command, if any, runs.
   */
  function Dispatch(
    c: Chord, g: KeybindingContext.Registry, own: nat, config: Value, hasStatus: bool,
    resolve: (seq<Prop>, nat, nat) -> Option<ResolveResult>, e: KeyEvent
  ): (r: Result<(Chord, Effects), KeybindingContext.TypeError>)
    requires KeybindingContext.Valid(g)
    ensures IsModifier(e.keyCode) ==> r == Ok((c, NoEffects))
    ensures r.Err? <==> !IsModifier(e.keyCode) && !ContextFound(g, own, e)
    ensures r.Ok? && !IsModifier(e.keyCode) ==> var (c', fx) := r.value;
      var res := resolve(EventContextOf(g, own, config, e), c.current, e.keybinding);
      if res.Some? && res.value.enterChord != 0 then
        c'.current == res.value.enterChord && fx.preventDefault && fx.invoked.None? && fx.notACommand.None?
        && (hasStatus <==> fx.waitingShown == Some(res.value.enterChord))
      else
        c' == Chord(0, false) && fx.waitingShown.None?
        && (fx.invoked.Some? <==> res.Some? && res.value.commandId != "")
        && (fx.invoked.Some? ==> fx.invoked.value == StripCaret(res.value.commandId))
        && (fx.invoked.Some? ==> (fx.preventDefault <==> !StartsWith(res.value.commandId, "^")))
        && (fx.invoked.None? ==> (fx.preventDefault <==> hasStatus && c.current != 0))
        && (fx.notACommand.Some? <==> fx.invoked.None? && hasStatus && c.current != 0)
        && (fx.notACommand.Some? ==> fx.notACommand.value == (c.current, e.keybinding))
  {
    if IsModifier(e.keyCode) then Ok((c, NoEffects))
    else
      var id := FindContextAttr(e.contextAttr, own);
      if id.None? || KeybindingContext.GetContext(g, id.value).None? then
        Err(KeybindingContext.ContextNotFound(if id.Some? then id.value else -1))
      else
        var bucket := EventContextOf(g, own, config, e);
        var res := resolve(bucket, c.current, e.keybinding);
        if res.Some? && res.value.enterChord != 0 then
          var chord := res.value.enterChord;
          Ok((Chord(chord, hasStatus || c.waitingMessage), Effects(true, None, if hasStatus then Some(chord) else None, None)))
        else
          var hasCommand := res.Some? && res.value.commandId != "";
          var missing := hasStatus && c.current != 0 && !hasCommand;
          var fx := Effects(missing, None, None, if missing then Some((c.current, e.keybinding)) else None);
          if hasCommand then
            var id := res.value.commandId;
            Ok((Chord(0, false), fx.(preventDefault := fx.preventDefault || !StartsWith(id, "^"), invoked := Some(StripCaret(id)))))
          else
            Ok((Chord(0, false), fx))
  }

  /** The element's context id parses and names a context that can still be found. */
  predicate ContextFound(g: KeybindingContext.Registry, own: nat, e: KeyEvent)
    requires KeybindingContext.Valid(g)
  {
    var id := FindContextAttr(e.contextAttr, own);
    id.Some? && KeybindingContext.GetContext(g, id.value).Some?
  }

  /** The bucket the resolver sees: the event's context chain with the configuration values on top. */
  function EventContextOf(g: KeybindingContext.Registry, own: nat, config: Value, e: KeyEvent): (bucket: seq<Prop>)
    requires KeybindingContext.Valid(g)
    ensures var id := FindContextAttr(e.contextAttr, own);
      id.Some? && KeybindingContext.GetContext(g, id.value).Some? ==>
        bucket == KeybindingContext.EventContext(g, id.value as nat, config)
  {
    var id := FindContextAttr(e.contextAttr, own);
    if id.Some? && KeybindingContext.GetContext(g, id.value).Some? then
      KeybindingContext.EventContext(g, id.value as nat, config)
    else []
  }

  /**
   * A two-key chord: when the first key enters a chord and the resolver maps
   * the chord and the second key to a command, the second key runs that
   * command and leaves no chord pending.
   */
  lemma ChordThenCommand(
    g: KeybindingContext.Registry, own: nat, config: Value, hasStatus: bool,
    resolve: (seq<Prop>, nat, nat) -> Option<ResolveResult>, first: KeyEvent, second: KeyEvent, chord: nat, command: string)
    requires KeybindingContext.Valid(g) && own in g.live
    requires first.contextAttr.None? && second.contextAttr.None?
    requires !IsModifier(first.keyCode) && !IsModifier(second.keyCode)
    requires chord != 0 && command != ""
    requires resolve(EventContextOf(g, own, config, first), 0, first.keybinding) == Some(ResolveResult(chord, ""))
    requires resolve(EventContextOf(g, own, config, second), chord, second.keybinding) == Some(ResolveResult(0, command))
    ensures var r1 := Dispatch(Chord(0, false), g, own, config, hasStatus, resolve, first);
      r1.Ok? && r1.value.0.current == chord
      && var r2 := Dispatch(r1.value.0, g, own, config, hasStatus, resolve, second);
      r2.Ok? && r2.value.0 == Chord(0, false) && r2.value.1.invoked == Some(StripCaret(command))
  {
  }

  /** A modifier key leaves a pending chord pending. */
  lemma ModifierKeepsChord(
    c: Chord, g: KeybindingContext.Registry, own: nat, config: Value, hasStatus: bool,
    resolve: (seq<Prop>, nat, nat) -> Option<ResolveResult>, e: KeyEvent)
    requires KeybindingContext.Valid(g) && IsModifier(e.keyCode)
    ensures Dispatch(c, g, own, config, hasStatus, resolve, e) == Ok((c, NoEffects))
  {
  }
}

=== FILE: link_computer.dfy ===
/**
 * Detection of `http://` and `https://` links in the lines of a text model
 * (`LinkComputer` in linkComputer.ts).
 *
 * A line is read once, left to right, by a small state machine: states 1 to 8
 * recognise the scheme letter by letter, state 9 has just read `//`, and
 * state 10 accepts the link body. A character that cannot start or continue
 * a scheme resets the machine just after itself; there is no backtracking.
 * In the body, a closing bracket is part of the link only when the same kind
 * of opening bracket was seen earlier in the body, and a link that is ended
 * by a terminating character loses its trailing `.`, `,` and `;`.
 *
 * Lines are sequences of characters and columns count characters, 1-based as
 * in the editor. The editor counts UTF-16 code units, so on lines with
 * characters beyond U+FFFF the columns here are smaller than the editor's.
 */
module LinkComputer {
  import opened Wrappers

  // ---------------------------------------------------------------------------
  // Character classes

  /** `CharacterClass`; `Ordinary` is the source's `None`. */
  datatype CharClass = Ordinary | ForceTermination | CannotEndIn

  /**
   * The force-termination characters: white space, angle brackets, quotes
   * and CJK / full-width punctuation.
   */
  predicate IsForceTerminationChar(ch: char) {
    ch in {' ', '\t', '<', '>', '\'', '"', '、', '。', '｡', '､', '，', '．', '：', '；', '？', '！',
     '＠', '＃', '＄', '％', '＆', '＊', '‘', '“', '〈', '《', '「', '『', '【', '〔', '（', '［', '｛',
     '｢', '｣', '｝', '］', '）', '〕', '】', '』', '」', '》', '〉', '”', '’', '｀', '～', '…'}
  }

  /** The characters a link cannot end in. */
  predicate IsCannotEndWithChar(ch: char) {
    ch in {'.', ',', ';'}
  }

  /**
   * `classify`: the constructor's table marks the two character lists (the
   * second list written last), every other character is `Ordinary`.
   */
  function Classify(ch: char): (cls: CharClass)
    ensures cls == CannotEndIn <==> IsCannotEndWithChar(ch)
    ensures cls == ForceTermination <==> IsForceTerminationChar(ch)
  {
    if IsCannotEndWithChar(ch) then CannotEndIn
    else if IsForceTerminationChar(ch) then ForceTermination
    else Ordinary
  }

  // ---------------------------------------------------------------------------
  // The scheme recogniser (STATE_MAP)

  const StartState: nat := 1
  const EndState: nat := 9
  const AcceptState: nat := 10

  /** `STATE_MAP[state][ch]` for the states 1 to 8; `None` when there is no entry. */
  function Transition(state: nat, ch: char): Option<nat> {
    if state == 1 then (if ch == 'h' || ch == 'H' then Some(2) else None)
    else if state == 2 then (if ch == 't' || ch == 'T' then Some(3) else None)
    else if state == 3 then (if ch == 't' || ch == 'T' then Some(4) else None)
    else if state == 4 then (if ch == 'p' || ch == 'P' then Some(5) else None)
    else if state == 5 then (if ch == 's' || ch == 'S' then Some(6) else if ch == ':' then Some(7) else None)
    else if state == 6 then (if ch == ':' then Some(7) else None)
    else if state == 7 then (if ch == '/' then Some(8) else None)
    else if state == 8 then (if ch == '/' then Some(9) else None)
    else None
  }

  const Http: string := "http://"
  const Https: string := "https://"

  /** `ch` stands for the pattern character `p`: itself, or its upper case for a letter. */
  predicate CharMatches(ch: char, p: char) {
    ch == p || ('a' <= p <= 'z' && ch as int == p as int - 32)
  }

  /** `s` spells the beginning of `pattern`, letters in either case. */
  predicate PrefixOf(s: string, pattern: string) {
    |s| <= |pattern| && forall i :: 0 <= i < |s| ==> CharMatches(s[i], pattern[i])
  }

  predicate IsSchemePrefix(s: string) {
    PrefixOf(s, Http) || PrefixOf(s, Https)
  }

  /** `s` is a complete `http://` or `https://`, letters in either case. */
  predicate IsScheme(s: string) {
    (|s| == 7 && PrefixOf(s, Http)) || (|s| == 8 && PrefixOf(s, Https))
  }

  /** The state the recogniser should be in after reading the scheme prefix `s`. */
  function StateAfter(s: string): (state: nat)
    requires IsSchemePrefix(s)
    ensures 1 <= state <= 9
    ensures state == 9 <==> IsScheme(s)
  {
    if |s| >= 5 && PrefixOf(s, Http) then
      assert !CharMatches(s[4], Https[4]);
      |s| + 2
    else |s| + 1
  }

  lemma PrefixOfExtend(s: string, ch: char, pattern: string)
    ensures PrefixOf(s + [ch], pattern) <==> PrefixOf(s, pattern) && |s| < |pattern| && CharMatches(ch, pattern[|s|])
  {
    var t := s + [ch];
    if PrefixOf(s, pattern) && |s| < |pattern| && CharMatches(ch, pattern[|s|]) {
      assert forall i :: 0 <= i < |t| ==> CharMatches(t[i], pattern[i]) by {
        forall i | 0 <= i < |t| ensures CharMatches(t[i], pattern[i]) {
          if i < |s| { assert t[i] == s[i]; }
        }
      }
    }
    if PrefixOf(t, pattern) {
      assert forall i :: 0 <= i < |s| ==> CharMatches(s[i], pattern[i]) by {
        forall i | 0 <= i < |s| ensures CharMatches(s[i], pattern[i]) {
          assert t[i] == s[i];
        }
      }
    }
  }

  /**
   * The transition table recognises exactly the case-insensitive prefixes of
   * `http://` and `https://`: a transition exists iff the next character
   * extends the prefix, and then it leads to the state of the longer prefix.
   */
  lemma TransitionFollowsScheme(s: string, ch: char)
    requires IsSchemePrefix(s) && StateAfter(s) <= 8
    ensures Transition(StateAfter(s), ch).Some? <==> IsSchemePrefix(s + [ch])
    ensures Transition(StateAfter(s), ch).Some? ==> Transition(StateAfter(s), ch).value == StateAfter(s + [ch])
  {
    PrefixOfExtend(s, ch, Http);
    PrefixOfExtend(s, ch, Https);
    if |s| >= 5 && PrefixOf(s, Http) {
      assert s[4] == ':';
      assert !PrefixOf(s, Https);
    }
  }

  // ---------------------------------------------------------------------------
  // Links

  datatype Range = Range(startLineNumber: nat, startColumn: nat, endLineNumber: nat, endColumn: nat)

  datatype Link = Link(range: Range, url: string)

  /** `_createLink`: the link covering `line[begin..end]` of line `lineNumber`. */
  function CreateLink(line: string, lineNumber: nat, begin: nat, end: nat): (l: Link)
    requires begin <= end <= |line|
    ensures l.range.endColumn - l.range.startColumn == |l.url|
    ensures l.range.startLineNumber == l.range.endLineNumber
  {
    Link(Range(lineNumber, begin + 1, lineNumber, end + 1), line[begin..end])
  }

  predicate IsClosing(ch: char) {
    ch == ')' || ch == ']' || ch == '}'
  }

  function OpenerOf(ch: char): char
    requires IsClosing(ch)
  {
    if ch == ')' then '(' else if ch == ']' then '[' else '{'
  }

  /** The length of the scheme of a link starting at `begin`: 7 for `http://`, 8 for `https://`. */
  function SchemeLength(line: string, begin: nat): (pl: nat)
    requires begin + 5 <= |line|
    ensures pl == 7 || pl == 8
  {
    if line[begin + 4] == ':' then 7 else 8
  }

  /**
   * Position `q` may belong to the body of a link starting at `begin`: it is
   * no terminating character, and a closing bracket has its opening bracket
   * earlier in the body, not counting the first character after `//`.
   */
  predicate BodyCharOk(line: string, begin: nat, q: nat)
    requires begin + 5 <= |line| && begin + SchemeLength(line, begin) < q < |line|
  {
    Classify(line[q]) != ForceTermination
    && (IsClosing(line[q]) ==> OpenerOf(line[q]) in line[begin + SchemeLength(line, begin) + 1..q])
  }

  /**
   * The machine, reset at `begin`, reads a full scheme, one more character
   * that is not terminating, and an admissible body up to `stop`, where the
   * line ends or a character terminates the link. The link is
   * `line[begin..end]`: up to the end of the line, or up to `stop` minus the
   * `.`, `,` and `;` just before it.
   */
  predicate LinkAt(line: string, begin: nat, end: nat, stop: nat) {
    begin + 5 <= |line|
    && var pl := SchemeLength(line, begin);
    begin + pl < stop <= |line|
    && IsScheme(line[begin..begin + pl])
    && Classify(line[begin + pl]) != ForceTermination
    && (forall q :: begin + pl < q < stop ==> BodyCharOk(line, begin, q))
    && if stop == |line| then end == stop
       else
         !BodyCharOk(line, begin, stop)
         && begin + pl <= end <= stop
         && Classify(line[end - 1]) != CannotEndIn
         && (forall q :: end <= q < stop ==> Classify(line[q]) == CannotEndIn)
  }

  /** What every reported link on line `lineNumber` satisfies. */
  predicate ValidLink(line: string, lineNumber: nat, l: Link) {
    var begin := l.range.startColumn - 1;
    var end := l.range.endColumn - 1;
    l.range.startLineNumber == lineNumber && l.range.endLineNumber == lineNumber
    && 0 <= begin <= end <= |line|
    && l.url == line[begin..end]
    && |l.url| >= 7
    && (IsScheme(l.url[..7]) || (|l.url| >= 8 && IsScheme(l.url[..8])))
    && (forall q :: 0 <= q < |l.url| ==> Classify(l.url[q]) != ForceTermination)
    && exists stop :: end <= stop <= |line| && LinkAt(line, begin, end, stop)
  }

  // ---------------------------------------------------------------------------
  // One line

  datatype Scan = Scan(state: nat, begin: nat, hasOpenParens: bool, hasOpenSquareBracket: bool, hasOpenCurlyBracket: bool)

  /** The machine after a reset caused by the character at `j`. */
  function Reset(j: nat): Scan {
    Scan(StartState, j + 1, false, false, false)
  }

  /** The machine is in the accept state: a scheme, a first character and an admissible body. */
  predicate Accepting(line: string, begin: nat, j: nat) {
    begin + 5 <= |line|
    && var pl := SchemeLength(line, begin);
    begin + pl < j <= |line|
    && IsScheme(line[begin..begin + pl])
    && Classify(line[begin + pl]) != ForceTermination
    && forall q :: begin + pl < q < j ==> BodyCharOk(line, begin, q)
  }

  /** The scan state before reading `line[j]`. */
  predicate ScanInv(line: string, j: nat, sc: Scan) {
    sc.begin <= j <= |line|
    && if sc.state == AcceptState then
         Accepting(line, sc.begin, j)
         && var bodyStart := sc.begin + SchemeLength(line, sc.begin) + 1;
         sc.hasOpenParens == ('(' in line[bodyStart..j])
         && sc.hasOpenSquareBracket == ('[' in line[bodyStart..j])
         && sc.hasOpenCurlyBracket == ('{' in line[bodyStart..j])
       else
         IsSchemePrefix(line[sc.begin..j]) && sc.state == StateAfter(line[sc.begin..j])
         && !sc.hasOpenParens && !sc.hasOpenSquareBracket && !sc.hasOpenCurlyBracket
  }

  /** The class of a character read in the accept state: the bracket switch, else `classify`. */
  function AcceptClass(ch: char, sc: Scan): CharClass {
    if ch == '(' || ch == '[' || ch == '{' then Ordinary
    else if ch == ')' then (if sc.hasOpenParens then Ordinary else ForceTermination)
    else if ch == ']' then (if sc.hasOpenSquareBracket then Ordinary else ForceTermination)
    else if ch == '}' then (if sc.hasOpenCurlyBracket then Ordinary else ForceTermination)
    else Classify(ch)
  }

  /**
   * The backwards trim loop: from `last`, step left over `.`, `,` and `;`,
   * never below `begin`. Returns `lastIncludedCharIndex`.
   */
  function LastIncluded(line: string, begin: nat, last: nat): (r: nat)
    requires begin < last < |line|
    ensures begin <= r <= last
    ensures forall q :: r < q <= last ==> Classify(line[q]) == CannotEndIn
    ensures r == begin || Classify(line[r]) != CannotEndIn
    decreases last
  {
    if Classify(line[last]) != CannotEndIn then last
    else if last - 1 > begin then LastIncluded(line, begin, last - 1)
    else last - 1
  }

  /**
   * One iteration of the scanning loop at index `j`: the next machine state,
   * and the end index of the link it reports, if any.
   */
  function Step(line: string, j: nat, sc: Scan): (Scan, Option<nat>)
    requires ScanInv(line, j, sc) && j < |line|
  {
    var ch := line[j];
    if sc.state == AcceptState then
      if AcceptClass(ch, sc) == ForceTermination then
        SchemeCharsOrdinary(line, sc.begin);
        (Reset(j), Some(LastIncluded(line, sc.begin, j - 1) + 1))
      else
        (sc.(hasOpenParens := sc.hasOpenParens || ch == '(',
             hasOpenSquareBracket := sc.hasOpenSquareBracket || ch == '[',
             hasOpenCurlyBracket := sc.hasOpenCurlyBracket || ch == '{'), None)
    else if sc.state == EndState then
      if Classify(ch) == ForceTermination then (Reset(j), None) else (sc.(state := AcceptState), None)
    else
      match Transition(sc.state, ch)
      case Some(next) => (sc.(state := next), None)
      case None => (Reset(j), None)
  }

  lemma PatternCharOrdinary(ch: char, p: char)
    requires p in Https && CharMatches(ch, p)
    ensures Classify(ch) == Ordinary
  {
    assert ch in {'h', 'H', 't', 'T', 'p', 'P', 's', 'S', ':', '/'};
  }

  /** No character of a scheme is terminating or a trailing-punctuation character. */
  lemma SchemeCharsOrdinary(line: string, begin: nat)
    requires begin + 5 <= |line|
    requires begin + SchemeLength(line, begin) <= |line|
    requires IsScheme(line[begin..begin + SchemeLength(line, begin)])
    ensures forall q :: begin <= q < begin + SchemeLength(line, begin) ==> Classify(line[q]) == Ordinary
  {
    var pl := SchemeLength(line, begin);
    var s := line[begin..begin + pl];
    forall q | begin <= q < begin + pl
      ensures Classify(line[q]) == Ordinary
    {
      assert line[q] == s[q - begin];
      if pl == 7 {
        assert Http[q - begin] in Https;
        PatternCharOrdinary(line[q], Http[q - begin]);
      } else {
        PatternCharOrdinary(line[q], Https[q - begin]);
      }
    }
  }

  /** A full scheme read by the recogniser has the length `SchemeLength` reports. */
  lemma SchemeLengthOfScheme(line: string, begin: nat, j: nat)
    requires begin <= j <= |line| && IsScheme(line[begin..j])
    ensures begin + 5 <= |line| && SchemeLength(line, begin) == j - begin
  {
    var s := line[begin..j];
    assert s[4] == line[begin + 4];
    if |s| == 8 {
      assert CharMatches(s[4], 's');
    }
  }

  lemma ClosingNotTerminating(ch: char)
    ensures IsClosing(ch) || ch == '(' || ch == '[' || ch == '{' ==> Classify(ch) == Ordinary
  {
    if IsClosing(ch) || ch == '(' || ch == '[' || ch == '{' {
      assert ch in {'(', ')', '[', ']', '{', '}'};
    }
  }

  /** The loop body keeps the scan invariant, and what it reports is a valid link ending before the next start. */
  lemma StepPreserves(line: string, j: nat, sc: Scan)
    requires ScanInv(line, j, sc) && j < |line|
    ensures ScanInv(line, j + 1, Step(line, j, sc).0)
    ensures sc.begin <= Step(line, j, sc).0.begin
    ensures Step(line, j, sc).1.Some? ==>
      var end := Step(line, j, sc).1.value;
      sc.begin <= end <= j < Step(line, j, sc).0.begin && LinkAt(line, sc.begin, end, j)
  {
    assert line[j + 1..j + 1] == [];
    if sc.state == AcceptState {
      if AcceptClass(line[j], sc) == ForceTermination {
        StepTerminatesBody(line, j, sc);
      } else {
        StepExtendsBody(line, j, sc);
      }
    } else if sc.state == EndState {
      StepAfterScheme(line, j, sc);
    } else {
      var s := line[sc.begin..j];
      assert line[sc.begin..j + 1] == s + [line[j]];
      TransitionFollowsScheme(s, line[j]);
    }
  }

  /** State 9: a non-terminating character enters the accept state, anything else resets. */
  lemma StepAfterScheme(line: string, j: nat, sc: Scan)
    requires ScanInv(line, j, sc) && j < |line| && sc.state == EndState
    ensures ScanInv(line, j + 1, Step(line, j, sc).0) && Step(line, j, sc).1.None?
  {
    var b := sc.begin;
    var s := line[b..j];
    assert IsScheme(s);
    SchemeLengthOfScheme(line, b, j);
    if Classify(line[j]) != ForceTermination {
      assert line[b..b + SchemeLength(line, b)] == s;
      assert Accepting(line, b, j + 1);
    } else {
      assert line[j + 1..j + 1] == [];
    }
  }

  /** State 10, an admissible character: the body grows and the bracket flags follow it. */
  lemma StepExtendsBody(line: string, j: nat, sc: Scan)
    requires ScanInv(line, j, sc) && j < |line| && sc.state == AcceptState
    requires AcceptClass(line[j], sc) != ForceTermination
    ensures ScanInv(line, j + 1, Step(line, j, sc).0) && Step(line, j, sc).1.None?
    ensures Step(line, j, sc).0.begin == sc.begin
  {
    var b := sc.begin;
    AcceptingExtends(line, j, sc);
    SliceExtend(line, b + SchemeLength(line, b) + 1, j);
  }

  lemma SliceExtend(line: string, from: nat, j: nat)
    requires from <= j < |line|
    ensures forall c :: c in line[from..j + 1] <==> c in line[from..j] || c == line[j]
  {
    assert line[from..j + 1] == line[from..j] + [line[j]];
  }

  /** A body character the bracket switch lets through keeps the machine accepting. */
  lemma AcceptingExtends(line: string, j: nat, sc: Scan)
    requires ScanInv(line, j, sc) && j < |line| && sc.state == AcceptState
    requires AcceptClass(line[j], sc) != ForceTermination
    ensures Accepting(line, sc.begin, j + 1)
  {
    ClosingNotTerminating(line[j]);
    assert BodyCharOk(line, sc.begin, j);
  }

  /** State 10, a terminating character: the trimmed link is reported and the machine resets. */
  lemma StepTerminatesBody(line: string, j: nat, sc: Scan)
    requires ScanInv(line, j, sc) && j < |line| && sc.state == AcceptState
    requires AcceptClass(line[j], sc) == ForceTermination
    ensures ScanInv(line, j + 1, Step(line, j, sc).0)
    ensures Step(line, j, sc).1.Some? && sc.begin <= Step(line, j, sc).1.value <= j
    ensures LinkAt(line, sc.begin, Step(line, j, sc).1.value, j)
  {
    var ch := line[j];
    var b := sc.begin;
    var pl := SchemeLength(line, b);
    var bs := b + pl + 1;
    ClosingNotTerminating(ch);
    assert !BodyCharOk(line, b, j);
    SchemeCharsOrdinary(line, b);
    var r := LastIncluded(line, b, j - 1);
    assert Classify(line[b + pl - 1]) == Ordinary;
    assert r >= b + pl - 1;
    assert Classify(line[r]) != CannotEndIn;
    assert LinkAt(line, b, r + 1, j);
    assert line[j + 1..j + 1] == [];
  }

  /** Scanning `line` from index `j` in state `sc`: the links reported from here on. */
  function ScanFrom(line: string, lineNumber: nat, j: nat, sc: Scan): seq<Link>
    requires ScanInv(line, j, sc)
    decreases |line| - j
  {
    if j == |line| then
      if sc.state == AcceptState then [CreateLink(line, lineNumber, sc.begin, |line|)] else []
    else
      var (next, out) := Step(line, j, sc);
      StepPreserves(line, j, sc);
      var rest := ScanFrom(line, lineNumber, j + 1, next);
      if out.Some? then [CreateLink(line, lineNumber, sc.begin, out.value)] + rest else rest
  }

  /** Well-formed links of the line, all starting after column `after`, in order and without overlap. */
  predicate LinksInOrder(line: string, lineNumber: nat, after: int, links: seq<Link>) {
    (forall k :: 0 <= k < |links| ==> ValidLink(line, lineNumber, links[k]))
    && (forall k :: 0 <= k < |links| ==> after < links[k].range.startColumn)
    && (forall k, k' :: 0 <= k < k' < |links| ==> links[k].range.endColumn < links[k'].range.startColumn)
  }

  /**
   * Every link the scan reports is a well-formed link of the line, found after
   * the scan's start, and the links come in order without overlapping.
   */
  lemma {:induction false} ScanFromValid(line: string, lineNumber: nat, j: nat, sc: Scan)
    requires ScanInv(line, j, sc)
    ensures LinksInOrder(line, lineNumber, sc.begin, ScanFrom(line, lineNumber, j, sc))
    decreases |line| - j
  {
    if j == |line| {
      if sc.state == AcceptState {
        assert LinkAt(line, sc.begin, |line|, |line|);
        LinkAtIsValid(line, lineNumber, sc.begin, |line|, |line|);
      }
    } else {
      var (next, out) := Step(line, j, sc);
      StepPreserves(line, j, sc);
      var rest := ScanFrom(line, lineNumber, j + 1, next);
      ScanFromValid(line, lineNumber, j + 1, next);
      if out.Some? {
        var l := CreateLink(line, lineNumber, sc.begin, out.value);
        LinkAtIsValid(line, lineNumber, sc.begin, out.value, j);
        PrependLink(line, lineNumber, sc.begin, l, rest, next.begin);
        assert ScanFrom(line, lineNumber, j, sc) == [l] + rest;
      } else {
        LinksInOrderEarlier(line, lineNumber, sc.begin, next.begin, rest);
        assert ScanFrom(line, lineNumber, j, sc) == rest;
      }
    }
  }

  /** A valid link ending before the rest starts can go in front of it. */
  lemma PrependLink(line: string, lineNumber: nat, after: int, l: Link, rest: seq<Link>, restBegin: int)
    requires ValidLink(line, lineNumber, l) && after < l.range.startColumn && l.range.endColumn <= restBegin
    requires LinksInOrder(line, lineNumber, restBegin, rest)
    ensures LinksInOrder(line, lineNumber, after, [l] + rest)
  {
    var all := [l] + rest;
    forall k | 0 < k < |all|
      ensures all[k] == rest[k - 1]
    {
    }
  }

  /** Links in order after some column are in order after any earlier column. */
  lemma LinksInOrderEarlier(line: string, lineNumber: nat, after: int, later: int, links: seq<Link>)
    requires after <= later && LinksInOrder(line, lineNumber, later, links)
    ensures LinksInOrder(line, lineNumber, after, links)
  {
  }

  /** A link the machine delimits is a valid link: scheme kept whole, no terminating character. */
  lemma LinkAtIsValid(line: string, lineNumber: nat, begin: nat, end: nat, stop: nat)
    requires LinkAt(line, begin, end, stop)
    ensures ValidLink(line, lineNumber, CreateLink(line, lineNumber, begin, end))
  {
    var pl := SchemeLength(line, begin);
    SchemeCharsOrdinary(line, begin);
    var url := line[begin..end];
    assert url[..pl] == line[begin..begin + pl];
    forall q | 0 <= q < |url|
      ensures Classify(url[q]) != ForceTermination
    {
      assert url[q] == line[begin + q];
      if begin + q > begin + pl {
        assert BodyCharOk(line, begin, begin + q);
      }
    }
  }

  /** The links of one line, numbered `lineNumber`. */
  function LineLinks(line: string, lineNumber: nat): (links: seq<Link>)
    ensures forall k :: 0 <= k < |links| ==> ValidLink(line, lineNumber, links[k])
    ensures forall k, k' :: 0 <= k < k' < |links| ==> links[k].range.endColumn < links[k'].range.startColumn
  {
    var start := Scan(StartState, 0, false, false, false);
    assert line[0..0] == [];
    ScanFromValid(line, lineNumber, 0, start);
    ScanFrom(line, lineNumber, 0, start)
  }

  // ---------------------------------------------------------------------------
  // Which links are found

  /** The accept-state scan of a link starting at `begin`, just before reading `line[j]`. */
  function AcceptScanAt(line: string, begin: nat, j: nat): (sc: Scan)
    requires Accepting(line, begin, j)
    ensures ScanInv(line, j, sc)
  {
    var bodyStart := begin + SchemeLength(line, begin) + 1;
    Scan(AcceptState, begin, '(' in line[bodyStart..j], '[' in line[bodyStart..j], '{' in line[bodyStart..j])
  }

  /** Reading the rest of a scheme at `begin` reports nothing and ends in state 9. */
  lemma {:induction false} ReadScheme(line: string, lineNumber: nat, begin: nat, j: nat, end: nat)
    requires begin <= j <= end <= |line| && IsScheme(line[begin..end])
    ensures IsSchemePrefix(line[begin..j])
    ensures var sc := Scan(StateAfter(line[begin..j]), begin, false, false, false);
      ScanInv(line, j, sc)
      && ScanFrom(line, lineNumber, j, sc) == ScanFrom(line, lineNumber, end, Scan(EndState, begin, false, false, false))
    decreases end - j
  {
    var s := line[begin..end];
    assert line[begin..j] == s[..j - begin];
    SchemeHasPrefixes(s, j - begin);
    PrefixScanInv(line, begin, j);
    if j < end {
      assert line[begin..j + 1] == s[..j + 1 - begin];
      SchemeHasPrefixes(s, j + 1 - begin);
      SchemeStepQuiet(line, lineNumber, begin, j);
      ReadScheme(line, lineNumber, begin, j + 1, end);
    }
  }

  /** Every proper prefix of a scheme is a scheme prefix and not yet a scheme. */
  lemma SchemeHasPrefixes(s: string, n: nat)
    requires IsScheme(s) && n <= |s|
    ensures IsSchemePrefix(s[..n])
    ensures n < |s| ==> !IsScheme(s[..n])
  {
    var p := s[..n];
    if |s| == 8 && n == 7 {
      assert p[4] == s[4];
      assert CharMatches(s[4], Https[4]);
    }
  }

  /** One more character of a scheme prefix that is not yet a scheme moves the machine on and reports nothing. */
  lemma SchemeStepQuiet(line: string, lineNumber: nat, begin: nat, j: nat)
    requires begin <= j < |line|
    requires IsSchemePrefix(line[begin..j]) && !IsScheme(line[begin..j]) && IsSchemePrefix(line[begin..j + 1])
    ensures ScanInv(line, j, Scan(StateAfter(line[begin..j]), begin, false, false, false))
    ensures ScanInv(line, j + 1, Scan(StateAfter(line[begin..j + 1]), begin, false, false, false))
    ensures ScanFrom(line, lineNumber, j, Scan(StateAfter(line[begin..j]), begin, false, false, false))
         == ScanFrom(line, lineNumber, j + 1, Scan(StateAfter(line[begin..j + 1]), begin, false, false, false))
  {
    var p := line[begin..j];
    assert line[begin..j + 1] == p + [line[j]];
    TransitionFollowsScheme(p, line[j]);
    PrefixScanInv(line, begin, j);
    PrefixScanInv(line, begin, j + 1);
  }

  lemma PrefixScanInv(line: string, begin: nat, j: nat)
    requires begin <= j <= |line| && IsSchemePrefix(line[begin..j])
    ensures ScanInv(line, j, Scan(StateAfter(line[begin..j]), begin, false, false, false))
  {
  }

  /** Reading body characters that neither terminate nor close a bracket reports nothing. */
  lemma {:induction false} ReadBody(line: string, lineNumber: nat, begin: nat, j: nat, stop: nat)
    requires Accepting(line, begin, j) && j <= stop <= |line|
    requires forall q :: j <= q < stop ==> Classify(line[q]) != ForceTermination && !IsClosing(line[q])
    ensures Accepting(line, begin, stop)
    ensures ScanFrom(line, lineNumber, j, AcceptScanAt(line, begin, j))
         == ScanFrom(line, lineNumber, stop, AcceptScanAt(line, begin, stop))
    decreases stop - j
  {
    if j < stop {
      BodyStepQuiet(line, lineNumber, begin, j);
      ReadBody(line, lineNumber, begin, j + 1, stop);
    }
  }

  /** One body character that neither terminates nor closes a bracket extends the body and reports nothing. */
  lemma BodyStepQuiet(line: string, lineNumber: nat, begin: nat, j: nat)
    requires Accepting(line, begin, j) && j < |line|
    requires Classify(line[j]) != ForceTermination && !IsClosing(line[j])
    ensures Accepting(line, begin, j + 1)
    ensures ScanFrom(line, lineNumber, j, AcceptScanAt(line, begin, j))
         == ScanFrom(line, lineNumber, j + 1, AcceptScanAt(line, begin, j + 1))
  {
    var sc := AcceptScanAt(line, begin, j);
    ClosingNotTerminating(line[j]);
    assert AcceptClass(line[j], sc) != ForceTermination;
    StepExtendsBody(line, j, sc);
    assert Accepting(line, begin, j + 1);
    assert Step(line, j, sc).0 == AcceptScanAt(line, begin, j + 1);
  }

  /** The scheme followed by the first body character puts the machine in the accept state. */
  lemma EnterBody(line: string, lineNumber: nat, begin: nat, end: nat)
    requires begin < end < |line| && IsScheme(line[begin..end])
    requires Classify(line[end]) != ForceTermination
    ensures Accepting(line, begin, end + 1)
    ensures ScanFrom(line, lineNumber, begin, Scan(StartState, begin, false, false, false))
         == ScanFrom(line, lineNumber, end + 1, AcceptScanAt(line, begin, end + 1))
  {
    assert line[begin..begin] == [];
    ReadScheme(line, lineNumber, begin, begin, end);
    var sc := Scan(EndState, begin, false, false, false);
    SchemeLengthOfScheme(line, begin, end);
    StepAfterScheme(line, end, sc);
    assert line[end + 1..end + 1] == [];
    assert Step(line, end, sc).0 == AcceptScanAt(line, begin, end + 1);
  }

  /**
   * A line made of a scheme and a body without terminating characters or
   * closing brackets is one link, reported untrimmed, even when it ends in
   * `.`, `,` or `;`.
   */
  lemma WholeLineIsLink(scheme: string, body: string, lineNumber: nat)
    requires IsScheme(scheme) && |body| > 0
    requires forall q :: 0 <= q < |body| ==> Classify(body[q]) != ForceTermination && !IsClosing(body[q])
    ensures LineLinks(scheme + body, lineNumber) == [CreateLink(scheme + body, lineNumber, 0, |scheme + body|)]
  {
    var line := scheme + body;
    SchemeThenBody(scheme, body);
    EnterBody(line, lineNumber, 0, |scheme|);
    ReadBody(line, lineNumber, 0, |scheme| + 1, |line|);
    LinkAtEndOfLine(line, lineNumber, 0);
    assert LineLinks(line, lineNumber) == ScanFrom(line, lineNumber, 0, Scan(StartState, 0, false, false, false));
  }

  lemma SchemeThenBody(scheme: string, body: string)
    requires |body| > 0
    requires forall q :: 0 <= q < |body| ==> Classify(body[q]) != ForceTermination && !IsClosing(body[q])
    ensures var line := scheme + body;
      line[0..|scheme|] == scheme && line[|scheme|] == body[0]
      && forall q :: |scheme| + 1 <= q < |line| ==> Classify(line[q]) != ForceTermination && !IsClosing(line[q])
  {
    var line := scheme + body;
    assert line[0..|scheme|] == scheme;
    forall q | |scheme| + 1 <= q < |line|
      ensures Classify(line[q]) != ForceTermination && !IsClosing(line[q])
    {
      assert line[q] == body[q - |scheme|];
    }
  }

  /** A scan still in the accept state at the end of the line reports the link up to the end. */
  lemma LinkAtEndOfLine(line: string, lineNumber: nat, begin: nat)
    requires Accepting(line, begin, |line|)
    ensures ScanFrom(line, lineNumber, |line|, AcceptScanAt(line, begin, |line|)) == [CreateLink(line, lineNumber, begin, |line|)]
  {
  }

  /**
   * A terminating character right after `//` reports nothing: scanning simply
   * restarts after it.
   */
  lemma TerminatorAfterScheme(scheme: string, ch: char, rest: string, lineNumber: nat)
    requires IsScheme(scheme) && Classify(ch) == ForceTermination
    ensures var line := scheme + [ch] + rest;
      ScanInv(line, |scheme| + 1, Reset(|scheme|))
      && LineLinks(line, lineNumber) == ScanFrom(line, lineNumber, |scheme| + 1, Reset(|scheme|))
  {
    var line := scheme + [ch] + rest;
    assert line[0..|scheme|] == scheme;
    assert line[|scheme|] == ch;
    assert line[0..0] == [];
    ReadScheme(line, lineNumber, 0, 0, |scheme|);
    var sc := Scan(EndState, 0, false, false, false);
    StepAfterScheme(line, |scheme|, sc);
  }

  /** Trimming walks back over a run of `.`, `,` and `;` to the character before it. */
  lemma {:induction false} TrimSkipsRun(line: string, begin: nat, keep: nat, last: nat)
    requires begin < keep <= last < |line|
    requires Classify(line[keep]) != CannotEndIn
    requires forall q :: keep < q <= last ==> Classify(line[q]) == CannotEndIn
    ensures LastIncluded(line, begin, last) == keep
    decreases last
  {
    if keep < last {
      TrimSkipsRun(line, begin, keep, last - 1);
    }
  }

  /**
   * A link ended by a terminating character loses exactly its trailing run of
   * `.`, `,` and `;`; scanning restarts after the terminating character.
   */
  lemma TerminatedLinkIsTrimmed(scheme: string, body: string, trail: string, ch: char, rest: string, lineNumber: nat)
    requires IsScheme(scheme) && |body| > 0
    requires forall q :: 0 <= q < |body| ==> Classify(body[q]) != ForceTermination && !IsClosing(body[q])
    requires Classify(body[|body| - 1]) != CannotEndIn
    requires forall q :: 0 <= q < |trail| ==> Classify(trail[q]) == CannotEndIn
    requires Classify(ch) == ForceTermination
    ensures var line := scheme + body + trail + [ch] + rest;
      var stop := |scheme + body + trail|;
      ScanInv(line, stop + 1, Reset(stop))
      && LineLinks(line, lineNumber)
         == [CreateLink(line, lineNumber, 0, |scheme + body|)] + ScanFrom(line, lineNumber, stop + 1, Reset(stop))
  {
    var line := scheme + body + trail + [ch] + rest;
    var stop := |scheme + body + trail|;
    var e := |scheme + body|;
    assert line[0..|scheme|] == scheme;
    forall q | |scheme| <= q < e
      ensures Classify(line[q]) != ForceTermination && !IsClosing(line[q])
    {
      assert line[q] == body[q - |scheme|];
    }
    assert line[e - 1] == body[|body| - 1];
    forall q | e <= q < stop
      ensures Classify(line[q]) == CannotEndIn
    {
      assert line[q] == trail[q - e];
    }
    assert line[stop] == ch;
    TerminatedAt(line, lineNumber, |scheme|, e, stop);
  }

  /** `TerminatedLinkIsTrimmed` stated with positions in the line. */
  lemma TerminatedAt(line: string, lineNumber: nat, s: nat, e: nat, stop: nat)
    requires s < e <= stop < |line| && IsScheme(line[0..s])
    requires forall q :: s <= q < e ==> Classify(line[q]) != ForceTermination && !IsClosing(line[q])
    requires Classify(line[e - 1]) != CannotEndIn
    requires forall q :: e <= q < stop ==> Classify(line[q]) == CannotEndIn
    requires Classify(line[stop]) == ForceTermination
    ensures ScanInv(line, stop + 1, Reset(stop))
    ensures LineLinks(line, lineNumber) == [CreateLink(line, lineNumber, 0, e)] + ScanFrom(line, lineNumber, stop + 1, Reset(stop))
  {
    EnterBody(line, lineNumber, 0, s);
    forall q | s + 1 <= q < stop
      ensures Classify(line[q]) != ForceTermination && !IsClosing(line[q])
    {
      if q >= e {
        assert IsCannotEndWithChar(line[q]);
      }
    }
    ReadBody(line, lineNumber, 0, s + 1, stop);
    var sc := AcceptScanAt(line, 0, stop);
    ClosingNotTerminating(line[stop]);
    assert AcceptClass(line[stop], sc) == ForceTermination;
    TrimSkipsRun(line, 0, e - 1, stop - 1);
    StepPreserves(line, stop, sc);
  }

  // ---------------------------------------------------------------------------
  // The whole model

  /**
   * `computeLinks`: the links of every line, line by line. A model that does
   * not offer the line accessors is represented by `None` and yields no link.
   */
  function ComputeLinks(model: Option<seq<string>>): (links: seq<Link>)
    ensures model.None? ==> links == []
    ensures forall k :: 0 <= k < |links| ==>
      var n := links[k].range.startLineNumber;
      model.Some? && 1 <= n <= |model.value| && ValidLink(model.value[n - 1], n, links[k])
    ensures forall k, k' :: 0 <= k < k' < |links| ==> Before(links[k], links[k'])
  {
    match model
    case None => []
    case Some(lines) => LinksFrom(lines, 1)
  }

  /** `a` is reported before `b`: an earlier line, or further left on the same line without overlap. */
  predicate Before(a: Link, b: Link) {
    a.range.startLineNumber < b.range.startLineNumber
    || (a.range.startLineNumber == b.range.startLineNumber && a.range.endColumn < b.range.startColumn)
  }

  /** The links of lines `lineNumber` to `|lines|`. */
  function LinksFrom(lines: seq<string>, lineNumber: nat): (links: seq<Link>)
    requires 1 <= lineNumber
    ensures forall k :: 0 <= k < |links| ==>
      var n := links[k].range.startLineNumber;
      lineNumber <= n <= |lines| && ValidLink(lines[n - 1], n, links[k])
    ensures forall k, k' :: 0 <= k < k' < |links| ==> Before(links[k], links[k'])
    decreases |lines| - lineNumber
  {
    if lineNumber > |lines| then []
    else LineLinks(lines[lineNumber - 1], lineNumber) + LinksFrom(lines, lineNumber + 1)
  }
}

=== FILE: list_view.dfy ===
/**
 * The bookkeeping of a virtualised list view (listView.ts): the items with
 * their heights, the range map laid over those heights, the rows attached to
 * the items that are currently in the DOM, and the window last rendered.
 *
 * DOM writes are recorded as a log of operations: `Inserted(index, key, top)`
 * when `insertItemInDOM` places an item's row at `top`, and `Removed(index, key)`
 * when `removeItemFromDOM` hands an item's row back to the row cache. An item is
 * known by a number `key`; its string id is the decimal printing of that number.
 * The row of an item lives in `rows`, keyed by the item, so that a row handed
 * out to an item that is later spliced away stays accounted for.
 */
module ListView {
  import opened Wrappers
  import opened RangeMap
  import RowCache
  import Strings

  datatype Item<T> = Item(key: nat, element: T, size: nat, templateId: string)

  /** `id: String(this.itemId++)`. */
  function Id<T(==)>(item: Item<T>): string {
    Strings.NatToString(item.key)
  }

  /** An entry of `getRenderedItemRanges`: the item, its index and the span given to it. */
  datatype ItemRange<T> = ItemRange(item: Item<T>, index: nat, start: int, end: int)

  datatype DomOp = Inserted(index: nat, key: nat, top: nat) | Removed(index: nat, key: nat)

  datatype View<T> = View(
    items: seq<Item<T>>,
    sizes: seq<nat>,
    nextKey: nat,
    rows: map<nat, RowCache.Row>,
    cache: RowCache.Cache,
    lastRenderTop: int,
    lastRenderHeight: int,
    log: seq<DomOp>)

  /** The constructor: no items, nothing rendered. */
  function Empty<T(==)>(): (v: View<T>)
    ensures Valid(v) && |v.items| == 0
  {
    View([], [], 0, map[], RowCache.Empty, 0, 0, [])
  }

  // ---------------------------------------------------------------------------
  // Invariant

  /**
   * The range map holds the item sizes in step with the items, every item has
   * a key handed out earlier, and no key is used twice.
   */
  predicate ItemsOk<T(==)>(items: seq<Item<T>>, sizes: seq<nat>, nextKey: nat) {
    |items| == |sizes|
    && (forall i :: 0 <= i < |items| ==> items[i].size == sizes[i] && items[i].key < nextKey)
    && (forall i, j :: 0 <= i < j < |items| ==> items[i].key != items[j].key)
  }

  /**
   * Every attached row was created by the cache, is not waiting in a pool,
   * and belongs to one item only.
   */
  predicate RowsOk(rows: map<nat, RowCache.Row>, cache: RowCache.Cache, nextKey: nat) {
    RowCache.Valid(cache)
    && (forall k :: k in rows ==> k < nextKey && rows[k].id < cache.nextRowId
                                  && rows[k] !in RowCache.Pool(cache, rows[k].templateId))
    && (forall k1, k2 :: k1 in rows && k2 in rows && k1 != k2 ==> rows[k1] != rows[k2])
  }

  predicate Valid<T(==)>(v: View<T>) {
    ItemsOk(v.items, v.sizes, v.nextKey) && RowsOk(v.rows, v.cache, v.nextKey)
  }

  /** The layout is untouched: same items, same sizes, same key counter, same window. */
  predicate SameLayout<T(==)>(v: View<T>, r: View<T>) {
    r.items == v.items && r.sizes == v.sizes && r.nextKey == v.nextKey
    && r.lastRenderTop == v.lastRenderTop && r.lastRenderHeight == v.lastRenderHeight
  }

  /** Distinct keys print as distinct ids. */
  lemma IdsDistinct<T>(v: View<T>, i: nat, j: nat)
    requires Valid(v) && i < j < |v.items|
    ensures Id(v.items[i]) != Id(v.items[j])
  {
    Strings.NatToStringInjective(v.items[i].key, v.items[j].key);
  }

  // ---------------------------------------------------------------------------
  // Sizes and positions

  /** `getContentHeight()`: the size of the range map. */
  function ContentHeight<T(==)>(v: View<T>): (h: nat)
    requires Valid(v)
    ensures h == SumOfSizes(v.items)
  {
    ContentHeightIsSum(v.items, v.sizes);
    Total(v.sizes)
  }

  /** The heights of the items, added up one by one. */
  function SumOfSizes<T(==)>(items: seq<Item<T>>): nat {
    if |items| == 0 then 0 else items[0].size + SumOfSizes(items[1..])
  }

  lemma {:induction false} ContentHeightIsSum<T>(items: seq<Item<T>>, sizes: seq<nat>)
    requires |items| == |sizes|
    requires forall i :: 0 <= i < |items| ==> items[i].size == sizes[i]
    ensures Total(sizes) == SumOfSizes(items)
  {
    if |items| > 0 {
      ContentHeightIsSum(items[1..], sizes[1..]);
    }
  }

  /** `elementTop(index)`: where the item's row is placed. */
  function ElementTop<T(==)>(v: View<T>, index: nat): (top: nat)
    requires Valid(v) && index <= |v.items|
    ensures top <= ContentHeight(v)
    ensures index < |v.items| ==> top + v.items[index].size <= ContentHeight(v)
  {
    TopWithinContent(v.sizes, index);
    PositionAt(v.sizes, index)
  }

  lemma TopWithinContent(sizes: seq<nat>, index: nat)
    requires index <= |sizes|
    ensures index < |sizes| ==> PositionAt(sizes, index) + sizes[index] <= Total(sizes)
  {
    if index < |sizes| {
      PositionStep(sizes, index);
      assert PositionAt(sizes, index + 1) <= Total(sizes);
    }
  }

  /** Each item starts where the one before it ends. */
  lemma ElementTopStep<T>(v: View<T>, index: nat)
    requires Valid(v) && index < |v.items|
    ensures ElementTop(v, index + 1) == ElementTop(v, index) + v.items[index].size
  {
    PositionStep(v.sizes, index);
  }

  // ---------------------------------------------------------------------------
  // DOM operations

  /** A new log entry for an inserted item names the item at that index and its top. */
  predicate InsertedOk<T(==)>(items: seq<Item<T>>, sizes: seq<nat>, op: DomOp) {
    op.Inserted? ==>
      op.index < |items| && |items| == |sizes| && items[op.index].key == op.key
      && op.top == PositionAt(sizes, op.index)
  }

  /**
   * `insertItemInDOM(item, index)`: a row is taken from the cache only when
   * the item has none; the row is placed at the item's top.
   */
  function InsertItem<T(==)>(v: View<T>, item: Item<T>, index: nat): (r: View<T>)
    requires Valid(v) && index <= |v.items| && item.key < v.nextKey
    ensures Valid(r) && SameLayout(v, r)
    ensures r.log == v.log + [Inserted(index, item.key, PositionAt(v.sizes, index))]
    ensures item.key in r.rows
    ensures item.key in v.rows ==> r.rows == v.rows && r.cache == v.cache
    ensures item.key !in v.rows ==> r.rows[item.key].templateId == item.templateId
    ensures forall k :: k != item.key ==> (k in r.rows <==> k in v.rows)
    ensures forall k :: k in v.rows ==> r.rows[k] == v.rows[k]
  {
    var op := Inserted(index, item.key, PositionAt(v.sizes, index));
    if item.key in v.rows then
      v.(log := v.log + [op])
    else
      var (row, c) := RowCache.Alloc(v.cache, item.templateId);
      AttachKeepsRowsOk(v.rows, v.cache, v.nextKey, item.key, item.templateId);
      v.(rows := v.rows[item.key := row], cache := c, log := v.log + [op])
  }

  /** A row taken from the cache for an item without one keeps the rows accounted for. */
  lemma AttachKeepsRowsOk(rows: map<nat, RowCache.Row>, cache: RowCache.Cache, nextKey: nat, key: nat, templateId: string)
    requires RowsOk(rows, cache, nextKey) && key < nextKey && key !in rows
    ensures var (row, c) := RowCache.Alloc(cache, templateId);
      RowsOk(rows[key := row], c, nextKey)
  {
    var (row, c) := RowCache.Alloc(cache, templateId);
    forall k | k in rows
      ensures rows[k] != row
    {
      if |RowCache.Pool(cache, templateId)| > 0 {
        assert row in RowCache.Pool(cache, row.templateId);
      } else {
        assert row.id == cache.nextRowId;
      }
    }
  }

  /** `removeItemFromDOM(item)`: the item's row, if any, goes back to the cache. */
  function RemoveItem<T(==)>(v: View<T>, key: nat, index: nat): (r: View<T>)
    requires Valid(v)
    ensures Valid(r) && SameLayout(v, r)
    ensures r.log == v.log + [Removed(index, key)]
    ensures key !in r.rows
    ensures forall k :: k != key ==> (k in r.rows <==> k in v.rows)
    ensures forall k :: k in r.rows ==> r.rows[k] == v.rows[k]
    ensures key in v.rows ==>
      RowCache.Pool(r.cache, v.rows[key].templateId) == RowCache.Pool(v.cache, v.rows[key].templateId) + [v.rows[key]]
    ensures key !in v.rows ==> r.cache == v.cache
  {
    var row := if key in v.rows then Some(v.rows[key]) else None;
    v.(rows := v.rows - {key}, cache := RowCache.Release(v.cache, row), log := v.log + [Removed(index, key)])
  }

  // ---------------------------------------------------------------------------
  // The rendered ranges

  /**
   * The walk of `getRenderedItemRanges` from item `index`, whose span starts at
   * `start`, for as long as there is an item and its start is not below `bottom`.
   */
  function Walk<T(==)>(items: seq<Item<T>>, index: nat, start: int, bottom: int): (r: seq<ItemRange<T>>)
    ensures forall k :: 0 <= k < |r| ==>
      r[k].index == index + k && r[k].index < |items| && r[k].item == items[r[k].index]
      && r[k].end == r[k].start + r[k].item.size && r[k].start <= bottom
    ensures forall k :: 0 < k < |r| ==> r[k].start == r[k - 1].end
    ensures |r| > 0 ==> r[0].start == start
    ensures index + |r| < |items| ==> NextStart(r, start) > bottom
    decreases |items| - index
  {
    if index < |items| && start <= bottom then
      var size := items[index].size;
      [ItemRange(items[index], index, start, start + size)] + Walk(items, index + 1, start + size, bottom)
    else []
  }

  /** Where the walk would continue: the end of the last range, or `start` when there is none. */
  function NextStart<T(==)>(r: seq<ItemRange<T>>, start: int): int {
    if |r| == 0 then start else r[|r| - 1].end
  }

  /** `getRenderedItemRanges()`: the walk from `indexAt(lastRenderTop)` over the last window. */
  function RenderedRanges<T(==)>(v: View<T>): (r: seq<ItemRange<T>>)
    requires Valid(v)
    ensures |r| > 0 ==> r[0].index == IndexAt(v.sizes, v.lastRenderTop)
    ensures forall k :: 0 <= k < |r| ==> r[k].index == r[0].index + k
    ensures RangesOf(v.items, r)
  {
    Walk(v.items, IndexAt(v.sizes, v.lastRenderTop), v.lastRenderTop, v.lastRenderTop + v.lastRenderHeight)
  }

  /** Ranges that name, at consecutive indices, the items found at those indices. */
  predicate RangesOf<T(==)>(items: seq<Item<T>>, r: seq<ItemRange<T>>) {
    forall k :: 0 <= k < |r| ==> r[k].index == r[0].index + k && r[k].index < |items| && r[k].item == items[r[k].index]
  }

  /**
   * The spans are the items' true positions whenever the walk starts at the
   * top of an item; otherwise they are all shifted by the same amount.
   */
  lemma {:induction false} WalkAtPositions<T>(items: seq<Item<T>>, sizes: seq<nat>, index: nat, start: int, bottom: int, k: nat)
    requires |items| == |sizes| && forall i :: 0 <= i < |items| ==> items[i].size == sizes[i]
    requires k < |Walk(items, index, start, bottom)|
    ensures Walk(items, index, start, bottom)[k].start
      == start + PositionAt(sizes, index + k) - PositionAt(sizes, index)
    decreases k
  {
    if k > 0 {
      var r := Walk(items, index, start, bottom);
      WalkAtPositions(items, sizes, index, start, bottom, k - 1);
      assert r[k].start == r[k - 1].start + sizes[index + k - 1];
      PositionStep(sizes, index + k - 1);
    }
  }


  /** The hash `id:start:end` under which the diff compares two rendered ranges. */
  function ElementHash<T(==)>(r: ItemRange<T>): string {
    Id(r.item) + ":" + Strings.IntToString(r.start) + ":" + Strings.IntToString(r.end)
  }

  /** Two ranges hash alike exactly when they have the same id and the same span. */
  lemma ElementHashInjective<T>(a: ItemRange<T>, b: ItemRange<T>)
    ensures ElementHash(a) == ElementHash(b) <==> a.item.key == b.item.key && a.start == b.start && a.end == b.end
  {
    if ElementHash(a) == ElementHash(b) {
      SplitHash(a);
      SplitHash(b);
      Strings.NatToStringInjective(a.item.key, b.item.key);
      Strings.IntToStringInjective(a.start, b.start);
      Strings.IntToStringInjective(a.end, b.end);
    }
  }

  lemma SplitHash<T>(r: ItemRange<T>)
    ensures Strings.Split(ElementHash(r), ':') == [Id(r.item), Strings.IntToString(r.start), Strings.IntToString(r.end)]
  {
    var a, b, c := Id(r.item), Strings.IntToString(r.start), Strings.IntToString(r.end);
    NoColon(a);
    IntNoColon(r.start);
    IntNoColon(r.end);
    var parts := [a, b, c];
    assert Strings.Join(parts[2..], ':') == c;
    assert Strings.Join(parts[1..], ':') == b + [':'] + c;
    assert ElementHash(r) == Strings.Join(parts, ':');
    Strings.JoinSplit(parts, ':');
  }

  lemma NoColon(s: string)
    requires Strings.AllDigits(s)
    ensures ':' !in s
  {
  }

  lemma IntNoColon(i: int)
    ensures ':' !in Strings.IntToString(i)
  {
    if i < 0 {
      NoColon(Strings.NatToString(-i));
    } else {
      NoColon(Strings.NatToString(i));
    }
  }

  // ---------------------------------------------------------------------------
  // splice

  /** One entry of the edit script the LCS diff computes between two range lists. */
  datatype Diff = Diff(originalStart: nat, originalLength: nat, modifiedStart: nat, modifiedLength: nat)

  /** Every entry of the script stays within the two range lists. */
  predicate DiffsFit(diffs: seq<Diff>, before: nat, after: nat) {
    forall i :: 0 <= i < |diffs| ==>
      diffs[i].originalStart + diffs[i].originalLength <= before
      && diffs[i].modifiedStart + diffs[i].modifiedLength <= after
  }

  /** `Array.prototype.splice` start: negative counts from the end; clamped to the array. */
  function SpliceStart(len: nat, start: int): (s: nat)
    ensures s <= len
    ensures 0 <= start <= len ==> s == start
  {
    if start < 0 then (if len + start < 0 then 0 else len + start)
    else if start > len then len
    else start
  }

  /** `Array.prototype.splice` delete count: clamped to what follows the start. */
  function SpliceCount(len: nat, s: nat, deleteCount: int): (d: nat)
    requires s <= len
    ensures s + d <= len
    ensures 0 <= deleteCount && s + deleteCount <= len ==> d == deleteCount
  {
    if deleteCount < 0 then 0
    else if s + deleteCount > len then len - s
    else deleteCount
  }

  /** The new items: fresh keys from the counter, size and template from the delegate. */
  function NewItems<T(==)>(nextKey: nat, elements: seq<T>, height: T -> nat, templateOf: T -> string): (r: seq<Item<T>>)
    ensures |r| == |elements|
    ensures forall k :: 0 <= k < |r| ==>
      r[k] == Item(nextKey + k, elements[k], height(elements[k]), templateOf(elements[k]))
  {
    seq(|elements|, k requires 0 <= k < |elements| => Item(nextKey + k, elements[k], height(elements[k]), templateOf(elements[k])))
  }

  function SizesOf<T(==)>(items: seq<Item<T>>): (r: seq<nat>)
    ensures |r| == |items| && forall k :: 0 <= k < |r| ==> r[k] == items[k].size
  {
    seq(|items|, k requires 0 <= k < |items| => items[k].size)
  }

  function ElementsOf<T(==)>(items: seq<Item<T>>): (r: seq<T>)
    ensures |r| == |items| && forall k :: 0 <= k < |r| ==> r[k] == items[k].element
  {
    seq(|items|, k requires 0 <= k < |items| => items[k].element)
  }

  /** The items and the range map after the splice, before any DOM work. */
  function Spliced<T(==)>(v: View<T>, start: int, deleteCount: int, elements: seq<T>,
                         height: T -> nat, templateOf: T -> string): (r: View<T>)
    requires Valid(v)
    ensures Valid(r)
    ensures var s := SpliceStart(|v.items|, start);
      var d := SpliceCount(|v.items|, s, deleteCount);
      r.items == v.items[..s] + NewItems(v.nextKey, elements, height, templateOf) + v.items[s + d..]
      && r.sizes == Splice(v.sizes, s, d, SizesOf(NewItems(v.nextKey, elements, height, templateOf)))
      && r.nextKey == v.nextKey + |elements|
    ensures r.rows == v.rows && r.cache == v.cache && r.log == v.log
    ensures r.lastRenderTop == v.lastRenderTop && r.lastRenderHeight == v.lastRenderHeight
  {
    var s := SpliceStart(|v.items|, start);
    var d := SpliceCount(|v.items|, s, deleteCount);
    var inserted := NewItems(v.nextKey, elements, height, templateOf);
    var items := v.items[..s] + inserted + v.items[s + d..];
    var sizes := Splice(v.sizes, s, d, SizesOf(inserted));
    SpliceKeepsItemsOk(v.items, v.sizes, v.nextKey, s, d, inserted);
    v.(items := items, sizes := sizes, nextKey := v.nextKey + |elements|)
  }

  /** Splicing fresh items into items and sizes alike keeps them in step and keeps keys unique. */
  lemma SpliceKeepsItemsOk<T>(items: seq<Item<T>>, sizes: seq<nat>, nextKey: nat, s: nat, d: nat, inserted: seq<Item<T>>)
    requires ItemsOk(items, sizes, nextKey) && s + d <= |items|
    requires forall k :: 0 <= k < |inserted| ==> inserted[k].key == nextKey + k
    ensures ItemsOk(items[..s] + inserted + items[s + d..], Splice(sizes, s, d, SizesOf(inserted)), nextKey + |inserted|)
  {
    var r := items[..s] + inserted + items[s + d..];
    var rs := Splice(sizes, s, d, SizesOf(inserted));
    var n := |inserted|;
    assert |r| == |rs|;
    forall i | 0 <= i < |r|
      ensures r[i].size == rs[i] && r[i].key < nextKey + n
      ensures s <= i < s + n ==> r[i].key == nextKey + (i - s)
      ensures !(s <= i < s + n) ==> r[i].key < nextKey
      ensures i < s ==> r[i] == items[i]
      ensures s + n <= i ==> r[i] == items[i - n + d]
    {
      if i < s {
        assert r[i] == items[i] && rs[i] == sizes[i];
      } else if i < s + n {
        assert r[i] == inserted[i - s] && rs[i] == SizesOf(inserted)[i - s];
      } else {
        assert r[i] == items[i - n + d] && rs[i] == sizes[i - n + d];
      }
    }
    forall i, j | 0 <= i < j < |r|
      ensures r[i].key != r[j].key
    {
      if s + n <= i {
        assert i - n + d < j - n + d;
      }
    }
  }

  /**
   * `splice(start, deleteCount, ...elements)`: the items and the range map are
   * spliced alike, the rendered ranges before and after are compared by the
   * given edit script, the rows of ranges that left are released and the ranges
   * that arrived are inserted, and the deleted elements are returned in order.
   */
  function SpliceItems<T(==)>(v: View<T>, start: int, deleteCount: int, elements: seq<T>,
                             height: T -> nat, templateOf: T -> string, diffs: seq<Diff>): (r: (View<T>, seq<T>))
    requires Valid(v)
    requires DiffsFit(diffs, |RenderedRanges(v)|, |RenderedRanges(Spliced(v, start, deleteCount, elements, height, templateOf))|)
    ensures Valid(r.0)
    ensures var s := SpliceStart(|v.items|, start);
      var d := SpliceCount(|v.items|, s, deleteCount);
      r.0.items == v.items[..s] + NewItems(v.nextKey, elements, height, templateOf) + v.items[s + d..]
    ensures var s := SpliceStart(|v.items|, start);
      var d := SpliceCount(|v.items|, s, deleteCount);
      r.0.sizes == Splice(v.sizes, s, d, SizesOf(NewItems(v.nextKey, elements, height, templateOf)))
    ensures r.0.nextKey == v.nextKey + |elements|
    ensures var s := SpliceStart(|v.items|, start);
      var d := SpliceCount(|v.items|, s, deleteCount);
      r.1 == ElementsOf(v.items[s..s + d])
    ensures r.0.lastRenderTop == v.lastRenderTop && r.0.lastRenderHeight == v.lastRenderHeight
    ensures |r.0.log| >= |v.log| && r.0.log[..|v.log|] == v.log
    ensures AllInsertedOk(r.0.items, r.0.sizes, r.0.log[|v.log|..])
  {
    var s := SpliceStart(|v.items|, start);
    var d := SpliceCount(|v.items|, s, deleteCount);
    var before := RenderedRanges(v);
    var v1 := Spliced(v, start, deleteCount, elements, height, templateOf);
    var after := RenderedRanges(v1);
    var deleted := ElementsOf(v.items[s..s + d]);
    (ApplyDiffs(v1, before, after, diffs), deleted)
  }

  /** The loop over the script: each entry removes its old ranges, then inserts its new ones. */
  function ApplyDiffs<T(==)>(v: View<T>, before: seq<ItemRange<T>>, after: seq<ItemRange<T>>, diffs: seq<Diff>): (r: View<T>)
    requires Valid(v)
    requires RangesOf(v.items, after)
    requires DiffsFit(diffs, |before|, |after|)
    ensures Valid(r) && SameLayout(v, r)
    ensures |r.log| >= |v.log| && r.log[..|v.log|] == v.log
    ensures AllInsertedOk(r.items, r.sizes, r.log[|v.log|..])
    decreases |diffs|
  {
    if |diffs| == 0 then
      assert v.log[|v.log|..] == [];
      v
    else
      var v1 := ApplyDiff(v, before, after, diffs[0]);
      var r := ApplyDiffs(v1, before, after, diffs[1..]);
      Chain(v.items, v.sizes, v.log, v1.log, r.log);
      r
  }

  /** One entry of the script. */
  function ApplyDiff<T(==)>(v: View<T>, before: seq<ItemRange<T>>, after: seq<ItemRange<T>>, d: Diff): (r: View<T>)
    requires Valid(v)
    requires RangesOf(v.items, after)
    requires d.originalStart + d.originalLength <= |before| && d.modifiedStart + d.modifiedLength <= |after|
    ensures Valid(r) && SameLayout(v, r)
    ensures |r.log| >= |v.log| && r.log[..|v.log|] == v.log
    ensures AllInsertedOk(r.items, r.sizes, r.log[|v.log|..])
  {
    var v1 := RemoveEach(v, before, d.originalStart, d.originalStart + d.originalLength);
    var r := InsertEach(v1, after, d.modifiedStart, d.modifiedStart + d.modifiedLength);
    RemovalsAreNotInsertions(v.items, v.sizes, RemovedOps(before, d.originalStart, d.originalStart + d.originalLength));
    assert v1.log[|v.log|..] == RemovedOps(before, d.originalStart, d.originalStart + d.originalLength);
    Chain(v.items, v.sizes, v.log, v1.log, r.log);
    r
  }

  lemma RemovalsAreNotInsertions<T>(items: seq<Item<T>>, sizes: seq<nat>, ops: seq<DomOp>)
    requires forall j :: 0 <= j < |ops| ==> ops[j].Removed?
    ensures AllInsertedOk(items, sizes, ops)
  {
  }

  /** Every operation among `ops` that is an insertion names the item at its index. */
  predicate AllInsertedOk<T(==)>(items: seq<Item<T>>, sizes: seq<nat>, ops: seq<DomOp>) {
    forall j :: 0 <= j < |ops| ==> InsertedOk(items, sizes, ops[j])
  }

  /** Two log extensions that each add only well-placed insertions make one such extension. */
  lemma Chain<T>(items: seq<Item<T>>, sizes: seq<nat>, a: seq<DomOp>, b: seq<DomOp>, c: seq<DomOp>)
    requires |a| <= |b| && b[..|a|] == a && AllInsertedOk(items, sizes, b[|a|..])
    requires |b| <= |c| && c[..|b|] == b && AllInsertedOk(items, sizes, c[|b|..])
    ensures |a| <= |c| && c[..|a|] == a && AllInsertedOk(items, sizes, c[|a|..])
  {
    assert c[|a|..] == b[|a|..] + c[|b|..];
  }

  /** `removeItemFromDOM(before[i].item)` for `i` in `[lo, hi)`. */
  function RemoveEach<T(==)>(v: View<T>, before: seq<ItemRange<T>>, lo: nat, hi: nat): (r: View<T>)
    requires Valid(v) && hi <= |before|
    ensures Valid(r) && SameLayout(v, r)
    ensures r.log == v.log + RemovedOps(before, lo, hi)
    decreases hi - lo
  {
    if lo >= hi then v
    else
      var v1 := RemoveItem(v, before[lo].item.key, before[lo].index);
      RemoveEach(v1, before, lo + 1, hi)
  }

  function RemovedOps<T(==)>(before: seq<ItemRange<T>>, lo: nat, hi: nat): (ops: seq<DomOp>)
    requires hi <= |before|
    ensures |ops| == (if lo < hi then hi - lo else 0)
    ensures forall j :: 0 <= j < |ops| ==> ops[j] == Removed(before[lo + j].index, before[lo + j].item.key)
    decreases hi - lo
  {
    if lo >= hi then [] else [Removed(before[lo].index, before[lo].item.key)] + RemovedOps(before, lo + 1, hi)
  }

  /** `insertItemInDOM(after[i].item, after[0].index + i)` for `i` in `[lo, hi)`. */
  function InsertEach<T(==)>(v: View<T>, after: seq<ItemRange<T>>, lo: nat, hi: nat): (r: View<T>)
    requires Valid(v) && hi <= |after| && RangesOf(v.items, after)
    ensures Valid(r) && SameLayout(v, r)
    ensures |r.log| >= |v.log| && r.log[..|v.log|] == v.log
    ensures AllInsertedOk(v.items, v.sizes, r.log[|v.log|..])
    decreases hi - lo
  {
    if lo >= hi then
      assert v.log[|v.log|..] == [];
      v
    else
      // the index given is `after[0].index + lo`, which is where `after[lo]` sits
      var index := after[0].index + lo;
      assert index == after[lo].index;
      var v1 := InsertItem(v, after[lo].item, index);
      var r := InsertEach(v1, after, lo + 1, hi);
      InsertedStep(v.items, v.sizes, v.log, v1.log, r.log);
      r
  }

  lemma InsertedStep<T>(items: seq<Item<T>>, sizes: seq<nat>, a: seq<DomOp>, b: seq<DomOp>, c: seq<DomOp>)
    requires |b| == |a| + 1 && b[..|a|] == a && InsertedOk(items, sizes, b[|a|])
    requires |b| <= |c| && c[..|b|] == b && AllInsertedOk(items, sizes, c[|b|..])
    ensures |a| <= |c| && c[..|a|] == a && AllInsertedOk(items, sizes, c[|a|..])
  {
    assert c[|a|..] == [b[|a|]] + c[|b|..];
  }

  // ---------------------------------------------------------------------------
  // render

  /** `insertItemInDOM(items[i], i)` for `i` from `hi - 1` down to `lo`. */
  function InsertDown<T(==)>(v: View<T>, lo: nat, hi: nat): (r: View<T>)
    requires Valid(v) && hi <= |v.items|
    ensures Valid(r) && SameLayout(v, r)
    ensures r.log == v.log + InsertOps(v.items, v.sizes, lo, hi)
    ensures forall i :: 0 <= i < |v.items| ==> (v.items[i].key in r.rows <==> v.items[i].key in v.rows || lo <= i < hi)
    ensures forall k :: k in v.rows ==> k in r.rows && r.rows[k] == v.rows[k]
    decreases hi
  {
    if hi <= lo then
      assert v.log + InsertOps(v.items, v.sizes, lo, hi) == v.log;
      v
    else
      var v1 := InsertItem(v, v.items[hi - 1], hi - 1);
      var r := InsertDown(v1, lo, hi - 1);
      forall i | 0 <= i < |v.items|
        ensures v.items[i].key in v1.rows <==> v.items[i].key in v.rows || i == hi - 1
      {
        if i < hi - 1 {
          assert v.items[i].key != v.items[hi - 1].key;
        } else if i > hi - 1 {
          assert v.items[hi - 1].key != v.items[i].key;
        }
      }
      var op := Inserted(hi - 1, v.items[hi - 1].key, PositionAt(v.sizes, hi - 1));
      var rest := InsertOps(v.items, v.sizes, lo, hi - 1);
      assert v1.items == v.items && v1.sizes == v.sizes;
      assert r.log == v1.log + rest;
      assert v1.log == v.log + [op];
      assert InsertOps(v.items, v.sizes, lo, hi) == [op] + rest;
      AppendAssoc(v.log, [op], rest);
      r
  }

  lemma AppendAssoc(a: seq<DomOp>, b: seq<DomOp>, c: seq<DomOp>)
    ensures (a + b) + c == a + (b + c)
  {
  }

  lemma AppendAssoc4(a: seq<DomOp>, b: seq<DomOp>, c: seq<DomOp>, d: seq<DomOp>, e: seq<DomOp>)
    ensures (((a + b) + c) + d) + e == a + (((b + c) + d) + e)
  {
  }

  /** The log of an insertion sweep. */
  function InsertOps<T(==)>(items: seq<Item<T>>, sizes: seq<nat>, lo: nat, hi: nat): (ops: seq<DomOp>)
    requires hi <= |items| == |sizes|
    ensures |ops| == (if lo < hi then hi - lo else 0)
    decreases hi
  {
    if hi <= lo then [] else [Inserted(hi - 1, items[hi - 1].key, PositionAt(sizes, hi - 1))] + InsertOps(items, sizes, lo, hi - 1)
  }

  /** An insertion sweep places only items of its range, each at its own index and top. */
  lemma {:induction false} InsertOpsInRange<T>(items: seq<Item<T>>, sizes: seq<nat>, lo: nat, hi: nat)
    requires hi <= |items| == |sizes|
    ensures forall op :: op in InsertOps(items, sizes, lo, hi) ==>
      op.Inserted? && lo <= op.index < hi && InsertedOk(items, sizes, op)
    decreases hi
  {
    if lo < hi {
      InsertOpsInRange(items, sizes, lo, hi - 1);
    }
  }

  /** `removeItemFromDOM(items[i])` for `i` from `lo` up to `hi - 1`. */
  function RemoveUp<T(==)>(v: View<T>, lo: nat, hi: nat): (r: View<T>)
    requires Valid(v) && hi <= |v.items|
    ensures Valid(r) && SameLayout(v, r)
    ensures r.log == v.log + RemoveOps(v.items, lo, hi)
    ensures forall i :: 0 <= i < |v.items| ==> (v.items[i].key in r.rows <==> v.items[i].key in v.rows && !(lo <= i < hi))
    ensures forall k :: k in r.rows ==> k in v.rows && r.rows[k] == v.rows[k]
    decreases hi - lo
  {
    if hi <= lo then
      assert v.log + RemoveOps(v.items, lo, hi) == v.log;
      v
    else
      var v1 := RemoveItem(v, v.items[lo].key, lo);
      RemoveUp(v1, lo + 1, hi)
  }

  /** The log of a removal sweep. */
  function RemoveOps<T(==)>(items: seq<Item<T>>, lo: nat, hi: nat): (ops: seq<DomOp>)
    requires hi <= |items|
    ensures |ops| == (if lo < hi then hi - lo else 0)
    decreases hi - lo
  {
    if hi <= lo then [] else [Removed(lo, items[lo].key)] + RemoveOps(items, lo + 1, hi)
  }

  /** A removal sweep releases only items of its range, each named by its index. */
  lemma {:induction false} RemoveOpsInRange<T>(items: seq<Item<T>>, lo: nat, hi: nat)
    requires hi <= |items|
    ensures forall op :: op in RemoveOps(items, lo, hi) ==> op.Removed? && lo <= op.index < hi && op.key == items[op.index].key
    decreases hi - lo
  {
    if lo < hi {
      RemoveOpsInRange(items, lo + 1, hi);
    }
  }

  function Min(a: int, b: int): int { if a < b then a else b }
  function Max(a: int, b: int): int { if a < b then b else a }

  /** The items that should have rows for the window `[top, top + height]`. */
  predicate InWindow(sizes: seq<nat>, top: int, height: int, i: nat) {
    IndexAt(sizes, top) <= i < IndexAfter(sizes, top + height)
  }

  /** The four sweeps of `render`, as `(lo, hi)` bounds over the current range map. */
  function Sweeps<T(==)>(v: View<T>, renderTop: int, renderHeight: int): (b: (nat, nat, nat, nat, nat, nat, nat, nat))
    ensures b.1 <= |v.sizes| && b.3 <= |v.sizes| && b.5 <= |v.sizes| && b.7 <= |v.sizes|
  {
    var s := v.sizes;
    var renderBottom := renderTop + renderHeight;
    var thisRenderBottom := v.lastRenderTop + v.lastRenderHeight;
    (IndexAt(s, Max(thisRenderBottom, renderTop)), IndexAfter(s, renderBottom),
     IndexAt(s, renderTop), Min(IndexAt(s, v.lastRenderTop), IndexAfter(s, renderBottom)),
     IndexAt(s, v.lastRenderTop), Min(IndexAt(s, renderTop), IndexAfter(s, thisRenderBottom)),
     Max(IndexAfter(s, renderBottom), IndexAt(s, v.lastRenderTop)), IndexAfter(s, thisRenderBottom))
  }

  /** The log `render` writes. */
  function RenderOps<T(==)>(v: View<T>, renderTop: int, renderHeight: int): (ops: seq<DomOp>)
    requires Valid(v)
    ensures forall op :: op in ops && op.Inserted? ==>
      InWindow(v.sizes, renderTop, renderHeight, op.index) && InsertedOk(v.items, v.sizes, op)
    ensures forall op :: op in ops && op.Removed? ==>
      !InWindow(v.sizes, renderTop, renderHeight, op.index)
      && op.index < |v.items| && op.key == v.items[op.index].key
  {
    var s := v.sizes;
    var b := Sweeps(v, renderTop, renderHeight);
    SweepsShape(v, renderTop, renderHeight);
    SweepOpsPlaced(v.items, s, b, IndexAt(s, v.lastRenderTop), IndexAfter(s, v.lastRenderTop + v.lastRenderHeight),
      IndexAt(s, renderTop), IndexAfter(s, renderTop + renderHeight));
    InsertOps(v.items, s, b.0, b.1) + InsertOps(v.items, s, b.2, b.3) + RemoveOps(v.items, b.4, b.5) + RemoveOps(v.items, b.6, b.7)
  }

  /** Sweeps laid out as in `render` insert only inside the new window and remove only outside it. */
  lemma SweepOpsPlaced<T>(items: seq<Item<T>>, sizes: seq<nat>, b: (nat, nat, nat, nat, nat, nat, nat, nat),
                          oldLo: int, oldHi: int, newLo: int, newHi: int)
    requires |items| == |sizes| && b.1 <= |items| && b.3 <= |items| && b.5 <= |items| && b.7 <= |items|
    requires SweepBounds(b, oldLo, oldHi, newLo, newHi)
    ensures var ops := InsertOps(items, sizes, b.0, b.1) + InsertOps(items, sizes, b.2, b.3)
                       + RemoveOps(items, b.4, b.5) + RemoveOps(items, b.6, b.7);
      (forall op :: op in ops && op.Inserted? ==> newLo <= op.index < newHi && InsertedOk(items, sizes, op))
      && (forall op :: op in ops && op.Removed? ==> !(newLo <= op.index < newHi) && op.index < |items| && op.key == items[op.index].key)
  {
    var i1, i2 := InsertOps(items, sizes, b.0, b.1), InsertOps(items, sizes, b.2, b.3);
    var r1, r2 := RemoveOps(items, b.4, b.5), RemoveOps(items, b.6, b.7);
    InsertOpsInRange(items, sizes, b.0, b.1);
    InsertOpsInRange(items, sizes, b.2, b.3);
    RemoveOpsInRange(items, b.4, b.5);
    RemoveOpsInRange(items, b.6, b.7);
    var ops := i1 + i2 + r1 + r2;
    assert forall op :: op in ops <==> op in i1 || op in i2 || op in r1 || op in r2;
  }

  /**
   * `render(renderTop, renderHeight)`: two insertion sweeps and two removal
   * sweeps bounded by `indexAt`/`indexAfter` of the old and the new window,
   * then the new window is remembered. Items enter the DOM only inside the new
   * window and leave it only outside.
   */
  function Render<T(==)>(v: View<T>, renderTop: int, renderHeight: int): (r: View<T>)
    requires Valid(v)
    ensures Valid(r)
    ensures r.items == v.items && r.sizes == v.sizes && r.nextKey == v.nextKey
    ensures r.lastRenderTop == renderTop && r.lastRenderHeight == renderHeight
  {
    var r := AfterSweeps(v, Sweeps(v, renderTop, renderHeight));
    var renderBottom := renderTop + renderHeight;
    r.(lastRenderTop := renderTop, lastRenderHeight := renderBottom - renderTop)
  }

  /** What `render` writes to the DOM is the four sweeps, in order. */
  lemma RenderLog<T>(v: View<T>, renderTop: int, renderHeight: int)
    requires Valid(v)
    ensures Render(v, renderTop, renderHeight).log == v.log + RenderOps(v, renderTop, renderHeight)
  {
    var b := Sweeps(v, renderTop, renderHeight);
    var v1 := InsertDown(v, b.0, b.1);
    var v2 := InsertDown(v1, b.2, b.3);
    var v3 := RemoveUp(v2, b.4, b.5);
    var v4 := RemoveUp(v3, b.6, b.7);
    AppendAssoc4(v.log, v1.log[|v.log|..], v2.log[|v1.log|..], v3.log[|v2.log|..], v4.log[|v3.log|..]);
  }

  /** Exactly the items with an index in `[lo, hi)` have rows. */
  predicate RowsWithin<T(==)>(items: seq<Item<T>>, rows: map<nat, RowCache.Row>, lo: int, hi: int) {
    forall i :: 0 <= i < |items| ==> (items[i].key in rows <==> lo <= i < hi)
  }

  /** Exactly the items of the last rendered window have rows. */
  predicate Settled<T(==)>(v: View<T>) {
    RowsWithin(v.items, v.rows, IndexAt(v.sizes, v.lastRenderTop), IndexAfter(v.sizes, v.lastRenderTop + v.lastRenderHeight))
  }

  /**
   * When exactly the old window has rows, the four sweeps leave exactly the
   * new window with rows: what stays in both windows is kept, what is only in
   * the new one is inserted, and what is only in the old one is released.
   */
  lemma RenderSettles<T>(v: View<T>, renderTop: int, renderHeight: int)
    requires Valid(v) && Settled(v)
    ensures Settled(Render(v, renderTop, renderHeight))
  {
    RenderIsSweeps(v, renderTop, renderHeight);
    SweepsSettle(v, renderTop, renderHeight);
  }

  lemma RenderIsSweeps<T>(v: View<T>, renderTop: int, renderHeight: int)
    requires Valid(v)
    ensures var r := Render(v, renderTop, renderHeight);
      r.rows == AfterSweeps(v, Sweeps(v, renderTop, renderHeight)).rows
      && r.items == v.items && r.sizes == v.sizes
      && r.lastRenderTop == renderTop && r.lastRenderHeight == renderHeight
  {
  }

  /** The four sweeps of `render`, one after the other. */
  function AfterSweeps<T(==)>(v: View<T>, b: (nat, nat, nat, nat, nat, nat, nat, nat)): (r: View<T>)
    requires Valid(v) && b.1 <= |v.items| && b.3 <= |v.items| && b.5 <= |v.items| && b.7 <= |v.items|
    ensures Valid(r) && SameLayout(v, r)
    ensures Swept(v.items, v.rows, r.rows, b)
  {
    var v1 := InsertDown(v, b.0, b.1);
    var v2 := InsertDown(v1, b.2, b.3);
    var v3 := RemoveUp(v2, b.4, b.5);
    var v4 := RemoveUp(v3, b.6, b.7);
    assert v3.items == v2.items == v1.items == v.items;
    forall i | 0 <= i < |v.items|
      ensures v.items[i].key in v4.rows <==>
        (v.items[i].key in v.rows || b.0 <= i < b.1 || b.2 <= i < b.3) && !(b.4 <= i < b.5) && !(b.6 <= i < b.7)
    {
      var k := v.items[i].key;
      assert k in v1.rows <==> k in v.rows || b.0 <= i < b.1;
      assert k in v2.rows <==> k in v1.rows || b.2 <= i < b.3;
      assert k in v3.rows <==> k in v2.rows && !(b.4 <= i < b.5);
      assert k in v4.rows <==> k in v3.rows && !(b.6 <= i < b.7);
    }
    v4
  }

  /** Which items have rows after the four sweeps `b`, given which had rows before. */
  predicate Swept<T(==)>(items: seq<Item<T>>, before: map<nat, RowCache.Row>, after: map<nat, RowCache.Row>,
                         b: (nat, nat, nat, nat, nat, nat, nat, nat)) {
    forall i :: 0 <= i < |items| ==>
      (items[i].key in after <==>
        (items[i].key in before || b.0 <= i < b.1 || b.2 <= i < b.3) && !(b.4 <= i < b.5) && !(b.6 <= i < b.7))
  }

  lemma SweepsSettle<T>(v: View<T>, renderTop: int, renderHeight: int)
    requires Valid(v) && Settled(v)
    ensures var r := AfterSweeps(v, Sweeps(v, renderTop, renderHeight));
      RowsWithin(v.items, r.rows, IndexAt(v.sizes, renderTop), IndexAfter(v.sizes, renderTop + renderHeight))
  {
    var s := v.sizes;
    var b := Sweeps(v, renderTop, renderHeight);
    SweepsShape(v, renderTop, renderHeight);
    SettleFromSweeps(v.items, v.rows, AfterSweeps(v, b).rows, b,
      IndexAt(s, v.lastRenderTop), IndexAfter(s, v.lastRenderTop + v.lastRenderHeight),
      IndexAt(s, renderTop), IndexAfter(s, renderTop + renderHeight));
  }

  lemma SettleFromSweeps<T>(items: seq<Item<T>>, before: map<nat, RowCache.Row>, after: map<nat, RowCache.Row>,
                            b: (nat, nat, nat, nat, nat, nat, nat, nat), oldLo: int, oldHi: int, newLo: int, newHi: int)
    requires SweepBounds(b, oldLo, oldHi, newLo, newHi)
    requires RowsWithin(items, before, oldLo, oldHi)
    requires Swept(items, before, after, b)
    ensures RowsWithin(items, after, newLo, newHi)
  {
    forall i | 0 <= i < |items|
      ensures items[i].key in after <==> newLo <= i < newHi
    {
      SweepCover(i, oldLo, oldHi, newLo, newHi, b);
    }
  }

  /** How the four sweeps sit against the old window and the new one. */
  predicate SweepBounds(b: (nat, nat, nat, nat, nat, nat, nat, nat), oldLo: int, oldHi: int, newLo: int, newHi: int) {
    newLo <= b.0 && (b.0 == newLo || b.0 <= oldHi) && b.1 == newHi
    && b.2 == newLo && b.3 == Min(oldLo, newHi)
    && b.4 == oldLo && b.5 == Min(newLo, oldHi)
    && b.6 == Max(newHi, oldLo) && b.7 == oldHi
  }

  lemma SweepsShape<T>(v: View<T>, renderTop: int, renderHeight: int)
    ensures var s := v.sizes;
      var thisRenderBottom := v.lastRenderTop + v.lastRenderHeight;
      SweepBounds(Sweeps(v, renderTop, renderHeight),
        IndexAt(s, v.lastRenderTop), IndexAfter(s, thisRenderBottom),
        IndexAt(s, renderTop), IndexAfter(s, renderTop + renderHeight))
  {
    var s := v.sizes;
    var thisRenderBottom := v.lastRenderTop + v.lastRenderHeight;
    IndexAtMonotone(s, renderTop, Max(thisRenderBottom, renderTop));
    if thisRenderBottom < renderTop {
      assert Max(thisRenderBottom, renderTop) == renderTop;
    } else {
      assert Max(thisRenderBottom, renderTop) == thisRenderBottom;
    }
  }

  /** The interval arithmetic behind `RenderSettles`. */
  lemma SweepCover(i: int, oldLo: int, oldHi: int, newLo: int, newHi: int, b: (nat, nat, nat, nat, nat, nat, nat, nat))
    requires SweepBounds(b, oldLo, oldHi, newLo, newHi)
    ensures ((oldLo <= i < oldHi) || b.0 <= i < b.1 || b.2 <= i < b.3) && !(b.4 <= i < b.5) && !(b.6 <= i < b.7)
      <==> newLo <= i < newHi
  {
  }

  /**
   * Rendering the same window twice is not free: the second pass inserts the
   * item at `indexAt(renderBottom)` again, when there is one, and does nothing else.
   */
  lemma RenderTwice<T>(v: View<T>, renderTop: int, renderHeight: int)
    requires Valid(v) && renderHeight >= 0
    ensures var w := Render(v, renderTop, renderHeight);
      Render(w, renderTop, renderHeight).log
        == w.log + Reinserted(v.items, v.sizes, IndexAt(v.sizes, renderTop + renderHeight))
  {
    var w := Render(v, renderTop, renderHeight);
    RenderLog(w, renderTop, renderHeight);
    SecondRender(v, renderTop, renderHeight);
  }

  /** The insertion of item `i` alone, or nothing when there is no such item. */
  function Reinserted<T(==)>(items: seq<Item<T>>, sizes: seq<nat>, i: nat): seq<DomOp>
    requires |items| == |sizes|
  {
    if i < |items| then [Inserted(i, items[i].key, PositionAt(sizes, i))] else []
  }

  lemma SecondRender<T>(v: View<T>, renderTop: int, renderHeight: int)
    requires Valid(v) && renderHeight >= 0
    ensures var w := Render(v, renderTop, renderHeight);
      RenderOps(w, renderTop, renderHeight) == Reinserted(v.items, v.sizes, IndexAt(v.sizes, renderTop + renderHeight))
  {
    var w := Render(v, renderTop, renderHeight);
    RenderIsSweeps(v, renderTop, renderHeight);
    IndexAtMonotone(w.sizes, renderTop, renderTop + renderHeight);
    SecondRenderOps(w, renderTop, renderHeight);
  }

  lemma SecondRenderOps<T>(w: View<T>, renderTop: int, renderHeight: int)
    requires Valid(w) && renderHeight >= 0
    requires w.lastRenderTop == renderTop && w.lastRenderHeight == renderHeight
    requires IndexAt(w.sizes, renderTop) <= IndexAt(w.sizes, renderTop + renderHeight)
    ensures RenderOps(w, renderTop, renderHeight) == Reinserted(w.items, w.sizes, IndexAt(w.sizes, renderTop + renderHeight))
  {
    var s := w.sizes;
    var i := IndexAt(s, renderTop + renderHeight);
    var b := Sweeps(w, renderTop, renderHeight);
    assert b.0 == i && b.1 == IndexAfter(s, renderTop + renderHeight);
    assert b.3 <= b.2 && b.5 <= b.4 && b.7 <= b.6;
    var ops := InsertOps(w.items, w.sizes, b.0, b.1);
    assert RenderOps(w, renderTop, renderHeight) == ops + [] + [] + [];
    if i < |w.items| {
      assert b.1 == i + 1;
      assert ops == [Inserted(i, w.items[i].key, PositionAt(s, i))] + InsertOps(w.items, w.sizes, i, i);
    }
  }
}

=== FILE: output_actions.dfy ===
/**
 * The actions of the output panel (outputActions.ts): toggling the panel,
 * the two clear actions, when the editor clear action applies, and the
 * channel drop-down, whose entries are the contributed and the used channels
 * without repeats, in character order, with the active channel selected.
 * The identifiers of the output panel and of the output mode are parameters.
 */
module OutputActions {
  import opened Wrappers
  import opened Strings

  // ---------------------------------------------------------------------------
  // The channel drop-down

  predicate NoRepeats(s: seq<string>) {
    forall i, j :: 0 <= i < j < |s| ==> s[i] != s[j]
  }

  /** `arrays.distinct`: the first occurrence of each string, in order. */
  function Distinct(s: seq<string>): (r: seq<string>)
    ensures NoRepeats(r)
    ensures forall x :: x in r <==> x in s
  {
    if |s| == 0 then []
    else
      var init := s[..|s| - 1];
      var before := Distinct(init);
      assert forall x :: x in s <==> x in init || x == s[|s| - 1];
      if s[|s| - 1] in before then before else before + [s[|s| - 1]]
  }

  lemma NoRepeatsAtMostOnce(s: seq<string>, x: string)
    requires NoRepeats(s)
    ensures multiset(s)[x] <= 1
  {
    if |s| > 0 {
      assert s == [s[0]] + s[1..];
      NoRepeatsAtMostOnce(s[1..], x);
      if s[0] == x {
        assert x !in s[1..];
      }
    }
  }

  /** A repeated element occurs at least twice. */
  lemma RepeatCounted(s: seq<string>, i: nat, j: nat)
    requires i < j < |s| && s[i] == s[j]
    ensures multiset(s)[s[i]] >= 2
  {
    assert s == s[..j] + s[j..];
    assert s[i] in s[..j];
    assert s[j..] == [s[j]] + s[j + 1..];
  }

  /** Sorting a list without repeats gives a list without repeats. */
  lemma SortKeepsNoRepeats(s: seq<string>)
    requires NoRepeats(s)
    ensures NoRepeats(SortStrings(s))
  {
    var r := SortStrings(s);
    forall i, j | 0 <= i < j < |r| ensures r[i] != r[j] {
      if r[i] == r[j] {
        RepeatCounted(r, i, j);
        NoRepeatsAtMostOnce(s, r[i]);
        assert false;
      }
    }
  }

  /**
   * `getChannels`: every contributed channel and every channel in use, each
   * once, sorted by name.
   */
  function GetChannels(contributed: seq<string>, used: seq<string>): (r: seq<string>)
    ensures SortedStrings(r)
    ensures NoRepeats(r)
    ensures forall x :: x in r <==> x in contributed || x in used
  {
    var d := Distinct(contributed + used);
    SortKeepsNoRepeats(d);
    SortKeepsMembers(d);
    SortStrings(d)
  }

  lemma SortKeepsMembers(s: seq<string>)
    ensures forall x :: x in SortStrings(s) <==> x in s
  {
    var r := SortStrings(s);
    forall x ensures x in r <==> x in s {
      assert x in r <==> x in multiset(r);
      assert x in s <==> x in multiset(s);
    }
  }

  /** `array.indexOf(x)`: the first position of `x`, or -1. */
  function IndexOf(s: seq<string>, x: Option<string>): (k: int)
    ensures -1 <= k < |s|
    ensures k >= 0 ==> x == Some(s[k])
    ensures k == -1 <==> x.None? || x.value !in s
    ensures k >= 0 ==> forall i :: 0 <= i < k ==> Some(s[i]) != x
  {
    if |s| == 0 then -1
    else if x == Some(s[0]) then 0
    else
      var k := IndexOf(s[1..], x);
      if k == -1 then -1 else k + 1
  }

  /**
   * The selected entry: `Math.max(0, channels.indexOf(active))`, so the
   * active channel when it is listed and the first entry otherwise.
   */
  function SelectedIndex(channels: seq<string>, active: Option<string>): (k: nat)
    ensures |channels| > 0 ==> k < |channels|
    ensures active.Some? && active.value in channels ==> channels[k] == active.value
    ensures active.None? || active.value !in channels ==> k == 0
  {
    var i := IndexOf(channels, active);
    if i < 0 then 0 else i
  }

  /** Since the list has no repeats, the selected entry is the only one naming the active channel. */
  lemma SelectedIsOnlyActive(contributed: seq<string>, used: seq<string>, active: string)
    requires active in contributed || active in used
    ensures var channels := GetChannels(contributed, used);
      var k := SelectedIndex(channels, Some(active));
      channels[k] == active && forall i :: 0 <= i < |channels| && i != k ==> channels[i] != active
  {
  }

  // ---------------------------------------------------------------------------
  // Toggle and clear

  /** What `ToggleOutputAction.run` does. */
  datatype Toggle = HidePanel | ShowOutput(channel: Option<string>)

  /** Hide the panel when the output panel is the active one; otherwise show the active channel. */
  function ToggleOutput(activePanel: Option<string>, outputPanelId: string, activeChannel: Option<string>): (t: Toggle)
    ensures t == HidePanel <==> activePanel == Some(outputPanelId)
    ensures t.ShowOutput? ==> t.channel == activeChannel
  {
    if activePanel.Some? && activePanel.value == outputPanelId then HidePanel else ShowOutput(activeChannel)
  }

  /** The output panel hides when it is active, and the active channel is shown from any other panel or from none. */
  lemma ToggleHidesThenShows(outputPanelId: string, activeChannel: Option<string>, other: string)
    requires other != outputPanelId
    ensures ToggleOutput(Some(outputPanelId), outputPanelId, activeChannel) == HidePanel
    ensures ToggleOutput(Some(other), outputPanelId, activeChannel) == ShowOutput(activeChannel)
    ensures ToggleOutput(None, outputPanelId, activeChannel) == ShowOutput(activeChannel)
  {
  }

  /** The workbench clear action and the editor clear action. */
  datatype ClearAction = WorkbenchClear | EditorClear

  /** What a clear action does: the channel it clears, and the value its promise resolves to. */
  datatype Cleared = Cleared(channel: Option<string>, resolvesTo: bool)

  /** Both clear actions clear the active channel; the workbench one resolves to true, the editor one to false. */
  function Clear(action: ClearAction, activeChannel: Option<string>): (c: Cleared)
    ensures c.channel == activeChannel
    ensures c.resolvesTo <==> action == WorkbenchClear
  {
    Cleared(activeChannel, action == WorkbenchClear)
  }

  /** The part of an editor model the editor clear action looks at. */
  datatype EditorModel = EditorModel(modeId: Option<string>)

  /** `ClearOutputEditorAction.isSupported`: the editor's model is in the output mode and the base action is supported. */
  function IsSupported(model: Option<EditorModel>, outputModeId: string, baseSupported: bool): (b: bool)
    ensures b <==> model.Some? && model.value.modeId == Some(outputModeId) && baseSupported
  {
    match model
    case None => false
    case Some(m) => m.modeId.Some? && m.modeId.value == outputModeId && baseSupported
  }
}

=== FILE: range_map.dfy ===
/**
 * The range map of a virtualised list: item heights laid out one after the
 * other from position 0. rangeMap.ts is not part of this model; this module
 * gives the behaviour listView.ts relies on (prefix-sum positions, a monotone
 * `indexAt`, `indexAfter` one past it, and a splice in step with the items)
 * as definitions over the list of sizes.
 */
module RangeMap {

  /** `size`: the height of all items together. */
  function Total(sizes: seq<nat>): nat {
    if |sizes| == 0 then 0 else sizes[0] + Total(sizes[1..])
  }

  /** `positionAt(index)`: the top of item `index`, the sum of the sizes before it. */
  function PositionAt(sizes: seq<nat>, index: nat): (p: nat)
    requires index <= |sizes|
    ensures p <= Total(sizes)
  {
    if index == 0 then 0 else sizes[0] + PositionAt(sizes[1..], index - 1)
  }

  /**
   * `indexAt(position)`: the first item that ends below `position`, or the
   * number of items when there is none.
   */
  function IndexAt(sizes: seq<nat>, position: int): (index: nat)
    ensures index <= |sizes|
  {
    if |sizes| == 0 || position < sizes[0] then 0 else 1 + IndexAt(sizes[1..], position - sizes[0])
  }

  /** `indexAfter(position)`: one past `indexAt`, but never beyond the last item. */
  function IndexAfter(sizes: seq<nat>, position: int): (index: nat)
    ensures index <= |sizes|
    ensures IndexAt(sizes, position) <= index
  {
    if IndexAt(sizes, position) + 1 < |sizes| then IndexAt(sizes, position) + 1 else |sizes|
  }

  /** Consecutive items touch: item `index` spans its size from its top. */
  lemma {:induction false} PositionStep(sizes: seq<nat>, index: nat)
    requires index < |sizes|
    ensures PositionAt(sizes, index + 1) == PositionAt(sizes, index) + sizes[index]
  {
    if index > 0 {
      PositionStep(sizes[1..], index - 1);
    }
  }

  lemma {:induction false} PositionAtEnd(sizes: seq<nat>)
    ensures PositionAt(sizes, |sizes|) == Total(sizes)
  {
    if |sizes| > 0 {
      PositionAtEnd(sizes[1..]);
    }
  }

  /** `indexAt` never decreases as the position moves down. */
  lemma {:induction false} IndexAtMonotone(sizes: seq<nat>, p: int, q: int)
    requires p <= q
    ensures IndexAt(sizes, p) <= IndexAt(sizes, q)
  {
    if |sizes| > 0 && p >= sizes[0] {
      IndexAtMonotone(sizes[1..], p - sizes[0], q - sizes[0]);
    }
  }

  lemma IndexAfterMonotone(sizes: seq<nat>, p: int, q: int)
    requires p <= q
    ensures IndexAfter(sizes, p) <= IndexAfter(sizes, q)
  {
    IndexAtMonotone(sizes, p, q);
  }

  /**
   * Inside the list, `indexAt` finds the item whose span contains the
   * position; at or beyond the end it is the number of items.
   */
  lemma {:induction false} IndexAtContains(sizes: seq<nat>, position: int)
    requires 0 <= position
    ensures var i := IndexAt(sizes, position);
      (i < |sizes| ==> PositionAt(sizes, i) <= position < PositionAt(sizes, i) + sizes[i])
      && (i == |sizes| <==> position >= Total(sizes))
  {
    if |sizes| > 0 && position >= sizes[0] {
      IndexAtContains(sizes[1..], position - sizes[0]);
    }
  }

  /** The top of a non-empty item leads back to that item. */
  lemma {:induction false} IndexAtPositionAt(sizes: seq<nat>, index: nat)
    requires index < |sizes| && sizes[index] > 0
    ensures IndexAt(sizes, PositionAt(sizes, index)) == index
  {
    if index > 0 {
      IndexAtPositionAt(sizes[1..], index - 1);
    }
  }

  /** `splice(start, deleteCount, ...inserted)` on the sizes. */
  function Splice(sizes: seq<nat>, start: nat, deleteCount: nat, inserted: seq<nat>): (r: seq<nat>)
    requires start + deleteCount <= |sizes|
    ensures |r| == |sizes| - deleteCount + |inserted|
  {
    sizes[..start] + inserted + sizes[start + deleteCount..]
  }

  /** A splice changes the total height by the inserted minus the deleted heights. */
  lemma SpliceTotal(sizes: seq<nat>, start: nat, deleteCount: nat, inserted: seq<nat>)
    requires start + deleteCount <= |sizes|
    ensures Total(Splice(sizes, start, deleteCount, inserted)) + Total(sizes[start..start + deleteCount])
         == Total(sizes) + Total(inserted)
  {
    var front := sizes[..start];
    var gone := sizes[start..start + deleteCount];
    var back := sizes[start + deleteCount..];
    assert Splice(sizes, start, deleteCount, inserted) == front + (inserted + back);
    TotalAppend(front, inserted + back);
    TotalAppend(inserted, back);
    assert sizes == front + (gone + back);
    TotalAppend(front, gone + back);
    TotalAppend(gone, back);
  }

  lemma {:induction false} TotalAppend(a: seq<nat>, b: seq<nat>)
    ensures Total(a + b) == Total(a) + Total(b)
  {
    if |a| > 0 {
      assert (a + b)[1..] == a[1..] + b;
      TotalAppend(a[1..], b);
    } else {
      assert a + b == b;
    }
  }
}

=== FILE: row_cache.dfy ===
/**
 * The row cache of a virtualised list: a pool of released rows per template.
 * rowCache.ts is not part of this model; this module gives the behaviour
 * listView.ts relies on. A row is reused from the pool of its template when
 * one is available, otherwise a new row is created; releasing a row returns it
 * to the pool of its template, and releasing no row does nothing.
 */
module RowCache {
  import opened Wrappers

  /** A row (its DOM node and template data), known by a creation number. */
  datatype Row = Row(id: nat, templateId: string)

  datatype Cache = Cache(pools: map<string, seq<Row>>, nextRowId: nat)

  const Empty := Cache(map[], 0)

  /** The released rows of one template, the most recently released last. */
  function Pool(c: Cache, templateId: string): seq<Row> {
    if templateId in c.pools then c.pools[templateId] else []
  }

  /** Pooled rows belong to their pool's template, were created by this cache, and are pooled once. */
  predicate Valid(c: Cache) {
    forall t :: t in c.pools ==> PoolOk(c.pools[t], t, c.nextRowId)
  }

  predicate PoolOk(pool: seq<Row>, templateId: string, bound: nat) {
    (forall i :: 0 <= i < |pool| ==> pool[i].templateId == templateId && pool[i].id < bound)
    && forall i, j :: 0 <= i < j < |pool| ==> pool[i] != pool[j]
  }

  /** `alloc(templateId)`: a row of that template, reused from the pool or new. */
  function Alloc(c: Cache, templateId: string): (r: (Row, Cache))
    requires Valid(c)
    ensures Valid(r.1)
    ensures r.0.templateId == templateId && r.0.id < r.1.nextRowId
    ensures r.0 !in Pool(r.1, templateId)
    ensures forall t :: t != templateId ==> Pool(r.1, t) == Pool(c, t)
    ensures |Pool(c, templateId)| > 0 ==> r.0 in Pool(c, templateId) && r.1.nextRowId == c.nextRowId
    ensures |Pool(c, templateId)| == 0 ==> r.0.id == c.nextRowId && r.1.nextRowId == c.nextRowId + 1
    ensures forall x :: x in Pool(r.1, templateId) ==> x in Pool(c, templateId)
  {
    var pool := Pool(c, templateId);
    if |pool| > 0 then
      var row := pool[|pool| - 1];
      var rest := pool[..|pool| - 1];
      var c' := c.(pools := c.pools[templateId := rest]);
      assert forall i :: 0 <= i < |rest| ==> rest[i] == pool[i];
      (row, c')
    else
      (Row(c.nextRowId, templateId), c.(nextRowId := c.nextRowId + 1))
  }

  /** `release(row)`: the row goes back to the pool of its template; no row is a no-op. */
  function Release(c: Cache, row: Option<Row>): (r: Cache)
    requires Valid(c)
    requires row.Some? ==> row.value.id < c.nextRowId && row.value !in Pool(c, row.value.templateId)
    ensures Valid(r)
    ensures r.nextRowId == c.nextRowId
    ensures row.None? ==> r == c
    ensures row.Some? ==> Pool(r, row.value.templateId) == Pool(c, row.value.templateId) + [row.value]
    ensures row.Some? ==> forall t :: t != row.value.templateId ==> Pool(r, t) == Pool(c, t)
  {
    match row
    case None => c
    case Some(x) => c.(pools := c.pools[x.templateId := Pool(c, x.templateId) + [x]])
  }

  /** Allocating right after releasing a row hands back that same row and restores every pool. */
  lemma ReleaseThenAlloc(c: Cache, row: Row)
    requires Valid(c) && row.id < c.nextRowId && row !in Pool(c, row.templateId)
    ensures var (r, c') := Alloc(Release(c, Some(row)), row.templateId);
      r == row && c'.nextRowId == c.nextRowId && forall t :: Pool(c', t) == Pool(c, t)
  {
    var c1 := Release(c, Some(row));
    var pool := Pool(c1, row.templateId);
    assert pool[..|pool| - 1] == Pool(c, row.templateId);
  }
}

=== FILE: strings.dfy ===
/**
 * String helpers that the JavaScript runtime provides to the modelled code:
 * decimal printing of integers (`String(n)`), the character-by-character
 * order that stands for the default `Array.prototype.sort`, `startsWith`/
 * `indexOf`, `split` on one character and `trim` with the ECMAScript
 * white-space set.
 *
 * A Dafny `char` is a Unicode scalar value, not a UTF-16 code unit, so the
 * order here compares code points. It agrees with JavaScript's code-unit
 * order on strings without characters beyond U+FFFF.
 */
module Strings {

  // ---------------------------------------------------------------------------
  // Decimal printing

  predicate IsDigit(c: char) {
    '0' <= c <= '9'
  }

  function DigitChar(d: nat): (c: char)
    requires d < 10
    ensures IsDigit(c)
  {
    ['0', '1', '2', '3', '4', '5', '6', '7', '8', '9'][d]
  }

  function DigitValue(c: char): (d: nat)
    requires IsDigit(c)
    ensures d < 10
  {
    (c as int) - ('0' as int)
  }

  lemma DigitRoundTrip(d: nat)
    requires d < 10
    ensures DigitValue(DigitChar(d)) == d
  {
  }

  predicate AllDigits(s: string) {
    forall i :: 0 <= i < |s| ==> IsDigit(s[i])
  }

  /** The value of a string of decimal digits, most significant first. */
  function DigitsValue(s: string): nat
    requires AllDigits(s)
  {
    if |s| == 0 then 0 else 10 * DigitsValue(s[..|s| - 1]) + DigitValue(s[|s| - 1])
  }

  /** `String(n)` for a non-negative integer: no sign, no leading zero. */
  function NatToString(n: nat): (s: string)
    ensures |s| >= 1 && AllDigits(s)
    ensures (n < 10) == (|s| == 1)
  {
    if n < 10 then [DigitChar(n)] else NatToString(n / 10) + [DigitChar(n % 10)]
  }

  /** Parsing the decimal text of `n` gives back `n`. */
  lemma {:induction false} NatToStringRoundTrip(n: nat)
    ensures DigitsValue(NatToString(n)) == n
  {
    var s := NatToString(n);
    if n < 10 {
      DigitRoundTrip(n);
    } else {
      NatToStringRoundTrip(n / 10);
      assert s[..|s| - 1] == NatToString(n / 10);
      DigitRoundTrip(n % 10);
    }
  }

  /** Distinct numbers print as distinct strings. */
  lemma NatToStringInjective(a: nat, b: nat)
    ensures NatToString(a) == NatToString(b) <==> a == b
  {
    if NatToString(a) == NatToString(b) {
      NatToStringRoundTrip(a);
      NatToStringRoundTrip(b);
    }
  }

  /** `String(i)` for any integer. */
  function IntToString(i: int): (s: string)
    ensures |s| >= 1
    ensures (s[0] == '-') == (i < 0)
  {
    if i < 0 then "-" + NatToString(-i) else NatToString(i)
  }

  lemma IntToStringInjective(a: int, b: int)
    ensures IntToString(a) == IntToString(b) <==> a == b
  {
    var sa, sb := IntToString(a), IntToString(b);
    if sa == sb {
      assert (a < 0) == (b < 0) by {
        assert sa[0] == sb[0];
      }
      if a < 0 {
        assert sa[1..] == NatToString(-a);
        assert sb[1..] == NatToString(-b);
        NatToStringInjective(-a, -b);
      } else {
        NatToStringInjective(a, b);
      }
    }
  }

  // ---------------------------------------------------------------------------
  // Character order, standing for the code-unit comparison of `Array.prototype.sort`

  /** `a` sorts strictly before `b` when compared character by character. */
  predicate LexLess(a: string, b: string) {
    if |a| == 0 then |b| > 0
    else if |b| == 0 then false
    else if a[0] != b[0] then a[0] < b[0]
    else LexLess(a[1..], b[1..])
  }

  lemma {:induction false} LexLessIrreflexive(a: string)
    ensures !LexLess(a, a)
  {
    if |a| > 0 {
      LexLessIrreflexive(a[1..]);
    }
  }

  lemma {:induction false} LexLessTransitive(a: string, b: string, c: string)
    requires LexLess(a, b) && LexLess(b, c)
    ensures LexLess(a, c)
  {
    if |a| > 0 && |b| > 0 && |c| > 0 && a[0] == b[0] && b[0] == c[0] {
      LexLessTransitive(a[1..], b[1..], c[1..]);
    }
  }

  lemma {:induction false} LexLessTotal(a: string, b: string)
    ensures a == b || LexLess(a, b) || LexLess(b, a)
  {
    if |a| > 0 && |b| > 0 && a[0] == b[0] {
      LexLessTotal(a[1..], b[1..]);
      if a[1..] == b[1..] {
        assert a == [a[0]] + a[1..];
        assert b == [b[0]] + b[1..];
      }
    }
  }

  lemma LexLessAsymmetric(a: string, b: string)
    requires LexLess(a, b)
    ensures !LexLess(b, a)
  {
    if LexLess(b, a) {
      LexLessTransitive(a, b, a);
      LexLessIrreflexive(a);
    }
  }

  /** `a` sorts no later than `b`. */
  predicate StrLe(a: string, b: string) {
    !LexLess(b, a)
  }

  predicate SortedStrings(s: seq<string>) {
    forall i, j :: 0 <= i < j < |s| ==> StrLe(s[i], s[j])
  }

  lemma StrLeTransitive(a: string, b: string, c: string)
    requires StrLe(a, b) && StrLe(b, c)
    ensures StrLe(a, c)
  {
    LexLessTotal(a, b);
    LexLessTotal(b, c);
    if a != b && b != c {
      LexLessTransitive(a, b, c);
      LexLessAsymmetric(a, c);
    } else if a != b {
      LexLessAsymmetric(a, b);
    } else if b != c {
      LexLessAsymmetric(b, c);
    } else {
      LexLessIrreflexive(a);
    }
  }

  lemma StrLeTotal(a: string, b: string)
    ensures StrLe(a, b) || StrLe(b, a)
  {
    LexLessTotal(a, b);
    if LexLess(a, b) {
      LexLessAsymmetric(a, b);
    } else if a == b {
      LexLessIrreflexive(a);
    }
  }

  /** `Array.prototype.sort()` on strings: insertion into a sorted list. */
  function InsertString(x: string, s: seq<string>): (r: seq<string>)
    requires SortedStrings(s)
    ensures SortedStrings(r)
    ensures multiset(r) == multiset(s) + multiset{x}
    ensures |r| == |s| + 1
  {
    if |s| == 0 then [x]
    else if StrLe(x, s[0]) then
      InsertAtHead(x, s);
      [x] + s
    else
      var rest := InsertString(x, s[1..]);
      StrLeTotal(x, s[0]);
      InsertBehindHead(s, x, rest);
      [s[0]] + rest
  }

  lemma InsertAtHead(x: string, s: seq<string>)
    requires SortedStrings(s) && |s| > 0 && StrLe(x, s[0])
    ensures SortedStrings([x] + s)
  {
    forall i, j | 0 <= i < j < |[x] + s|
      ensures StrLe(([x] + s)[i], ([x] + s)[j])
    {
      if i == 0 && j > 1 {
        StrLeTransitive(x, s[0], s[j - 1]);
      }
    }
  }

  lemma InsertBehindHead(s: seq<string>, x: string, rest: seq<string>)
    requires SortedStrings(s) && |s| > 0 && StrLe(s[0], x)
    requires SortedStrings(rest) && multiset(rest) == multiset(s[1..]) + multiset{x}
    ensures SortedStrings([s[0]] + rest)
    ensures multiset([s[0]] + rest) == multiset(s) + multiset{x}
  {
    forall j | 0 <= j < |rest|
      ensures StrLe(s[0], rest[j])
    {
      assert rest[j] in multiset(rest);
      if rest[j] != x {
        assert rest[j] in multiset(s[1..]);
        var k :| 0 <= k < |s[1..]| && s[1..][k] == rest[j];
        assert s[k + 1] == rest[j];
      }
    }
    assert s == [s[0]] + s[1..];
  }

  /** The strings of `s` in character order. */
  function SortStrings(s: seq<string>): (r: seq<string>)
    ensures SortedStrings(r)
    ensures multiset(r) == multiset(s)
  {
    if |s| == 0 then []
    else
      assert s == [s[0]] + s[1..];
      InsertString(s[0], SortStrings(s[1..]))
  }

  // ---------------------------------------------------------------------------
  // Searching

  predicate StartsWith(s: string, prefix: string) {
    |prefix| <= |s| && s[..|prefix|] == prefix
  }

  predicate OccursAt(s: string, sub: string, k: int) {
    0 <= k && k + |sub| <= |s| && s[k..k + |sub|] == sub
  }

  /**
   * `s.indexOf(sub, from)`: the first position at or after `from` (a negative
   * `from` counts as 0) where `sub` occurs, or -1.
   */
  function IndexOf(s: string, sub: string, from: int): (r: int)
    ensures r == -1 || (from <= r && OccursAt(s, sub, r))
    decreases |s| - from
  {
    if from < 0 then IndexOf(s, sub, 0)
    else if from + |sub| > |s| then -1
    else if s[from..from + |sub|] == sub then from
    else IndexOf(s, sub, from + 1)
  }

  /** `indexOf` finds the first occurrence at or after `from`, and -1 only when there is none. */
  lemma {:induction false} IndexOfFirst(s: string, sub: string, from: int, k: int)
    requires from <= k && OccursAt(s, sub, k)
    ensures IndexOf(s, sub, from) != -1 && IndexOf(s, sub, from) <= k
    decreases |s| - from
  {
    if from < 0 {
      IndexOfFirst(s, sub, 0, k);
    } else if from + |sub| <= |s| && s[from..from + |sub|] != sub {
      IndexOfFirst(s, sub, from + 1, k);
    }
  }

  // ---------------------------------------------------------------------------
  // Splitting on one character

  /** `s.split(sep)` for a one-character separator. */
  function Split(s: string, sep: char): (parts: seq<string>)
    ensures |parts| >= 1
    ensures forall i :: 0 <= i < |parts| ==> sep !in parts[i]
  {
    if sep !in s then [s]
    else
      var k := FirstIndex(s, sep);
      [s[..k]] + Split(s[k + 1..], sep)
  }

  function FirstIndex(s: string, c: char): (k: nat)
    requires c in s
    ensures k < |s| && s[k] == c && c !in s[..k]
  {
    if s[0] == c then 0 else 1 + FirstIndex(s[1..], c)
  }

  /** `parts.join(sep)`. */
  function Join(parts: seq<string>, sep: char): string {
    if |parts| == 0 then ""
    else if |parts| == 1 then parts[0]
    else parts[0] + [sep] + Join(parts[1..], sep)
  }

  /** Joining the pieces of a split gives back the original text. */
  lemma {:induction false} SplitJoin(s: string, sep: char)
    ensures Join(Split(s, sep), sep) == s
    decreases |s|
  {
    if sep in s {
      var k := FirstIndex(s, sep);
      var tail := Split(s[k + 1..], sep);
      assert Split(s, sep) == [s[..k]] + tail;
      JoinCons(s[..k], sep, tail);
      SplitJoin(s[k + 1..], sep);
      AroundIndex(s, k);
    } else {
      assert Split(s, sep) == [s];
    }
  }

  lemma JoinCons(a: string, sep: char, tail: seq<string>)
    requires |tail| >= 1
    ensures Join([a] + tail, sep) == a + [sep] + Join(tail, sep)
  {
    assert ([a] + tail)[1..] == tail;
  }

  lemma AroundIndex<T>(s: seq<T>, k: nat)
    requires k < |s|
    ensures s == s[..k] + [s[k]] + s[k + 1..]
  {
  }

  /** Splitting the join of pieces that do not contain the separator gives back the pieces. */
  lemma {:induction false} JoinSplit(parts: seq<string>, sep: char)
    requires |parts| >= 1
    requires forall i :: 0 <= i < |parts| ==> sep !in parts[i]
    ensures Split(Join(parts, sep), sep) == parts
    decreases |parts|
  {
    if |parts| > 1 {
      var p0 := parts[0];
      var rest := Join(parts[1..], sep);
      var s := p0 + [sep] + rest;
      assert Join(parts, sep) == s;
      assert s[|p0|] == sep;
      var k := FirstIndex(s, sep);
      assert k == |p0|;
      assert s[..k] == p0;
      assert s[k + 1..] == rest;
      JoinSplit(parts[1..], sep);
      assert parts == [p0] + parts[1..];
    }
  }

  // ---------------------------------------------------------------------------
  // White space

  /** ECMAScript WhiteSpace and LineTerminator code points (the `\s` class). */
  predicate IsJsSpace(c: char) {
    c == ' ' || c == '\t' || c == '\n' || c == '\r' || c == '\U{000B}' || c == '\U{000C}'
    || c == '\U{00A0}' || c == '\U{1680}' || ('\U{2000}' <= c <= '\U{200A}')
    || c == '\U{2028}' || c == '\U{2029}' || c == '\U{202F}' || c == '\U{205F}'
    || c == '\U{3000}' || c == '\U{FEFF}'
  }

  /** The number of white-space characters `s` starts with. */
  function LeadingSpaces(s: string): (n: nat)
    ensures n <= |s|
  {
    if |s| > 0 && IsJsSpace(s[0]) then 1 + LeadingSpaces(s[1..]) else 0
  }

  /** The number of white-space characters `s` ends with. */
  function TrailingSpaces(s: string): (n: nat)
    ensures n <= |s|
  {
    if |s| > 0 && IsJsSpace(s[|s| - 1]) then 1 + TrailingSpaces(s[..|s| - 1]) else 0
  }

  /** `s.trimStart()`: what is left after the leading white space. */
  function TrimStart(s: string): string {
    s[LeadingSpaces(s)..]
  }

  /** `s.trimEnd()`: what is left before the trailing white space. */
  function TrimEnd(s: string): string {
    s[..|s| - TrailingSpaces(s)]
  }

  /** `s.trim()`. */
  function Trim(s: string): string {
    TrimEnd(TrimStart(s))
  }

  /** Exactly the leading white space goes. */
  lemma {:induction false} LeadingSpacesExact(s: string)
    ensures LeadingSpaces(s) < |s| ==> !IsJsSpace(s[LeadingSpaces(s)])
    ensures forall i :: 0 <= i < LeadingSpaces(s) ==> IsJsSpace(s[i])
  {
    if |s| > 0 && IsJsSpace(s[0]) {
      LeadingSpacesExact(s[1..]);
      forall i | 0 <= i < LeadingSpaces(s)
        ensures IsJsSpace(s[i])
      {
        if i > 0 {
          assert s[i] == s[1..][i - 1];
        }
      }
    }
  }

  /** Exactly the trailing white space goes. */
  lemma {:induction false} TrailingSpacesExact(s: string)
    ensures TrailingSpaces(s) < |s| ==> !IsJsSpace(s[|s| - TrailingSpaces(s) - 1])
    ensures forall i :: |s| - TrailingSpaces(s) <= i < |s| ==> IsJsSpace(s[i])
  {
    if |s| > 0 && IsJsSpace(s[|s| - 1]) {
      var t := s[..|s| - 1];
      TrailingSpacesExact(t);
      forall i | |s| - TrailingSpaces(s) <= i < |s|
        ensures IsJsSpace(s[i])
      {
        if i < |s| - 1 {
          assert s[i] == t[i];
        }
      }
      if TrailingSpaces(s) < |s| {
        assert s[|s| - TrailingSpaces(s) - 1] == t[|t| - TrailingSpaces(t) - 1];
      }
    }
  }

  /** The trimmed string is the piece of `s` between its leading and trailing white space, with none left at either end. */
  lemma TrimIsPiece(s: string)
    ensures var r := Trim(s); |r| > 0 ==> !IsJsSpace(r[0]) && !IsJsSpace(r[|r| - 1])
    ensures OccursAt(s, Trim(s), LeadingSpaces(s))
  {
    var t := TrimStart(s);
    var r := Trim(s);
    LeadingSpacesExact(s);
    TrailingSpacesExact(t);
    assert r == s[LeadingSpaces(s)..LeadingSpaces(s) + |r|];
    if |r| > 0 {
      assert r[0] == s[LeadingSpaces(s)];
      assert r[|r| - 1] == t[|t| - TrailingSpaces(t) - 1];
    }
  }
}

=== FILE: word_helper.dfy ===
/**
 * Finding the word at a column (textModelWithTokensHelpers.ts). The regular
 * expression engine is a collaborator: a word definition is described by its
 * flags only, and what `text.match(regex)` returns is supplied by a `matcher`
 * parameter as the list of matched strings (or null).
 */
module WordHelper {
  import opened Wrappers
  import opened Strings

  /** The parts of a `RegExp` the helper reads or writes. */
  datatype Regex = Regex(source: string, global: bool, ignoreCase: bool, multiline: bool, lastIndex: nat)

  /** `IWordAtPosition`. */
  datatype WordAtPosition = WordAtPosition(word: string, startColumn: int, endColumn: int)

  /** A mode transition of a tokenized line: where the mode starts and the word definition it declares. */
  datatype Transition = Transition(startIndex: int, wordDefinition: Option<Regex>)

  /** A matched word after trimming, and where the search for it landed (-1 when it was not found). */
  datatype Located = Located(word: string, start: int)

  /**
   * `ensureValidWordDefinition`: the default definition when none is given;
   * a non-global definition is rebuilt as a global one with the same source
   * and the same case and multiline flags. `lastIndex` is reset either way.
   */
  function EnsureValidWordDefinition(wordDefinition: Option<Regex>, default: Regex): (r: Regex)
    ensures wordDefinition.None? ==> r == default.(lastIndex := 0)
    ensures wordDefinition.Some? ==> r.global
    ensures wordDefinition.Some? ==> r.source == wordDefinition.value.source
    ensures wordDefinition.Some? ==> r.ignoreCase == wordDefinition.value.ignoreCase && r.multiline == wordDefinition.value.multiline
    ensures r.lastIndex == 0
  {
    match wordDefinition
    case None => default.(lastIndex := 0)
    case Some(d) =>
      if !d.global then Regex(d.source, true, d.ignoreCase, d.multiline, 0)
      else d.(lastIndex := 0)
  }

  /** Making a definition valid a second time changes nothing (the default definition being global). */
  lemma EnsureValidIdempotent(wordDefinition: Option<Regex>, default: Regex)
    requires default.global
    ensures var r := EnsureValidWordDefinition(wordDefinition, default);
      EnsureValidWordDefinition(Some(r), default) == r
  {
  }

  /** Every match, trimmed. */
  function TrimAll(words: seq<string>): (r: seq<string>)
    ensures |r| == |words|
  {
    if |words| == 0 then [] else [Trim(words[0])] + TrimAll(words[1..])
  }

  /**
   * Where each non-empty trimmed match is found: each is searched for from
   * the end of the previous one (from 0 for the first, as `indexOf` treats
   * the initially undefined end as 0).
   */
  function Locate(words: seq<string>, text: string, from: int): (r: seq<Located>)
    ensures |r| <= |words|
    ensures forall i :: 0 <= i < |r| ==> |r[i].word| > 0
  {
    if |words| == 0 then []
    else
      var w := words[0];
      if |w| == 0 then Locate(words[1..], text, from)
      else
        var s := IndexOf(text, w, from);
        [Located(w, s)] + Locate(words[1..], text, s + |w|)
  }

  /** A located word that was found really occurs in the text where it was found. */
  lemma {:induction false} LocateOccurs(words: seq<string>, text: string, from: int, i: nat)
    requires i < |Locate(words, text, from)|
    ensures var l := Locate(words, text, from)[i]; l.start == -1 || OccursAt(text, l.word, l.start)
  {
    var w := words[0];
    if |w| == 0 {
      LocateOccurs(words[1..], text, from, i);
    } else if i > 0 {
      LocateOccurs(words[1..], text, IndexOf(text, w, from) + |w|, i - 1);
    }
  }

  /** Each word found is found at or after the end of the word before it. */
  lemma {:induction false} LocateOrdered(words: seq<string>, text: string, from: int, i: nat)
    requires i + 1 < |Locate(words, text, from)|
    ensures var r := Locate(words, text, from);
      r[i + 1].start != -1 ==> r[i].start + |r[i].word| <= r[i + 1].start
  {
    var w := words[0];
    if |w| == 0 {
      LocateOrdered(words[1..], text, from, i);
    } else {
      var s := IndexOf(text, w, from);
      if i > 0 {
        LocateOrdered(words[1..], text, s + |w|, i - 1);
      } else {
        LocateStartsAfter(words[1..], text, s + |w|);
      }
    }
  }

  lemma {:induction false} LocateStartsAfter(words: seq<string>, text: string, from: int)
    ensures var r := Locate(words, text, from); |r| > 0 && r[0].start != -1 ==> from <= r[0].start
  {
    if |words| > 0 && |words[0]| == 0 {
      LocateStartsAfter(words[1..], text, from);
    }
  }

  /** When every word is found, the located words are strictly left to right and do not overlap. */
  lemma {:induction false} LocatedLeftToRight(words: seq<string>, text: string, from: int, i: nat, j: nat)
    requires var r := Locate(words, text, from); forall k :: 0 <= k < |r| ==> r[k].start != -1
    requires i < j < |Locate(words, text, from)|
    ensures var r := Locate(words, text, from); r[i].start + |r[i].word| <= r[j].start && r[i].start < r[j].start
    decreases j
  {
    LocateOrdered(words, text, from, j - 1);
    if j > i + 1 {
      LocatedLeftToRight(words, text, from, i, j - 1);
    }
  }

  /** The columns a located word covers contain `column`, both ends included. */
  predicate Contains(l: Located, column: int, textOffset: int) {
    textOffset + l.start + 1 <= column <= textOffset + l.start + |l.word| + 1
  }

  /** The first located word whose columns contain `column`, or the number of located words. */
  function FirstContainingIndex(located: seq<Located>, column: int, textOffset: int): (k: nat)
    ensures k <= |located|
    ensures forall j :: 0 <= j < k ==> !Contains(located[j], column, textOffset)
    ensures k < |located| ==> Contains(located[k], column, textOffset)
  {
    if |located| == 0 || Contains(located[0], column, textOffset) then 0
    else 1 + FirstContainingIndex(located[1..], column, textOffset)
  }

  /** The word and 1-based columns reported for a located word. */
  function WordOf(l: Located, textOffset: int): (w: WordAtPosition)
    ensures w.word == l.word && w.endColumn - w.startColumn == |l.word|
    ensures w.startColumn - textOffset - 1 == l.start
  {
    WordAtPosition(l.word, textOffset + l.start + 1, textOffset + l.start + |l.word| + 1)
  }

  /** The loop of `_getWordAtText` over the trimmed matches, `from` being the end of the previous word. */
  function ScanWords(words: seq<string>, text: string, from: int, column: int, textOffset: int): Option<WordAtPosition> {
    if |words| == 0 then None
    else
      var word := words[0];
      if |word| > 0 then
        var startWord := IndexOf(text, word, from);
        var endWord := startWord + |word|;
        var startColumn := textOffset + startWord + 1;
        var endColumn := textOffset + endWord + 1;
        if startColumn <= column && column <= endColumn then Some(WordAtPosition(word, startColumn, endColumn))
        else ScanWords(words[1..], text, endWord, column, textOffset)
      else ScanWords(words[1..], text, from, column, textOffset)
  }

  /** The word reported for the first located word that contains the column, if any. */
  function FirstWord(located: seq<Located>, column: int, textOffset: int): Option<WordAtPosition> {
    var k := FirstContainingIndex(located, column, textOffset);
    if k < |located| then Some(WordOf(located[k], textOffset)) else None
  }

  /** The loop stops at the first located word that contains the column. */
  lemma {:induction false} ScanIsFirstContaining(words: seq<string>, text: string, from: int, column: int, textOffset: int)
    ensures ScanWords(words, text, from, column, textOffset) == FirstWord(Locate(words, text, from), column, textOffset)
  {
    if |words| == 0 {
      assert Locate(words, text, from) == [];
    } else if |words[0]| == 0 {
      ScanBlank(words, text, from, column, textOffset);
      ScanIsFirstContaining(words[1..], text, from, column, textOffset);
    } else if Contains(Located(words[0], IndexOf(text, words[0], from)), column, textOffset) {
      ScanHit(words, text, from, column, textOffset);
    } else {
      var s := IndexOf(text, words[0], from);
      ScanMiss(words, text, from, column, textOffset);
      ScanIsFirstContaining(words[1..], text, s + |words[0]|, column, textOffset);
    }
  }

  /** An empty match is skipped by both the loop and the locating. */
  lemma ScanBlank(words: seq<string>, text: string, from: int, column: int, textOffset: int)
    requires |words| > 0 && |words[0]| == 0
    ensures ScanWords(words, text, from, column, textOffset) == ScanWords(words[1..], text, from, column, textOffset)
    ensures Locate(words, text, from) == Locate(words[1..], text, from)
  {
  }

  /** A word that contains the column is returned at once. */
  lemma ScanHit(words: seq<string>, text: string, from: int, column: int, textOffset: int)
    requires |words| > 0 && |words[0]| > 0
    requires Contains(Located(words[0], IndexOf(text, words[0], from)), column, textOffset)
    ensures ScanWords(words, text, from, column, textOffset) == FirstWord(Locate(words, text, from), column, textOffset)
  {
    var located := Locate(words, text, from);
    assert located[0] == Located(words[0], IndexOf(text, words[0], from));
    assert FirstContainingIndex(located, column, textOffset) == 0;
  }

  /** A word that misses the column moves the search to its end. */
  lemma ScanMiss(words: seq<string>, text: string, from: int, column: int, textOffset: int)
    requires |words| > 0 && |words[0]| > 0
    requires !Contains(Located(words[0], IndexOf(text, words[0], from)), column, textOffset)
    ensures var next := IndexOf(text, words[0], from) + |words[0]|;
      ScanWords(words, text, from, column, textOffset) == ScanWords(words[1..], text, next, column, textOffset)
      && FirstWord(Locate(words, text, from), column, textOffset) == FirstWord(Locate(words[1..], text, next), column, textOffset)
  {
    var located := Locate(words, text, from);
    var rest := Locate(words[1..], text, IndexOf(text, words[0], from) + |words[0]|);
    assert located == [Located(words[0], IndexOf(text, words[0], from))] + rest;
    FirstWordMiss(located, rest, column, textOffset);
  }

  lemma FirstWordMiss(located: seq<Located>, rest: seq<Located>, column: int, textOffset: int)
    requires |located| > 0 && located[1..] == rest && !Contains(located[0], column, textOffset)
    ensures FirstWord(located, column, textOffset) == FirstWord(rest, column, textOffset)
  {
    var kr := FirstContainingIndex(rest, column, textOffset);
    assert FirstContainingIndex(located, column, textOffset) == 1 + kr;
    if kr < |rest| {
      assert located[1 + kr] == rest[kr];
    }
  }

  /**
   * `_getWordAtText`: the first non-empty trimmed match whose columns
   * (offset by `textOffset`, 1-based, both ends included) contain `column`.
   */
  function GetWordAtText(column: int, words: Option<seq<string>>, text: string, textOffset: int): (r: Option<WordAtPosition>)
    ensures words.None? ==> r.None?
    ensures words.Some? ==> r == FirstWord(Locate(TrimAll(words.value), text, 0), column, textOffset)
    ensures r.Some? ==> |r.value.word| > 0 && r.value.endColumn - r.value.startColumn == |r.value.word|
    ensures r.Some? ==> r.value.startColumn <= column <= r.value.endColumn
    ensures r.Some? && r.value.startColumn != textOffset ==> OccursAt(text, r.value.word, r.value.startColumn - textOffset - 1)
  {
    if words.None? then None
    else
      WordFound(words.value, text, column, textOffset);
      ScanWords(TrimAll(words.value), text, 0, column, textOffset)
  }

  /** What the scan over the trimmed matches reports: the first located word containing the column, found in the text. */
  lemma WordFound(words: seq<string>, text: string, column: int, textOffset: int)
    ensures var r := ScanWords(TrimAll(words), text, 0, column, textOffset);
      r == FirstWord(Locate(TrimAll(words), text, 0), column, textOffset)
      && (r.Some? ==> |r.value.word| > 0 && r.value.endColumn - r.value.startColumn == |r.value.word|)
      && (r.Some? ==> r.value.startColumn <= column <= r.value.endColumn)
      && (r.Some? && r.value.startColumn != textOffset ==> OccursAt(text, r.value.word, r.value.startColumn - textOffset - 1))
  {
    var trimmed := TrimAll(words);
    ScanIsFirstContaining(trimmed, text, 0, column, textOffset);
    var located := Locate(trimmed, text, 0);
    var k := FirstContainingIndex(located, column, textOffset);
    if k < |located| {
      LocateOccurs(trimmed, text, 0, k);
    }
  }

  /** `String.prototype.substring`: both ends clamped to the string, and swapped when out of order. */
  function Substring(s: string, a: int, b: int): (r: string)
    ensures 0 <= a <= b <= |s| ==> r == s[a..b]
    ensures |r| <= |s|
  {
    var a' := if a < 0 then 0 else if a > |s| then |s| else a;
    var b' := if b < 0 then 0 else if b > |s| then |s| else b;
    if a' <= b' then s[a'..b'] else s[b'..a']
  }

  /**
   * `_getWordAtColumn`: the search is restricted to the segment of the mode
   * at `modeIndex`, which runs to the start of the next mode (or the end of
   * the line), with the mode's own word definition and columns offset by
   * the segment start.
   */
  function GetWordAtColumn(
    txt: string, column: int, modeIndex: nat, transitions: seq<Transition>,
    default: Regex, matcher: (Regex, string) -> Option<seq<string>>
  ): (r: Option<WordAtPosition>)
    requires modeIndex < |transitions|
    ensures r.Some? ==> r.value.startColumn <= column <= r.value.endColumn
    ensures var start := transitions[modeIndex].startIndex;
      var end := SegmentEnd(txt, modeIndex, transitions);
      0 <= start <= end <= |txt| ==>
        r == GetWordAtText(column, matcher(EnsureValidWordDefinition(transitions[modeIndex].wordDefinition, default), txt[start..end]), txt[start..end], start)
  {
    var start := transitions[modeIndex].startIndex;
    var end := SegmentEnd(txt, modeIndex, transitions);
    var segment := Substring(txt, start, end);
    GetWordAtText(column, matcher(EnsureValidWordDefinition(transitions[modeIndex].wordDefinition, default), segment), segment, start)
  }

  /**
   * With segments inside the line, a word found at a column is in the line
   * at the columns reported, inside the column's segment.
   */
  lemma ColumnWordInLine(
    txt: string, column: int, modeIndex: nat, transitions: seq<Transition>,
    default: Regex, matcher: (Regex, string) -> Option<seq<string>>)
    requires modeIndex < |transitions|
    requires 0 <= transitions[modeIndex].startIndex <= SegmentEnd(txt, modeIndex, transitions) <= |txt|
    ensures var r := GetWordAtColumn(txt, column, modeIndex, transitions, default, matcher);
      var start := transitions[modeIndex].startIndex;
      r.Some? && r.value.startColumn != start ==>
        OccursAt(txt, r.value.word, r.value.startColumn - 1)
        && start + 1 <= r.value.startColumn && r.value.endColumn <= SegmentEnd(txt, modeIndex, transitions) + 1
  {
    var start := transitions[modeIndex].startIndex;
    var end := SegmentEnd(txt, modeIndex, transitions);
    SegmentWordInLine(txt, start, end, column,
      matcher(EnsureValidWordDefinition(transitions[modeIndex].wordDefinition, default), txt[start..end]));
  }

  /** A word found in a segment of the line is in the line, at the columns reported, inside the segment. */
  lemma SegmentWordInLine(txt: string, start: int, end: int, column: int, words: Option<seq<string>>)
    requires 0 <= start <= end <= |txt|
    ensures var r := GetWordAtText(column, words, txt[start..end], start);
      r.Some? && r.value.startColumn != start ==>
        OccursAt(txt, r.value.word, r.value.startColumn - 1)
        && start + 1 <= r.value.startColumn && r.value.endColumn <= end + 1
  {
    var r := GetWordAtText(column, words, txt[start..end], start);
    if r.Some? && r.value.startColumn != start {
      OccursInSegment(txt, start, end, r.value.word, r.value.startColumn - start - 1);
    }
  }

  /** Where the segment of the mode at `modeIndex` ends: at the next mode's start, or at the end of the line. */
  function SegmentEnd(txt: string, modeIndex: nat, transitions: seq<Transition>): int
    requires modeIndex < |transitions|
  {
    if modeIndex + 1 < |transitions| then transitions[modeIndex + 1].startIndex else |txt|
  }

  /** An occurrence inside a segment is an occurrence in the line, shifted by the segment start. */
  lemma OccursInSegment(txt: string, start: int, end: int, word: string, k: int)
    requires 0 <= start <= end <= |txt| && OccursAt(txt[start..end], word, k)
    ensures OccursAt(txt, word, start + k) && start + k + |word| <= end
  {
    var seg := txt[start..end];
    assert 0 <= k && k + |word| <= |seg| && seg[k..k + |word|] == word;
    forall i | 0 <= i < |word|
      ensures txt[start + k + i] == word[i]
    {
      assert seg[k..k + |word|][i] == seg[k + i];
    }
    assert txt[start + k..start + k + |word|] == word;
  }

  /**
   * What `getWordAtPosition` reads from the model for one line. `modeIndex`
   * is what `ModeTransition.findIndexInSegmentsArray` answers for the column
   * (modeTransition.ts is not part of this model): the segment the column
   * falls in.
   */
  datatype TextSource = TextSource(
    tokenized: bool, line: string, modeWordDefinition: Option<Regex>,
    transitions: seq<Transition>, modeIndex: nat)

  /**
   * `getWordAtPosition`: an untokenized line is searched whole with the
   * model's mode; otherwise the segment of the column's mode is searched,
   * and the previous segment too when nothing was found and the column sits
   * exactly at the start of its segment.
   */
  function GetWordAtPosition(
    src: TextSource, column: int, default: Regex, matcher: (Regex, string) -> Option<seq<string>>
  ): (r: Option<WordAtPosition>)
    requires src.tokenized ==> src.modeIndex < |src.transitions|
    ensures !src.tokenized ==> r == GetWordAtText(column, matcher(EnsureValidWordDefinition(src.modeWordDefinition, default), src.line), src.line, 0)
    ensures src.tokenized ==> var modeIndex := src.modeIndex;
      var first := GetWordAtColumn(src.line, column, modeIndex, src.transitions, default, matcher);
      first.Some? ==> r == first
    ensures src.tokenized ==> var modeIndex := src.modeIndex;
      var first := GetWordAtColumn(src.line, column, modeIndex, src.transitions, default, matcher);
      r != first ==> (first.None? && modeIndex > 0 && src.transitions[modeIndex].startIndex == column - 1
        && r == GetWordAtColumn(src.line, column, modeIndex - 1, src.transitions, default, matcher))
    ensures src.tokenized ==> var modeIndex := src.modeIndex;
      var first := GetWordAtColumn(src.line, column, modeIndex, src.transitions, default, matcher);
      first.None? && modeIndex > 0 && src.transitions[modeIndex].startIndex == column - 1 ==>
        r == GetWordAtColumn(src.line, column, modeIndex - 1, src.transitions, default, matcher)
    ensures r.Some? ==> r.value.startColumn <= column <= r.value.endColumn
    ensures !src.tokenized && r.Some? && r.value.startColumn != 0 ==> OccursAt(src.line, r.value.word, r.value.startColumn - 1)
  {
    if !src.tokenized then
      GetWordAtText(column, matcher(EnsureValidWordDefinition(src.modeWordDefinition, default), src.line), src.line, 0)
    else
      var columnIndex := column - 1;
      var modeIndex := src.modeIndex;
      var result := GetWordAtColumn(src.line, column, modeIndex, src.transitions, default, matcher);
      if result.None? && modeIndex > 0 && src.transitions[modeIndex].startIndex == columnIndex then
        GetWordAtColumn(src.line, column, modeIndex - 1, src.transitions, default, matcher)
      else result
  }
}

=== FILE: wrappers.dfy ===
/** Failure-carrying datatypes shared by every module of the model. */
module Wrappers {

  datatype Option<+T> = None | Some(value: T) {
    function GetOr(default: T): T {
      match this
      case Some(v) => v
      case None => default
    }
  }

  /** The outcome of an operation that can throw or reject. */
  datatype Result<+R, +E> = Ok(value: R) | Err(error: E) {
    predicate IsFailure() {
      Err?
    }

    function PropagateFailure<U>(): Result<U, E>
      requires Err?
    {
      Err(error)
    }

    function Extract(): R
      requires Ok?
    {
      value
    }
  }
}
